=== FILE: README.md ===
# ChatBotPlatform scenario core in Dafny

ChatBotPlatform runs banking chat dialogs as scenario graphs. The orchestrator's
`AdvancedScenarioEngine` interprets one graph per session. It keeps a JSON-like session
context and executes typed nodes:

- announce, ask, parse, condition and switch;
- api-request, nlu-request and llm_call;
- scenario_jump, sub-flow, end, end_dialog and transfer;
- notification, wait, context-edit and calculate.

Some nodes pause the dialog and return a response. Others run their successor at once.
This "cascade" carries one inbound message through several nodes.

Around the engine sit:

- the earlier `ScenarioEngine`;
- the intent-to-scenario routing table of `ScenarioTransitionService`;
- the keyword intent matcher and intent registry of `NluService`;
- the chat service's session step machine;
- the scenario catalogue and its two branch stores (per-scenario and workspace-wide), each with an append-only history.

The model is functional. A context is a `map<string, Value>` over the immutable `Json.Value`
datatype. Every handler is a pure function from a context to a response and the context it
leaves behind. Java's conventions are written out:

- A Java `null` is `None` or `Value.Null`.
- A failing cast is a `None`. A nullable cast result is therefore an `Option<Option<T>>`.
- An exception that escapes a handler is a `Raised(ctx)` or `Failed(message, state)` outcome. It carries the context as the in-place mutations left it, because a Java `catch` further up sees those mutations.
- A `(int)` cast of a double saturates to the 32-bit range (`Calculate.Clamp32`).
- Dafny's `%` is Euclidean, so Java's remainder is modelled separately (`Calculate.JavaRem`).

Everything outside the process becomes an input:

- `Engine.Env` gives each node id its HTTP outcome (an answer or a timeout), its NLU answer and its LLM outcome. It also holds the scenario store that jumps, sub-flows and returns load from.
- Clocks, UUIDs and stamps are parameters: `now`, `freshId` and `stamp`. The engine reads its millisecond clock from `Engine.Env.clock`, one reading for the whole inbound message.
- The iteration order of a Java `HashMap` is a parameter `order: seq<string>` wherever the result depends on it.

The Java cascade is unbounded mutual recursion. The model adds a `fuel` argument to it.
Running out of fuel gives `OutOfFuel`, which stands for the `StackOverflowError` a cyclic
graph causes in Java. `catch (Exception)` does not intercept that error.

The model follows the code with three exceptions. Fuel is one. The calculate results are
the other two: both engines store a whole calculate result as a `Double` (see "## Findings"),
and the engines here run the corrected operation, which stores an `Int`. The as-written
operations are kept beside the corrected ones.

Modules, one per file:

- `Wrappers`: `Option`.
- `Strings`: the `java.lang.String` operations the code uses.
- `Json`: values and contexts.
- `Documents`: nodes, edges and scenarios.
- `Paths`: `parseJsonPath` and `getValueByJsonPath`.
- `Templates`: `substituteVariables`.
- `Conditions`: `evaluateCondition`.
- `ContextOps`: the context-edit operations.
- `Calculate`: the calculate operations.
- `Graph`: node lookup, the real start node, and condition and switch routing.
- `Engine`: the node handlers and the cascade.
- `EngineProofs`: per-handler properties.
- `EngineHost`: `processMessage`, `continueExecution`, the entry point and the sequential walk.
- `LegacyEngine`: `ScenarioEngine`.
- `Transitions`, `Nlu` and `ChatService`.
- `ScenarioStore`, `Branches` and `Workspace`.

In these places the code does something its names or comments do not suggest, and the
model follows the code (the corrected calculate result aside):

- `scenario_jump` leaves `call_stack` and `in_sub_flow` as they were.
- A context-edit `set`, `delete`, `add` or `merge` uses the path as written. Unlike a lookup, it does not strip a leading `context.` (AdvancedScenarioEngine.java:1106-1265).
- announce, notification and wait return without running their successor, exactly like ask. Parse, condition, api-request, nlu-request, llm_call, context-edit and calculate cascade.
- Scenarios loaded by a jump, a sub-flow, a return or `processMessage` pass through `convertMapToScenario`. That function drops the edges (AdvancedScenarioEngine.java:1461-1486), so those scenarios never route by `sourceHandle`.
- The advanced engine lower-cases the node type before dispatch. The legacy engine compares it exactly.
- The code has no cascade bound. The model's fuel adds one, and it is labelled as an addition.
- An announce node that loops to itself does not cascade. Only parse, condition and the other cascading kinds can loop, and `EngineProofs.SelfLoopExhaustsFuel` shows the fuel running out for a condition node.
- A missing node id yields an error response, not an exception.

## Model

| member | source | states |
|---|---|---|
| Strings.IndexOf | orchestrator/src/main/java/com/pb/chatbot/orchestrator/engine/AdvancedScenarioEngine.java:1507-1527 | `indexOf` finds the first occurrence, and finds none exactly when the text never occurs |
| Strings.IndexOfFrom | chat-service/src/main/java/com/pb/chatbot/chat/service/ScenarioBasedChatService.java:193-197 | `indexOf(t, from)` finds the first occurrence at or after `from`, and none exactly when no occurrence starts there or later |
| Strings.ReplaceAllOnce | orchestrator/src/main/java/com/pb/chatbot/orchestrator/engine/AdvancedScenarioEngine.java:1521-1522 | `String.replace` puts the replacement exactly where a single occurrence of the target stood |
| Strings.ReplaceAllAbsent | orchestrator/src/main/java/com/pb/chatbot/orchestrator/engine/AdvancedScenarioEngine.java:1521-1522 | `String.replace` changes nothing when the target does not occur |
| Strings.JoinSplitAll | orchestrator/src/main/java/com/pb/chatbot/orchestrator/engine/AdvancedScenarioEngine.java:1686-1687 | splitting on a separator and joining again gives back the text |
| Strings.SplitPieces | orchestrator/src/main/java/com/pb/chatbot/orchestrator/engine/AdvancedScenarioEngine.java:1701-1703 | the pieces of `split` never contain the separator, and each is shorter than the text when the separator occurs |
| Strings.SplitTwo | orchestrator/src/main/java/com/pb/chatbot/orchestrator/engine/AdvancedScenarioEngine.java:1701-1703 | `l + sep + r` splits into exactly `[l, r]` when neither side holds a separator character and `r` is not empty |
| Strings.DropTrailingEmpty | orchestrator/src/main/java/com/pb/chatbot/orchestrator/engine/AdvancedScenarioEngine.java:1701-1703 | Java's `split` drops only the trailing empty strings and keeps everything before them |
| Strings.TrimStart | orchestrator/src/main/java/com/pb/chatbot/orchestrator/engine/AdvancedScenarioEngine.java:1704-1705 | the result is a suffix of the text that starts with a non-blank character, and everything cut off is blank (up to U+0020) |
| Strings.TrimEnd | orchestrator/src/main/java/com/pb/chatbot/orchestrator/engine/AdvancedScenarioEngine.java:1704-1705 | the result is a prefix of the text that ends with a non-blank character, and everything cut off is blank |
| Strings.TrimSpec | orchestrator/src/main/java/com/pb/chatbot/orchestrator/engine/AdvancedScenarioEngine.java:1704-1705 | `trim` yields the middle stretch of the text, with no blank character at either end |
| Strings.TrimEmpty | orchestrator/src/main/java/com/pb/chatbot/orchestrator/engine/ScenarioEngine.java:106 | `trim` yields the empty text exactly when every character is blank (the `isEmpty` test after `trim`) |
| Strings.TrimIdentity | orchestrator/src/main/java/com/pb/chatbot/orchestrator/engine/AdvancedScenarioEngine.java:1704-1705 | text with no blank at either end is its own trim |
| Strings.TrimIdempotent | orchestrator/src/main/java/com/pb/chatbot/orchestrator/engine/AdvancedScenarioEngine.java:1688-1690 | trimming twice is trimming once, so the recursive call on a trimmed alternative sees the same text |
| Strings.ToLower | nlu-service/src/main/java/com/pb/chatbot/nlu/service/NluService.java:158 | lower-casing keeps the length and maps each character on its own |
| Strings.ToLowerIdempotent | nlu-service/src/main/java/com/pb/chatbot/nlu/service/NluService.java:158 | lower-casing twice is lower-casing once |
| Strings.NormaliseIdempotent | chat-service/src/main/java/com/pb/chatbot/chat/service/ScenarioBasedChatService.java:95 | lower-casing then trimming a message is idempotent |
| Strings.NatToString | orchestrator/src/main/java/com/pb/chatbot/orchestrator/engine/AdvancedScenarioEngine.java:1521-1522 | the decimal text of a number is non-empty, all digits, and has no leading zero |
| Strings.ParseNatToString | orchestrator/src/main/java/com/pb/chatbot/orchestrator/engine/AdvancedScenarioEngine.java:1437-1449 | reading back the decimal text of a number gives the number |
| Strings.IntToStringInjective | orchestrator/src/main/java/com/pb/chatbot/orchestrator/engine/AdvancedScenarioEngine.java:1709-1717 | two different integers never print alike, so a string comparison of printed integers compares the integers |
| Json.ValueText | orchestrator/src/main/java/com/pb/chatbot/orchestrator/engine/AdvancedScenarioEngine.java:1522 | `String.valueOf` prints a list in brackets, a map in braces and a string as itself |
| Json.OneEntryText | orchestrator/src/main/java/com/pb/chatbot/orchestrator/engine/AdvancedScenarioEngine.java:1522 | a one-entry map prints as `{key=value}`, the key followed by its value's own text |
| Paths.ParsePath | orchestrator/src/main/java/com/pb/chatbot/orchestrator/engine/AdvancedScenarioEngine.java:1604-1637 | `parseJsonPath` never emits an empty segment |
| Paths.Scan | orchestrator/src/main/java/com/pb/chatbot/orchestrator/engine/AdvancedScenarioEngine.java:1608-1634 | the character loop of `parseJsonPath` never emits an empty segment |
| Paths.ParseDottedPath | orchestrator/src/main/java/com/pb/chatbot/orchestrator/engine/AdvancedScenarioEngine.java:1604-1637 | a path without brackets parses into the non-empty pieces of its split on `.` |
| Paths.IndexSegmentSplit | orchestrator/src/main/java/com/pb/chatbot/orchestrator/engine/AdvancedScenarioEngine.java:1604-1637 | `key[n]` parses into `key` and `[n]`, and `[n]` is an index segment naming position `n` |
| Paths.StripContextPrefix | orchestrator/src/main/java/com/pb/chatbot/orchestrator/engine/AdvancedScenarioEngine.java:1538-1545 | exactly one leading `context.` is removed, and any other path is kept |
| Paths.Lookup | orchestrator/src/main/java/com/pb/chatbot/orchestrator/engine/AdvancedScenarioEngine.java:1538-1597 | an empty path reads `null`, a path without segments the whole context, and a plain key its top-level entry |
| Paths.ResolveAppend | orchestrator/src/main/java/com/pb/chatbot/orchestrator/engine/AdvancedScenarioEngine.java:1547-1597 | walking a path in two pieces is walking it in one go |
| Paths.ResolveNull | orchestrator/src/main/java/com/pb/chatbot/orchestrator/engine/AdvancedScenarioEngine.java:1547-1597 | once the walk reaches `null`, every further segment yields `null` |
| Paths.ResolveMissing | orchestrator/src/main/java/com/pb/chatbot/orchestrator/engine/AdvancedScenarioEngine.java:1547-1597 | a missing key, an out-of-range index, an index into a non-list or a key into a non-object makes the whole lookup `null` |
| Paths.LookupTopLevel | orchestrator/src/main/java/com/pb/chatbot/orchestrator/engine/AdvancedScenarioEngine.java:1538-1597 | a plain key reads the top-level entry, with or without the `context.` prefix |
| Templates.Placeholders | orchestrator/src/main/java/com/pb/chatbot/orchestrator/engine/AdvancedScenarioEngine.java:1513-1518 | every placeholder path the `\{([^}]+)\}` scan finds is non-empty and free of `}` |
| Templates.SubstituteOpt | orchestrator/src/main/java/com/pb/chatbot/orchestrator/engine/AdvancedScenarioEngine.java:1507-1508 | substitution yields `null` exactly for `null` text |
| Templates.NoBraceNoPlaceholder | orchestrator/src/main/java/com/pb/chatbot/orchestrator/engine/AdvancedScenarioEngine.java:1513-1518 | text without `{` has no placeholders |
| Templates.UnresolvedKept | orchestrator/src/main/java/com/pb/chatbot/orchestrator/engine/AdvancedScenarioEngine.java:1516-1523 | placeholders whose lookups are all `null` leave the text verbatim |
| Templates.Substitute | orchestrator/src/main/java/com/pb/chatbot/orchestrator/engine/AdvancedScenarioEngine.java:1507-1527 | a text none of whose placeholders resolves to a non-null value, in particular a text without `{`, comes back unchanged |
| Templates.PlaceholdersSingle | orchestrator/src/main/java/com/pb/chatbot/orchestrator/engine/AdvancedScenarioEngine.java:1513-1518 | a single braced path between brace-free texts is the text's only placeholder |
| Templates.SubstituteSingle | orchestrator/src/main/java/com/pb/chatbot/orchestrator/engine/AdvancedScenarioEngine.java:1507-1527 | a single placeholder is replaced by the text of its non-null value, and kept verbatim when the value is `null` |
| Conditions.Compare | orchestrator/src/main/java/com/pb/chatbot/orchestrator/engine/AdvancedScenarioEngine.java:1701-1741 | a comparison applies exactly when the condition splits into two parts on its operator |
| Conditions.Evaluate | orchestrator/src/main/java/com/pb/chatbot/orchestrator/engine/AdvancedScenarioEngine.java:1679-1680 | a `null` condition holds |
| Conditions.EvaluateText | orchestrator/src/main/java/com/pb/chatbot/orchestrator/engine/AdvancedScenarioEngine.java:1683-1741 | a condition with no `\|\|`, `==`, `!=` or `context.operation` is false |
| Conditions.EqualsCompares | orchestrator/src/main/java/com/pb/chatbot/orchestrator/engine/AdvancedScenarioEngine.java:1701-1720 | `k == v` holds exactly when the text of top-level key `k` (empty for `null`) equals `v` with every `"` removed |
| Conditions.NotEqualsNegates | orchestrator/src/main/java/com/pb/chatbot/orchestrator/engine/AdvancedScenarioEngine.java:1701-1741 | `k != v` holds exactly when `k == v` does not |
| Conditions.NotEqualsForm | orchestrator/src/main/java/com/pb/chatbot/orchestrator/engine/AdvancedScenarioEngine.java:1701-1741 | a `!=` condition is not an `==` comparison, and it is decided by the `!=` branch |
| Conditions.OrAlternatives | orchestrator/src/main/java/com/pb/chatbot/orchestrator/engine/AdvancedScenarioEngine.java:1687-1697 | a condition containing `\|\|` holds exactly when one of its trimmed alternatives holds |
| Conditions.OrOfTwo | orchestrator/src/main/java/com/pb/chatbot/orchestrator/engine/AdvancedScenarioEngine.java:1687-1697 | `a \|\| b` holds exactly when trimmed `a` or trimmed `b` holds |
| Conditions.TopTextIsLookup | orchestrator/src/main/java/com/pb/chatbot/orchestrator/engine/AdvancedScenarioEngine.java:1709-1717 | for a plain key, the text a comparison reads is the text of what a path lookup finds, empty for `null` |
| ContextOps.SetValue | orchestrator/src/main/java/com/pb/chatbot/orchestrator/engine/AdvancedScenarioEngine.java:1106-1144 | `set` reports success exactly when the path has segments and none is an index; a path with no segments leaves the context unchanged |
| ContextOps.SetInThenResolve | orchestrator/src/main/java/com/pb/chatbot/orchestrator/engine/AdvancedScenarioEngine.java:1106-1144 | setting along key segments succeeds, creating or overwriting intermediate objects, and the value is then found along those segments |
| ContextOps.SetIn | orchestrator/src/main/java/com/pb/chatbot/orchestrator/engine/AdvancedScenarioEngine.java:1106-1144 | `set` succeeds exactly when no segment is an index; a first index segment changes nothing, otherwise only the first segment's top-level entry is written |
| ContextOps.SetThenLookup | orchestrator/src/main/java/com/pb/chatbot/orchestrator/engine/AdvancedScenarioEngine.java:1106-1144 | set-then-lookup of a dotted path (no `context.` prefix) reads the value; a path with an index fails; other top-level keys are kept |
| ContextOps.DeleteValue | orchestrator/src/main/java/com/pb/chatbot/orchestrator/engine/AdvancedScenarioEngine.java:1149-1201 | a path with no segments fails and leaves the context unchanged |
| ContextOps.DeleteIn | orchestrator/src/main/java/com/pb/chatbot/orchestrator/engine/AdvancedScenarioEngine.java:1149-1201 | a delete keeps the shape of what it edits (a map stays a map, a list a list) and fails on anything else, changing nothing |
| ContextOps.DeleteOkIffPresent | orchestrator/src/main/java/com/pb/chatbot/orchestrator/engine/AdvancedScenarioEngine.java:1149-1201 | `delete` reports success exactly when the key or index existed |
| ContextOps.DeleteKeyThenResolve | orchestrator/src/main/java/com/pb/chatbot/orchestrator/engine/AdvancedScenarioEngine.java:1149-1201 | after a successful delete of a key, the path reads `null` |
| ContextOps.DeleteTopLevel | orchestrator/src/main/java/com/pb/chatbot/orchestrator/engine/AdvancedScenarioEngine.java:1149-1201 | deleting a top-level key removes exactly that key, and reports whether it held a non-null value |
| ContextOps.ReplaceAtThenResolve | orchestrator/src/main/java/com/pb/chatbot/orchestrator/engine/AdvancedScenarioEngine.java:1206-1247 | writing a new value where a path leads makes that path read the new value |
| ContextOps.WriteBackThenLookup | orchestrator/src/main/java/com/pb/chatbot/orchestrator/engine/AdvancedScenarioEngine.java:1230-1265 | writing a merged or cleared map back where an existing path leads makes the path read it |
| ContextOps.AddAppends | orchestrator/src/main/java/com/pb/chatbot/orchestrator/engine/AdvancedScenarioEngine.java:1206-1225 | `add p[]` appends to an existing list at `p`, and otherwise makes `p` a one-element list |
| ContextOps.AddValue | orchestrator/src/main/java/com/pb/chatbot/orchestrator/engine/AdvancedScenarioEngine.java:1206-1225 | `add p[]` succeeds when `p` holds a list; otherwise, and for a path without `[]`, it succeeds exactly when `set` would |
| ContextOps.MergeCombines | orchestrator/src/main/java/com/pb/chatbot/orchestrator/engine/AdvancedScenarioEngine.java:1230-1247 | merging maps yields their union (the new entries win), merging lists their concatenation; any other pair is a `set` |
| ContextOps.MergeValue | orchestrator/src/main/java/com/pb/chatbot/orchestrator/engine/AdvancedScenarioEngine.java:1230-1247 | merging a map into a map or a list into a list succeeds; any other merge succeeds exactly when `set` would |
| ContextOps.ClearEmpties | orchestrator/src/main/java/com/pb/chatbot/orchestrator/engine/AdvancedScenarioEngine.java:1252-1265 | clearing a map or a list leaves it empty at the same path |
| ContextOps.ClearValue | orchestrator/src/main/java/com/pb/chatbot/orchestrator/engine/AdvancedScenarioEngine.java:1252-1265 | clearing a map or a list succeeds; clearing anything else succeeds exactly when setting `null` would |
| ContextOps.ApplyOperation | orchestrator/src/main/java/com/pb/chatbot/orchestrator/engine/AdvancedScenarioEngine.java:1074-1101 | the lower-cased action picks the edit; `delete` and `remove` are the same edit; an unknown action fails and changes nothing |
| ContextOps.EditStep | orchestrator/src/main/java/com/pb/chatbot/orchestrator/engine/AdvancedScenarioEngine.java:1011-1045 | an operation without a text `action` or `path` fails and changes nothing |
| ContextOps.RunAll | orchestrator/src/main/java/com/pb/chatbot/orchestrator/engine/AdvancedScenarioEngine.java:1000-1064 | the operation loop aborts exactly when some entry is neither a map nor `null`, and otherwise counts every operation as a success or a failure |
| ContextOps.RunAllAppend | orchestrator/src/main/java/com/pb/chatbot/orchestrator/engine/AdvancedScenarioEngine.java:1000-1064 | running two operation lists in turn is running their concatenation, with the counts added |
| ContextOps.UnknownActionsChangeNothing | orchestrator/src/main/java/com/pb/chatbot/orchestrator/engine/AdvancedScenarioEngine.java:1074-1101 | a list of operations with unknown actions counts them all as failures and leaves the context untouched |
| Calculate.Clamp32 | orchestrator/src/main/java/com/pb/chatbot/orchestrator/engine/AdvancedScenarioEngine.java:1425 | Java's `(int)` cast keeps values in the 32-bit range and saturates the others at the bounds |
| Calculate.FromInt | orchestrator/src/main/java/com/pb/chatbot/orchestrator/engine/AdvancedScenarioEngine.java:1437-1449 | an integer is an exact double exactly when its magnitude is at most 2^53 |
| Calculate.ParseNumber | orchestrator/src/main/java/com/pb/chatbot/orchestrator/engine/AdvancedScenarioEngine.java:1437-1449 | `parseNumber` reads `null`, booleans, lists and maps as 0, a double as an untracked double, an integer or trimmed integer literal as its value, and text with no digit and no `NaN` or `Infinity` as 0; other text is untracked |
| Calculate.ParseNumberIntText | orchestrator/src/main/java/com/pb/chatbot/orchestrator/engine/AdvancedScenarioEngine.java:1437-1449 | an integer, and its decimal text, read back as that integer |
| Calculate.OpOfUnknown | orchestrator/src/main/java/com/pb/chatbot/orchestrator/engine/AdvancedScenarioEngine.java:1355-1422 | a lower-cased name outside the twenty names of the switch selects no operation |
| Calculate.JavaRem | orchestrator/src/main/java/com/pb/chatbot/orchestrator/engine/AdvancedScenarioEngine.java:1383-1391 | Java's remainder is smaller in magnitude than the divisor and takes the dividend's sign |
| Calculate.JavaRemDivision | orchestrator/src/main/java/com/pb/chatbot/orchestrator/engine/AdvancedScenarioEngine.java:1383-1391 | Java's remainder completes the quotient rounded toward zero |
| Calculate.Arith | orchestrator/src/main/java/com/pb/chatbot/orchestrator/engine/AdvancedScenarioEngine.java:1355-1422 | an unknown operation and division or modulo by zero are refused; `set` yields the operand; `abs` yields the magnitude |
| Calculate.DivideInverts | orchestrator/src/main/java/com/pb/chatbot/orchestrator/engine/AdvancedScenarioEngine.java:1369-1382 | dividing by a divisor that divides exactly, then multiplying by it, gives back the value |
| Calculate.Operation | orchestrator/src/main/java/com/pb/chatbot/orchestrator/engine/AdvancedScenarioEngine.java:1348-1432 | a refused operation fails with the context unchanged; a whole result is set at the target as a saturated 32-bit integer; only a fractional result is not followed |
| Calculate.OperationSum | orchestrator/src/main/java/com/pb/chatbot/orchestrator/engine/AdvancedScenarioEngine.java:1357-1368 | adding or subtracting two integers stores the saturated sum or difference under the key, and reports success |
| Calculate.AddThenSubtract | orchestrator/src/main/java/com/pb/chatbot/orchestrator/engine/AdvancedScenarioEngine.java:1357-1368 | within the 32-bit range, subtracting what was added restores the context |
| Calculate.ByZeroRefused | orchestrator/src/main/java/com/pb/chatbot/orchestrator/engine/AdvancedScenarioEngine.java:1374-1391 | division and modulo by zero fail and leave the target unchanged |
| Calculate.StoredResult | orchestrator/src/main/java/com/pb/chatbot/orchestrator/engine/AdvancedScenarioEngine.java:1423-1426 | a whole result is stored at a plain target as a saturated integer, and reads back |
| Calculate.CalcStep | orchestrator/src/main/java/com/pb/chatbot/orchestrator/engine/AdvancedScenarioEngine.java:1268-1343 | an operation without a text `target` or `operation` fails and changes nothing |
| Calculate.Increments | orchestrator/src/main/java/com/pb/chatbot/orchestrator/engine/AdvancedScenarioEngine.java:1268-1343 | `n` increments of a counter all succeed and raise it by `n`, up to the 32-bit bound |
| Calculate.DropTrailingZeros | orchestrator/src/main/java/com/pb/chatbot/orchestrator/engine/AdvancedScenarioEngine.java:1425 | the digits `Double.toString` keeps are the digits with exactly their trailing zeros removed: a prefix that does not end in a zero, and everything cut is a zero |
| Calculate.Scientific | orchestrator/src/main/java/com/pb/chatbot/orchestrator/engine/AdvancedScenarioEngine.java:1425 | `Double.toString` in scientific notation always shows a decimal point |
| Calculate.DoubleText | orchestrator/src/main/java/com/pb/chatbot/orchestrator/engine/AdvancedScenarioEngine.java:1425 | `Double.toString` of a whole double always shows a decimal point |
| Calculate.OperationAsWritten | orchestrator/src/main/java/com/pb/chatbot/orchestrator/engine/AdvancedScenarioEngine.java:1423-1426 | as written, a whole result is stored as a double |
| Calculate.AsWrittenNeverInteger | orchestrator/src/main/java/com/pb/chatbot/orchestrator/engine/AdvancedScenarioEngine.java:1423-1426 | as written, the stored result is never an integer, and its text is never an integer's text |
| Calculate.CounterExample | orchestrator/src/main/java/com/pb/chatbot/orchestrator/engine/AdvancedScenarioEngine.java:1423-1426 | the counter 2 plus 3 is stored as `5.0` as written, and as `5` once corrected |
| Documents.FirstNext | orchestrator/src/main/java/com/pb/chatbot/orchestrator/engine/AdvancedScenarioEngine.java:1488-1493 | `getNextNode` is the first successor, and none exactly when there is no successor |
| Graph.FindNode | orchestrator/src/main/java/com/pb/chatbot/orchestrator/engine/AdvancedScenarioEngine.java:1453-1459 | a node that is found is in the list and carries the id; none is found only when no node carries it |
| Graph.FirstWithId | orchestrator/src/main/java/com/pb/chatbot/orchestrator/engine/AdvancedScenarioEngine.java:1453-1459 | the search finds a node with the id, and finds none exactly when no node has it |
| Graph.FirstWithIdPrefix | orchestrator/src/main/java/com/pb/chatbot/orchestrator/engine/AdvancedScenarioEngine.java:1453-1459 | the first node with an id is the one found, whatever follows it |
| Graph.EdgeTarget | orchestrator/src/main/java/com/pb/chatbot/orchestrator/engine/AdvancedScenarioEngine.java:1766-1785 | a target comes from an edge leaving the source at the handle; with no such edge there is none |
| Graph.Targets | orchestrator/src/main/java/com/pb/chatbot/orchestrator/engine/AdvancedScenarioEngine.java:2195-2233 | an id is a target exactly when some edge points at it |
| Graph.FirstUntargeted | orchestrator/src/main/java/com/pb/chatbot/orchestrator/engine/AdvancedScenarioEngine.java:2195-2233 | the first node no edge enters is chosen, after only entered nodes; none exactly when every node is entered |
| Graph.RealStart | orchestrator/src/main/java/com/pb/chatbot/orchestrator/engine/AdvancedScenarioEngine.java:2195-2233 | without a node list the declared `start_node` is the start |
| Graph.RealStartSpec | orchestrator/src/main/java/com/pb/chatbot/orchestrator/engine/AdvancedScenarioEngine.java:2195-2233 | the real start is the first listed node no edge enters; the declared start is used only when every node is entered |
| Graph.Verdicts | orchestrator/src/main/java/com/pb/chatbot/orchestrator/engine/AdvancedScenarioEngine.java:239-288 | each condition line gets the verdict of its own evaluation, in order |
| Graph.ConditionScanFirst | orchestrator/src/main/java/com/pb/chatbot/orchestrator/engine/AdvancedScenarioEngine.java:239-288 | the first line that holds and has a branch picks the edge at `output-i`, else `next_nodes[i]`; skipped lines never fire |
| Graph.ConditionScanElse | orchestrator/src/main/java/com/pb/chatbot/orchestrator/engine/AdvancedScenarioEngine.java:239-288 | when no line fires, the route is the edge at `output-<line count>`, else the last successor |
| Graph.ConditionScanFails | orchestrator/src/main/java/com/pb/chatbot/orchestrator/engine/AdvancedScenarioEngine.java:239-288 | a line that is not a string throws when it is reached before any line fires |
| Graph.SplitLines | orchestrator/src/main/java/com/pb/chatbot/orchestrator/engine/AdvancedScenarioEngine.java:230-237 | a condition text without a line break is a single line |
| Graph.AsValues | orchestrator/src/main/java/com/pb/chatbot/orchestrator/engine/AdvancedScenarioEngine.java:230-237 | the split lines become string values one for one |
| Graph.ConditionLines | orchestrator/src/main/java/com/pb/chatbot/orchestrator/engine/AdvancedScenarioEngine.java:225-237 | a list of conditions is used as it is; a value that is neither a list nor a text gives no lines |
| Graph.ConditionValue | orchestrator/src/main/java/com/pb/chatbot/orchestrator/engine/AdvancedScenarioEngine.java:1787-1792 | `getConditionValue` names no entry unless the condition mentions `context.operation` |
| Graph.OldFormatTakesBranch | orchestrator/src/main/java/com/pb/chatbot/orchestrator/engine/AdvancedScenarioEngine.java:199-222 | an old-format condition node takes its `true` or `false` entry exactly as the condition evaluates |
| Graph.SwitchScan | orchestrator/src/main/java/com/pb/chatbot/orchestrator/engine/AdvancedScenarioEngine.java:801-846 | a switch target is always one of the node's successors, and there is none without successors |
| Graph.SwitchScanFirst | orchestrator/src/main/java/com/pb/chatbot/orchestrator/engine/AdvancedScenarioEngine.java:801-846 | the first line that holds and has a successor at its index picks that successor |
| Graph.SwitchScanElse | orchestrator/src/main/java/com/pb/chatbot/orchestrator/engine/AdvancedScenarioEngine.java:801-846 | when no switch line fires, the last successor is the default |
| Engine.UpdateContext | orchestrator/src/main/java/com/pb/chatbot/orchestrator/engine/AdvancedScenarioEngine.java:1495-1505 | a successor becomes `current_node` with `scenario_completed` false; none gives `current_node=""` and `scenario_completed=true`; `last_execution_time` is the clock reading; no other key changes |
| Engine.ParseContext | orchestrator/src/main/java/com/pb/chatbot/orchestrator/engine/AdvancedScenarioEngine.java:158-191 | a parse node clears `waiting_for_input` and moves `current_node` to its first successor |
| Engine.ApiNext | orchestrator/src/main/java/com/pb/chatbot/orchestrator/engine/AdvancedScenarioEngine.java:498-507 | a 2xx status routes to `success` and any other status to `error`; each falls back to the first successor |
| Engine.TimeoutNext | orchestrator/src/main/java/com/pb/chatbot/orchestrator/engine/AdvancedScenarioEngine.java:525-534 | a timeout routes to `timeout`, then `error`, then the first successor |
| Engine.PushFrame | orchestrator/src/main/java/com/pb/chatbot/orchestrator/engine/AdvancedScenarioEngine.java:899-916 | entering a sub-flow appends exactly one frame to the stack, sets `in_sub_flow`, and switches `scenario_id` and `current_node` to the target |
| Engine.LlmStored | orchestrator/src/main/java/com/pb/chatbot/orchestrator/engine/AdvancedScenarioEngine.java:766-782 | the answer, or on failure the fixed apology, is stored under both `llm_response_<id>` and `llm_response` |
| Engine.Load | orchestrator/src/main/java/com/pb/chatbot/orchestrator/engine/AdvancedScenarioEngine.java:570-590 | fetching a scenario throws exactly for the unreachable ids, and yields data exactly when the store holds the id with data, and that data is what it yields |
| Engine.Exec | orchestrator/src/main/java/com/pb/chatbot/orchestrator/engine/AdvancedScenarioEngine.java:63-125 | every normal reply records its type as `node_type`, and fuel can run out only under a node type whose handler runs a successor (never under announce, ask, end_dialog, transfer, notification, wait or an unknown type) |
| Engine.Announce | orchestrator/src/main/java/com/pb/chatbot/orchestrator/engine/AdvancedScenarioEngine.java:127-138 | it throws exactly when the parameters are missing or the message fails its cast, leaving the context alone; otherwise it replies "announce" with the first successor as next node and changes no key but the position, completion, time and type keys |
| Engine.Ask | orchestrator/src/main/java/com/pb/chatbot/orchestrator/engine/AdvancedScenarioEngine.java:140-156 | it throws exactly when the parameters are missing or the question or input type fails its cast; otherwise it replies "ask" with the question unsubstituted, sets the waiting flags for this node and changes no other key |
| Engine.ParseScript | orchestrator/src/main/java/com/pb/chatbot/orchestrator/engine/AdvancedScenarioEngine.java:1639-1677 | only the keys a script names are written: `validChoice` says whether the menu choice is known, `wantsBalance` holds iff the lower-cased input contains "да" or "yes", `cardNumber` is the input and `validCard` holds iff it is four digits |
| Engine.Parse | orchestrator/src/main/java/com/pb/chatbot/orchestrator/engine/AdvancedScenarioEngine.java:158-192 | it throws only on missing parameters, a failed script cast, or through the successor it runs; without a successor it replies "Input processed" with the waiting flag cleared |
| Engine.Condition | orchestrator/src/main/java/com/pb/chatbot/orchestrator/engine/AdvancedScenarioEngine.java:194-304 | a node with neither conditions nor parameters is answered as a configuration error with the context untouched; once a target is routed, a throw can only come from running it |
| Engine.Switch | orchestrator/src/main/java/com/pb/chatbot/orchestrator/engine/AdvancedScenarioEngine.java:801-858 | missing parameters or a missing `conditions` entry are answered as a configuration error with the context untouched, never thrown |
| Engine.ApiRequest | orchestrator/src/main/java/com/pb/chatbot/orchestrator/engine/AdvancedScenarioEngine.java:402-556 | it throws exactly when the parameters are missing or a parameter cast done before the `try` fails; every failure after that, the successor's included, becomes an error response |
| Engine.NluRequest | orchestrator/src/main/java/com/pb/chatbot/orchestrator/engine/AdvancedScenarioEngine.java:306-400 | it throws exactly when the service or endpoint setting fails its cast; every later failure is answered |
| Engine.ScenarioJump | orchestrator/src/main/java/com/pb/chatbot/orchestrator/engine/AdvancedScenarioEngine.java:558-621 | it throws exactly when the target parameter fails its cast; loading and running the target are inside the `try` |
| Engine.End | orchestrator/src/main/java/com/pb/chatbot/orchestrator/engine/AdvancedScenarioEngine.java:623-645 | outside a sub-flow fuel never runs out, the dialog is marked ended whenever the flag is false or absent, a throw comes only from a flag of the wrong type or a message that fails its cast, and the reply is "end" with no next node |
| Engine.EndDialog | orchestrator/src/main/java/com/pb/chatbot/orchestrator/engine/AdvancedScenarioEngine.java:647-666 | whatever the message, the dialog is ended, waiting is cleared, the call stack is removed and sub-flow mode is left; it throws exactly when the message fails its cast |
| Engine.ReturnFromSubFlow | orchestrator/src/main/java/com/pb/chatbot/orchestrator/engine/AdvancedScenarioEngine.java:668-737 | a throw comes only from a stack or frame that fails its casts; loading or running the caller's scenario never escapes |
| Engine.Transfer | orchestrator/src/main/java/com/pb/chatbot/orchestrator/engine/AdvancedScenarioEngine.java:739-752 | the session is marked transferred and completed in every case; it throws exactly when the message fails its cast and otherwise replies "transfer" with no next node |
| Engine.LlmCall | orchestrator/src/main/java/com/pb/chatbot/orchestrator/engine/AdvancedScenarioEngine.java:754-799 | it throws only on a failed prompt cast or through its successor; without a successor a failed model call leaves the apology as `llm_response` |
| Engine.SubFlow | orchestrator/src/main/java/com/pb/chatbot/orchestrator/engine/AdvancedScenarioEngine.java:860-934 | it throws exactly when the target parameter fails its cast; loading, pushing the frame and running the sub-scenario are inside the `try` |
| Engine.Notification | orchestrator/src/main/java/com/pb/chatbot/orchestrator/engine/AdvancedScenarioEngine.java:936-955 | it throws exactly when the parameters are missing or one of type, template and recipient fails its cast; otherwise it records the notification and its type and replies with the first successor |
| Engine.Wait | orchestrator/src/main/java/com/pb/chatbot/orchestrator/engine/AdvancedScenarioEngine.java:957-973 | it throws exactly when the parameters are missing or the duration is not an `Integer`; otherwise it replies "wait" with the first successor and changes no key but the position, completion, time and type keys |
| Engine.ContextEdit | orchestrator/src/main/java/com/pb/chatbot/orchestrator/engine/AdvancedScenarioEngine.java:975-1072 | missing parameters are answered with the context untouched; a throw needs a decoded operation list |
| Engine.CalculateNodeStep | orchestrator/src/main/java/com/pb/chatbot/orchestrator/engine/AdvancedScenarioEngine.java:1268-1346 | missing parameters are answered with the context untouched; a throw needs a decoded operation list |
| Engine.ExecAt | orchestrator/src/main/java/com/pb/chatbot/orchestrator/engine/AdvancedScenarioEngine.java:52-60 | an id naming no node gives an error response and leaves the context as it was |
| Engine.ExecuteScenario | orchestrator/src/main/java/com/pb/chatbot/orchestrator/engine/AdvancedScenarioEngine.java:37-61 | every normal reply records its type; a throw comes only from a `current_node` that fails its cast or from running an existing node |
| EngineProofs.AskPauses | orchestrator/src/main/java/com/pb/chatbot/orchestrator/engine/AdvancedScenarioEngine.java:140-155 | an ask node never runs another node (its outcome does not depend on fuel, input, scenario or services, only on the clock) and records that it waits for an answer to itself |
| EngineProofs.AnnouncePauses | orchestrator/src/main/java/com/pb/chatbot/orchestrator/engine/AdvancedScenarioEngine.java:127-137 | an announce node never runs another node, and shows its substituted message |
| EngineProofs.ParseRunsSuccessor | orchestrator/src/main/java/com/pb/chatbot/orchestrator/engine/AdvancedScenarioEngine.java:158-191 | a parse node runs its existing first successor at once, with the same input |
| EngineProofs.ConditionRunsTarget | orchestrator/src/main/java/com/pb/chatbot/orchestrator/engine/AdvancedScenarioEngine.java:194-303 | a condition node runs the routed node, or else its first successor, at once with empty input |
| EngineProofs.ConditionFailureRaises | orchestrator/src/main/java/com/pb/chatbot/orchestrator/engine/AdvancedScenarioEngine.java:194-303 | a routing exception escapes the condition handler with the context untouched |
| EngineProofs.SelfLoopExhaustsFuel | orchestrator/src/main/java/com/pb/chatbot/orchestrator/engine/AdvancedScenarioEngine.java:289-299 | a condition node whose only successor is itself recurses until the fuel runs out, whatever the fuel (the Java stack overflow) |
| EngineProofs.PopUndoesPush | orchestrator/src/main/java/com/pb/chatbot/orchestrator/engine/AdvancedScenarioEngine.java:668-736 | popping right after a push restores `scenario_id`, resumes at the frame's next node, restores the stack, and clears `in_sub_flow` exactly when the stack is then empty |
| EngineProofs.SubFlowEnters | orchestrator/src/main/java/com/pb/chatbot/orchestrator/engine/AdvancedScenarioEngine.java:860-933 | a sub-flow whose target loads pushes the return frame and runs the target's real start node |
| EngineProofs.SubFlowLoadFails | orchestrator/src/main/java/com/pb/chatbot/orchestrator/engine/AdvancedScenarioEngine.java:860-933 | when the target fails to load, the node answers with an error and leaves `call_stack` and `in_sub_flow` alone |
| EngineProofs.EndReturns | orchestrator/src/main/java/com/pb/chatbot/orchestrator/engine/AdvancedScenarioEngine.java:623-644 | an end node inside a sub-flow resumes the caller's scenario at the popped frame's next node |
| EngineProofs.EndWithEmptyStack | orchestrator/src/main/java/com/pb/chatbot/orchestrator/engine/AdvancedScenarioEngine.java:668-680 | an end node in a sub-flow with an empty stack ends the dialog |
| EngineProofs.EndOutsideSubFlow | orchestrator/src/main/java/com/pb/chatbot/orchestrator/engine/AdvancedScenarioEngine.java:623-644 | outside a sub-flow, an end node ends the dialog with "Диалог завершен." by default |
| EngineProofs.EndDialogClearsStack | orchestrator/src/main/java/com/pb/chatbot/orchestrator/engine/AdvancedScenarioEngine.java:647-665 | end_dialog always removes `call_stack`, clears `in_sub_flow`, sets `dialog_ended` and stops waiting for input |
| EngineProofs.ApiAnswerRoutes | orchestrator/src/main/java/com/pb/chatbot/orchestrator/engine/AdvancedScenarioEngine.java:487-519 | an answered request stores the body and the status code and routes by status |
| EngineProofs.ApiTimeoutRoutes | orchestrator/src/main/java/com/pb/chatbot/orchestrator/engine/AdvancedScenarioEngine.java:521-537 | a timed-out request records `api_error="timeout"` and follows the `timeout` branch without cascading |
| EngineProofs.NluStoresAnalysis | orchestrator/src/main/java/com/pb/chatbot/orchestrator/engine/AdvancedScenarioEngine.java:336-357 | a successful analysis stores the intent and the confidence, with `suggested_scenario` defaulting to "" |
| EngineProofs.LlmFailureApologises | orchestrator/src/main/java/com/pb/chatbot/orchestrator/engine/AdvancedScenarioEngine.java:754-798 | a failing LLM call is not an error: the apology becomes the answer and the flow goes on |
| EngineProofs.EditReportsCounts | orchestrator/src/main/java/com/pb/chatbot/orchestrator/engine/AdvancedScenarioEngine.java:975-1064 | a context-edit node's success and failure counts cover every operation, and the node then moves on |
| EngineProofs.CalculateReportsCounts | orchestrator/src/main/java/com/pb/chatbot/orchestrator/engine/AdvancedScenarioEngine.java:1268-1343 | a calculate node's counts likewise cover every operation |
| EngineProofs.EditAborts | orchestrator/src/main/java/com/pb/chatbot/orchestrator/engine/AdvancedScenarioEngine.java:1000-1010 | an operation entry that is neither a map nor `null` aborts the node with an exception |
| EngineProofs.UnknownTypeIsError | orchestrator/src/main/java/com/pb/chatbot/orchestrator/engine/AdvancedScenarioEngine.java:63-124 | a type no handler knows yields an error response and leaves the context unchanged |
| EngineProofs.ResumesAtCurrentNode | orchestrator/src/main/java/com/pb/chatbot/orchestrator/engine/AdvancedScenarioEngine.java:37-61 | a missing or `null` `current_node` starts at `start_node`; otherwise the run resumes there; a non-text value throws |
| EngineProofs.MissingNodeIsError | orchestrator/src/main/java/com/pb/chatbot/orchestrator/engine/AdvancedScenarioEngine.java:37-61 | an id the scenario does not hold yields a type "error" response naming it, with the context unchanged |
| EngineProofs.AskWaits | orchestrator/src/main/java/com/pb/chatbot/orchestrator/engine/AdvancedScenarioEngine.java:140-155 | the ask handler replies with its question and first successor, sets the waiting flags for this node and stamps `last_execution_time` with the clock reading |
| EngineProofs.NoConditionsNoTarget | orchestrator/src/main/java/com/pb/chatbot/orchestrator/engine/AdvancedScenarioEngine.java:194-232 | a node with parameters but neither a `conditions` map nor a `conditions` parameter routes to no target |
| EngineProofs.ApiStoredReads | orchestrator/src/main/java/com/pb/chatbot/orchestrator/engine/AdvancedScenarioEngine.java:480-497 | an answered request leaves its status code and its body (a map, or the raw text when the body is not a JSON object) readable in the context |
| EngineProofs.NluStoredReads | orchestrator/src/main/java/com/pb/chatbot/orchestrator/engine/AdvancedScenarioEngine.java:330-344 | a successful analysis leaves its intent and confidence readable, and `suggested_scenario` as given or "" when absent |
| EngineProofs.JumpEnters | orchestrator/src/main/java/com/pb/chatbot/orchestrator/engine/AdvancedScenarioEngine.java:558-609 | a jump whose target loads runs the target's real start node with empty input in the converted scenario, leaving the call stack and sub-flow flag as they were |
| EngineProofs.JumpLoadFails | orchestrator/src/main/java/com/pb/chatbot/orchestrator/engine/AdvancedScenarioEngine.java:558-621 | a target that does not load is answered "Ошибка загрузки сценария", or "Ошибка перехода в сценарий" when the fetch throws, with no next node and the context otherwise unchanged |
| EngineProofs.SubFlowFetchThrows | orchestrator/src/main/java/com/pb/chatbot/orchestrator/engine/AdvancedScenarioEngine.java:860-934 | a sub-flow whose fetch throws is answered "Ошибка выполнения подсценария" with the context otherwise unchanged |
| EngineProofs.EndReturnFetchThrows | orchestrator/src/main/java/com/pb/chatbot/orchestrator/engine/AdvancedScenarioEngine.java:668-737 | returning to a caller whose scenario fetch throws still completes with "Возврат из подсценария завершен." and keeps the popped stack |
| EngineProofs.TransferEnds | orchestrator/src/main/java/com/pb/chatbot/orchestrator/engine/AdvancedScenarioEngine.java:739-752 | a transfer node marks the session transferred and completed whether or not its message casts, and replies "transfer" exactly when it does |
| EngineProofs.NotificationSends | orchestrator/src/main/java/com/pb/chatbot/orchestrator/engine/AdvancedScenarioEngine.java:936-955 | a well-formed notification replies "Notification sent" with the first successor, records type and time, and completes the scenario exactly when there is no successor |
| EngineProofs.NotificationPauses | orchestrator/src/main/java/com/pb/chatbot/orchestrator/engine/AdvancedScenarioEngine.java:936-955 | a notification node does not depend on fuel, input or scenario, only on the clock |
| EngineProofs.WaitPauses | orchestrator/src/main/java/com/pb/chatbot/orchestrator/engine/AdvancedScenarioEngine.java:957-973 | a wait node does not depend on fuel, input or scenario, and a well-formed one replies "Wait completed" changing only the position, completion, time and type keys |
| EngineProofs.SwitchWithoutSuccessors | orchestrator/src/main/java/com/pb/chatbot/orchestrator/engine/AdvancedScenarioEngine.java:801-858 | a switch whose text lines find no target and which has no successors answers "Нет доступных переходов" with the context otherwise unchanged |
| EngineHost.RefusesUninitialised | orchestrator/src/main/java/com/pb/chatbot/orchestrator/engine/AdvancedScenarioEngine.java:1966-1988 | `processMessage` refuses a session whose `current_node` or `scenario_id` is `null`, and otherwise resumes its scenario |
| EngineHost.ProcessRunsCurrentNode | orchestrator/src/main/java/com/pb/chatbot/orchestrator/engine/AdvancedScenarioEngine.java:1990-2036 | a message runs the session's current node with that input, and answers with the response's message |
| EngineHost.CompletedStaysEnded | orchestrator/src/main/java/com/pb/chatbot/orchestrator/engine/AdvancedScenarioEngine.java:2235-2260 | `continueExecution` on a completed session answers "Диалог завершен." and changes nothing |
| EngineHost.ContinueIsEmptyMessage | orchestrator/src/main/java/com/pb/chatbot/orchestrator/engine/AdvancedScenarioEngine.java:2235-2260 | continuing an open session is processing an empty message |
| EngineHost.GreetsWithoutEntryPoint | orchestrator/src/main/java/com/pb/chatbot/orchestrator/engine/AdvancedScenarioEngine.java:2154-2193 | without an entry-point scenario, the fixed greeting is the answer |
| EngineHost.SequentialSkips | orchestrator/src/main/java/com/pb/chatbot/orchestrator/engine/AdvancedScenarioEngine.java:2038-2143 | the walk passes a node that does not talk by making its first successor current |
| EngineHost.SequentialAsks | orchestrator/src/main/java/com/pb/chatbot/orchestrator/engine/AdvancedScenarioEngine.java:2038-2143 | the walk stops at an ask node with its question and moves `current_node` past it |
| EngineHost.WalkReachesQuestion | orchestrator/src/main/java/com/pb/chatbot/orchestrator/engine/AdvancedScenarioEngine.java:2038-2143 | along any path of silent nodes ending at an ask node, the walk answers with that question |
| EngineHost.Sequential | orchestrator/src/main/java/com/pb/chatbot/orchestrator/engine/AdvancedScenarioEngine.java:2038-2143 | the walk always answers with a text (a stack overflow aside) and changes no key but `current_node` and `node_type` |
| EngineHost.Initial | orchestrator/src/main/java/com/pb/chatbot/orchestrator/engine/AdvancedScenarioEngine.java:2154-2193 | the greeting answers with a text and changes no key but the scenario id, position and type, recording the entry point's id as `scenario_id` when it has data |
| EngineHost.ProcessMessage | orchestrator/src/main/java/com/pb/chatbot/orchestrator/engine/AdvancedScenarioEngine.java:1966-1988 | a session whose position or scenario id is not text is answered and left as it was; an unreachable scenario is answered with the run-failure text |
| EngineHost.ContinueExecution | orchestrator/src/main/java/com/pb/chatbot/orchestrator/engine/AdvancedScenarioEngine.java:2235-2261 | a completed session answers "Диалог завершен." unchanged, and only a live session with a non-empty position and a scenario id can change |
| EngineHost.ProcessUnreachableFails | orchestrator/src/main/java/com/pb/chatbot/orchestrator/engine/AdvancedScenarioEngine.java:1990-2036 | a scenario whose fetch throws is answered "Ошибка выполнения сценария." with the session unchanged |
| EngineHost.SequentialWithoutNode | orchestrator/src/main/java/com/pb/chatbot/orchestrator/engine/AdvancedScenarioEngine.java:2038-2152 | with no current node the walk says "Узел не найден." exactly when the scenario has no nodes, and otherwise fails the walk |
| LegacyEngine.FlatEdit | orchestrator/src/main/java/com/pb/chatbot/orchestrator/engine/ScenarioEngine.java:382-418 | a flat context edit never leaves the model (it has no untracked results) |
| LegacyEngine.Fold | orchestrator/src/main/java/com/pb/chatbot/orchestrator/engine/ScenarioEngine.java:382-443 | the edit loop (as opposed to the calculate loop) never leaves the model |
| LegacyEngine.UnknownBlockIsError | orchestrator/src/main/java/com/pb/chatbot/orchestrator/engine/ScenarioEngine.java:39-63 | a type outside the exact, case-sensitive names yields an error response and leaves the context unchanged |
| LegacyEngine.AskDefaults | orchestrator/src/main/java/com/pb/chatbot/orchestrator/engine/ScenarioEngine.java:85-100 | an ask node asks "Введите ответ:" by default, sets `waiting_for_input` and moves `current_node` to its successor |
| LegacyEngine.ParseResultIsFilled | orchestrator/src/main/java/com/pb/chatbot/orchestrator/engine/ScenarioEngine.java:102-135 | `parse_result` is true exactly for a present, non-blank input, which then goes to the first successor, and otherwise to the `error` entry |
| LegacyEngine.UnrecognisedConditionHolds | orchestrator/src/main/java/com/pb/chatbot/orchestrator/engine/ScenarioEngine.java:137-179 | a condition text the engine does not recognise always takes the `true` entry |
| LegacyEngine.NluRunsNext | orchestrator/src/main/java/com/pb/chatbot/orchestrator/engine/ScenarioEngine.java:207-249 | the NLU step records the keyword intent and a fixed 0.8 confidence and runs the `success` node (else the first successor) at once |
| LegacyEngine.FlatSetStoresKey | orchestrator/src/main/java/com/pb/chatbot/orchestrator/engine/ScenarioEngine.java:409-414 | `set` stores under the exact top-level key, dots included |
| LegacyEngine.FoldKeepsOtherKeys | orchestrator/src/main/java/com/pb/chatbot/orchestrator/engine/ScenarioEngine.java:382-418 | the edit loop keeps every key that none of its paths names |
| LegacyEngine.DivideByZeroKeeps | orchestrator/src/main/java/com/pb/chatbot/orchestrator/engine/ScenarioEngine.java:445-460 | division by zero keeps the current number |
| LegacyEngine.CalcWhole | orchestrator/src/main/java/com/pb/chatbot/orchestrator/engine/ScenarioEngine.java:445-460 | a whole result is stored under the flat target key |
| LegacyEngine.FlatAddStores | orchestrator/src/main/java/com/pb/chatbot/orchestrator/engine/ScenarioEngine.java:445-460 | an addition on an integer counter stores the sum under the flat key |
| LegacyEngine.LegacyCounterExample | orchestrator/src/main/java/com/pb/chatbot/orchestrator/engine/ScenarioEngine.java:459 | the counter 2 plus 3 is stored as `5.0` as written, and as `5` once corrected |
| LegacyEngine.LegacyResumes | orchestrator/src/main/java/com/pb/chatbot/orchestrator/engine/ScenarioEngine.java:22-37 | a run resumes at `current_node`, and a name no node carries gives a "Node not found" error |
| LegacyEngine.LegacyExec | orchestrator/src/main/java/com/pb/chatbot/orchestrator/engine/ScenarioEngine.java:39-63 | only an nlu-request node can exhaust the fuel, only a calculate or nlu-request node can leave the model, and every normal reply names one of the eight known types |
| LegacyEngine.LegacyExecute | orchestrator/src/main/java/com/pb/chatbot/orchestrator/engine/ScenarioEngine.java:22-37 | a scenario without a node list throws with the context unchanged, and every normal reply names a known type |
| LegacyEngine.LegacyParse | orchestrator/src/main/java/com/pb/chatbot/orchestrator/engine/ScenarioEngine.java:102-135 | it replies "parse" quoting the input, with `parse_result` true exactly when the input is present and not blank and `user_input` the input, and then goes to the first successor; otherwise it throws |
| LegacyEngine.Extract | orchestrator/src/main/java/com/pb/chatbot/orchestrator/engine/ScenarioEngine.java:102-135 | the extraction fails exactly when the input is `null` and the script needs its text; otherwise `userName`, `cardNumber` and `validCard` hold what the script asks and no unnamed key changes |
| LegacyEngine.ReadText | orchestrator/src/main/java/com/pb/chatbot/orchestrator/engine/ScenarioEngine.java:102-135 | from the input's text, `wantsBalance` holds iff it contains "да" or "yes", `cardNumber` is the text and `validCard` holds iff it is four digits, and no other key but `userAnswer` changes |
| LegacyEngine.ExtractBeforeFailure | orchestrator/src/main/java/com/pb/chatbot/orchestrator/engine/ScenarioEngine.java:108-124 | when a `null` input's text is needed, the context keeps the `userName` write, and `cardNumber` is `null` exactly when the card step is the first to fail; every other key is as before |
| LegacyEngine.LegacyCondition | orchestrator/src/main/java/com/pb/chatbot/orchestrator/engine/ScenarioEngine.java:137-148 | the context never changes, and a reply goes to the `true` or `false` successor of a node that has conditions |
| LegacyEngine.FlatCalc | orchestrator/src/main/java/com/pb/chatbot/orchestrator/engine/ScenarioEngine.java:445-460 | a failed operation leaves the context as it was, and a successful one changes no key but its target |
| LegacyEngine.LegacyAnnounceShows | orchestrator/src/main/java/com/pb/chatbot/orchestrator/engine/ScenarioEngine.java:65-83 | an announce node throws exactly when it has no parameters and otherwise replies with its substituted message and first successor, leaving the context alone |
| LegacyEngine.LegacyWaitReports | orchestrator/src/main/java/com/pb/chatbot/orchestrator/engine/ScenarioEngine.java:150-160 | a wait node reports "Waited <n>ms" (1000 by default) with the context alone, and throws on a negative duration |
| Transitions.Available | orchestrator/src/main/java/com/pb/chatbot/orchestrator/service/ScenarioTransitionService.java:208-210 | the available transitions are the scenario's table, or none |
| Transitions.FindNext | orchestrator/src/main/java/com/pb/chatbot/orchestrator/service/ScenarioTransitionService.java:59-98 | whenever the table has an entry or a default the choice is an allowed transition; a chosen scenario is a table target, a fixed fallback or the context's pending scenario; a cast failure needs entities or a context |
| Transitions.CanTransition | orchestrator/src/main/java/com/pb/chatbot/orchestrator/service/ScenarioTransitionService.java:195-203 | an allowed target is listed in the source's table, and the intent's entry and the default are both allowed |
| Transitions.DirectWins | orchestrator/src/main/java/com/pb/chatbot/orchestrator/service/ScenarioTransitionService.java:63-70 | a table entry for the intent decides, whatever the entities and the context say |
| Transitions.DefaultBeatsLaterRules | orchestrator/src/main/java/com/pb/chatbot/orchestrator/service/ScenarioTransitionService.java:72-77 | without an entry for the intent, the table's `default` beats every later rule |
| Transitions.DefaultsLeadHome | orchestrator/src/main/java/com/pb/chatbot/orchestrator/service/ScenarioTransitionService.java:16-45 | every table but the main menu's has a default leading back to the main menu |
| Transitions.UrgencyFirst | orchestrator/src/main/java/com/pb/chatbot/orchestrator/service/ScenarioTransitionService.java:103-130 | an entity mentioning "urgency" routes to urgent handling before any other rule |
| Transitions.ConfirmationDecides | orchestrator/src/main/java/com/pb/chatbot/orchestrator/service/ScenarioTransitionService.java:103-130 | a confirmation `yes` reads `pending_scenario`, and `no` goes to the main menu |
| Transitions.ConfirmationYes | orchestrator/src/main/java/com/pb/chatbot/orchestrator/service/ScenarioTransitionService.java:178-190 | a confirmation `yes` resumes the pending scenario |
| Transitions.ConfirmationNo | orchestrator/src/main/java/com/pb/chatbot/orchestrator/service/ScenarioTransitionService.java:178-190 | a confirmation `no` returns to the main menu |
| Transitions.ContextRoutes | orchestrator/src/main/java/com/pb/chatbot/orchestrator/service/ScenarioTransitionService.java:135-150 | a pending scenario wins; otherwise an `error_count` above two goes to an operator, and one outside the `int` range fails the `(Integer)` cast |
| Transitions.FallbackByIntent | orchestrator/src/main/java/com/pb/chatbot/orchestrator/service/ScenarioTransitionService.java:167-173 | when no rule fires, a missing or "unknown" intent asks for clarification and any other goes to the main menu |
| Transitions.EmptyContextRoutes | orchestrator/src/main/java/com/pb/chatbot/orchestrator/service/ScenarioTransitionService.java:59-98 | routing with an empty context always chooses a scenario |
| Transitions.ChosenIsAllowed | orchestrator/src/main/java/com/pb/chatbot/orchestrator/service/ScenarioTransitionService.java:195-203 | when the table decides, the chosen scenario is an allowed transition |
| Transitions.AllowedIsListed | orchestrator/src/main/java/com/pb/chatbot/orchestrator/service/ScenarioTransitionService.java:195-203 | an allowed transition always targets a scenario listed in the source's table |
| Transitions.NoTableNoTransition | orchestrator/src/main/java/com/pb/chatbot/orchestrator/service/ScenarioTransitionService.java:195-203 | a scenario without a table allows no transition |
| Nlu.RunLength | nlu-service/src/main/java/com/pb/chatbot/nlu/service/NluService.java:216 | a word of `split("\\s+")` runs up to the first whitespace character |
| Nlu.Words | nlu-service/src/main/java/com/pb/chatbot/nlu/service/NluService.java:216-223 | the words of an example are never empty |
| Nlu.Increment | nlu-service/src/main/java/com/pb/chatbot/nlu/service/NluService.java:245-253 | a registered intent gains one use, and nothing else changes; an unregistered id changes nothing |
| Nlu.IdOf | nlu-service/src/main/java/com/pb/chatbot/nlu/service/NluService.java:104-117 | a derived id has the name's length and only `[a-z0-9_]` characters |
| Nlu.IdOfIdempotent | nlu-service/src/main/java/com/pb/chatbot/nlu/service/NluService.java:104-117 | a derived id is its own id |
| Nlu.Create | nlu-service/src/main/java/com/pb/chatbot/nlu/service/NluService.java:104-117 | `createIntent` stores an unused record under the derived id, and fails on a `null` field |
| Nlu.Update | nlu-service/src/main/java/com/pb/chatbot/nlu/service/NluService.java:119-137 | `updateIntent` is false for an unknown id, and otherwise replaces the fields and keeps the usage count |
| Nlu.Delete | nlu-service/src/main/java/com/pb/chatbot/nlu/service/NluService.java:139-145 | `deleteIntent` is true exactly when the id was registered, and removes it |
| Nlu.CreateThenDelete | nlu-service/src/main/java/com/pb/chatbot/nlu/service/NluService.java:104-145 | a created intent starts unused, and deleting it leaves no intent under its id |
| Nlu.UpdateKeepsUsage | nlu-service/src/main/java/com/pb/chatbot/nlu/service/NluService.java:119-137 | an update keeps the usage count and every other intent |
| Nlu.FirstIdIn | nlu-service/src/main/java/com/pb/chatbot/nlu/service/NluService.java:201-208 | the id rule picks the first id in `order` that is registered and occurs in the text, and, when the order enumerates the registry, picks none only when no registered id occurs |
| Nlu.FirstExample | nlu-service/src/main/java/com/pb/chatbot/nlu/service/NluService.java:210-231 | the example rule picks the first intent in `order` with a matching example, and, when the order enumerates the registry, none only when no registered intent has a matching example |
| Nlu.FirstPattern | nlu-service/src/main/java/com/pb/chatbot/nlu/service/NluService.java:233-239 | the keyword rule picks the intent of the first keyword in the table that the text contains, and none only when it contains none |
| Nlu.Detect | nlu-service/src/main/java/com/pb/chatbot/nlu/service/NluService.java:194-243 | a greeting is detected first; the intent is registered, a greeting, "unknown" or a keyword intent; only the winner's count changes and no intent is added |
| Nlu.ProblemOutranksTransfer | nlu-service/src/main/java/com/pb/chatbot/nlu/service/NluService.java:22-34 | in the hash map's iteration order "проблема" comes before "перевод", so a complaint about a transfer is a complaint |
| Nlu.GreetingFirst | nlu-service/src/main/java/com/pb/chatbot/nlu/service/NluService.java:194-199 | a greeting keyword wins over every registered intent |
| Nlu.IdBeforeExamples | nlu-service/src/main/java/com/pb/chatbot/nlu/service/NluService.java:194-231 | without a greeting, an intent id contained in the text beats every example and keyword |
| Nlu.UnknownWhenNothingMatches | nlu-service/src/main/java/com/pb/chatbot/nlu/service/NluService.java:194-243 | "unknown" results when no registered id or example and no greeting or keyword matches, and the registry is then unchanged |
| Nlu.DetectionTouchesOnlyWinner | nlu-service/src/main/java/com/pb/chatbot/nlu/service/NluService.java:194-253 | detection registers no intent and changes no intent other than the detected one |
| Nlu.DetectedGainsOne | nlu-service/src/main/java/com/pb/chatbot/nlu/service/NluService.java:245-253 | a detected registered intent gains exactly one use |
| Nlu.AnalyzeNormalised | nlu-service/src/main/java/com/pb/chatbot/nlu/service/NluService.java:155-178 | analysing a normalised text is analysing the text: matching sees only the lower-cased, trimmed text |
| Nlu.Analyze | nlu-service/src/main/java/com/pb/chatbot/nlu/service/NluService.java:155-178 | analysis reports the intent `detectIntent` finds in the normalised text, that intent's suggested scenario and the normalised text's entities; it adds no intent, changes only the detected intent's count and passes the context on (empty for `null`) |
| Nlu.SuggestedDefault | nlu-service/src/main/java/com/pb/chatbot/nlu/service/NluService.java:180-192 | an intent outside the table suggests the main menu |
| Nlu.FirstWord | nlu-service/src/main/java/com/pb/chatbot/nlu/service/NluService.java:307-363 | the keyword found is the first in list order that the text contains, and none only when it contains none |
| Nlu.Spot | nlu-service/src/main/java/com/pb/chatbot/nlu/service/NluService.java:307-363 | an entity starts at the first occurrence of its word in the text, as `indexOf` finds it, and ends after the word |
| Nlu.ConfirmationEntity | nlu-service/src/main/java/com/pb/chatbot/nlu/service/NluService.java:307-333 | at most one confirmation entity, lying within the text, and one exactly when the text holds a yes-word or a no-word |
| Nlu.OneEntity | nlu-service/src/main/java/com/pb/chatbot/nlu/service/NluService.java:335-363 | at most one urgency or card-reason entity, lying within the text, and one exactly when the text holds one of the kind's words |
| Nlu.Entities | nlu-service/src/main/java/com/pb/chatbot/nlu/service/NluService.java:293-363 | at most three entities, of pairwise different kinds (confirmation, urgency, card reason), each within the text |
| Nlu.EntitiesReport | nlu-service/src/main/java/com/pb/chatbot/nlu/service/NluService.java:293-363 | an entity of each kind is reported if and only if the text contains one of that kind's words |
| Nlu.ConfirmationReported | nlu-service/src/main/java/com/pb/chatbot/nlu/service/NluService.java:307-333 | a confirmation is reported if and only if the text contains a yes-word or a no-word |
| Nlu.UrgencyReported | nlu-service/src/main/java/com/pb/chatbot/nlu/service/NluService.java:335-348 | an urgency is reported if and only if the text contains an urgency word |
| Nlu.ReasonReported | nlu-service/src/main/java/com/pb/chatbot/nlu/service/NluService.java:350-363 | a card reason is reported if and only if the text contains a reason word |
| Nlu.JoinKinds | nlu-service/src/main/java/com/pb/chatbot/nlu/service/NluService.java:293-302 | the three per-kind lists joined hold at most three entities, of pairwise different kinds, each within the text |
| Nlu.YesBeforeNo | nlu-service/src/main/java/com/pb/chatbot/nlu/service/NluService.java:307-333 | a yes-word decides the confirmation even when a no-word is also present |
| Nlu.NoConfirmation | nlu-service/src/main/java/com/pb/chatbot/nlu/service/NluService.java:307-333 | without yes-words, a no-word gives a `no` confirmation, placed at the first occurrence of the first no-word in list order that the text contains |
| ChatService.CreateSession | chat-service/src/main/java/com/pb/chatbot/chat/service/ScenarioBasedChatService.java:23-46 | creating a session answers, adds exactly that session, and keeps every other one |
| ChatService.ProcessMessage | chat-service/src/main/java/com/pb/chatbot/chat/service/ScenarioBasedChatService.java:89-101 | an unknown session answers "Сессия не найдена…" and changes nothing; no other session is touched |
| ChatService.ClearSession | chat-service/src/main/java/com/pb/chatbot/chat/service/ScenarioBasedChatService.java:269-271 | clearing removes exactly that session |
| ChatService.ExecuteStep | chat-service/src/main/java/com/pb/chatbot/chat/service/ScenarioBasedChatService.java:103-111 | a step keeps the session's scenario, writes no context except the scenario's `last_answer`, and sets the balance flag only at "ask_balance"; without a scenario it throws exactly when the step is `null` |
| ChatService.FromScenario | chat-service/src/main/java/com/pb/chatbot/chat/service/ScenarioBasedChatService.java:113-171 | a scenario step keeps the scenario and changes the context at most by storing the message as `last_answer` |
| ChatService.BalanceDialog | chat-service/src/main/java/com/pb/chatbot/chat/service/ScenarioBasedChatService.java:222-263 | the dialog throws exactly on a `null` step, keeps scenario and context, never leaves the known steps nor returns to "start", and only ever stores a four-digit card suffix |
| ChatService.MessageNormalised | chat-service/src/main/java/com/pb/chatbot/chat/service/ScenarioBasedChatService.java:95 | a message is lower-cased and trimmed before it is used |
| ChatService.CreateThenClear | chat-service/src/main/java/com/pb/chatbot/chat/service/ScenarioBasedChatService.java:23-46 | creating a new session raises the active count by one, and clearing it restores the sessions |
| ChatService.NoEntryPointFallsBack | chat-service/src/main/java/com/pb/chatbot/chat/service/ScenarioBasedChatService.java:48-87 | without an entry point, the stock hello is returned and the session stays at "start" |
| ChatService.BalanceDialogStaysKnown | chat-service/src/main/java/com/pb/chatbot/chat/service/ScenarioBasedChatService.java:222-263 | the balance dialog never throws, never leaves its steps, and never returns to "start" |
| ChatService.BalanceDialogKeepsScenario | chat-service/src/main/java/com/pb/chatbot/chat/service/ScenarioBasedChatService.java:222-263 | the balance dialog touches neither the scenario nor its context |
| ChatService.EndAbsorbs | chat-service/src/main/java/com/pb/chatbot/chat/service/ScenarioBasedChatService.java:258-259 | "end" absorbs: whatever is said, the session stays there |
| ChatService.CardSuffixDecides | chat-service/src/main/java/com/pb/chatbot/chat/service/ScenarioBasedChatService.java:245-252 | at "ask_card", exactly four digits move to "show_balance"; anything else asks again |
| ChatService.YesBeforeNo | chat-service/src/main/java/com/pb/chatbot/chat/service/ScenarioBasedChatService.java:233-242 | at "ask_balance", a yes moves to "ask_card", otherwise a no ends, otherwise the question repeats |
| ChatService.BalanceConversation | chat-service/src/main/java/com/pb/chatbot/chat/service/ScenarioBasedChatService.java:222-263 | the full balance conversation of a fresh session runs start, greeting, ask_balance, ask_card, show_balance |
| ChatService.SubstituteFills | chat-service/src/main/java/com/pb/chatbot/chat/service/ScenarioBasedChatService.java:193-199 | `{last_answer}` is replaced literally by the stored answer |
| ChatService.AnnounceAdvances | chat-service/src/main/java/com/pb/chatbot/chat/service/ScenarioBasedChatService.java:143-166 | an announce step moves to its successor and speaks it, or ends the dialog |
| ChatService.AskAdvances | chat-service/src/main/java/com/pb/chatbot/chat/service/ScenarioBasedChatService.java:143-166 | an ask step stores the message as `last_answer` before moving on |
| ChatService.GreetingOpens | chat-service/src/main/java/com/pb/chatbot/chat/service/ScenarioBasedChatService.java:23-87 | a session on the greeting scenario opens with its welcome, standing on the welcome node |
| ChatService.GreetingAsksName | chat-service/src/main/java/com/pb/chatbot/chat/service/ScenarioBasedChatService.java:113-171 | whatever is said at the welcome, the reply is "Как вас зовут?" |
| ChatService.GreetingQuestion | chat-service/src/main/java/com/pb/chatbot/chat/service/ScenarioBasedChatService.java:173-220 | standing on the name question, the text spoken is the question |
| ChatService.GreetTemplateFilled | chat-service/src/main/java/com/pb/chatbot/chat/service/ScenarioBasedChatService.java:188-199 | the greeting's template quotes the stored answer |
| ChatService.GreetingQuotesName | chat-service/src/main/java/com/pb/chatbot/chat/service/ScenarioBasedChatService.java:113-220 | the answer to the name question is stored, and the reply quotes it back |
| ChatService.GreetingSpeaks | chat-service/src/main/java/com/pb/chatbot/chat/service/ScenarioBasedChatService.java:173-220 | on the greeting node with an answer stored, the text spoken quotes the answer |
| ChatService.GreetingEnds | chat-service/src/main/java/com/pb/chatbot/chat/service/ScenarioBasedChatService.java:113-171 | after the greeting the dialog is over and stays at its last node |
| ScenarioStore.NewInfo | scenario-service/src/main/java/com/pb/chatbot/scenario/model/ScenarioInfo.java:19-58 | a new scenario is version "1.0", language "uk", active and not an entry point |
| ScenarioStore.All | scenario-service/src/main/java/com/pb/chatbot/scenario/service/ScenarioManagementService.java:38-40 | the catalogue lists only stored scenarios, and, when the order enumerates the store, every stored scenario |
| ScenarioStore.GetScenario | scenario-service/src/main/java/com/pb/chatbot/scenario/service/ScenarioManagementService.java:42-51 | a scenario is found exactly when its id is stored, the stored record is returned, and reading never changes the catalogue |
| ScenarioStore.CreateScenario | scenario-service/src/main/java/com/pb/chatbot/scenario/service/ScenarioManagementService.java:53-70 | the new scenario is stored under its id, which joins the ids; every other scenario is unchanged; without data no branch is touched |
| ScenarioStore.UpdateScenario | scenario-service/src/main/java/com/pb/chatbot/scenario/service/ScenarioManagementService.java:72-86 | an update succeeds exactly for a stored id, changes nothing otherwise, and leaves the ids, the branches and every other scenario alone |
| ScenarioStore.DeleteScenario | scenario-service/src/main/java/com/pb/chatbot/scenario/service/ScenarioManagementService.java:88-95 | delete reports whether the id was stored, removes exactly that id, and leaves every other scenario and the branches alone |
| ScenarioStore.Filter | scenario-service/src/main/java/com/pb/chatbot/scenario/service/ScenarioManagementService.java:102-107 | the filter throws only when some scenario has no name, and otherwise returns only scenarios of the input whose lower-cased name, description or some tag contains the query |
| ScenarioStore.Search | scenario-service/src/main/java/com/pb/chatbot/scenario/service/ScenarioManagementService.java:97-108 | a search returns only stored scenarios, and for a non-blank query only ones whose lower-cased name, description or some tag contains the lower-cased query |
| ScenarioStore.EntryPoint | scenario-service/src/main/java/com/pb/chatbot/scenario/service/ScenarioManagementService.java:110-115 | the entry point is a stored active entry-point scenario, and there is none only when no stored scenario is both |
| ScenarioStore.OperationsKeepKeys | scenario-service/src/main/java/com/pb/chatbot/scenario/service/ScenarioManagementService.java:25-95 | creating, updating, deleting, reading and seeding keep every scenario under its own id |
| ScenarioStore.CreateThenGet | scenario-service/src/main/java/com/pb/chatbot/scenario/service/ScenarioManagementService.java:53-70 | a supplied id is kept and a fresh one used only for `null`; the scenario reads back stamped with `now` |
| ScenarioStore.CreateInitialisesMain | scenario-service/src/main/java/com/pb/chatbot/scenario/service/ScenarioManagementService.java:53-70 | creating a scenario with data gives it a main branch holding that data |
| ScenarioStore.UpdateKeepsCreation | scenario-service/src/main/java/com/pb/chatbot/scenario/service/ScenarioManagementService.java:72-86 | an update of an unknown id changes nothing; a known one is stored under the path id and keeps `createdAt` |
| ScenarioStore.DeleteReportsPresence | scenario-service/src/main/java/com/pb/chatbot/scenario/service/ScenarioManagementService.java:88-95 | delete reports whether the id was there, and the id is gone afterwards |
| ScenarioStore.BlankQueryIsAll | scenario-service/src/main/java/com/pb/chatbot/scenario/service/ScenarioManagementService.java:98-100 | a missing or blank query returns the whole catalogue |
| ScenarioStore.FilterExact | scenario-service/src/main/java/com/pb/chatbot/scenario/service/ScenarioManagementService.java:102-107 | the search throws exactly when a scenario has no name, and otherwise keeps exactly the matches, in order |
| ScenarioStore.FirstEntry | scenario-service/src/main/java/com/pb/chatbot/scenario/service/ScenarioManagementService.java:110-115 | the entry point is an active scenario flagged as entry point, and none only when no scenario is |
| ScenarioStore.EntryPointIsFirst | scenario-service/src/main/java/com/pb/chatbot/scenario/service/ScenarioManagementService.java:110-115 | no scenario earlier in iteration order is an entry point |
| ScenarioStore.SeededEntryPoint | scenario-service/src/main/java/com/pb/chatbot/scenario/service/ScenarioManagementService.java:117-171 | in the seeded catalogue, whatever the iteration order, greeting-001 is the entry point |
| Branches.GetBranch | scenario-service/src/main/java/com/pb/chatbot/scenario/model/ScenarioWithBranches.java:26-28 | a `null` name reads "main"; any other name reads its own branch |
| Branches.NullReadsMain | scenario-service/src/main/java/com/pb/chatbot/scenario/model/ScenarioWithBranches.java:26-28 | `getBranch(null)` and `getBranch("main")` agree |
| Branches.AddHistory | scenario-service/src/main/java/com/pb/chatbot/scenario/model/ScenarioWithBranches.java:45-47 | logging appends exactly one entry and changes no branch |
| Branches.AddBranch | scenario-service/src/main/java/com/pb/chatbot/scenario/model/ScenarioWithBranches.java:30-33 | `addBranch` stores under the name and appends one CREATE_BRANCH entry |
| Branches.UpdateBranchIn | scenario-service/src/main/java/com/pb/chatbot/scenario/model/ScenarioWithBranches.java:35-38 | `updateBranch` stores under the name and appends one UPDATE_BRANCH entry |
| Branches.MergeNote | scenario-service/src/main/java/com/pb/chatbot/scenario/model/ScenarioWithBranches.java:40-43 | the container's merge changes no branch and appends one MERGE_BRANCH entry "src -> tgt" |
| Branches.HistoryAppendOnly | scenario-service/src/main/java/com/pb/chatbot/scenario/model/ScenarioWithBranches.java:30-47 | every container operation grows the history by one and keeps the older entries |
| Branches.ContainerOf | scenario-service/src/main/java/com/pb/chatbot/scenario/service/BranchService.java:25-26 | a scenario never branched gets an empty container |
| Branches.CreateBranch | scenario-service/src/main/java/com/pb/chatbot/scenario/service/BranchService.java:22-55 | creation succeeds exactly from "main" or an existing source; the new branch, named and authored as asked and not deleted, reads back, holds the source's data, and is logged as CREATE_BRANCH; other scenarios are untouched |
| Branches.BranchOf | scenario-service/src/main/java/com/pb/chatbot/scenario/service/BranchService.java:60-67 | a branch is read exactly when the scenario has a container holding that name, `null` meaning "main" |
| Branches.UpdateBranch | scenario-service/src/main/java/com/pb/chatbot/scenario/service/BranchService.java:72-90 | an update succeeds exactly for an existing branch, changes nothing on failure, and otherwise sets only data and author, keeps the branch names and logs one UPDATE_BRANCH entry |
| Branches.BranchNames | scenario-service/src/main/java/com/pb/chatbot/scenario/service/BranchService.java:95-102 | a name is listed exactly when its branch can be read, and a scenario never branched lists "main" |
| Branches.MergeBranch | scenario-service/src/main/java/com/pb/chatbot/scenario/service/BranchService.java:107-131 | a merge succeeds exactly when both branches exist, a `null` name reading "main"; it changes nothing on failure, and otherwise gives the target the source's data, keeps the branch names and logs one MERGE_BRANCH entry that prints a `null` name as "null" |
| Branches.DeleteBranch | scenario-service/src/main/java/com/pb/chatbot/scenario/service/BranchService.java:136-151 | deletion fails exactly for "main", keeps every branch name, flags an existing branch and changes nothing for an unknown one |
| Branches.History | scenario-service/src/main/java/com/pb/chatbot/scenario/service/BranchService.java:156-163 | a scenario never branched has an empty history |
| Branches.InitMain | scenario-service/src/main/java/com/pb/chatbot/scenario/service/BranchService.java:168-185 | afterwards main exists; it keeps non-empty data and otherwise holds the given data; other scenarios are untouched |
| Branches.CreateFromMain | scenario-service/src/main/java/com/pb/chatbot/scenario/service/BranchService.java:22-55 | creating from "main" never fails: a missing main is created empty first, and the new branch copies main's data |
| Branches.CreateFromMissing | scenario-service/src/main/java/com/pb/chatbot/scenario/service/BranchService.java:22-55 | creating from any other missing source throws |
| Branches.CreateCopiesSource | scenario-service/src/main/java/com/pb/chatbot/scenario/service/BranchService.java:22-55 | the new branch holds the source's data and replaces any same-named branch |
| Branches.UnknownScenarioListsMain | scenario-service/src/main/java/com/pb/chatbot/scenario/service/BranchService.java:95-102 | a scenario never branched lists exactly "main" |
| Branches.UpdateSetsData | scenario-service/src/main/java/com/pb/chatbot/scenario/service/BranchService.java:72-90 | an update throws exactly for an unknown scenario or branch, and otherwise sets data and author and nothing else |
| Branches.MergeReplacesTarget | scenario-service/src/main/java/com/pb/chatbot/scenario/service/BranchService.java:107-131 | after a merge the target holds the source's data, the source is unchanged, and the result is success with no conflicts |
| Branches.MergeNeedsBoth | scenario-service/src/main/java/com/pb/chatbot/scenario/service/BranchService.java:107-131 | a merge with a missing branch throws and changes nothing |
| Branches.NullMergesMain | scenario-service/src/main/java/com/pb/chatbot/scenario/service/BranchService.java:113-119 | a `null` source or target merges exactly as "main" would, with the same result, branches and other scenarios |
| Branches.DeleteIsSoft | scenario-service/src/main/java/com/pb/chatbot/scenario/service/BranchService.java:136-151 | deleting "main" is refused; another branch is only flagged and stays listed |
| Branches.InitMainIdempotent | scenario-service/src/main/java/com/pb/chatbot/scenario/service/BranchService.java:168-185 | initialising main twice is initialising it once |
| Branches.InitMainKeepsData | scenario-service/src/main/java/com/pb/chatbot/scenario/service/BranchService.java:168-185 | initialisation leaves a main branch that already has data alone |
| Workspace.GetBranch | scenario-service/src/main/java/com/pb/chatbot/scenario/model/WorkspaceWithBranches.java:19-21 | a `null` name reads "main"; a branch is found exactly when its name is stored |
| Workspace.Log | scenario-service/src/main/java/com/pb/chatbot/scenario/model/WorkspaceWithBranches.java:38-40 | logging appends exactly one entry and changes no branch |
| Workspace.AddBranch | scenario-service/src/main/java/com/pb/chatbot/scenario/model/WorkspaceWithBranches.java:23-26 | `addBranch` stores under the name and appends one CREATE_BRANCH entry |
| Workspace.UpdateBranchIn | scenario-service/src/main/java/com/pb/chatbot/scenario/model/WorkspaceWithBranches.java:28-31 | `updateBranch` stores under the name and appends one UPDATE_BRANCH entry |
| Workspace.Copy | scenario-service/src/main/java/com/pb/chatbot/scenario/service/WorkspaceBranchService.java:194-202 | a deep copy keeps the ids, and a `null` record becomes an empty map |
| Workspace.CopyIdempotent | scenario-service/src/main/java/com/pb/chatbot/scenario/service/WorkspaceBranchService.java:194-202 | copying twice is copying once, and a copy has no `null` records |
| Workspace.Record | scenario-service/src/main/java/com/pb/chatbot/scenario/service/WorkspaceBranchService.java:156-191 | main's record of a scenario has its seven fields, with missing data as an empty map |
| Workspace.Records | scenario-service/src/main/java/com/pb/chatbot/scenario/service/WorkspaceBranchService.java:156-191 | main holds only the ids of catalogue scenarios |
| Workspace.RecordsComplete | scenario-service/src/main/java/com/pb/chatbot/scenario/service/WorkspaceBranchService.java:156-191 | main holds a record for every catalogue scenario with a distinct id |
| Workspace.InitMain | scenario-service/src/main/java/com/pb/chatbot/scenario/service/WorkspaceBranchService.java:156-191 | after initialisation main exists; an existing main is left as it is, and a new one holds the catalogue's records |
| Workspace.CreateBranch | scenario-service/src/main/java/com/pb/chatbot/scenario/service/WorkspaceBranchService.java:24-53 | creation succeeds exactly from "main" or an existing source; the new branch reads back under its name and holds a copy of the source's scenarios (of the catalogue for a missing main); a failure changes nothing |
| Workspace.BranchNames | scenario-service/src/main/java/com/pb/chatbot/scenario/service/WorkspaceBranchService.java:58-63 | the listed names are the branches after lazy initialisation: those of a non-empty workspace, or just "main" |
| Workspace.BranchOf | scenario-service/src/main/java/com/pb/chatbot/scenario/service/WorkspaceBranchService.java:68-73 | a non-empty workspace is read as it is; an empty one yields main, built from the catalogue, and nothing else |
| Workspace.ScenarioIn | scenario-service/src/main/java/com/pb/chatbot/scenario/service/WorkspaceBranchService.java:78-85 | the record is the branch's entry for the id, and `null` for an unknown branch or id |
| Workspace.UpdateScenario | scenario-service/src/main/java/com/pb/chatbot/scenario/service/WorkspaceBranchService.java:90-104 | an update succeeds exactly for an existing branch; the record then reads back, every other record of the branch is unchanged and no branch appears or disappears |
| Workspace.MergeBranch | scenario-service/src/main/java/com/pb/chatbot/scenario/service/WorkspaceBranchService.java:109-127 | a merge succeeds exactly when both branches exist, changes nothing on failure, and otherwise makes the target a copy of the source and changes no other branch |
| Workspace.DeleteBranch | scenario-service/src/main/java/com/pb/chatbot/scenario/service/WorkspaceBranchService.java:132-144 | deletion fails exactly for "main", keeps every branch name, flags the named branch and changes no other |
| Workspace.Ready | scenario-service/src/main/java/com/pb/chatbot/scenario/service/WorkspaceBranchService.java:58-73 | reading an empty workspace creates main and logs it; otherwise reading changes nothing |
| Workspace.LazyMain | scenario-service/src/main/java/com/pb/chatbot/scenario/service/WorkspaceBranchService.java:58-63 | listing the branches of an empty workspace builds main from the catalogue |
| Workspace.CreateFromMain | scenario-service/src/main/java/com/pb/chatbot/scenario/service/WorkspaceBranchService.java:24-53 | creating from "main" never fails, and the new branch holds a copy of main's scenarios |
| Workspace.NullSourceNeedsMain | scenario-service/src/main/java/com/pb/chatbot/scenario/service/WorkspaceBranchService.java:24-53 | without main, a `null` source is not initialised and throws |
| Workspace.UpdateTouchesOneRecord | scenario-service/src/main/java/com/pb/chatbot/scenario/service/WorkspaceBranchService.java:78-104 | an update replaces exactly one record of one branch, which then reads back |
| Workspace.UpdateUnknownBranch | scenario-service/src/main/java/com/pb/chatbot/scenario/service/WorkspaceBranchService.java:90-104 | an update of an unknown branch throws, leaving only main's lazy creation behind |
| Workspace.MergeCopiesSource | scenario-service/src/main/java/com/pb/chatbot/scenario/service/WorkspaceBranchService.java:109-127 | a merge makes the target a copy of the source, keeps the source and the branch set, and logs one MERGE_BRANCH entry |
| Workspace.DeleteIsSoft | scenario-service/src/main/java/com/pb/chatbot/scenario/service/WorkspaceBranchService.java:132-144 | deletion refuses "main", ignores unknown names, and otherwise only flags the branch |

## Left out

- HTTP calls (NLU, api-request, scenario loads), the Vertex AI client and Jackson parsing and printing: every collaborator result is an input in `Engine.Env`. A scenario fetch that throws (a connection failure, a body that is not JSON, a field that fails its cast) is the id's membership in `Engine.Env.unreachable`; which of those causes it was is not modelled. The URL, header and body building of api-request is not modelled; only its casts are (`Engine.ApiCastsHold`).
- The auto-parse of `{`-texts during a path lookup: a text value is a leaf.
- Time, UUIDs, `Math.random`, `Thread.sleep` (wait and announce delays) and logging: clocks and ids are parameters, and sleeping has no effect on the model. Every `System.currentTimeMillis()` of one inbound message reads the same `Engine.Env.clock`, and the `timestamp` field of a response is not modelled.
- Concurrency: the `ConcurrentHashMap` stores are plain maps, and each call is one step.
- Floating point: NLU confidence is an untracked `Dbl` text. Calculate's power, random, inexact division and double inputs are not followed.
- Calculate.CalcStep: a result that is not a whole number within 2^53 (a fraction, `random`, a negative power, or a double operand) is counted as a failed operation with the context unchanged. Java stores the double and counts a success.
- Calculate.ParseNumber: text with a digit (or `NaN`/`Infinity`) that is not an integer literal is `Inexact` (untracked). Java's `parseDouble` reads it as a double, or rejects it and `parseNumber` returns 0, as for "12abc"; the model does not decide which.
- Calculate.CalcStep: an operand or current value that is text with a digit (or `NaN`/`Infinity`) but not an integer literal, such as "1.5" or "12abc", is untracked, so the operation counts as failed with the context unchanged. Java parses it as a double, or reads rejected text such as "12abc" as 0, and counts a success.
- Calculate.CalcStep: a whole result is stored as an `Int`. Java stores it as a `Double` (the first "## Findings" row), so the context after a calculate differs in that value's type.
- Calculate.Increments: the counter after `n` increments is the `Int` `c + n`. Java holds the `Double` `c + n`.
- Engine.CalculateNodeStep: a calculate node runs the corrected `Calculate.CalcStep`, so its whole results are `Int`s where Java stores `Double`s.
- LegacyEngine.Fold: a calculate result that is not whole stops the run as `Lost`. Java stores the double and goes on.
- LegacyEngine.Fold: a calculate operand or value that is text with a digit (or `NaN`/`Infinity`) but not an integer literal, such as "12abc", stops the run as `Lost`. Java parses it as a double, or reads rejected text as 0, and goes on.
- LegacyEngine.Fold: a whole calculate result is stored as an `Int` by the corrected `LegacyEngine.FlatCalc`. Java stores a `Double` (the second "## Findings" row).
- Strings.ToLower: lower-casing covers the capitals A–Z, À–Þ (without ×), А–Я and Ѐ–Џ only. The rest of Unicode's case mapping is not modelled.
- Json.ValueText: a map of two or more entries prints as `{...}`, because its text depends on `HashMap` order. Empty and one-entry maps print as Java prints them.
- Nlu.Words: Java's `split("\\s+")` can yield a leading empty word. The model drops it, which never changes whether every word of an example is found, because every text contains the empty word.
- Nlu.Spot: entity offsets count characters (code points). Java's `indexOf` and `length()` count UTF-16 units, so `start` and `end` differ from Java's for text with characters outside the Basic Multilingual Plane, such as emoji.
- Nlu.Detect: the intents are tried in the order `order`, standing for the `ConcurrentHashMap` iteration order. `calculateConfidence` (floating point) is left out.
- Nlu.Entities: the number and amount entities of `NluService` (regular expressions) are not extracted; only the confirmation, urgency and card-reason entities are.
- Transitions.ByContext: `session_start` is read as an integer. Java's `(Long)` cast would throw on a boxed `Integer`, and the model does not tell the two apart. The thirty-minute check takes the clock as the parameter `now`.
- Fuel: the engine's cascade, the sequential walk and the legacy engine take a `fuel` bound. `OutOfFuel` stands for the stack overflow of an endless cascade, which is the only way the Java code stops on a cyclic graph.
- Deep copies: values are immutable, so `deepCopy` is the identity except for turning `null` records into empty maps. Java's sharing of nested mutable objects between branches is not modelled.
- Branches: a `null` branch name passed to `createBranch`, `updateBranch` or `deleteBranch` is not modelled. Names are plain strings there; only reads and `mergeBranch` take `null`.
- Documents.Node: a node whose `id` or `type` is `null` is not representable, since both are plain strings. Java's `convertMapToScenario` passes such nulls through (AdvancedScenarioEngine.java:1476-1477), and `executeNode` then throws a `NullPointerException` at `node.type.toLowerCase()` (AdvancedScenarioEngine.java:67).
- Workspace.CreateBranch: a `null` new-branch name is not modelled. Java's `HashMap` would store the branch under the `null` key and log "Created branch: null".
- Workspace.UpdateScenario: a `null` branch name is not modelled. Java would edit main (a `null` name reads "main") and then also store main under the `null` key.
- ScenarioStore.Filter: a `null` element inside a tag list is not modelled, since tags are a list of strings.
- `createTestBranches` of `ScenarioManagementService` is not modelled. The constructor reaches it through `createTestScenarios` on every construction, before field injection has set `workspaceBranchService`; its `NullPointerException` is caught, so in effect it does nothing.
- The REST controllers and resources, the gateway, the demo scenarios in `OrchestratorController`, the frontend and the mock servers.
- Dead helpers of the engine: `convertToJson`, `escapeJson`, `parseApiResponse`, `parseNluResponse`, `extractJsonValue` and `continueScenarioExecutionOld`.
- `executeParseScript` keeps only its fixed keyword rules (`Engine.ParseScript`); it is not a general script language in the source either.

## Findings

| source | as written | input that shows it | evidently intended | confidence | as-written member | corrected member |
|---|---|---|---|---|---|---|
| orchestrator/src/main/java/com/pb/chatbot/orchestrator/engine/AdvancedScenarioEngine.java:1425 | `cond ? (int) result : result` mixes `int` and `double`, so Java widens the whole conditional to `double` and a whole result is stored as a `Double` | calculate `add 3` on `count = 2` stores `5.0`, and `{count}` then shows "5.0" | a whole result is stored as an `Integer` | high (Java's rule for numeric conditional expressions); not executed | Calculate.CounterExample | Calculate.Operation |
| orchestrator/src/main/java/com/pb/chatbot/orchestrator/engine/ScenarioEngine.java:459 | the same mixed conditional stores a whole result as a `Double` | `add 3` on `count = 2` stores `5.0` | a whole result is stored as an `Integer` | high (Java's rule for numeric conditional expressions); not executed | LegacyEngine.LegacyCounterExample | LegacyEngine.FlatCalc |

=== FILE: branches.dfy ===
/**
 * Per-scenario branches: the `ScenarioWithBranches` container (a branch map plus
 * an append-only history) and `BranchService`, which keeps one container per
 * scenario id. Java's deep copy yields an equal value, which is what a copy is in
 * this value model.
 */
module Branches {

  import opened Wrappers
  import opened Json

  /** One history record; the timestamp is not modelled. */
  datatype HistoryEntry = HistoryEntry(action: string, branch: string, author: Option<string>, message: string)

  datatype ScenarioBranch = ScenarioBranch(
    name: string,
    data: Option<map<string, Value>>,
    baseCommit: Option<string>,
    author: Option<string>,
    isDeleted: bool)

  datatype Container = Container(scenarioId: string, branches: map<string, ScenarioBranch>, history: seq<HistoryEntry>)

  /** A service call: its value and the new state, or the message of the exception it threw and the state it left. */
  datatype Attempt<T, S> = Ok(value: T, state: S) | Failed(message: string, state: S)

  datatype MergeResult = MergeResult(success: bool, message: string, conflicts: Option<seq<string>>)

  /** `String.valueOf` of a nullable text. */
  function Shown(s: Option<string>): string
  {
    if s.Some? then s.value else "null"
  }

  // ---------------------------------------------------------------------------
  // ScenarioWithBranches

  /** `getBranch`: a `null` name reads "main". */
  function GetBranch(c: Container, name: Option<string>): (r: Option<ScenarioBranch>)
    ensures name.None? ==> r == (if "main" in c.branches then Some(c.branches["main"]) else None)
    ensures name.Some? ==> r == (if name.value in c.branches then Some(c.branches[name.value]) else None)
  {
    var key := name.UnwrapOr("main");
    if key in c.branches then Some(c.branches[key]) else None
  }

  function AddHistory(c: Container, action: string, branch: string, author: Option<string>, message: string): (r: Container)
    ensures r.branches == c.branches && r.scenarioId == c.scenarioId
    ensures r.history == c.history + [HistoryEntry(action, branch, author, message)]
  {
    c.(history := c.history + [HistoryEntry(action, branch, author, message)])
  }

  /** `addBranch`: store under the name and log one CREATE_BRANCH entry. */
  function AddBranch(c: Container, name: string, b: ScenarioBranch): (r: Container)
    ensures r.branches == c.branches[name := b]
    ensures r.history == c.history + [HistoryEntry("CREATE_BRANCH", name, b.author, "Created branch: " + name)]
  {
    AddHistory(c.(branches := c.branches[name := b]), "CREATE_BRANCH", name, b.author, "Created branch: " + name)
  }

  /**
   * `updateBranch`: store under the name and log one UPDATE_BRANCH entry. Java keeps this
   * apart from the store `createBranch` does because the two log different actions.
   */
  function UpdateBranchIn(c: Container, name: string, b: ScenarioBranch): (r: Container)
    ensures r.branches == c.branches[name := b]
    ensures r.history == c.history + [HistoryEntry("UPDATE_BRANCH", name, b.author, "Updated branch: " + name)]
  {
    AddHistory(c.(branches := c.branches[name := b]), "UPDATE_BRANCH", name, b.author, "Updated branch: " + name)
  }

  /** `mergeBranch` on the container: only a MERGE_BRANCH entry "src -> tgt"; no branch changes. */
  function MergeNote(c: Container, source: string, target: string, author: Option<string>): (r: Container)
    ensures r.branches == c.branches
    ensures r.history == c.history + [HistoryEntry("MERGE_BRANCH", source + " -> " + target, author, "Merged " + source + " into " + target)]
  {
    AddHistory(c, "MERGE_BRANCH", source + " -> " + target, author, "Merged " + source + " into " + target)
  }

  // ---------------------------------------------------------------------------
  // BranchService

  type Service = map<string, Container>

  /** `computeIfAbsent(scenarioId, new container)`. */
  function ContainerOf(svc: Service, sid: string): (c: Container)
    ensures sid in svc ==> c == svc[sid]
    ensures sid !in svc ==> c == Container(sid, map[], [])
  {
    if sid in svc then svc[sid] else Container(sid, map[], [])
  }

  /** The empty main branch `createBranch` makes when "main" is asked for and missing. */
  const EmptyMain := ScenarioBranch("main", Some(map[]), Some("initial"), Some("system"), false)

  /**
   * `createBranch`: a copy of the source's data under the new name. A missing
   * "main" source is created empty first; any other missing source throws, after
   * the scenario's container has been created.
   */
  function CreateBranch(svc: Service, sid: string, name: string, source: Option<string>, author: Option<string>, stamp: string): (r: Attempt<ScenarioBranch, Service>)
    ensures r.Ok? <==> source == Some("main") || BranchOf(svc, sid, source).Some?
    ensures r.Ok? ==> BranchOf(r.state, sid, Some(name)) == Some(r.value)
    ensures r.Ok? ==> r.value.name == name && r.value.author == author && !r.value.isDeleted
    ensures r.Ok? && BranchOf(svc, sid, source).Some? ==> r.value.data == BranchOf(svc, sid, source).value.data
    ensures r.Ok? ==> |History(r.state, sid)| > 0 && History(r.state, sid)[|History(r.state, sid)| - 1] == HistoryEntry("CREATE_BRANCH", name, author, "Created branch: " + name)
    ensures sid in r.state && forall k :: k in svc && k != sid ==> k in r.state && r.state[k] == svc[k]
  {
    var c0 := ContainerOf(svc, sid);
    var c1 := if source == Some("main") && "main" !in c0.branches then AddBranch(c0, "main", EmptyMain) else c0;
    match GetBranch(c1, source)
    case None => Failed("Source branch not found: " + Shown(source), svc[sid := c1])
    case Some(src) =>
      var b := ScenarioBranch(name, src.data, Some(Shown(source) + "@" + stamp), author, false);
      Ok(b, svc[sid := AddBranch(c1, name, b)])
  }

  /** `getBranch(scenarioId, branchName)`. */
  function BranchOf(svc: Service, sid: string, name: Option<string>): (r: Option<ScenarioBranch>)
    ensures r.Some? ==> sid in svc && name.UnwrapOr("main") in svc[sid].branches && r.value == svc[sid].branches[name.UnwrapOr("main")]
    ensures r.None? <==> sid !in svc || name.UnwrapOr("main") !in svc[sid].branches
  {
    if sid in svc then GetBranch(svc[sid], name) else None
  }

  /** `updateBranch`: new data and author for an existing branch; throws for an unknown scenario or branch. */
  function UpdateBranch(svc: Service, sid: string, name: string, data: Option<map<string, Value>>, author: Option<string>): (r: Attempt<(), Service>)
    ensures r.Ok? <==> BranchOf(svc, sid, Some(name)).Some?
    ensures r.Failed? ==> r.state == svc
    ensures r.Ok? ==> BranchOf(r.state, sid, Some(name)) == Some(BranchOf(svc, sid, Some(name)).value.(data := data, author := author))
    ensures r.Ok? ==> BranchNames(r.state, sid) == BranchNames(svc, sid)
    ensures r.Ok? ==> History(r.state, sid) == History(svc, sid) + [HistoryEntry("UPDATE_BRANCH", name, author, "Updated branch: " + name)]
    ensures forall k :: k in svc && k != sid ==> k in r.state && r.state[k] == svc[k]
  {
    if sid !in svc then Failed("Scenario not found: " + sid, svc)
    else if name !in svc[sid].branches then Failed("Branch not found: " + name, svc)
    else
      var b := svc[sid].branches[name].(data := data, author := author);
      Ok((), svc[sid := UpdateBranchIn(svc[sid], name, b)])
  }

  /** `getBranches`: the branch names, or just "main" for a scenario never branched. */
  function BranchNames(svc: Service, sid: string): (r: set<string>)
    ensures forall n :: n in r <==> BranchOf(svc, sid, Some(n)).Some? || (sid !in svc && n == "main")
  {
    if sid in svc then svc[sid].branches.Keys else {"main"}
  }

  /**
   * `mergeBranch`: the target's data becomes the source's; both must exist. A `null` name
   * reads "main", as `getBranch` does, while the history entry prints it as "null".
   */
  function MergeBranch(svc: Service, sid: string, source: Option<string>, target: Option<string>, author: Option<string>): (r: Attempt<MergeResult, Service>)
    ensures r.Ok? <==> BranchOf(svc, sid, source).Some? && BranchOf(svc, sid, target).Some?
    ensures r.Failed? ==> r.state == svc
    ensures r.Ok? ==> r.value.success && BranchOf(r.state, sid, target).Some?
    ensures r.Ok? ==> BranchOf(r.state, sid, target).value.data == BranchOf(svc, sid, source).value.data
    ensures r.Ok? ==> BranchOf(r.state, sid, source).Some?
    ensures r.Ok? ==> BranchNames(r.state, sid) == BranchNames(svc, sid)
    ensures r.Ok? ==> r.state[sid].history == svc[sid].history + [HistoryEntry("MERGE_BRANCH", Shown(source) + " -> " + Shown(target), author,
                                                                              "Merged " + Shown(source) + " into " + Shown(target))]
    ensures forall k :: k in svc && k != sid ==> k in r.state && r.state[k] == svc[k]
  {
    if sid !in svc then Failed("Scenario not found: " + sid, svc)
    else
      var c := svc[sid];
      var src := source.UnwrapOr("main");
      var tgt := target.UnwrapOr("main");
      if src !in c.branches || tgt !in c.branches then Failed("Branch not found", svc)
      else
        var t := c.branches[tgt].(data := c.branches[src].data, author := author);
        Ok(MergeResult(true, "Merged successfully", None), svc[sid := MergeNote(c.(branches := c.branches[tgt := t]), Shown(source), Shown(target), author)])
  }

  /** `deleteBranch`: "main" is refused; otherwise the branch is only flagged and the deletion logged. */
  function DeleteBranch(svc: Service, sid: string, name: string): (r: Attempt<(), Service>)
    ensures r.Failed? <==> name == "main"
    ensures r.Failed? ==> r.state == svc
    ensures r.Ok? ==> BranchNames(r.state, sid) == BranchNames(svc, sid)
    ensures r.Ok? && BranchOf(svc, sid, Some(name)).Some? ==>
              BranchOf(r.state, sid, Some(name)) == Some(BranchOf(svc, sid, Some(name)).value.(isDeleted := true))
    ensures r.Ok? && BranchOf(svc, sid, Some(name)).None? ==> r.state == svc
    ensures forall k :: k in svc && k != sid ==> k in r.state && r.state[k] == svc[k]
  {
    if name == "main" then Failed("Cannot delete main branch", svc)
    else if sid !in svc || name !in svc[sid].branches then Ok((), svc)
    else
      var c := svc[sid];
      var flagged := c.(branches := c.branches[name := c.branches[name].(isDeleted := true)]);
      Ok((), svc[sid := AddHistory(flagged, "DELETE_BRANCH", name, Some("system"), "Deleted branch: " + name)])
  }

  /** `getHistory`: the scenario's log, empty for a scenario never branched. */
  function History(svc: Service, sid: string): (r: seq<HistoryEntry>)
    ensures sid !in svc ==> r == []
  {
    if sid in svc then svc[sid].history else []
  }

  /** `initializeMainBranch`: create main, or refill a main whose data is null or empty. */
  function InitMain(svc: Service, sid: string, data: Option<map<string, Value>>): (r: Service)
    ensures BranchOf(r, sid, Some("main")).Some?
    ensures var before := BranchOf(svc, sid, Some("main"));
            BranchOf(r, sid, Some("main")).value.data ==
              if before.Some? && before.value.data.Some? && |before.value.data.value| > 0 then before.value.data else data
    ensures forall k :: k in svc && k != sid ==> k in r && r[k] == svc[k]
  {
    var c := ContainerOf(svc, sid);
    if "main" !in c.branches then
      svc[sid := AddBranch(c, "main", ScenarioBranch("main", data, Some("initial"), Some("system"), false))]
    else
      var m := c.branches["main"];
      if m.data.None? || |m.data.value| == 0 then svc[sid := c.(branches := c.branches["main" := m.(data := data)])]
      else svc[sid := c]
  }

  // ---------------------------------------------------------------------------
  // Properties

  /** `getBranch(null)` and `getBranch("main")` read the same branch. */
  lemma NullReadsMain(c: Container)
    ensures GetBranch(c, None) == GetBranch(c, Some("main"))
  {
  }

  /** Every container operation grows the history by exactly one entry and keeps the older ones. */
  lemma HistoryAppendOnly(c: Container, name: string, b: ScenarioBranch, source: string, target: string, author: Option<string>)
    ensures |AddBranch(c, name, b).history| == |c.history| + 1 && AddBranch(c, name, b).history[..|c.history|] == c.history
    ensures |UpdateBranchIn(c, name, b).history| == |c.history| + 1 && UpdateBranchIn(c, name, b).history[..|c.history|] == c.history
    ensures |MergeNote(c, source, target, author).history| == |c.history| + 1
            && MergeNote(c, source, target, author).history[..|c.history|] == c.history
  {
  }

  /** Creating from "main" never fails: a missing main is created empty and copied. */
  lemma CreateFromMain(svc: Service, sid: string, name: string, author: Option<string>, stamp: string)
    ensures var r := CreateBranch(svc, sid, name, Some("main"), author, stamp);
            r.Ok? && name in r.state[sid].branches && r.state[sid].branches[name] == r.value
            && (sid !in svc || "main" !in svc[sid].branches ==> r.value.data == Some(map[]))
            && (sid in svc && "main" in svc[sid].branches ==> r.value.data == svc[sid].branches["main"].data)
  {
  }

  /** Creating from any other missing source throws. */
  lemma CreateFromMissing(svc: Service, sid: string, name: string, source: string, author: Option<string>, stamp: string)
    requires source != "main" && (sid !in svc || source !in svc[sid].branches)
    ensures CreateBranch(svc, sid, name, Some(source), author, stamp).Failed?
  {
  }

  /** A created branch holds the source's data and replaces any branch of the same name; the source is untouched. */
  lemma CreateCopiesSource(svc: Service, sid: string, name: string, source: string, author: Option<string>, stamp: string)
    requires sid in svc && source in svc[sid].branches
    ensures var r := CreateBranch(svc, sid, name, Some(source), author, stamp);
            r.Ok? && r.value.data == svc[sid].branches[source].data && !r.value.isDeleted
            && r.state[sid].branches == svc[sid].branches[name := r.value]
  {
  }

  /** A scenario never branched lists exactly "main". */
  lemma UnknownScenarioListsMain(svc: Service, sid: string)
    requires sid !in svc
    ensures BranchNames(svc, sid) == {"main"}
  {
  }

  /** An update throws for an unknown scenario or branch, and otherwise sets data and author and nothing else. */
  lemma UpdateSetsData(svc: Service, sid: string, name: string, data: Option<map<string, Value>>, author: Option<string>)
    ensures var r := UpdateBranch(svc, sid, name, data, author);
            (r.Failed? <==> sid !in svc || name !in svc[sid].branches)
            && (r.Ok? ==> r.state[sid].branches[name] == svc[sid].branches[name].(data := data, author := author)
                          && forall other :: other in svc[sid].branches && other != name ==> r.state[sid].branches[other] == svc[sid].branches[other])
  {
  }

  /** After a merge the target holds the source's data, the source is unchanged, and the result reports success without conflicts. */
  lemma MergeReplacesTarget(svc: Service, sid: string, source: string, target: string, author: Option<string>)
    requires sid in svc && source in svc[sid].branches && target in svc[sid].branches
    ensures var r := MergeBranch(svc, sid, Some(source), Some(target), author);
            r.Ok? && r.value == MergeResult(true, "Merged successfully", None)
            && r.state[sid].branches[target].data == svc[sid].branches[source].data
            && (source != target ==> r.state[sid].branches[source] == svc[sid].branches[source])
            && r.state[sid].branches.Keys == svc[sid].branches.Keys
  {
  }

  /** A merge with a missing branch throws and changes nothing. */
  lemma MergeNeedsBoth(svc: Service, sid: string, source: string, target: string, author: Option<string>)
    requires sid in svc && (source !in svc[sid].branches || target !in svc[sid].branches)
    ensures MergeBranch(svc, sid, Some(source), Some(target), author) == Failed("Branch not found", svc)
  {
  }

  /** A `null` source or target merges exactly as "main" would; only the history entry reads "null". */
  lemma NullMergesMain(svc: Service, sid: string, source: Option<string>, target: Option<string>, author: Option<string>)
    ensures var r := MergeBranch(svc, sid, source, target, author);
            var m := MergeBranch(svc, sid, Some(source.UnwrapOr("main")), Some(target.UnwrapOr("main")), author);
            r.Ok? == m.Ok? && (r.Failed? ==> r == m)
            && (r.Ok? ==> r.value == m.value && r.state.Keys == m.state.Keys && r.state[sid].branches == m.state[sid].branches
                          && forall k :: k in svc && k != sid ==> r.state[k] == m.state[k])
  {
  }

  /** Deleting main is refused; any other existing branch stays listed, only flagged. */
  lemma DeleteIsSoft(svc: Service, sid: string, name: string)
    ensures DeleteBranch(svc, sid, "main") == Failed("Cannot delete main branch", svc)
    ensures name != "main" && sid in svc && name in svc[sid].branches ==>
              var r := DeleteBranch(svc, sid, name);
              r.Ok? && r.state[sid].branches.Keys == svc[sid].branches.Keys
              && r.state[sid].branches[name] == svc[sid].branches[name].(isDeleted := true)
              && BranchNames(r.state, sid) == BranchNames(svc, sid)
    ensures name != "main" && (sid !in svc || name !in svc[sid].branches) ==> DeleteBranch(svc, sid, name) == Ok((), svc)
  {
  }

  /** Initialising main twice is the same as once. */
  lemma InitMainIdempotent(svc: Service, sid: string, data: Option<map<string, Value>>)
    ensures InitMain(InitMain(svc, sid, data), sid, data) == InitMain(svc, sid, data)
  {
    var once := InitMain(svc, sid, data);
    var c := once[sid];
    assert "main" in c.branches;
    var m := c.branches["main"];
    if m.data.None? || |m.data.value| == 0 {
      assert m.data == data;
      assert c.branches["main" := m.(data := data)] == c.branches;
    }
    assert once[sid := c] == once;
  }

  /** Initialisation keeps a main branch that already has data. */
  lemma InitMainKeepsData(svc: Service, sid: string, data: Option<map<string, Value>>)
    requires sid in svc && "main" in svc[sid].branches
    requires svc[sid].branches["main"].data.Some? && |svc[sid].branches["main"].data.value| > 0
    ensures InitMain(svc, sid, data) == svc
  {
  }
}

=== FILE: calculate.dfy ===
/**
 * The arithmetic of a calculate node: read a number from the context, combine it
 * with an operand and store the result back at the same path.
 *
 * Java computes in `double`; the model computes on integers and marks every result
 * that is not a whole number (and every operand it cannot read as one) as outside
 * the model instead of inventing a floating-point value.
 */
module Calculate {

  import opened Wrappers
  import opened Strings
  import opened Json
  import opened Paths
  import opened ContextOps

  /** Integers up to this magnitude are exact as doubles. */
  const ExactLimit: int := 0x20_0000_0000_0000

  /** Java's `(int)` cast of a whole double: values beyond the 32-bit range saturate. */
  function Clamp32(n: int): (r: int)
    ensures IntMin <= r <= IntMax
    ensures IntMin <= n <= IntMax ==> r == n
    ensures n > IntMax ==> r == IntMax
    ensures n < IntMin ==> r == IntMin
  {
    if n > IntMax then IntMax else if n < IntMin then IntMin else n
  }

  /** A number as `parseNumber` yields it: an exact integer, or a double the model does not track. */
  datatype Number = Exact(n: int) | Inexact

  /** An optional sign followed by at least one decimal digit. */
  predicate IsIntLiteral(t: string)
  {
    |t| > 0 &&
    var digits := if t[0] == '+' || t[0] == '-' then t[1..] else t;
    |digits| > 0 && AllDigits(digits)
  }

  function LiteralValue(t: string): int
    requires IsIntLiteral(t)
  {
    if t[0] == '-' then 0 - ParseNat(t[1..]) else if t[0] == '+' then ParseNat(t[1..]) else ParseNat(t)
  }

  /** Text that `Double.parseDouble` rejects for certain: no digit and no spelled-out special value. */
  predicate Unparseable(t: string)
  {
    (forall k :: 0 <= k < |t| ==> !IsDigit(t[k])) && !Contains(t, "NaN") && !Contains(t, "Infinity")
  }

  function FromInt(n: int): (r: Number)
    ensures r.Exact? <==> -ExactLimit <= n <= ExactLimit
  {
    if -ExactLimit <= n <= ExactLimit then Exact(n) else Inexact
  }

  /**
   * `parseNumber`: `null` and non-numeric kinds read as 0, numbers as themselves. Of the
   * strings, trimmed integer literals read as their value and text with no digit and no
   * `NaN` or `Infinity` reads as 0 (`Double.parseDouble` rejects it); any other text is
   * left untracked, whether Java reads it as a double or rejects it.
   */
  function ParseNumber(v: Value): (r: Number)
    ensures v.Null? || v.Bool? || v.Arr? || v.Obj? ==> r == Exact(0)
    ensures v.Dbl? ==> r == Inexact
    ensures v.Int? ==> r == FromInt(v.i)
    ensures v.Str? && IsIntLiteral(Trim(v.s)) ==> r == FromInt(LiteralValue(Trim(v.s)))
    ensures v.Str? && Unparseable(Trim(v.s)) ==> r == Exact(0)
    ensures v.Str? && !IsIntLiteral(Trim(v.s)) && !Unparseable(Trim(v.s)) ==> r == Inexact
  {
    match v
    case Int(i) => FromInt(i)
    case Dbl(_) => Inexact
    case Str(s) =>
      var t := Trim(s);
      if IsIntLiteral(t) then FromInt(LiteralValue(t))
      else if Unparseable(t) then Exact(0)
      else Inexact
    case _ => Exact(0)
  }

  /** The decimal text of an integer reads back as that integer. */
  lemma ParseNumberIntText(n: int)
    requires -ExactLimit <= n <= ExactLimit
    ensures ParseNumber(Str(IntToString(n))) == Exact(n)
    ensures ParseNumber(Int(n)) == Exact(n)
  {
    var t := IntToString(n);
    IntTextLiteral(n);
    assert Trim(t) == t;
    assert ParseNumber(Str(t)) == FromInt(LiteralValue(t));
  }

  /** The decimal text of an integer is an integer literal of that value with no blank edge. */
  lemma IntTextLiteral(n: int)
    ensures IsIntLiteral(IntToString(n)) && LiteralValue(IntToString(n)) == n
    ensures Trim(IntToString(n)) == IntToString(n)
  {
    var t := IntToString(n);
    var m := Magnitude(n);
    var digits := NatToString(m);
    ParseNatToString(m);
    assert t == (if n < 0 then "-" else "") + digits;
    if n < 0 {
      assert t[1..] == digits;
    } else {
      assert t == digits && IsDigit(t[0]);
    }
    assert IsDigit(t[|t| - 1]) by {
      assert t[|t| - 1] == digits[|digits| - 1];
    }
    TrimIdentity(t);
  }

  /** The operations a calculate step names, after lower-casing. */
  datatype Op = Add | Subtract | Multiply | Divide | Modulo | Power | Assign | Min | Max | Abs | Random | Unknown

  function OpOf(name: string): (r: Op)
  {
    match ToLower(name)
    case "add" => Add case "increment" => Add case "+" => Add
    case "subtract" => Subtract case "decrement" => Subtract case "-" => Subtract
    case "multiply" => Multiply case "*" => Multiply
    case "divide" => Divide case "/" => Divide
    case "modulo" => Modulo case "%" => Modulo
    case "power" => Power case "^" => Power
    case "set" => Assign case "=" => Assign
    case "min" => Min
    case "max" => Max
    case "abs" => Abs
    case "random" => Random
    case _ => Unknown
  }

  /** The names that select no operation, which the switch's default refuses. */
  lemma OpOfUnknown(name: string)
    ensures OpOf(name) == Unknown <==> ToLower(name) !in {"add", "increment", "+", "subtract", "decrement", "-",
              "multiply", "*", "divide", "/", "modulo", "%", "power", "^", "set", "=", "min", "max", "abs", "random"}
  {
  }

  function Magnitude(n: int): nat
  {
    if n < 0 then -n else n
  }

  /** Java's `%` on doubles holding integers: the remainder takes the dividend's sign. */
  function JavaRem(a: int, b: int): (r: int)
    requires b != 0
    ensures Magnitude(r) < Magnitude(b)
    ensures r == 0 || (r < 0 <==> a < 0)
  {
    if a < 0 then -(Magnitude(a) % Magnitude(b)) else Magnitude(a) % Magnitude(b)
  }

  /** The quotient rounded toward zero, which `JavaRem` completes. */
  function TruncDiv(a: int, b: int): int
    requires b != 0
  {
    if (a < 0) == (b < 0) then Magnitude(a) / Magnitude(b) else -(Magnitude(a) / Magnitude(b))
  }

  lemma JavaRemDivision(a: int, b: int)
    requires b != 0
    ensures a == b * TruncDiv(a, b) + JavaRem(a, b)
  {
    var q := Magnitude(a) / Magnitude(b);
    var r := Magnitude(a) % Magnitude(b);
    assert Magnitude(a) == Magnitude(b) * q + r;
  }

  function Pow(base: int, e: nat): int
  {
    if e == 0 then 1 else base * Pow(base, e - 1)
  }

  /** What an operation yields: a whole number, a refusal, or a non-whole double the model leaves out. */
  datatype Outcome = Whole(n: int) | Refused | Fractional

  /**
   * `executeCalculateOperation`'s switch on numbers: division and modulo refuse a
   * zero operand, an unknown operation is refused, and a result that need not be
   * whole (random, an inexact division, a negative power, an inexact input that is
   * used) falls outside the model.
   */
  function Arith(op: Op, current: Number, operand: Number): (r: Outcome)
    ensures op == Unknown ==> r == Refused
    ensures (op == Divide || op == Modulo) && operand == Exact(0) && current.Exact? ==> r == Refused
    ensures op == Assign && operand.Exact? ==> r == Whole(operand.n)
    ensures op == Abs && current.Exact? ==> r == Whole(Magnitude(current.n))
  {
    if op == Unknown then Refused
    else if op == Random then Fractional
    else if (op != Assign && current.Inexact?) || (op != Abs && operand.Inexact?) then Fractional
    else
      var c := if op == Assign then 0 else current.n;
      var o := if op == Abs then 0 else operand.n;
      match op
      case Add => Whole(c + o)
      case Subtract => Whole(c - o)
      case Multiply => Whole(c * o)
      case Divide => if o == 0 then Refused else if c % o == 0 then Whole(c / o) else Fractional
      case Modulo => if o == 0 then Refused else Whole(JavaRem(c, o))
      case Power => if o >= 0 then Whole(Pow(c, o)) else Fractional
      case Assign => Whole(o)
      case Min => Whole(if c <= o then c else o)
      case Max => Whole(if c >= o then c else o)
      case Abs => Whole(Magnitude(c))
  }

  /** Dividing then multiplying by the same operand restores an exactly divisible value. */
  lemma DivideInverts(c: int, o: int)
    requires o != 0 && c % o == 0
    ensures Arith(Divide, Exact(c), Exact(o)).Whole?
    ensures Arith(Multiply, Exact(Arith(Divide, Exact(c), Exact(o)).n), Exact(o)) == Whole(c)
  {
  }

  /** The outcome for one operation on the current context. */
  function Compute(ctx: Context, target: string, op: string, value: Value): Outcome
  {
    Arith(OpOf(op), ParseNumber(Lookup(ctx, target)), ParseNumber(value))
  }

  /** One calculate step, or `None` when its result is a double the model leaves out. */
  function Operation(ctx: Context, target: string, op: string, value: Value): (r: Option<Edit>)
    ensures r.None? <==> Compute(ctx, target, op, value).Fractional?
    ensures Compute(ctx, target, op, value).Refused? ==> r == Some(Edit(false, ctx))
    ensures Compute(ctx, target, op, value).Whole? ==>
              r == Some(SetValue(ctx, target, Int(Clamp32(Compute(ctx, target, op, value).n))))
  {
    match Compute(ctx, target, op, value)
    case Whole(n) => Some(SetValue(ctx, target, Int(Clamp32(n))))
    case Refused => Some(Edit(false, ctx))
    case Fractional => None
  }

  /** A key that names one top-level entry, read and written alike. */
  predicate PlainKey(key: string)
  {
    key != "" && NoBrackets(key) && '.' !in key && !StartsWith(key, "context.")
  }

  lemma PlainKeyPath(key: string)
    requires PlainKey(key)
    ensures ParsePath(key) == [key] && !IsIndexSegment(key)
  {
    ParseDottedPath(key);
    NoDotNoSplit(key);
    assert NonEmpty([key]) == [key] by {
      assert [key][1..] == [];
    }
    assert !IsIndexSegment(key) by {
      assert key[0] in key;
    }
  }

  /** Writing a plain key replaces exactly that top-level entry. */
  lemma SetPlainKey(ctx: Context, key: string, v: Value)
    requires PlainKey(key)
    ensures SetValue(ctx, key, v) == Edit(true, ctx[key := v])
  {
    PlainKeyPath(key);
  }

  lemma LowerPlain(s: string)
    requires forall k :: 0 <= k < |s| ==> !('A' <= s[k] <= 'Z') && s[k] < 'À'
    ensures ToLower(s) == s
  {
  }


  /** Adding or subtracting two exact integers read from a plain key and an operand. */
  lemma ComputeSum(ctx: Context, key: string, op: string, c: int, d: int)
    requires PlainKey(key) && key in ctx && ctx[key] == Int(c) && OpOf(op) in {Add, Subtract}
    requires -ExactLimit <= c <= ExactLimit && -ExactLimit <= d <= ExactLimit
    ensures Compute(ctx, key, op, Int(d)) == Whole(if OpOf(op) == Add then c + d else c - d)
  {
    LookupTopLevel(ctx, key);
    assert ParseNumber(Lookup(ctx, key)) == Exact(c);
    assert ParseNumber(Int(d)) == Exact(d);
  }

  /** A sum step stores its saturated result at the plain key and reports success. */
  lemma OperationSum(ctx: Context, key: string, op: string, c: int, d: int)
    requires PlainKey(key) && key in ctx && ctx[key] == Int(c) && OpOf(op) in {Add, Subtract}
    requires -ExactLimit <= c <= ExactLimit && -ExactLimit <= d <= ExactLimit
    ensures Operation(ctx, key, op, Int(d)) == Some(Edit(true, ctx[key := Int(Clamp32(if OpOf(op) == Add then c + d else c - d))]))
  {
    var n := Clamp32(if OpOf(op) == Add then c + d else c - d);
    ComputeSum(ctx, key, op, c, d);
    assert Operation(ctx, key, op, Int(d)) == Some(SetValue(ctx, key, Int(n)));
    SetPlainKey(ctx, key, Int(n));
  }

  /**
   * Add then subtract of the same amount restores a 32-bit counter: the two steps
   * are inverse when neither leaves the 32-bit range. Any spelling of the two
   * operations works (`add`, `increment`, `+`, in any letter case).
   */
  lemma AddThenSubtract(ctx: Context, key: string, c: int, d: int, add: string, subtract: string)
    requires PlainKey(key) && key in ctx && ctx[key] == Int(c)
    requires OpOf(add) == Add && OpOf(subtract) == Subtract
    requires IntMin <= c <= IntMax && IntMin <= c + d <= IntMax && Magnitude(d) <= IntMax + 1
    ensures Operation(ctx, key, add, Int(d)) == Some(Edit(true, ctx[key := Int(c + d)]))
    ensures Operation(ctx[key := Int(c + d)], key, subtract, Int(d)) == Some(Edit(true, ctx))
  {
    var mid := ctx[key := Int(c + d)];
    OperationSum(ctx, key, add, c, d);
    OperationSum(mid, key, subtract, c + d, d);
    assert mid[key := Int(c)] == ctx;
  }

  /** Division and modulo by zero fail and leave the context as it was. */
  lemma ByZeroRefused(ctx: Context, target: string, op: string, value: Value)
    requires OpOf(op) == Divide || OpOf(op) == Modulo
    requires ParseNumber(value) == Exact(0) && ParseNumber(Lookup(ctx, target)).Exact?
    ensures Operation(ctx, target, op, value) == Some(Edit(false, ctx))
  {
  }

  /** A whole result is stored at a plain target, saturated to 32 bits, and reads back. */
  lemma StoredResult(ctx: Context, key: string, op: string, value: Value)
    requires PlainKey(key) && Compute(ctx, key, op, value).Whole?
    ensures Operation(ctx, key, op, value).Some? && Operation(ctx, key, op, value).value.ok
    ensures Lookup(Operation(ctx, key, op, value).value.ctx, key) == Int(Clamp32(Compute(ctx, key, op, value).n))
  {
    var n := Compute(ctx, key, op, value).n;
    SetPlainKey(ctx, key, Int(Clamp32(n)));
    LookupTopLevel(ctx[key := Int(Clamp32(n))], key);
  }

  /**
   * One calculate operation from its map: `target` and `operation` must be strings,
   * otherwise the operation fails. A result outside the model counts as failed.
   */
  function CalcStep(ctx: Context, op: map<string, Value>): (r: Edit)
    ensures !Get(op, "target").Str? || !Get(op, "operation").Str? ==> r == Edit(false, ctx)
  {
    var target := Get(op, "target");
    var operation := Get(op, "operation");
    if !target.Str? || !operation.Str? then Edit(false, ctx)
    else Operation(ctx, target.s, operation.s, Get(op, "value")).UnwrapOr(Edit(false, ctx))
  }

  /** The loop of a calculate node. */
  function RunCalculations(ctx: Context, ops: seq<Value>): Tally
  {
    RunAll(ctx, ops, CalcStep)
  }

  /** The operation map of "add 1 to `key`" under the operation name `name`. */
  function IncrementOp(key: string, name: string): Value
  {
    Obj(map["target" := Str(key), "operation" := Str(name), "value" := Int(1)])
  }

  lemma IncrementStep(ctx: Context, key: string, c: int, name: string)
    requires PlainKey(key) && key in ctx && ctx[key] == Int(c) && IntMin <= c <= IntMax && OpOf(name) == Add
    ensures CalcStep(ctx, IncrementOp(key, name).fields) == Edit(true, ctx[key := Int(Clamp32(c + 1))])
  {
    OperationSum(ctx, key, name, c, 1);
    var f := IncrementOp(key, name).fields;
    assert Get(f, "target") == Str(key) && Get(f, "operation") == Str(name) && Get(f, "value") == Int(1);
  }

  lemma IncrementFirst(ctx: Context, key: string, c: int, name: string, ops: seq<Value>)
    requires PlainKey(key) && key in ctx && ctx[key] == Int(c) && IntMin <= c <= IntMax && OpOf(name) == Add
    requires |ops| > 0 && ops[0] == IncrementOp(key, name)
    ensures RunCalculations(ctx, ops) == Then(Tally(1, 0, ctx[key := Int(Clamp32(c + 1))], false), RunCalculations(ctx[key := Int(Clamp32(c + 1))], ops[1..]))
  {
    IncrementStep(ctx, key, c, name);
    RunAllStep(ctx, ops, CalcStep);
  }

  /** A list of increments of a counter by 1 raises it by the list's length, up to the 32-bit bound. */
  lemma {:induction false} Increments(ctx: Context, key: string, c: int, name: string, ops: seq<Value>)
    requires PlainKey(key) && key in ctx && ctx[key] == Int(c) && 0 <= c <= IntMax && OpOf(name) == Add
    requires forall k :: 0 <= k < |ops| ==> ops[k] == IncrementOp(key, name)
    ensures RunCalculations(ctx, ops) == Tally(|ops|, 0, ctx[key := Int(Clamp32(c + |ops|))], false)
    decreases |ops|
  {
    if |ops| == 0 {
      assert ctx[key := Int(Clamp32(c))] == ctx;
    } else {
      var n := Clamp32(c + 1);
      var next := ctx[key := Int(n)];
      var tail := ops[1..];
      assert forall k :: 0 <= k < |tail| ==> tail[k] == ops[k + 1];
      var v := Int(Clamp32(c + |ops|));
      ClampStep(c, n, |tail|, |ops|);
      Overwrite(ctx, key, Int(n), v);
      assert next[key := Int(Clamp32(n + |tail|))] == ctx[key := v];
      IncrementFirst(ctx, key, c, name, ops);
      Increments(next, key, n, name, tail);
      assert RunCalculations(next, tail) == Tally(|tail|, 0, ctx[key := v], false);
    }
  }

  lemma ClampStep(c: int, n: int, m: nat, total: nat)
    requires 0 <= c && n == Clamp32(c + 1) && total == m + 1
    ensures Clamp32(n + m) == Clamp32(c + total)
  {
  }

  lemma Overwrite(ctx: Context, key: string, a: Value, b: Value)
    ensures ctx[key := a][key := b] == ctx[key := b]
  {
  }

  // ---------------------------------------------------------------------------
  // The store as the Java source writes it. The conditional `whole ? (int) r : r`
  // has type double, so the integer branch is widened back and a `Double` is
  // stored even for whole results.

  function DropTrailingZeros(s: string): (r: string)
    ensures |r| <= |s| && r == s[..|r|]
    ensures r == "" || r[|r| - 1] != '0'
    ensures forall k :: |r| <= k < |s| ==> s[k] == '0'
  {
    if |s| > 0 && s[|s| - 1] == '0' then DropTrailingZeros(s[..|s| - 1]) else s
  }

  /** `Double.toString` of a positive magnitude's digits in computerized scientific notation. */
  function Scientific(digits: string): (r: string)
    requires |digits| > 0
    ensures '.' in r
  {
    var frac := DropTrailingZeros(digits[1..]);
    var text := digits[..1] + "." + (if frac == "" then "0" else frac) + "E" + NatToString(|digits| - 1);
    assert text[1] == '.';
    text
  }

  /** `Double.toString` of a whole double: plain below ten million in magnitude, scientific above. */
  function DoubleText(n: int): (r: string)
    ensures '.' in r
  {
    if -10_000_000 < n < 10_000_000 then
      var text := IntToString(n) + ".0";
      assert text[|text| - 2] == '.';
      text
    else (if n < 0 then "-" else "") + Scientific(NatToString(Magnitude(n)))
  }

  /** The store as written: the saturated result goes back as a double. */
  function OperationAsWritten(ctx: Context, target: string, op: string, value: Value): (r: Option<Edit>)
    ensures r.None? <==> Compute(ctx, target, op, value).Fractional?
    ensures Compute(ctx, target, op, value).Whole? ==>
              r == Some(SetValue(ctx, target, Dbl(DoubleText(Clamp32(Compute(ctx, target, op, value).n)))))
  {
    match Compute(ctx, target, op, value)
    case Whole(n) => Some(SetValue(ctx, target, Dbl(DoubleText(Clamp32(n)))))
    case Refused => Some(Edit(false, ctx))
    case Fractional => None
  }

  lemma NoDotInInt(i: int)
    ensures '.' !in IntToString(i)
  {
    var t := IntToString(i);
    forall k | 0 <= k < |t| ensures t[k] != '.' {
      if i < 0 {
        if k > 0 {
          assert t[k] == NatToString(-i)[k - 1];
        }
      }
    }
  }

  /**
   * As written, a whole result never reads back as an integer: its text always has
   * a decimal point (`5.0` where `5` was meant), so a later template shows `5.0`.
   */
  lemma AsWrittenNeverInteger(ctx: Context, key: string, op: string, value: Value)
    requires PlainKey(key) && Compute(ctx, key, op, value).Whole?
    ensures OperationAsWritten(ctx, key, op, value).Some?
    ensures var after := OperationAsWritten(ctx, key, op, value).value.ctx;
            Lookup(after, key).Dbl? && forall i :: ValueText(Lookup(after, key)) != IntToString(i)
  {
    var n := Clamp32(Compute(ctx, key, op, value).n);
    SetPlainKey(ctx, key, Dbl(DoubleText(n)));
    LookupTopLevel(ctx[key := Dbl(DoubleText(n))], key);
    forall i ensures DoubleText(n) != IntToString(i) {
      NoDotInInt(i);
    }
  }

  lemma CountIsPlain()
    ensures PlainKey("count")
  {
    assert !StartsWith("count", "context.");
    assert forall k :: 0 <= k < 5 ==> "count"[k] != '.' && "count"[k] != '[' && "count"[k] != ']';
  }

  lemma CountAddsUp()
    ensures Compute(map["count" := Int(2)], "count", "add", Int(3)) == Whole(5)
  {
    var ctx := map["count" := Int(2)];
    CountIsPlain();
    LowerPlain("add");
    ComputeSum(ctx, "count", "add", 2, 3);
  }

  /** The counter 2 plus 3: stored as the double `5.0` as written, as the integer 5 once corrected. */
  lemma CounterExample()
    ensures var ctx := map["count" := Int(2)];
            OperationAsWritten(ctx, "count", "add", Int(3)) == Some(Edit(true, map["count" := Dbl("5.0")]))
            && Operation(ctx, "count", "add", Int(3)) == Some(Edit(true, map["count" := Int(5)]))
  {
    var ctx := map["count" := Int(2)];
    CountIsPlain();
    CountAddsUp();
    assert DoubleText(5) == "5.0" by {
      assert IntToString(5) == "5";
    }
    SetPlainKey(ctx, "count", Int(5));
    SetPlainKey(ctx, "count", Dbl("5.0"));
    assert ctx["count" := Int(5)] == map["count" := Int(5)];
    assert ctx["count" := Dbl("5.0")] == map["count" := Dbl("5.0")];
  }
}

=== FILE: chat_service.dfy ===
/**
 * `ScenarioBasedChatService`: the chat front end's sessions. A session created
 * from the entry-point scenario walks that scenario's `announce` and `ask` nodes;
 * a session without a scenario runs the built-in card-balance dialog. The
 * entry-point response of the scenario service is a parameter (`None` when the
 * call fails). Java casts that can throw are modelled as failures, and a failure
 * keeps whatever the session had already changed, because the session object is
 * updated in place.
 */
module ChatService {

  import opened Wrappers
  import opened Strings
  import opened Json
  import ScenarioStore

  /** `SessionState`; the scenario context only ever holds `last_answer` strings. */
  datatype Session = Session(
    step: Option<string>,
    scenarioId: Option<string>,
    scenario: Option<map<string, Value>>,
    wantsBalance: bool,
    cardNumber: Option<string>,
    context: map<string, string>)

  /** A new session: at step "start", with no scenario. */
  const Fresh := Session(Some("start"), None, None, false, None, map[])

  type Sessions = map<string, Session>

  /** One step on a session: the reply (Java `null` is `None`) and the session, or a throw and the session as it was left. */
  datatype Step = Said(text: Option<string>, session: Session) | Threw(session: Session)

  /** A public call: the reply and the sessions, or an exception escaping with the sessions as they were left. */
  datatype Turn = Reply(text: Option<string>, sessions: Sessions) | Crashed(sessions: Sessions)

  const Hello := "Привет! Как дела?"
  const BalanceHello := "Привет! Я помогу вам проверить баланс карты."
  const NoSession := "Сессия не найдена. Создайте новую сессию."
  const NodeMissing := "Узел сценария не найден."
  const DialogOver := "Диалог завершен."
  const ThanksForAnswer := "Спасибо за ответ!"
  const AnythingElse := "Что-то еще?"
  const Placeholder := "{last_answer}"

  // ---------------------------------------------------------------------------
  // Java casts: `None` when the cast throws, `Some(None)` for `null`.

  function AsMap(v: Value): Option<Option<map<string, Value>>>
  {
    match v
    case Null => Some(None)
    case Obj(m) => Some(Some(m))
    case _ => None
  }

  function AsText(v: Value): Option<Option<string>>
  {
    match v
    case Null => Some(None)
    case Str(s) => Some(Some(s))
    case _ => None
  }

  function AsList(v: Value): Option<Option<seq<Value>>>
  {
    match v
    case Null => Some(None)
    case Arr(items) => Some(Some(items))
    case _ => None
  }

  // ---------------------------------------------------------------------------
  // Opening message

  /** The loop of `getInitialMessage` over the nodes, looking for the start node's text. */
  function StartMessage(s: Session, start: string, nodes: seq<Value>): Step
  {
    if |nodes| == 0 then Said(Some(Hello), s)
    else if !nodes[0].Obj? then Threw(s)
    else
      var n := nodes[0].fields;
      if Get(n, "id") != Str(start) then StartMessage(s, start, nodes[1..])
      else if "content" in n then
        match AsText(n["content"])
        case Some(t) => Said(t, s.(step := Some(start)))
        case None => Threw(s.(step := Some(start)))
      else
        match AsMap(Get(n, "parameters"))
        case None => Threw(s)
        case Some(p) =>
          if p.Some? && "message" in p.value then
            match AsText(p.value["message"])
            case Some(t) => Said(t, s.(step := Some(start)))
            case None => Threw(s.(step := Some(start)))
          else StartMessage(s, start, nodes[1..])
  }

  /** `getInitialMessage`: the start node's text, moving the session onto it; the stock hello when anything is missing. */
  function InitialMessage(s: Session): Step
  {
    if s.scenario.None? then Said(Some(Hello), s)
    else match AsMap(Get(s.scenario.value, "scenario_data"))
      case None => Threw(s)
      case Some(None) => Said(Some(Hello), s)
      case Some(Some(data)) =>
        match AsText(Get(data, "start_node"))
        case None => Threw(s)
        case Some(None) => Said(Some(Hello), s)
        case Some(Some(start)) =>
          match AsList(Get(data, "nodes"))
          case None => Threw(s)
          case Some(None) => Said(Some(Hello), s)
          case Some(Some(nodes)) => StartMessage(s, start, nodes)
  }

  /**
   * `createSession`: a session on the entry-point scenario and its opening
   * message. Any failure, including a missing response, leaves a fresh session
   * for the balance dialog instead.
   */
  function CreateSession(sessions: Sessions, id: string, entry: Option<map<string, Value>>): (r: Turn)
    ensures r.Reply? && id in r.sessions
    ensures forall other :: other in sessions && other != id ==> other in r.sessions && r.sessions[other] == sessions[other]
    ensures r.sessions.Keys == sessions.Keys + {id}
  {
    if entry.None? then Reply(Some(BalanceHello), sessions[id := Fresh])
    else match AsText(Get(entry.value, "id"))
      case None => Reply(Some(BalanceHello), sessions[id := Fresh])
      case Some(sid) =>
        match InitialMessage(Fresh.(scenarioId := sid, scenario := entry))
        case Said(t, s) => Reply(t, sessions[id := s])
        case Threw(_) => Reply(Some(BalanceHello), sessions[id := Fresh])
  }

  // ---------------------------------------------------------------------------
  // Scenario dialog

  /** Fill `{last_answer}` in from the context when the text asks for it and an answer is stored. */
  function Substitute(t: Option<string>, context: map<string, string>): Option<string>
  {
    if t.Some? && Contains(t.value, Placeholder) && "last_answer" in context then Some(ReplaceAll(t.value, Placeholder, context["last_answer"]))
    else t
  }

  /** The node whose id is the current step: `Some(None)` when there is none, `None` when the search throws. */
  function FindNode(step: Option<string>, nodes: seq<Value>): Option<Option<map<string, Value>>>
  {
    if |nodes| == 0 then Some(None)
    else if !nodes[0].Obj? || step.None? then None
    else if Get(nodes[0].fields, "id") == Str(step.value) then Some(Some(nodes[0].fields))
    else FindNode(step, nodes[1..])
  }

  /** The text of an `ask` or `announce` node for `processNextNode`; `Some(None)` when the node has neither. */
  function NodeText(n: map<string, Value>, kind: string, context: map<string, string>): Option<Option<Option<string>>>
  {
    var field := if kind == "ask" then "question" else "message";
    if "content" in n then
      match AsText(n["content"])
      case None => None
      case Some(t) => Some(Some(if kind == "ask" then t else Substitute(t, context)))
    else
      match AsMap(Get(n, "parameters"))
      case None => None
      case Some(None) => Some(None)
      case Some(Some(p)) =>
        match AsText(Get(p, field))
        case None => None
        case Some(t) => Some(Some(if kind == "ask" then t else Substitute(t, context)))
  }

  /**
   * `processNextNode`: the text of the first node with the current step's id that
   * is an `ask` or `announce` node with text; "Что-то еще?" when there is none.
   * `None` when it throws.
   */
  function NextText(s: Session, nodes: seq<Value>): Option<Option<string>>
  {
    if |nodes| == 0 then Some(Some(AnythingElse))
    else if !nodes[0].Obj? || s.step.None? then None
    else
      var n := nodes[0].fields;
      if Get(n, "id") != Str(s.step.value) then NextText(s, nodes[1..])
      else
        match AsText(Get(n, "type"))
        case None => None
        case Some(kind) =>
          if kind == Some("ask") || kind == Some("announce") then
            match NodeText(n, kind.value, s.context)
            case None => None
            case Some(Some(t)) => Some(t)
            case Some(None) => NextText(s, nodes[1..])
          else NextText(s, nodes[1..])
  }

  /** Follow the node's first `next_nodes` entry and speak that node, or close with `done` when there is none. */
  function Advance(s: Session, node: map<string, Value>, nodes: seq<Value>, done: string): Step
  {
    match AsList(Get(node, "next_nodes"))
    case None => Threw(s)
    case Some(next) =>
      if next.None? || |next.value| == 0 then Said(Some(done), s)
      else match AsText(next.value[0])
        case None => Threw(s)
        case Some(step) =>
          var moved := s.(step := step);
          match NextText(moved, nodes)
          case None => Threw(moved)
          case Some(t) => Said(t, moved)
  }

  /** `executeFromScenario`: the current node decides; any other node type, or missing data, falls back to the balance dialog. */
  function FromScenario(s: Session, message: string): (r: Step)
    requires s.scenario.Some?
    ensures r.session.scenario == s.scenario && r.session.scenarioId == s.scenarioId
    ensures r.session.context == s.context || r.session.context == s.context["last_answer" := message]
    ensures r.session.wantsBalance != s.wantsBalance ==> s.step == Some("ask_balance") && r.session.wantsBalance
  {
    match AsMap(Get(s.scenario.value, "scenario_data"))
    case None => Threw(s)
    case Some(None) => BalanceDialog(s, message)
    case Some(Some(data)) =>
      match AsList(Get(data, "nodes"))
      case None => Threw(s)
      case Some(None) => BalanceDialog(s, message)
      case Some(Some(nodes)) =>
        match FindNode(s.step, nodes)
        case None => Threw(s)
        case Some(None) => Said(Some(NodeMissing), s)
        case Some(Some(node)) =>
          match (AsText(Get(node, "type")), AsMap(Get(node, "parameters")))
          case (Some(kind), Some(parameters)) =>
            if kind.None? then Threw(s)
            else if kind.value == "announce" then Advance(s, node, nodes, DialogOver)
            else if kind.value == "ask" then
              var answered := if parameters.Some? then s.(context := s.context["last_answer" := message]) else s;
              Advance(answered, node, nodes, ThanksForAnswer)
            else BalanceDialog(s, message)
          case _ => Threw(s)
  }

  // ---------------------------------------------------------------------------
  // The built-in balance dialog

  /** `message.matches("\\d{4}")`: exactly four ASCII digits. */
  predicate IsCardSuffix(message: string)
  {
    |message| == 4 && AllDigits(message)
  }

  function BalanceText(suffix: string): string
  {
    "Баланс карты ****" + suffix + ": 15,250.50 грн. Спасибо за обращение!"
  }

  /** `executeOldLogic`: the card-balance state machine keyed by the step. */
  function BalanceDialog(s: Session, message: string): (r: Step)
    ensures r.Threw? <==> s.step.None?
    ensures r.session.scenario == s.scenario && r.session.scenarioId == s.scenarioId && r.session.context == s.context
    ensures s.step.Some? && KnownStep(s.step.value) ==>
              r.session.step.Some? && KnownStep(r.session.step.value) && r.session.step != Some("start")
    ensures r.session.cardNumber != s.cardNumber ==> r.session.cardNumber.Some? && IsCardSuffix(r.session.cardNumber.value)
    ensures r.session.wantsBalance != s.wantsBalance ==> s.step == Some("ask_balance") && r.session.wantsBalance
  {
    if s.step.None? then Threw(s)
    else match s.step.value
      case "start" => Said(Some(BalanceHello), s.(step := Some("greeting")))
      case "greeting" => Said(Some("Хотите проверить баланс карты? (да/нет)"), s.(step := Some("ask_balance")))
      case "ask_balance" =>
        if Contains(message, "да") || Contains(message, "yes") then
          Said(Some("Введите последние 4 цифры карты:"), s.(step := Some("ask_card"), wantsBalance := true))
        else if Contains(message, "нет") || Contains(message, "no") then
          Said(Some("Хорошо, если понадобится помощь - обращайтесь!"), s.(step := Some("end")))
        else Said(Some("Пожалуйста, ответьте 'да' или 'нет'"), s)
      case "ask_card" =>
        if IsCardSuffix(message) then Said(Some(BalanceText(message)), s.(cardNumber := Some(message), step := Some("show_balance")))
        else Said(Some("Неверный формат. Введите 4 цифры:"), s)
      case "show_balance" => Said(Some("До свидания! Обращайтесь еще."), s.(step := Some("end")))
      case "end" => Said(Some("Сессия завершена. Создайте новую сессию для нового диалога."), s)
      case _ => Said(Some("Что-то пошло не так. Начнем сначала."), s)
  }

  /** `executeScenarioStep`. */
  function ExecuteStep(s: Session, message: string): (r: Step)
    ensures r.session.scenario == s.scenario && r.session.scenarioId == s.scenarioId
    ensures r.session.context == s.context || (s.scenario.Some? && r.session.context == s.context["last_answer" := message])
    ensures r.session.wantsBalance != s.wantsBalance ==> s.step == Some("ask_balance") && r.session.wantsBalance
    ensures s.scenario.None? ==> (r.Threw? <==> s.step.None?)
  {
    if s.scenario.Some? then FromScenario(s, message) else BalanceDialog(s, message)
  }

  /** `processMessage`: run one step of the session on the normalised message. */
  function ProcessMessage(sessions: Sessions, id: string, message: string): (r: Turn)
    ensures id !in sessions ==> r == Reply(Some(NoSession), sessions)
    ensures r.sessions.Keys == sessions.Keys
    ensures forall other :: other in sessions && other != id ==> r.sessions[other] == sessions[other]
  {
    if id !in sessions then Reply(Some(NoSession), sessions)
    else match ExecuteStep(sessions[id], Normalise(message))
      case Said(t, s) => Reply(t, sessions[id := s])
      case Threw(s) => Crashed(sessions[id := s])
  }

  /** `clearSession`. */
  function ClearSession(sessions: Sessions, id: string): (r: Sessions)
    ensures id !in r && r.Keys == sessions.Keys - {id}
    ensures forall other :: other in r ==> r[other] == sessions[other]
  {
    sessions - {id}
  }

  /** `getActiveSessionsCount`. */
  function ActiveCount(sessions: Sessions): nat
  {
    |sessions|
  }

  // ---------------------------------------------------------------------------
  // Properties

  /** A message is normalised before it is used, so an already-normalised message gives the same turn. */
  lemma MessageNormalised(sessions: Sessions, id: string, message: string)
    ensures ProcessMessage(sessions, id, Normalise(message)) == ProcessMessage(sessions, id, message)
  {
    NormaliseIdempotent(message);
  }

  /** Creating a session adds at most one to the count; clearing it brings the count back. */
  lemma CreateThenClear(sessions: Sessions, id: string, entry: Option<map<string, Value>>)
    requires id !in sessions
    ensures ActiveCount(CreateSession(sessions, id, entry).sessions) == ActiveCount(sessions) + 1
    ensures ClearSession(CreateSession(sessions, id, entry).sessions, id) == sessions
  {
    var r := CreateSession(sessions, id, entry);
    assert r.sessions.Keys == sessions.Keys + {id};
    assert ClearSession(r.sessions, id).Keys == sessions.Keys;
  }

  /** Without a usable entry point, the session starts the balance dialog. */
  lemma NoEntryPointFallsBack(sessions: Sessions, id: string)
    ensures CreateSession(sessions, id, None) == Reply(Some(BalanceHello), sessions[id := Fresh])
  {
  }

  /** The steps of the balance dialog. */
  predicate KnownStep(step: string)
  {
    step in {"start", "greeting", "ask_balance", "ask_card", "show_balance", "end"}
  }

  /** The balance dialog never throws on a known step, never leaves the known steps, and never moves back to "start". */
  lemma BalanceDialogStaysKnown(s: Session, message: string)
    requires s.step.Some? && KnownStep(s.step.value)
    ensures BalanceDialog(s, message).Said?
    ensures BalanceDialog(s, message).session.step.Some? && KnownStep(BalanceDialog(s, message).session.step.value)
    ensures BalanceDialog(s, message).session.step != Some("start")
  {
  }

  /** The balance dialog touches neither the scenario nor its context. */
  lemma BalanceDialogKeepsScenario(s: Session, message: string)
    ensures BalanceDialog(s, message).session.scenario == s.scenario && BalanceDialog(s, message).session.context == s.context
  {
  }

  /** "end" absorbs: the session stays there whatever is said. */
  lemma EndAbsorbs(s: Session, message: string)
    requires s.step == Some("end")
    ensures BalanceDialog(s, message) == Said(Some("Сессия завершена. Создайте новую сессию для нового диалога."), s)
  {
  }

  /** At "ask_card", four digits are remembered and the balance reported for them; anything else asks again. */
  lemma CardSuffixDecides(s: Session, message: string)
    requires s.step == Some("ask_card")
    ensures IsCardSuffix(message) ==>
              BalanceDialog(s, message) == Said(Some(BalanceText(message)), s.(cardNumber := Some(message), step := Some("show_balance")))
    ensures !IsCardSuffix(message) ==> BalanceDialog(s, message).session == s
  {
  }

  /** At "ask_balance", a yes moves on to the card; otherwise a no ends; otherwise the question repeats. */
  lemma YesBeforeNo(s: Session, message: string)
    requires s.step == Some("ask_balance")
    ensures Contains(message, "да") ==> BalanceDialog(s, message).session.step == Some("ask_card")
    ensures !Contains(message, "да") && !Contains(message, "yes") && Contains(message, "no") ==>
              BalanceDialog(s, message).session.step == Some("end")
    ensures !Contains(message, "да") && !Contains(message, "yes") && !Contains(message, "нет") && !Contains(message, "no") ==>
              BalanceDialog(s, message).session == s
  {
  }

  /** The whole balance conversation of a fresh session, five messages from greeting to goodbye. */
  lemma BalanceConversation(a: string, b: string, c: string, d: string, e: string)
    requires Contains(c, "да") && IsCardSuffix(d)
    ensures var s1 := BalanceDialog(Fresh, a).session;
            var s2 := BalanceDialog(s1, b).session;
            var s3 := BalanceDialog(s2, c).session;
            var r4 := BalanceDialog(s3, d);
            var s5 := BalanceDialog(r4.session, e).session;
            r4.text == Some(BalanceText(d)) && r4.session.cardNumber == Some(d) && r4.session.wantsBalance
            && s5.step == Some("end")
  {
  }

  /** The placeholder of a template is filled in with the stored answer. */
  lemma SubstituteFills(pre: string, post: string, answer: string, context: map<string, string>)
    requires '{' !in pre && !Contains(post, Placeholder)
    requires context == map["last_answer" := answer]
    ensures Substitute(Some(pre + Placeholder + post), context) == Some(pre + answer + post)
  {
    var t := pre + Placeholder + post;
    assert OccursAt(t, Placeholder, |pre|);
    IndexOfFinds(t, Placeholder, |pre|);
    ReplaceAllOnce(pre, Placeholder, answer, post);
  }

  /** Wherever the placeholder occurs, the text has an opening brace. */
  lemma PlaceholderOpensWithBrace(t: string)
    ensures Contains(t, Placeholder) ==> '{' in t
  {
    if Contains(t, Placeholder) {
      var j := IndexOf(t, Placeholder).value;
      assert t[j] == t[j..j + |Placeholder|][0];
    }
  }

  /** An occurrence of `t` means `IndexOf` finds one. */
  lemma IndexOfFinds(s: string, t: string, j: nat)
    requires OccursAt(s, t, j)
    ensures Contains(s, t)
  {
    IndexOfFromFinds(s, t, 0, j);
  }

  lemma {:induction false} IndexOfFromFinds(s: string, t: string, from: nat, j: nat)
    requires from <= j && OccursAt(s, t, j)
    ensures IndexOfFrom(s, t, from).Some?
    decreases j - from
  {
    if !OccursAt(s, t, from) {
      IndexOfFromFinds(s, t, from + 1, j);
    }
  }

  /** An `announce` node moves on to its first successor and speaks it, or ends the dialog. */
  lemma AnnounceAdvances(s: Session, message: string, data: map<string, Value>, nodes: seq<Value>, node: map<string, Value>)
    requires s.scenario.Some? && Get(s.scenario.value, "scenario_data") == Obj(data) && Get(data, "nodes") == Arr(nodes)
    requires FindNode(s.step, nodes) == Some(Some(node))
    requires Get(node, "type") == Str("announce") && AsMap(Get(node, "parameters")).Some?
    ensures FromScenario(s, message) == Advance(s, node, nodes, DialogOver)
  {
  }

  /** At an `ask` node with parameters, the answer is stored as `last_answer` before the dialog moves on. */
  lemma AskAdvances(s: Session, message: string, data: map<string, Value>, nodes: seq<Value>, node: map<string, Value>)
    requires s.scenario.Some? && Get(s.scenario.value, "scenario_data") == Obj(data) && Get(data, "nodes") == Arr(nodes)
    requires FindNode(s.step, nodes) == Some(Some(node))
    requires Get(node, "type") == Str("ask") && Get(node, "parameters").Obj?
    ensures FromScenario(s, message) == Advance(s.(context := s.context["last_answer" := message]), node, nodes, ThanksForAnswer)
    ensures FromScenario(s, message).session.context == s.context["last_answer" := message]
  {
  }

  /** `executeFromScenario` passes over a node with another id. */
  lemma FindNodeSkips(step: string, nodes: seq<Value>)
    requires |nodes| > 0 && nodes[0].Obj? && Get(nodes[0].fields, "id") != Str(step)
    ensures FindNode(Some(step), nodes) == FindNode(Some(step), nodes[1..])
  {
  }

  // ---------------------------------------------------------------------------
  // The seeded greeting scenario

  /** The entry-point response for the seeded greeting scenario: any map carrying its id and graph. */
  predicate GreetingEntry(entry: map<string, Value>)
  {
    Get(entry, "id") == Str("greeting-001") && Get(entry, "scenario_data") == Obj(ScenarioStore.GreetingData)
  }

  function GreetingNodes(): seq<Value>
  {
    ScenarioStore.GreetingData["nodes"].items
  }

  /** A session on the greeting scenario opens with its welcome and stands on the welcome node. */
  lemma GreetingOpens(sessions: Sessions, id: string, entry: map<string, Value>)
    requires GreetingEntry(entry)
    ensures var r := CreateSession(sessions, id, Some(entry));
            r.text == Some(Hello) && r.sessions[id].step == Some("welcome") && r.sessions[id].scenario == Some(entry)
  {
    var nodes := GreetingNodes();
    assert Get(nodes[0].fields, "id") == Str("welcome");
    assert AsText(Get(nodes[0].fields["parameters"].fields, "message")) == Some(Some(Hello));
  }

  /** Whatever is said at the welcome, the dialog moves to the name question. */
  lemma GreetingAsksName(s: Session, message: string)
    requires s.scenario.Some? && GreetingEntry(s.scenario.value) && s.step == Some("welcome")
    ensures FromScenario(s, message) == Said(Some("Как вас зовут?"), s.(step := Some("ask_name")))
  {
    var nodes := GreetingNodes();
    var welcome := nodes[0].fields;
    assert Get(welcome, "id") == Str("welcome") && Get(welcome, "type") == Str("announce");
    assert Get(welcome, "next_nodes") == Arr([Str("ask_name")]);
    assert FindNode(s.step, nodes) == Some(Some(welcome));
    AnnounceAdvances(s, message, ScenarioStore.GreetingData, nodes, welcome);
    GreetingQuestion(s.(step := Some("ask_name")));
  }

  /** Standing on the name question, the text spoken is the question. */
  lemma GreetingQuestion(moved: Session)
    requires moved.step == Some("ask_name")
    ensures NextText(moved, GreetingNodes()) == Some(Some("Как вас зовут?"))
  {
    var nodes := GreetingNodes();
    NextTextSkips(moved, nodes);
    var ask := nodes[1].fields;
    assert Get(ask, "id") == Str("ask_name") && Get(ask, "type") == Str("ask") && "content" !in ask;
    assert NodeText(ask, "ask", moved.context) == Some(Some(Some("Как вас зовут?")));
  }

  /** The greeting's template quotes the stored answer. */
  lemma GreetTemplateFilled(name: string)
    ensures Substitute(Some(ScenarioStore.GreetPrefix + Placeholder + ScenarioStore.GreetSuffix), map["last_answer" := name])
            == Some(ScenarioStore.GreetPrefix + name + ScenarioStore.GreetSuffix)
  {
    PlaceholderOpensWithBrace(ScenarioStore.GreetSuffix);
    SubstituteFills(ScenarioStore.GreetPrefix, ScenarioStore.GreetSuffix, name, map["last_answer" := name]);
  }

  /** The answer to the name question is stored and the greeting quotes it back. */
  lemma GreetingQuotesName(s: Session, name: string)
    requires s.scenario.Some? && GreetingEntry(s.scenario.value) && s.step == Some("ask_name") && s.context == map[]
    ensures FromScenario(s, name)
            == Said(Some(ScenarioStore.GreetPrefix + name + ScenarioStore.GreetSuffix),
                    s.(context := map["last_answer" := name], step := Some("greet_user")))
  {
    var nodes := GreetingNodes();
    var ask := nodes[1].fields;
    assert Get(ask, "id") == Str("ask_name") && Get(ask, "type") == Str("ask") && Get(ask, "parameters").Obj?;
    assert Get(ask, "next_nodes") == Arr([Str("greet_user")]);
    FindNodeSkips("ask_name", nodes);
    assert FindNode(s.step, nodes) == Some(Some(ask));
    AskAdvances(s, name, ScenarioStore.GreetingData, nodes, ask);
    assert s.context["last_answer" := name] == map["last_answer" := name];
    GreetingSpeaks(s.(context := map["last_answer" := name], step := Some("greet_user")), name);
  }

  /** Standing on the last node with an answer stored, the greeting node's text quotes it. */
  lemma GreetingSpeaks(moved: Session, name: string)
    requires moved.step == Some("greet_user") && moved.context == map["last_answer" := name]
    ensures NextText(moved, GreetingNodes()) == Some(Some(ScenarioStore.GreetPrefix + name + ScenarioStore.GreetSuffix))
  {
    var nodes := GreetingNodes();
    NextTextSkips(moved, nodes);
    NextTextSkips(moved, nodes[1..]);
    assert nodes[1..][1..] == nodes[2..];
    var last := nodes[2].fields;
    assert Get(last, "id") == Str("greet_user") && Get(last, "type") == Str("announce") && "content" !in last;
    assert Get(last["parameters"].fields, "message") == Str(ScenarioStore.GreetPrefix + Placeholder + ScenarioStore.GreetSuffix);
    GreetTemplateFilled(name);
  }

  /** `processNextNode` passes over a node with another id. */
  lemma NextTextSkips(s: Session, nodes: seq<Value>)
    requires |nodes| > 0 && nodes[0].Obj? && s.step.Some? && Get(nodes[0].fields, "id") != Str(s.step.value)
    ensures NextText(s, nodes) == NextText(s, nodes[1..])
  {
  }

  /** After the greeting the scenario has nowhere to go: the dialog is over and stays at its last node. */
  lemma GreetingEnds(s: Session, message: string)
    requires s.scenario.Some? && GreetingEntry(s.scenario.value) && s.step == Some("greet_user")
    ensures FromScenario(s, message) == Said(Some(DialogOver), s)
  {
    var nodes := GreetingNodes();
    var last := nodes[2].fields;
    assert Get(last, "id") == Str("greet_user") && Get(last, "type") == Str("announce") && Get(last, "parameters").Obj?;
    assert Get(last, "next_nodes") == Arr([]);
    FindNodeSkips("greet_user", nodes);
    FindNodeSkips("greet_user", nodes[1..]);
    assert nodes[1..][1..] == nodes[2..];
    assert FindNode(s.step, nodes) == Some(Some(last));
    AnnounceAdvances(s, message, ScenarioStore.GreetingData, nodes, last);
  }
}

=== FILE: conditions.dfy ===
/**
 * The condition language of condition and switch nodes: `||` alternatives, string
 * comparison with `==` / `!=` against a top-level context key, and three hard-wired
 * legacy tests. Anything else is false.
 */
module Conditions {

  import opened Wrappers
  import opened Strings
  import opened Json
  import opened Paths

  /** The text a comparison reads for a key: `value.toString()`, or the empty string for `null`. */
  function TopText(ctx: Context, key: string): string
  {
    if Get(ctx, key).Null? then "" else ValueText(Get(ctx, key))
  }

  /**
   * A comparison on `op`: when `split(op)` yields exactly two pieces, the trimmed left
   * side without a `context.` prefix names a top-level key whose text is compared with
   * the trimmed right side stripped of every `"`. Otherwise the form does not apply.
   */
  function Compare(c: string, op: string, ctx: Context): (r: Option<bool>)
    requires |op| > 0
    ensures r.Some? <==> |Split(c, op)| == 2
  {
    var parts := Split(c, op);
    if |parts| == 2 then
      var left := StripContextPrefix(Trim(parts[0]));
      var right := ReplaceAll(Trim(parts[1]), "\"", "");
      Some(TopText(ctx, left) == right)
    else None
  }

  /** `evaluateCondition` on a present condition text. */
  function EvaluateText(c: string, ctx: Context): (r: bool)
    ensures !Contains(c, "||") && !Contains(c, "==") && !Contains(c, "!=") && !Contains(c, "context.operation") ==> !r
    decreases |c|
  {
    if Contains(c, "||") then
      var parts := Split(c, "||");
      SplitPieces(c, "||");
      exists k | 0 <= k < |parts| :: EvaluateText(Trim(parts[k]), ctx)
    else Atom(c, ctx)
  }

  /** A condition without `||`. */
  function Atom(c: string, ctx: Context): (r: bool)
    ensures !Contains(c, "==") && !Contains(c, "!=") && !Contains(c, "context.operation") ==> !r
  {
    ContainsInner(c, "context.wantsBalance ", "==", " true");
    assert "context.wantsBalance " + "==" + " true" == "context.wantsBalance == true";
    ContainsInner(c, "context.validCard ", "==", " true");
    assert "context.validCard " + "==" + " true" == "context.validCard == true";
    var eq := Compare(c, "==", ctx);
    var ne := Compare(c, "!=", ctx);
    if eq.Some? then eq.value
    else if ne.Some? then !ne.value
    else if Contains(c, "context.operation") then "operation" in ctx
    else if Contains(c, "context.wantsBalance == true") then Get(ctx, "wantsBalance") == Bool(true)
    else if Contains(c, "context.validCard == true") then Get(ctx, "validCard") == Bool(true)
    else false
  }

  /** `evaluateCondition`: a missing condition holds. */
  function Evaluate(c: Option<string>, ctx: Context): (r: bool)
    ensures c.None? ==> r
  {
    match c
    case None => true
    case Some(t) => EvaluateText(t, ctx)
  }

  /** Text free of the characters that make up the operators. */
  predicate Plain(s: string)
  {
    '=' !in s && '|' !in s && '!' !in s
  }

  lemma PlainNoOp(s: string, op: string)
    requires Plain(s) && |op| > 0 && (op[0] == '=' || op[0] == '|' || op[0] == '!')
    ensures !Contains(s, op)
  {
    forall j ensures !OccursAt(s, op, j) {
      if 0 <= j && j + |op| <= |s| {
        assert s[j..j + |op|][0] == s[j] && s[j] in s;
      }
    }
  }

  /** `left == right`: the left key's text equals the right side with quotes removed. */
  lemma EqualsCompares(left: string, right: string, ctx: Context)
    requires Plain(left) && Plain(right) && right != ""
    ensures EvaluateText(left + "==" + right, ctx)
            == (TopText(ctx, StripContextPrefix(Trim(left))) == ReplaceAll(Trim(right), "\"", ""))
  {
    var c := left + "==" + right;
    NoOrIn(left, "==", right);
    SplitTwo(left, "==", right);
  }

  /** `left != right` is the negation of the same comparison. */
  lemma NotEqualsNegates(left: string, right: string, ctx: Context)
    requires Plain(left) && Plain(right) && right != ""
    ensures EvaluateText(left + "!=" + right, ctx) == !EvaluateText(left + "==" + right, ctx)
  {
    var c := left + "!=" + right;
    NoOrIn(left, "!=", right);
    NotEqualsForm(left, right, ctx);
    assert EvaluateText(c, ctx) == Atom(c, ctx);
    EqualsCompares(left, right, ctx);
  }

  lemma NotEqualsForm(left: string, right: string, ctx: Context)
    requires Plain(left) && Plain(right) && right != ""
    ensures Compare(left + "!=" + right, "==", ctx).None?
    ensures Compare(left + "!=" + right, "!=", ctx)
            == Some(TopText(ctx, StripContextPrefix(Trim(left))) == ReplaceAll(Trim(right), "\"", ""))
  {
    var c := left + "!=" + right;
    SplitTwo(left, "!=", right);
    assert "=="[0] == '=' && "=="[1] == '=';
    forall j ensures !OccursAt(c, "==", j) {
      if 0 <= j && j + 2 <= |c| {
        assert c[j..j + 2] == [c[j], c[j + 1]];
        if j < |left| {
          assert c[j] == left[j] && left[j] in left;
        } else if j == |left| {
          assert c[j] == '!';
        } else {
          assert c[j + 1] == right[j + 1 - |left| - 2] && c[j + 1] in right;
        }
      }
    }
    assert !Contains(c, "==");
    assert Split(c, "==") == [c];
  }

  lemma NoOrIn(left: string, op: string, right: string)
    requires Plain(left) && Plain(right) && |op| == 2 && '|' !in op
    ensures !Contains(left + op + right, "||")
  {
    var c := left + op + right;
    assert "||"[0] == '|';
    forall j ensures !OccursAt(c, "||", j) {
      if 0 <= j && j + 2 <= |c| {
        assert c[j..j + 2][0] == c[j];
        if j < |left| {
          assert c[j] == left[j] && left[j] in left;
        } else if j < |left| + 2 {
          assert c[j] == op[j - |left|] && op[j - |left|] in op;
        } else {
          assert c[j] == right[j - |left| - 2] && c[j] in right;
        }
      }
    }
  }

  /** A condition with `||` holds when one of its trimmed alternatives holds. */
  lemma OrAlternatives(c: string, ctx: Context)
    requires Contains(c, "||")
    ensures EvaluateText(c, ctx)
            == exists k | 0 <= k < |Split(c, "||")| :: EvaluateText(Trim(Split(c, "||")[k]), ctx)
  {
  }

  /** Two alternatives joined by `||`: the condition holds when either trimmed side holds. */
  lemma OrOfTwo(a: string, b: string, ctx: Context)
    requires '|' !in a && '|' !in b && b != ""
    ensures EvaluateText(a + "||" + b, ctx) == (EvaluateText(Trim(a), ctx) || EvaluateText(Trim(b), ctx))
  {
    var c := a + "||" + b;
    SplitOrTwo(a, b);
    OrAlternatives(c, ctx);
    AnyOfTwo(Split(c, "||"), a, b, ctx);
  }

  /** Some alternative of a two-element list holds exactly when one of the two does. */
  lemma AnyOfTwo(parts: seq<string>, a: string, b: string, ctx: Context)
    requires parts == [a, b]
    ensures (exists k | 0 <= k < |parts| :: EvaluateText(Trim(parts[k]), ctx))
            == (EvaluateText(Trim(a), ctx) || EvaluateText(Trim(b), ctx))
  {
    if EvaluateText(Trim(a), ctx) || EvaluateText(Trim(b), ctx) {
      assert EvaluateText(Trim(parts[0]), ctx) || EvaluateText(Trim(parts[1]), ctx);
    } else {
      NoneOfTwo(parts, a, b, ctx);
    }
  }

  lemma NoneOfTwo(parts: seq<string>, a: string, b: string, ctx: Context)
    requires parts == [a, b] && !EvaluateText(Trim(a), ctx) && !EvaluateText(Trim(b), ctx)
    ensures forall k | 0 <= k < |parts| :: !EvaluateText(Trim(parts[k]), ctx)
  {
    forall k | 0 <= k < |parts| ensures !EvaluateText(Trim(parts[k]), ctx) {
      assert parts[k] == a || parts[k] == b;
    }
  }

  lemma SplitOrTwo(a: string, b: string)
    requires '|' !in a && '|' !in b && b != ""
    ensures Contains(a + "||" + b, "||") && Split(a + "||" + b, "||") == [a, b]
  {
    var c := a + "||" + b;
    SplitTwo(a, "||", b);
    assert OccursAt(c, "||", |a|) by {
      assert c[|a|..|a| + 2] == "||";
    }
  }

  /** Comparisons read the top-level entry, which for a plain key is what a path lookup finds. */
  lemma TopTextIsLookup(ctx: Context, key: string)
    requires key != "" && NoBrackets(key) && '.' !in key && !StartsWith(key, "context.")
    ensures TopText(ctx, key) == if Lookup(ctx, key).Null? then "" else ValueText(Lookup(ctx, key))
  {
    LookupTopLevel(ctx, key);
  }
}

=== FILE: context_ops.dfy ===
/**
 * The edits a context-edit node applies to the dialog context: set, delete, add,
 * merge and clear at a dotted path. Each reports whether it succeeded and yields the
 * edited context.
 */
module ContextOps {

  import opened Wrappers
  import opened Strings
  import opened Json
  import opened Paths
  import opened Templates

  /** An edit's outcome: whether it reports success, and the context afterwards. */
  datatype Edit = Edit(ok: bool, ctx: Context)

  /**
   * `setContextValue` below the map `m`: every segment but the last must be a key;
   * a missing or non-map entry on the way is replaced by an empty map, and those
   * replacements stay even when a later index segment makes the edit fail.
   */
  function SetIn(m: map<string, Value>, parts: seq<string>, v: Value): (r: (bool, map<string, Value>))
    requires |parts| > 0
    ensures r.0 <==> KeysOnly(parts)
    ensures IsIndexSegment(parts[0]) ==> r.1 == m
    ensures !IsIndexSegment(parts[0]) ==> r.1.Keys == m.Keys + {parts[0]}
    ensures forall k :: k in m && k != parts[0] ==> r.1[k] == m[k]
    decreases |parts|
  {
    if IsIndexSegment(parts[0]) then (false, m)
    else if |parts| == 1 then (true, m[parts[0] := v])
    else
      var child := Get(m, parts[0]);
      var inner := SetIn(if child.Obj? then child.fields else map[], parts[1..], v);
      (inner.0, m[parts[0] := Obj(inner.1)])
  }

  /** `setContextValue`: the path is cut into segments as written, without dropping a `context.` prefix. */
  function SetValue(ctx: Context, path: string, v: Value): (r: Edit)
    ensures ParsePath(path) == [] ==> r == Edit(false, ctx)
    ensures r.ok <==> ParsePath(path) != [] && KeysOnly(ParsePath(path))
  {
    var parts := ParsePath(path);
    if |parts| == 0 then Edit(false, ctx)
    else var (ok, m) := SetIn(ctx, parts, v); Edit(ok, m)
  }

  /** No segment of `parts` is an index. */
  predicate KeysOnly(parts: seq<string>)
  {
    forall k :: 0 <= k < |parts| ==> !IsIndexSegment(parts[k])
  }

  /** Setting along key segments succeeds and the value is then found along the same segments. */
  lemma {:induction false} SetInThenResolve(m: map<string, Value>, parts: seq<string>, v: Value)
    requires |parts| > 0 && KeysOnly(parts)
    ensures SetIn(m, parts, v).0
    ensures Resolve(Obj(SetIn(m, parts, v).1), parts) == v
    decreases |parts|
  {
    var r := SetIn(m, parts, v).1;
    assert !IsIndexSegment(parts[0]);
    if |parts| == 1 {
      assert Resolve(Obj(r), parts) == Resolve(v, parts[1..]);
    } else {
      var child := Get(m, parts[0]);
      var sub := if child.Obj? then child.fields else map[];
      assert KeysOnly(parts[1..]) by {
        forall k | 0 <= k < |parts[1..]| ensures !IsIndexSegment(parts[1..][k]) {
          assert parts[1..][k] == parts[k + 1];
        }
      }
      SetInThenResolve(sub, parts[1..], v);
      assert Resolve(Obj(r), parts) == Resolve(Obj(SetIn(sub, parts[1..], v).1), parts[1..]);
    }
  }

  /**
   * Set-then-lookup: a path of plain keys without the `context.` prefix reads back the
   * value just set, and only the first segment's top-level entry changes. A path with
   * an index segment is refused.
   */
  lemma SetThenLookup(ctx: Context, path: string, v: Value)
    requires ParsePath(path) != [] && !StartsWith(path, "context.")
    ensures KeysOnly(ParsePath(path)) ==> SetValue(ctx, path, v).ok && Lookup(SetValue(ctx, path, v).ctx, path) == v
    ensures !KeysOnly(ParsePath(path)) ==> !SetValue(ctx, path, v).ok
    ensures forall k :: k in ctx && k != ParsePath(path)[0] ==> k in SetValue(ctx, path, v).ctx && SetValue(ctx, path, v).ctx[k] == ctx[k]
  {
    var parts := ParsePath(path);
    if KeysOnly(parts) {
      SetInThenResolve(ctx, parts, v);
    }
  }

  /**
   * `deleteContextValue` below `cur`: walk lists by in-range index and maps by
   * non-null entry; at the last segment remove the list element or the map key.
   * A key removal reports success only when the removed value was non-null, but the
   * key is removed either way.
   */
  function DeleteIn(cur: Value, parts: seq<string>): (r: (bool, Value))
    requires |parts| > 0
    ensures cur.Obj? <==> r.1.Obj?
    ensures cur.Arr? <==> r.1.Arr?
    ensures !cur.Obj? && !cur.Arr? ==> r == (false, cur)
    decreases |parts|
  {
    var part := parts[0];
    if IsIndexSegment(part) then
      var k := SegmentIndex(part);
      if cur.Arr? && k < |cur.items| then
        if |parts| == 1 then (true, Arr(cur.items[..k] + cur.items[k + 1..]))
        else
          var inner := DeleteIn(cur.items[k], parts[1..]);
          (inner.0, Arr(cur.items[k := inner.1]))
      else (false, cur)
    else if cur.Obj? then
      if |parts| == 1 then (!Get(cur.fields, part).Null?, Obj(cur.fields - {part}))
      else if !Get(cur.fields, part).Null? then
        var inner := DeleteIn(cur.fields[part], parts[1..]);
        (inner.0, Obj(cur.fields[part := inner.1]))
      else (false, cur)
    else (false, cur)
  }

  /** `deleteContextValue`: like set, the path is used as written. */
  function DeleteValue(ctx: Context, path: string): (r: Edit)
    ensures ParsePath(path) == [] ==> r == Edit(false, ctx)
  {
    var parts := ParsePath(path);
    if |parts| == 0 then Edit(false, ctx)
    else var (ok, v) := DeleteIn(Obj(ctx), parts); Edit(ok, v.fields)
  }

  /**
   * What a delete needs in order to succeed: the parent of the last segment resolves
   * to a list holding that index, or to a map holding a non-null value at that key.
   */
  predicate Present(root: Value, parts: seq<string>)
    requires |parts| > 0
  {
    var parent := Resolve(root, parts[..|parts| - 1]);
    var last := parts[|parts| - 1];
    if IsIndexSegment(last) then parent.Arr? && SegmentIndex(last) < |parent.items|
    else parent.Obj? && !Get(parent.fields, last).Null?
  }

  /** A delete succeeds exactly when its target is present. */
  lemma {:induction false} DeleteOkIffPresent(cur: Value, parts: seq<string>)
    requires |parts| > 0
    ensures DeleteIn(cur, parts).0 <==> Present(cur, parts)
    decreases |parts|
  {
    var part := parts[0];
    if |parts| == 1 {
      assert parts[..0] == [];
    } else {
      var rest := parts[1..];
      assert parts[..|parts| - 1] == [part] + rest[..|rest| - 1];
      ResolveAppend(cur, [part], rest[..|rest| - 1]);
      assert [part][1..] == [];
      if IsIndexSegment(part) {
        var k := SegmentIndex(part);
        if cur.Arr? && k < |cur.items| {
          DeleteOkIffPresent(cur.items[k], rest);
        } else {
          ResolveNull(rest[..|rest| - 1]);
        }
      } else if cur.Obj? {
        if !Get(cur.fields, part).Null? {
          DeleteOkIffPresent(cur.fields[part], rest);
        } else {
          ResolveNull(rest[..|rest| - 1]);
        }
      } else {
        ResolveNull(rest[..|rest| - 1]);
      }
    }
  }

  /** After a successful delete of a key, the path reads `null`. */
  lemma {:induction false} DeleteKeyThenResolve(cur: Value, parts: seq<string>)
    requires |parts| > 0 && !IsIndexSegment(parts[|parts| - 1]) && DeleteIn(cur, parts).0
    ensures Resolve(DeleteIn(cur, parts).1, parts) == Null
    decreases |parts|
  {
    var part := parts[0];
    var rest := parts[1..];
    if |parts| == 1 {
      assert Resolve(DeleteIn(cur, parts).1, parts) == Resolve(Null, rest);
    } else {
      assert rest[|rest| - 1] == parts[|parts| - 1];
      if IsIndexSegment(part) {
        DeleteKeyThenResolve(cur.items[SegmentIndex(part)], rest);
      } else {
        DeleteKeyThenResolve(cur.fields[part], rest);
      }
    }
  }

  /** Delete of a top-level key: reports whether it held a non-null value, and removes exactly that key. */
  lemma DeleteTopLevel(ctx: Context, key: string)
    requires ParsePath(key) == [key] && !IsIndexSegment(key)
    ensures DeleteValue(ctx, key) == Edit(!Get(ctx, key).Null?, ctx - {key})
  {
  }

  /**
   * The in-place write-back of add, merge and clear: replace the value the walk of
   * `Resolve` reaches along `parts`, leaving everything else as it was.
   */
  function ReplaceAt(cur: Value, parts: seq<string>, nv: Value): (r: Value)
    ensures |parts| > 0 && cur.Obj? ==> r.Obj?
    decreases |parts|
  {
    if |parts| == 0 then nv
    else if IsIndexSegment(parts[0]) then
      var k := SegmentIndex(parts[0]);
      if cur.Arr? && k < |cur.items| then Arr(cur.items[k := ReplaceAt(cur.items[k], parts[1..], nv)])
      else cur
    else if cur.Obj? && parts[0] in cur.fields then
      Obj(cur.fields[parts[0] := ReplaceAt(cur.fields[parts[0]], parts[1..], nv)])
    else cur
  }

  /** Replacing what a path reaches makes the path read the new value. */
  lemma {:induction false} ReplaceAtThenResolve(cur: Value, parts: seq<string>, nv: Value)
    requires !Resolve(cur, parts).Null?
    ensures Resolve(ReplaceAt(cur, parts, nv), parts) == nv
    decreases |parts|
  {
    if |parts| > 0 {
      if IsIndexSegment(parts[0]) {
        ReplaceAtThenResolve(cur.items[SegmentIndex(parts[0])], parts[1..], nv);
      } else {
        assert parts[0] in cur.fields by {
          if parts[0] !in cur.fields {
            ResolveNull(parts[1..]);
          }
        }
        ReplaceAtThenResolve(cur.fields[parts[0]], parts[1..], nv);
      }
    }
  }

  /** Writes `nv` back where `path` (read like a lookup) leads in the context. */
  function WriteBack(ctx: Context, path: string, nv: Value): Context
  {
    var r := ReplaceAt(Obj(ctx), ParsePath(StripContextPrefix(path)), nv);
    if r.Obj? then r.fields else ctx
  }

  lemma WriteBackThenLookup(ctx: Context, path: string, nv: Value)
    requires !Lookup(ctx, path).Null? && nv.Obj?
    ensures Lookup(WriteBack(ctx, path, nv), path) == nv
  {
    ReplaceAtThenResolve(Obj(ctx), ParsePath(StripContextPrefix(path)), nv);
  }

  lemma WriteBackThenLookupNonRoot(ctx: Context, path: string, nv: Value)
    requires !Lookup(ctx, path).Null? && ParsePath(StripContextPrefix(path)) != []
    ensures Lookup(WriteBack(ctx, path, nv), path) == nv
  {
    ReplaceAtThenResolve(Obj(ctx), ParsePath(StripContextPrefix(path)), nv);
  }

  /**
   * `addContextValue`: for `p[]`, append to the list found at `p` in place, or else
   * set `p` to a one-element list; any other path behaves as set.
   */
  function AddValue(ctx: Context, path: string, v: Value): (r: Edit)
    ensures EndsWith(path, "[]") && Lookup(ctx, path[..|path| - 2]).Arr? ==> r.ok
    ensures EndsWith(path, "[]") && !Lookup(ctx, path[..|path| - 2]).Arr? ==>
              (r.ok <==> ParsePath(path[..|path| - 2]) != [] && KeysOnly(ParsePath(path[..|path| - 2])))
    ensures !EndsWith(path, "[]") ==> (r.ok <==> ParsePath(path) != [] && KeysOnly(ParsePath(path)))
  {
    if EndsWith(path, "[]") then
      var arrayPath := path[..|path| - 2];
      var existing := Lookup(ctx, arrayPath);
      if existing.Arr? then Edit(true, WriteBack(ctx, arrayPath, Arr(existing.items + [v])))
      else SetValue(ctx, arrayPath, Arr([v]))
    else SetValue(ctx, path, v)
  }

  /** Add to `p[]`: an existing list at `p` gains the value at its end; otherwise `p` becomes a one-element list. */
  lemma AddAppends(ctx: Context, p: string, v: Value)
    requires ParsePath(p) != [] && KeysOnly(ParsePath(p)) && !StartsWith(p, "context.")
    ensures AddValue(ctx, p + "[]", v).ok
    ensures Lookup(AddValue(ctx, p + "[]", v).ctx, p)
            == if Lookup(ctx, p).Arr? then Arr(Lookup(ctx, p).items + [v]) else Arr([v])
  {
    var path := p + "[]";
    assert EndsWith(path, "[]") by {
      assert path[|path| - 2..] == "[]";
    }
    assert path[..|path| - 2] == p;
    if Lookup(ctx, p).Arr? {
      assert p != "";
      WriteBackThenLookupNonRoot(ctx, p, Arr(Lookup(ctx, p).items + [v]));
    } else {
      SetThenLookup(ctx, p, Arr([v]));
    }
  }

  /**
   * `mergeContextValue`: two maps merge entry-wise with the new entries winning, two
   * lists concatenate; any other pairing behaves as set.
   */
  function MergeValue(ctx: Context, path: string, v: Value): (r: Edit)
    ensures (Lookup(ctx, path).Obj? && v.Obj?) || (Lookup(ctx, path).Arr? && v.Arr?) ==> r.ok
    ensures !(Lookup(ctx, path).Obj? && v.Obj?) && !(Lookup(ctx, path).Arr? && v.Arr?) ==>
              (r.ok <==> ParsePath(path) != [] && KeysOnly(ParsePath(path)))
  {
    var existing := Lookup(ctx, path);
    if existing.Obj? && v.Obj? then Edit(true, WriteBack(ctx, path, Obj(existing.fields + v.fields)))
    else if existing.Arr? && v.Arr? then Edit(true, WriteBack(ctx, path, Arr(existing.items + v.items)))
    else SetValue(ctx, path, v)
  }

  /** Merging into a map or list at a plain path reads back the union or the concatenation. */
  lemma MergeCombines(ctx: Context, path: string, v: Value)
    requires ParsePath(StripContextPrefix(path)) != []
    ensures Lookup(ctx, path).Obj? && v.Obj? ==>
              MergeValue(ctx, path, v).ok
              && Lookup(MergeValue(ctx, path, v).ctx, path) == Obj(Lookup(ctx, path).fields + v.fields)
    ensures Lookup(ctx, path).Arr? && v.Arr? ==>
              MergeValue(ctx, path, v).ok
              && Lookup(MergeValue(ctx, path, v).ctx, path) == Arr(Lookup(ctx, path).items + v.items)
    ensures !(Lookup(ctx, path).Obj? && v.Obj?) && !(Lookup(ctx, path).Arr? && v.Arr?) ==>
              MergeValue(ctx, path, v) == SetValue(ctx, path, v)
  {
    var e := Lookup(ctx, path);
    if e.Obj? && v.Obj? {
      WriteBackThenLookupNonRoot(ctx, path, Obj(e.fields + v.fields));
    } else if e.Arr? && v.Arr? {
      WriteBackThenLookupNonRoot(ctx, path, Arr(e.items + v.items));
    }
  }

  /** `clearContextPath`: empty a map or list in place; anything else is set to `null`. */
  function ClearValue(ctx: Context, path: string): (r: Edit)
    ensures Lookup(ctx, path).Obj? || Lookup(ctx, path).Arr? ==> r.ok
    ensures !Lookup(ctx, path).Obj? && !Lookup(ctx, path).Arr? ==>
              (r.ok <==> ParsePath(path) != [] && KeysOnly(ParsePath(path)))
  {
    var target := Lookup(ctx, path);
    if target.Obj? then Edit(true, WriteBack(ctx, path, Obj(map[])))
    else if target.Arr? then Edit(true, WriteBack(ctx, path, Arr([])))
    else SetValue(ctx, path, Null)
  }

  /** Clearing a map or list leaves it empty at the same path. */
  lemma ClearEmpties(ctx: Context, path: string)
    requires Lookup(ctx, path).Obj? || Lookup(ctx, path).Arr?
    ensures ClearValue(ctx, path).ok
    ensures Lookup(ClearValue(ctx, path).ctx, path) == if Lookup(ctx, path).Obj? then Obj(map[]) else Arr([])
  {
    if Lookup(ctx, path).Obj? {
      WriteBackThenLookup(ctx, path, Obj(map[]));
    } else {
      assert ParsePath(StripContextPrefix(path)) != [];
      WriteBackThenLookupNonRoot(ctx, path, Arr([]));
    }
  }

  /** `executeContextOperation`: dispatch on the lower-cased action; an unknown action fails and changes nothing. */
  function ApplyOperation(ctx: Context, action: string, path: string, v: Value): (r: Edit)
    ensures ToLower(action) !in {"set", "delete", "remove", "add", "merge", "clear"} ==> r == Edit(false, ctx)
    ensures ToLower(action) == "set" ==> r == SetValue(ctx, path, v)
    ensures ToLower(action) in {"delete", "remove"} ==> r == DeleteValue(ctx, path)
  {
    match ToLower(action)
    case "set" => SetValue(ctx, path, v)
    case "delete" => DeleteValue(ctx, path)
    case "remove" => DeleteValue(ctx, path)
    case "add" => AddValue(ctx, path, v)
    case "merge" => MergeValue(ctx, path, v)
    case "clear" => ClearValue(ctx, path)
    case _ => Edit(false, ctx)
  }

  /**
   * The counts an operation list leaves behind, with the context after the last
   * operation run; `aborted` marks a loop cut short by an entry it cannot cast,
   * whose exception leaves the edits made so far in place.
   */
  datatype Tally = Tally(succeeded: nat, failed: nat, ctx: Context, aborted: bool)

  /** An entry the loop variable's cast to a map rejects: neither a map nor `null`. */
  predicate Uncastable(v: Value)
  {
    !v.Null? && !v.Obj?
  }

  /** The counts of a first completed stretch followed by those of the rest. */
  function Then(first: Tally, rest: Tally): (r: Tally)
    ensures r.aborted == rest.aborted && r.ctx == rest.ctx
    ensures r.succeeded + r.failed == first.succeeded + first.failed + rest.succeeded + rest.failed
  {
    Tally(first.succeeded + rest.succeeded, first.failed + rest.failed, rest.ctx, rest.aborted)
  }

  /**
   * The operation loop shared by context-edit and calculate nodes, in list order: a
   * `null` entry fails inside the per-operation `try` and counts as an error; an
   * entry that is not a map fails the cast outside it, which aborts the node.
   */
  function RunAll(ctx: Context, ops: seq<Value>, step: (Context, map<string, Value>) -> Edit): (r: Tally)
    ensures !r.aborted ==> r.succeeded + r.failed == |ops|
    ensures r.aborted <==> exists k :: 0 <= k < |ops| && Uncastable(ops[k])
    decreases |ops|
  {
    if |ops| == 0 then Tally(0, 0, ctx, false)
    else if Uncastable(ops[0]) then Tally(0, 0, ctx, true)
    else
      var e := if ops[0].Obj? then step(ctx, ops[0].fields) else Edit(false, ctx);
      var rest := RunAll(e.ctx, ops[1..], step);
      assert rest.aborted ==> exists k :: 0 <= k < |ops[1..]| && Uncastable(ops[1..][k]);
      assert forall k :: 1 <= k < |ops| ==> ops[k] == ops[1..][k - 1];
      Then(Tally(if e.ok then 1 else 0, if e.ok then 0 else 1, e.ctx, false), rest)
  }

  /** Running two lists one after the other is running their concatenation, with the counts added. */
  lemma {:induction false} RunAllAppend(ctx: Context, a: seq<Value>, b: seq<Value>, step: (Context, map<string, Value>) -> Edit)
    requires !RunAll(ctx, a, step).aborted
    ensures RunAll(ctx, a + b, step) == Then(RunAll(ctx, a, step), RunAll(RunAll(ctx, a, step).ctx, b, step))
    decreases |a|
  {
    if |a| == 0 {
      assert a + b == b;
    } else {
      assert (a + b)[0] == a[0];
      assert (a + b)[1..] == a[1..] + b;
      var e := if a[0].Obj? then step(ctx, a[0].fields) else Edit(false, ctx);
      var first := Tally(if e.ok then 1 else 0, if e.ok then 0 else 1, e.ctx, false);
      var restA := RunAll(e.ctx, a[1..], step);
      assert RunAll(ctx, a, step) == Then(first, restA);
      assert RunAll(ctx, a + b, step) == Then(first, RunAll(e.ctx, a[1..] + b, step));
      RunAllAppend(e.ctx, a[1..], b, step);
      ThenAssoc(first, restA, RunAll(restA.ctx, b, step));
    }
  }

  /** One step of the loop over a map entry. */
  lemma RunAllStep(ctx: Context, ops: seq<Value>, step: (Context, map<string, Value>) -> Edit)
    requires |ops| > 0 && ops[0].Obj?
    ensures var e := step(ctx, ops[0].fields);
      RunAll(ctx, ops, step) == Then(Tally(if e.ok then 1 else 0, if e.ok then 0 else 1, e.ctx, false), RunAll(e.ctx, ops[1..], step))
  {
  }

  lemma ThenAssoc(x: Tally, y: Tally, z: Tally)
    ensures Then(x, Then(y, z)) == Then(Then(x, y), z)
  {
  }

  /**
   * One context-edit operation: `action` and `path` must be strings (a missing or
   * other value fails), and a string `value` has its placeholders substituted
   * against the context as it stands before this operation.
   */
  function EditStep(ctx: Context, op: map<string, Value>): (r: Edit)
    ensures !Get(op, "action").Str? || !Get(op, "path").Str? ==> r == Edit(false, ctx)
  {
    var action := Get(op, "action");
    var path := Get(op, "path");
    if !action.Str? || !path.Str? then Edit(false, ctx)
    else
      var v := Get(op, "value");
      ApplyOperation(ctx, action.s, path.s, if v.Str? then Str(Substitute(v.s, ctx)) else v)
  }

  /** The loop of a context-edit node. */
  function RunEdits(ctx: Context, ops: seq<Value>): Tally
  {
    RunAll(ctx, ops, EditStep)
  }

  /** Operations with unknown actions all fail and leave the context untouched. */
  lemma {:induction false} UnknownActionsChangeNothing(ctx: Context, ops: seq<Value>)
    requires forall k :: 0 <= k < |ops| ==> UnknownAction(ops[k])
    ensures RunEdits(ctx, ops) == Tally(0, |ops|, ctx, false)
    decreases |ops|
  {
    if |ops| > 0 {
      assert UnknownAction(ops[0]);
      UnknownActionsChangeNothing(ctx, ops[1..]);
    }
  }

  /** An operation map whose action is a string naming no known edit. */
  predicate UnknownAction(op: Value)
  {
    op.Obj? && Get(op.fields, "action").Str?
    && ToLower(Get(op.fields, "action").s) !in {"set", "delete", "remove", "add", "merge", "clear"}
  }
}

=== FILE: documents.dfy ===
/**
 * Scenario documents as the scenario service stores them and the engines read them:
 * nodes with a type, parameters, successor list and condition map, plus the editor's
 * edges.
 */
module Documents {

  import opened Wrappers
  import opened Json

  /** A connection drawn in the editor; `sourceHandle` names the output port (`output-<i>`). */
  datatype Edge = Edge(source: Option<string>, sourceHandle: Option<string>, target: Option<string>)

  /**
   * One node (`ScenarioBlock`). A JSON `null` for `parameters` or `conditions` is
   * `None`; a missing successor list is the empty list. `content` is read only by the
   * chat service.
   */
  datatype Node = Node(
    id: string,
    kind: string,
    parameters: Option<map<string, Value>>,
    nextNodes: seq<string>,
    conditions: Option<map<string, string>>,
    content: Option<string>)

  /** The `scenario_data` object: start node, node list and edges. */
  datatype ScenarioData = ScenarioData(startNode: Option<string>, nodes: Option<seq<Node>>, edges: seq<Edge>)

  /**
   * A stored scenario as the orchestrator reads it after fetching it: the fields it
   * uses, with its `scenario_data` decoded into a node graph. The scenario service's
   * own record, with nullable fields and an undecoded data map, is
   * `ScenarioStore.ScenarioInfo`; the two are kept apart because the services share
   * no types and read different fields.
   */
  datatype ScenarioDoc = ScenarioDoc(
    id: Option<string>,
    name: string,
    description: Option<string>,
    version: string,
    language: string,
    tags: seq<string>,
    isActive: bool,
    isEntryPoint: bool,
    createdAt: int,
    updatedAt: int,
    data: Option<ScenarioData>)

  /** The data map `new HashMap<>()` that a freshly created branch starts from. */
  const EmptyData := ScenarioData(None, None, [])

  /** `param(node, key)`: the parameter value, `null` when absent or when there are no parameters. */
  function Param(node: Node, key: string): Value
  {
    match node.parameters
    case None => Null
    case Some(ps) => Get(ps, key)
  }

  /** `getNextNode`: the first successor, if any. */
  function FirstNext(node: Node): (r: Option<string>)
    ensures r.Some? <==> |node.nextNodes| > 0
    ensures r.Some? ==> r.value == node.nextNodes[0]
  {
    if |node.nextNodes| > 0 then Some(node.nextNodes[0]) else None
  }

  /** `conditions.get(key)`: `null` when the node has no condition map or no such entry. */
  function CondTarget(node: Node, key: string): Option<string>
  {
    match node.conditions
    case None => None
    case Some(cs) => if key in cs then Some(cs[key]) else None
  }
}

=== FILE: engine.dfy ===
/**
 * The node interpreter of `AdvancedScenarioEngine`: `executeNodeByType` dispatches on
 * the lower-cased node type, each handler updates the dialog context and either
 * returns a response (the dialog pauses) or runs its successor at once (a cascade).
 *
 * Every collaborator is an input (`Env`). A Java exception that escapes a handler is
 * `Raised`, carrying the context as mutated so far; a `catch (Exception)` frame turns
 * it back into a response. The cascade is unbounded recursion in Java; here every
 * cascade step spends one unit of `fuel`, and running out (`OutOfFuel`) stands for the
 * `StackOverflowError` a cyclic graph produces, which no `catch (Exception)` intercepts.
 */
module Engine {

  import opened Wrappers
  import opened Strings
  import opened Json
  import opened Documents
  import opened Templates
  import opened ContextOps
  import opened Calculate
  import opened Graph

  // ---------------------------------------------------------------------------
  // Collaborators

  /** An HTTP answer: status code, the body decoded as a JSON object if it is one, and the raw body. */
  datatype HttpReply = HttpReply(status: int, json: Option<map<string, Value>>, raw: string)

  /** What the HTTP call of an api-request node yields. */
  datatype ApiOutcome = Answered(reply: HttpReply) | TimedOut | ApiFailed(message: Value)

  /** What the NLU call yields: a status and the body if it decodes to a map, or an exception's message. */
  datatype NluOutcome = NluAnswered(status: int, body: Option<map<string, Value>>) | NluFailed(message: Value)

  /** What the LLM client yields for an llm_call node. */
  datatype LlmOutcome = LlmText(text: string) | LlmFailed

  /**
   * The environment of one run: call outcomes per node id, the scenario service's
   * documents by id (a missing id is a non-200 answer), the decoding of operation
   * lists given as JSON text, and the message of exceptions the engine raises itself.
   */
  datatype Env = Env(
    api: map<string, ApiOutcome>,
    nlu: map<string, NluOutcome>,
    llm: map<string, LlmOutcome>,
    store: map<string, ScenarioDoc>,
    decoded: map<string, Value>,
    fault: Value,
    clock: int,
    unreachable: set<string>)

  function ApiOf(env: Env, id: string): ApiOutcome
  {
    if id in env.api then env.api[id] else ApiFailed(env.fault)
  }

  function NluOf(env: Env, id: string): NluOutcome
  {
    if id in env.nlu then env.nlu[id] else NluFailed(env.fault)
  }

  function LlmOf(env: Env, id: string): LlmOutcome
  {
    if id in env.llm then env.llm[id] else LlmFailed
  }

  /**
   * The outcome of `GET /api/v1/scenarios/{id}`: the scenario data of a 200 answer, a
   * non-200 answer or `null` data, or an exception (a connection failure, a body that is
   * not JSON, a field that fails its cast) for the ids in `unreachable`.
   */
  datatype Fetch = Fetched(data: ScenarioData) | NotLoaded | FetchThrew

  function Load(env: Env, id: string): (r: Fetch)
    ensures r.FetchThrew? <==> id in env.unreachable
    ensures r.Fetched? <==> id !in env.unreachable && id in env.store && env.store[id].data.Some?
    ensures r.Fetched? ==> r.data == env.store[id].data.value
  {
    if id in env.unreachable then FetchThrew
    else if id in env.store && env.store[id].data.Some? then Fetched(env.store[id].data.value)
    else NotLoaded
  }

  // ---------------------------------------------------------------------------
  // Results

  /** The response map: `createResponse` (type, message, next node) or `createErrorResponse`. */
  datatype Reply = Reply(kind: string, message: Option<string>, next: Option<string>) | ErrorReply(error: string)

  /** A handler's outcome, always with the context as it stands afterwards. */
  datatype Run = Done(reply: Reply, ctx: Context) | Raised(ctx: Context) | OutOfFuel(ctx: Context)

  /** `createResponse`, which also records the type as `node_type`. */
  function Respond(kind: string, message: Option<string>, next: Option<string>, ctx: Context): Run
  {
    Done(Reply(kind, message, next), ctx["node_type" := Str(kind)])
  }

  /** What `createResponse` guarantees: a normal reply's type is recorded as `node_type`. */
  predicate Stamped(r: Run)
  {
    r.Done? && r.reply.Reply? ==> Get(r.ctx, "node_type") == Str(r.reply.kind)
  }

  /** Every entry of `before` outside `written` reads the same in `after`. */
  predicate Kept(before: Context, after: Context, written: set<string>)
  {
    forall k :: k in before && k !in written ==> Get(after, k) == before[k]
  }

  function OptText(o: Option<string>): Value
  {
    if o.Some? then Str(o.value) else Null
  }

  /** The value a `(String)` cast yields when it succeeds. */
  function Text(v: Value): Option<string>
  {
    if v.Str? then Some(v.s) else None
  }

  /** A value a `(String)` cast accepts. */
  predicate Castable(v: Value)
  {
    v.Null? || v.Str?
  }

  /** String concatenation prints a `null` id as "null". */
  function IdText(o: Option<string>): string
  {
    if o.Some? then o.value else "null"
  }

  /** `map.getOrDefault(key, dflt)`: a present `null` stays `null`. */
  function ParamOr(ps: map<string, Value>, key: string, dflt: Value): Value
  {
    if key in ps then ps[key] else dflt
  }

  /** A text parameter with a default that applies when the node has no parameters or lacks the key. */
  function Setting(node: Node, key: string, dflt: string): Value
  {
    match node.parameters
    case None => Str(dflt)
    case Some(ps) => ParamOr(ps, key, Str(dflt))
  }

  /** `conditions.get(key)`, falling back to the first successor. */
  function Or(first: Option<string>, second: Option<string>): Option<string>
  {
    if first.Some? then first else second
  }

  /**
   * `updateContext`: the successor becomes `current_node`, and a missing successor ends
   * the scenario with `current_node` set to "". `last_execution_time` records `now`, the
   * clock's millisecond reading. No other entry changes.
   */
  function UpdateContext(ctx: Context, next: Option<string>, now: int): (r: Context)
    ensures next.None? ==> Get(r, "current_node") == Str("") && Get(r, "scenario_completed") == Bool(true)
    ensures next.Some? ==> Get(r, "current_node") == Str(next.value) && Get(r, "scenario_completed") == Bool(false)
    ensures Get(r, "last_execution_time") == Int(now)
    ensures r.Keys == ctx.Keys + {"current_node", "scenario_completed", "last_execution_time"}
    ensures forall k :: k in ctx && k != "current_node" && k != "scenario_completed" && k != "last_execution_time" ==> Get(r, k) == ctx[k]
  {
    var c := if next.None? then ctx["current_node" := Str("")]["scenario_completed" := Bool(true)]
             else ctx["current_node" := Str(next.value)]["scenario_completed" := Bool(false)];
    c["last_execution_time" := Int(now)]
  }

  // ---------------------------------------------------------------------------
  // Dispatch

  datatype NodeType =
    | AnnounceNode | AskNode | ParseNode | ConditionNode | SwitchNode | ApiNode | NluNode
    | JumpNode | EndNode | EndDialogNode | TransferNode | LlmNode | SubFlowNode
    | NotificationNode | WaitNode | EditNode | CalculateNode | UnknownNode

  /** The handler `executeNodeByType` picks for a type, compared after lower-casing. */
  function TypeOf(kind: string): NodeType
  {
    match ToLower(kind)
    case "announce" => AnnounceNode
    case "ask" => AskNode
    case "parse" => ParseNode
    case "condition" => ConditionNode
    case "switch" => SwitchNode
    case "api-request" => ApiNode
    case "api_call" => ApiNode
    case "nlu-request" => NluNode
    case "scenario_jump" => JumpNode
    case "end" => EndNode
    case "end_dialog" => EndDialogNode
    case "transfer" => TransferNode
    case "llm_call" => LlmNode
    case "sub-flow" => SubFlowNode
    case "notification" => NotificationNode
    case "wait" => WaitNode
    case "context-edit" => EditNode
    case "calculate" => CalculateNode
    case _ => UnknownNode
  }

  /** The types whose handler may run a successor node. */
  predicate Cascades(t: NodeType)
  {
    !(t.AnnounceNode? || t.AskNode? || t.EndDialogNode? || t.TransferNode? || t.NotificationNode? || t.WaitNode? || t.UnknownNode?)
  }

  /** `executeNodeByType`. */
  function Exec(fuel: nat, node: Node, input: string, ctx: Context, sc: ScenarioData, env: Env): (r: Run)
    decreases fuel, 3
    ensures Stamped(r)
    ensures r.OutOfFuel? ==> Cascades(TypeOf(node.kind))
  {
    match TypeOf(node.kind)
    case AnnounceNode => Announce(node, ctx, env.clock)
    case AskNode => Ask(node, ctx, env.clock)
    case ParseNode => Parse(fuel, node, input, ctx, sc, env)
    case ConditionNode => Condition(fuel, node, ctx, sc, env)
    case SwitchNode => Switch(fuel, node, ctx, sc, env)
    case ApiNode => ApiRequest(fuel, node, ctx, sc, env)
    case NluNode => NluRequest(fuel, node, input, ctx, sc, env)
    case JumpNode => ScenarioJump(fuel, node, ctx, env)
    case EndNode => End(fuel, node, ctx, env)
    case EndDialogNode => EndDialog(node, ctx)
    case TransferNode => Transfer(node, ctx)
    case LlmNode => LlmCall(fuel, node, ctx, sc, env)
    case SubFlowNode => SubFlow(fuel, node, ctx, env)
    case NotificationNode => Notification(node, ctx, env.clock)
    case WaitNode => Wait(node, ctx, env.clock)
    case EditNode => ContextEdit(fuel, node, ctx, sc, env)
    case CalculateNode => CalculateNodeStep(fuel, node, ctx, sc, env)
    case UnknownNode => Done(ErrorReply("Unknown node type: " + node.kind), ctx)
  }

  /**
   * Runs the successor `next` of scenario `sc` when it names an existing node, spending
   * one unit of fuel, and otherwise gives `fallback`.
   */
  function Cascade(fuel: nat, next: Option<string>, input: string, ctx: Context, sc: ScenarioData, env: Env, fallback: Run): (r: Run)
    decreases fuel, 0
    ensures Stamped(fallback) ==> Stamped(r)
  {
    match FindNode(sc, next)
    case None => fallback
    case Some(n) => if fuel == 0 then OutOfFuel(ctx) else Exec(fuel - 1, n, input, ctx, sc, env)
  }

  // ---------------------------------------------------------------------------
  // Nodes that pause

  /** announce: the substituted message, the first successor as `current_node`; nothing runs next. */
  function Announce(node: Node, ctx: Context, now: int): (r: Run)
    ensures Stamped(r) && !r.OutOfFuel?
    ensures r.Raised? <==> node.parameters.None? || !Castable(Get(node.parameters.value, "message"))
    ensures r.Raised? ==> r.ctx == ctx
    ensures r.Done? ==> r.reply.Reply? && r.reply.kind == "announce" && r.reply.next == FirstNext(node)
                        && Kept(ctx, r.ctx, {"current_node", "scenario_completed", "last_execution_time", "node_type"})
  {
    if node.parameters.None? then Raised(ctx)
    else
      var message := Get(node.parameters.value, "message");
      if !Castable(message) then Raised(ctx)
      else
        var text := SubstituteOpt(Text(message), ctx);
        var next := FirstNext(node);
        Respond("announce", text, next, UpdateContext(ctx, next, now))
  }

  /** ask: waits for input on this node's behalf; the question is not substituted. */
  function Ask(node: Node, ctx: Context, now: int): (r: Run)
    ensures Stamped(r) && !r.OutOfFuel?
    ensures r.Raised? <==> node.parameters.None? || !Castable(Get(node.parameters.value, "question"))
                           || !Castable(ParamOr(node.parameters.value, "inputType", Str("text")))
    ensures r.Raised? ==> r.ctx == ctx
    ensures r.Done? ==> r.reply.Reply? && r.reply.kind == "ask" && r.reply.message == Text(Get(node.parameters.value, "question"))
                        && Get(r.ctx, "waiting_for_input") == Bool(true) && Get(r.ctx, "waiting_for_answer_to_node") == Str(node.id)
                        && Kept(ctx, r.ctx, {"waiting_for_input", "expected_input_type", "waiting_for_answer_to_node",
                                             "current_node", "scenario_completed", "last_execution_time", "node_type"})
  {
    if node.parameters.None? then Raised(ctx)
    else
      var ps := node.parameters.value;
      var question := Get(ps, "question");
      var inputType := ParamOr(ps, "inputType", Str("text"));
      if !Castable(question) || !Castable(inputType) then Raised(ctx)
      else
        var c := ctx["waiting_for_input" := Bool(true)]["expected_input_type" := inputType]["waiting_for_answer_to_node" := Str(node.id)];
        var next := FirstNext(node);
        Respond("ask", Text(question), next, UpdateContext(c, next, now))
  }

  // ---------------------------------------------------------------------------
  // parse

  /** The menu choice the parse script reads from the lower-cased input. */
  function Choice(input: string): string
  {
    var t := ToLower(input);
    if Contains(t, "баланс") || t == "1" then "balance"
    else if Contains(t, "закрыть") || t == "2" then "close"
    else if Contains(t, "блок") || t == "3" then "block"
    else if Contains(t, "история") || t == "4" then "history"
    else if Contains(t, "поддержк") || t == "5" then "support"
    else "unknown"
  }

  /** `executeParseScript`: the fixed keyword rules a script switches on by naming context keys. */
  function ParseScript(script: Option<string>, input: string, ctx: Context): (r: Context)
    ensures script.None? ==> r == ctx
    ensures script.Some? && Contains(script.value, "context.operation") ==>
              Get(r, "validChoice") == Bool(Get(r, "operation") != Str("unknown"))
    ensures script.Some? && Contains(script.value, "context.wantsBalance") ==>
              (Get(r, "wantsBalance") == Bool(true) <==> Contains(ToLower(input), "да") || Contains(ToLower(input), "yes"))
    ensures script.Some? && Contains(script.value, "context.cardNumber") ==>
              Get(r, "cardNumber") == Str(input) && (Get(r, "validCard") == Bool(true) <==> |input| == 4 && AllDigits(input))
    ensures Kept(ctx, r, {"operation", "validChoice", "wantsBalance", "cardNumber", "validCard"})
  {
    if script.None? then ctx
    else
      var s := script.value;
      var c1 := if Contains(s, "context.operation") then
        ctx["operation" := Str(Choice(input))]["validChoice" := Bool(Choice(input) != "unknown")]
      else ctx;
      var t := ToLower(input);
      var c2 := if Contains(s, "context.wantsBalance") then
        c1["wantsBalance" := Bool(Contains(t, "да") || Contains(t, "yes"))]
      else c1;
      if Contains(s, "context.cardNumber") then
        c2["cardNumber" := Str(input)]["validCard" := Bool(|input| == 4 && AllDigits(input))]
      else c2
  }

  /** The context a parse node hands to its successor. */
  function ParseContext(node: Node, script: Value, input: string, ctx: Context, now: int): (r: Context)
    ensures Get(r, "waiting_for_input") == Bool(false)
    ensures FirstNext(node).Some? ==> Get(r, "current_node") == Str(FirstNext(node).value) && Get(r, "scenario_completed") == Bool(false)
  {
    UpdateContext(ParseScript(Text(script), input, ctx), FirstNext(node), now)["waiting_for_input" := Bool(false)]
  }

  /** parse: applies the script, then runs the first successor with the same input. */
  function Parse(fuel: nat, node: Node, input: string, ctx: Context, sc: ScenarioData, env: Env): (r: Run)
    decreases fuel, 2
    ensures Stamped(r)
    ensures r.Raised? ==> node.parameters.None? || !Castable(Get(node.parameters.value, "script")) || FindNode(sc, FirstNext(node)).Some?
    ensures r.Done? && FindNode(sc, FirstNext(node)).None? ==>
              r.reply == Reply("parse", Some("Input processed"), FirstNext(node)) && Get(r.ctx, "waiting_for_input") == Bool(false)
  {
    if node.parameters.None? then Raised(ctx)
    else
      var script := Get(node.parameters.value, "script");
      if !Castable(script) then Raised(ctx)
      else
        var next := FirstNext(node);
        var c := ParseContext(node, script, input, ctx, env.clock);
        Cascade(fuel, next, input, c, sc, env, Respond("parse", Some("Input processed"), next, c))
  }

  // ---------------------------------------------------------------------------
  // condition and switch

  /** condition: routes, falls back to the first successor, then runs the target with empty input. */
  function Condition(fuel: nat, node: Node, ctx: Context, sc: ScenarioData, env: Env): (r: Run)
    decreases fuel, 2
    ensures Stamped(r)
    ensures node.conditions.None? && node.parameters.None? ==>
              r.Done? && r.reply.Reply? && r.reply.kind == "condition" && r.reply.next.None? && Kept(ctx, r.ctx, {"node_type"})
    ensures r.Raised? && ConditionRoute(node, sc.edges, ctx).Target? ==>
              FindNode(sc, Or(ConditionRoute(node, sc.edges, ctx).next, FirstNext(node))).Some?
  {
    if node.conditions.None? && node.parameters.None? then
      Respond("condition", Some("Ошибка конфигурации условия"), None, ctx)
    else match ConditionRoute(node, sc.edges, ctx)
      case Fails => Raised(ctx)
      case Target(t) =>
        var next := Or(t, FirstNext(node));
        var c := UpdateContext(ctx, next, env.clock);
        Cascade(fuel, next, "", c, sc, env, Respond("condition", Some("Ошибка: следующий узел не найден"), None, c))
  }

  /** switch: the first firing line's successor, else the last successor; no target is an error response. */
  function Switch(fuel: nat, node: Node, ctx: Context, sc: ScenarioData, env: Env): (r: Run)
    decreases fuel, 2
    ensures Stamped(r)
    ensures node.parameters.None? || "conditions" !in node.parameters.value ==>
              r.Done? && r.reply.Reply? && r.reply.kind == "switch" && r.reply.next.None? && Kept(ctx, r.ctx, {"node_type"})
    ensures r.Raised? ==> node.parameters.Some? && "conditions" in node.parameters.value
  {
    if node.parameters.None? || "conditions" !in node.parameters.value then
      Respond("switch", Some("Ошибка конфигурации switch"), None, ctx)
    else
      var v := node.parameters.value["conditions"];
      if !v.Arr? && !v.Null? then Raised(ctx)
      else if v.Null? || |v.items| == 0 then Respond("switch", Some("Пустые условия switch"), None, ctx)
      else match SwitchScan(node, v.items, Verdicts(v.items, ctx), 0)
        case Fails => Raised(ctx)
        case Target(None) => Respond("switch", Some("Нет доступных переходов"), None, ctx)
        case Target(Some(n)) =>
          var c := UpdateContext(ctx, Some(n), env.clock);
          Cascade(fuel, Some(n), "", c, sc, env, Respond("switch", Some("Switch executed"), Some(n), c))
  }

  // ---------------------------------------------------------------------------
  // api-request

  /** The parameter casts done before the `try`; any failure escapes the handler. */
  predicate ApiCastsHold(ps: map<string, Value>)
  {
    Castable(Get(ps, "service")) && Castable(Get(ps, "endpoint"))
    && Castable(ParamOr(ps, "method", Str("GET"))) && Castable(Get(ps, "baseUrl"))
    && (Get(ps, "data").Obj? || Get(ps, "data").Null?)
    && IntCastable(ParamOr(ps, "timeout", Int(30000)))
  }

  /** The successor for a status: `success` for 2xx, `error` otherwise, then the first successor. */
  function ApiNext(node: Node, status: int): (r: Option<string>)
    ensures 200 <= status < 300 && CondTarget(node, "success").Some? ==> r == CondTarget(node, "success")
    ensures !(200 <= status < 300) && CondTarget(node, "error").Some? ==> r == CondTarget(node, "error")
    ensures r.None? ==> FirstNext(node).None?
  {
    Or(if 200 <= status < 300 then CondTarget(node, "success") else CondTarget(node, "error"), FirstNext(node))
  }

  /** The successor after a timeout: `timeout`, then `error`, then the first successor. */
  function TimeoutNext(node: Node): (r: Option<string>)
    ensures CondTarget(node, "timeout").Some? ==> r == CondTarget(node, "timeout")
    ensures CondTarget(node, "timeout").None? && CondTarget(node, "error").Some? ==> r == CondTarget(node, "error")
    ensures CondTarget(node, "timeout").None? && CondTarget(node, "error").None? ==> r == FirstNext(node)
  {
    Or(Or(CondTarget(node, "timeout"), CondTarget(node, "error")), FirstNext(node))
  }

  /** The context after a response arrives: the body as a map, or as text, and the status. */
  function ApiStored(node: Node, reply: HttpReply, ctx: Context): Context
  {
    var body := if reply.json.Some? then Obj(reply.json.value) else Str(reply.raw);
    ctx["api_response" := body]["api_response_" + node.id := body]["api_status_code" := Int(reply.status)]
  }

  /** The generic `catch` of api-request: the message as `api_error`, routed to `error`. */
  function ApiFailure(node: Node, message: Value, ctx: Context, now: int): Run
  {
    var next := Or(CondTarget(node, "error"), FirstNext(node));
    Respond("api-request", Some("API call failed"), next, UpdateContext(ctx["api_error" := message], next, now))
  }

  function ApiRequest(fuel: nat, node: Node, ctx: Context, sc: ScenarioData, env: Env): (r: Run)
    decreases fuel, 2
    ensures Stamped(r)
    ensures r.Raised? <==> node.parameters.None? || !ApiCastsHold(node.parameters.value)
  {
    if node.parameters.None? || !ApiCastsHold(node.parameters.value) then Raised(ctx)
    else
      var timeout := ParamOr(node.parameters.value, "timeout", Int(30000));
      if timeout.Null? || timeout.i <= 0 then ApiFailure(node, env.fault, ctx, env.clock)
      else match ApiOf(env, node.id)
        case Answered(reply) =>
          var next := ApiNext(node, reply.status);
          var c := UpdateContext(ApiStored(node, reply, ctx), next, env.clock);
          var r := Cascade(fuel, next, "", c, sc, env, Respond("api-request", Some("API call completed"), next, c));
          if r.Raised? then ApiFailure(node, env.fault, r.ctx, env.clock) else r
        case TimedOut =>
          var next := TimeoutNext(node);
          Respond("api-request", Some("API request timeout"), next, UpdateContext(ctx["api_error" := Str("timeout")], next, env.clock))
        case ApiFailed(message) => ApiFailure(node, message, ctx, env.clock)
  }

  // ---------------------------------------------------------------------------
  // nlu-request

  /** The context after a successful analysis: the response and its fields, `suggested_scenario` defaulting to "". */
  function NluStored(body: map<string, Value>, ctx: Context): Context
  {
    var suggested := Get(body, "suggested_scenario");
    ctx["nlu_response" := Obj(body)]["intent" := Get(body, "intent")]["entities" := Get(body, "entities")]
       ["confidence" := Get(body, "confidence")]["suggested_scenario" := if suggested.Null? then Str("") else suggested]
  }

  /** The `catch` of nlu-request. */
  function NluFailure(node: Node, message: Value, ctx: Context, now: int): Run
  {
    var next := Or(CondTarget(node, "error"), FirstNext(node));
    Respond("nlu-request", Some("NLU request failed"), next, UpdateContext(ctx["nlu_error" := message], next, now))
  }

  function NluRequest(fuel: nat, node: Node, input: string, ctx: Context, sc: ScenarioData, env: Env): (r: Run)
    decreases fuel, 2
    ensures Stamped(r)
    ensures r.Raised? <==> !Castable(Setting(node, "service", "nlu-service")) || !Castable(Setting(node, "endpoint", "/api/v1/nlu/analyze"))
  {
    var service := Setting(node, "service", "nlu-service");
    var endpoint := Setting(node, "endpoint", "/api/v1/nlu/analyze");
    if !Castable(service) || !Castable(endpoint) then Raised(ctx)
    else match NluOf(env, node.id)
      case NluFailed(message) => NluFailure(node, message, ctx, env.clock)
      case NluAnswered(status, body) =>
        if 200 <= status < 300 then
          if body.None? then NluFailure(node, env.fault, ctx, env.clock)
          else
            var next := Or(CondTarget(node, "success"), FirstNext(node));
            var c := UpdateContext(NluStored(body.value, ctx), next, env.clock);
            var r := Cascade(fuel, next, input, c, sc, env, Respond("nlu-request", Some("NLU analysis completed"), next, c));
            if r.Raised? then NluFailure(node, env.fault, r.ctx, env.clock) else r
        else
          var next := Or(CondTarget(node, "error"), FirstNext(node));
          Respond("nlu-request", Some("NLU analysis failed"), next,
                  UpdateContext(ctx["nlu_error" := Str("NLU service unavailable")], next, env.clock))
  }

  // ---------------------------------------------------------------------------
  // scenario_jump, sub-flow and the call stack

  /**
   * A loaded scenario as `convertMapToScenario` builds it: nodes and start node are
   * kept, the edges are not copied, so its conditions never route by edge.
   */
  function Converted(d: ScenarioData): ScenarioData
  {
    d.(edges := [])
  }

  function ScenarioJump(fuel: nat, node: Node, ctx: Context, env: Env): (r: Run)
    decreases fuel, 2
    ensures Stamped(r)
    ensures r.Raised? <==> !Castable(Param(node, "target_scenario"))
  {
    var target := Param(node, "target_scenario");
    if !Castable(target) then Raised(ctx)
    else if target.Null? || target.s == "" then
      Respond("scenario_jump", Some("Ошибка: не указан целевой сценарий"), None, ctx)
    else match Load(env, target.s)
      case NotLoaded => Respond("scenario_jump", Some("Ошибка загрузки сценария"), None, ctx)
      case FetchThrew => Respond("scenario_jump", Some("Ошибка перехода в сценарий"), None, ctx)
      case Fetched(d) =>
        var start := RealStart(d);
        var c := ctx["scenario_id" := target]["current_node" := OptText(start)]["scenario_completed" := Bool(false)];
        var r := Cascade(fuel, start, "", c, Converted(d), env, Respond("scenario_jump", Some("Ошибка загрузки сценария"), None, c));
        if r.Raised? then Respond("scenario_jump", Some("Ошибка перехода в сценарий"), None, r.ctx) else r
  }

  /** The return frame a sub-flow node pushes. */
  function Frame(node: Node, ctx: Context): Value
  {
    Obj(map["scenario_id" := Get(ctx, "scenario_id"), "node_id" := Str(node.id), "next_node" := OptText(FirstNext(node))])
  }

  /** Entering sub-scenario `target` at `start` with `frames` already on the stack. */
  function PushFrame(node: Node, ctx: Context, frames: seq<Value>, target: string, start: Option<string>): (r: Context)
    ensures Get(r, "call_stack") == Arr(frames + [Frame(node, ctx)])
    ensures Get(r, "in_sub_flow") == Bool(true) && Get(r, "scenario_id") == Str(target) && Get(r, "current_node") == OptText(start)
  {
    ctx["scenario_id" := Str(target)]["current_node" := OptText(start)]["call_stack" := Arr(frames + [Frame(node, ctx)])]["in_sub_flow" := Bool(true)]
  }

  /** The stack a sub-flow node extends: `getOrDefault("call_stack", new ArrayList())`. */
  function StackOf(ctx: Context): Value
  {
    if "call_stack" in ctx then ctx["call_stack"] else Arr([])
  }

  function SubFlow(fuel: nat, node: Node, ctx: Context, env: Env): (r: Run)
    decreases fuel, 2
    ensures Stamped(r)
    ensures r.Raised? <==> !Castable(Param(node, "target_scenario"))
  {
    var target := Param(node, "target_scenario");
    if !Castable(target) then Raised(ctx)
    else if target.Null? || target.s == "" then
      Respond("sub-flow", Some("Ошибка: не указан подсценарий"), None, ctx)
    else match Load(env, target.s)
      case NotLoaded => Respond("sub-flow", Some("Ошибка загрузки подсценария"), None, ctx)
      case FetchThrew => Respond("sub-flow", Some("Ошибка выполнения подсценария"), None, ctx)
      case Fetched(d) =>
        var stack := StackOf(ctx);
        if !stack.Arr? then Respond("sub-flow", Some("Ошибка выполнения подсценария"), None, ctx)
        else
          var start := RealStart(d);
          var c := PushFrame(node, ctx, stack.items, target.s, start);
          var r := Cascade(fuel, start, "", c, Converted(d), env, Respond("sub-flow", Some("Ошибка загрузки подсценария"), None, c));
          if r.Raised? then Respond("sub-flow", Some("Ошибка выполнения подсценария"), None, r.ctx) else r
  }

  /** Popping the call stack: nothing to pop, a frame that fails its casts, or the restored context. */
  datatype Pop = NoFrame | BadFrame(ctx: Context) | Popped(ctx: Context, scenario: Value, next: Value)

  /**
   * The first half of `returnFromSubFlow`: the last frame is removed from the stored
   * list (in place, so even a frame that then fails its casts is gone), its
   * `scenario_id` and `next_node` are restored, and `in_sub_flow` is cleared when the
   * stack becomes empty. `None` means the stack itself fails its cast.
   */
  function PopFrame(ctx: Context): Option<Pop>
  {
    var stack := Get(ctx, "call_stack");
    if !stack.Arr? && !stack.Null? then None
    else if stack.Null? || |stack.items| == 0 then Some(NoFrame)
    else
      var rest := stack.items[..|stack.items| - 1];
      var top := stack.items[|stack.items| - 1];
      var c := ctx["call_stack" := Arr(rest)];
      if !top.Obj? then Some(BadFrame(c))
      else
        var sid := Get(top.fields, "scenario_id");
        var nid := Get(top.fields, "next_node");
        if !Castable(sid) || !Castable(nid) then Some(BadFrame(c))
        else
          var restored := c["scenario_id" := sid]["current_node" := nid]["call_stack" := Arr(rest)];
          Some(Popped(if |rest| == 0 then restored["in_sub_flow" := Bool(false)] else restored, sid, nid))
  }

  /** `returnFromSubFlow`: pops a frame and resumes the caller's scenario at the frame's next node. */
  function ReturnFromSubFlow(fuel: nat, ctx: Context, env: Env): (r: Run)
    decreases fuel, 1
    ensures Stamped(r)
    ensures r.Raised? ==> PopFrame(ctx).None? || PopFrame(ctx).value.BadFrame?
  {
    match PopFrame(ctx)
    case None => Raised(ctx)
    case Some(NoFrame) =>
      Respond("end", Some("Диалог завершен."), None, ctx["scenario_completed" := Bool(true)]["dialog_ended" := Bool(true)])
    case Some(BadFrame(c)) => Raised(c)
    case Some(Popped(c, sid, nid)) =>
      var fallback := Respond("end", Some("Возврат из подсценария завершен."), None, c["scenario_completed" := Bool(true)]);
      if !nid.Str? || nid.s == "" then fallback
      else match Load(env, IdText(Text(sid)))
        case NotLoaded => fallback
        case FetchThrew => fallback
        case Fetched(d) =>
          var r := Cascade(fuel, Some(nid.s), "", c, Converted(d), env, fallback);
          if r.Raised? then Respond("end", Some("Возврат из подсценария завершен."), None, r.ctx["scenario_completed" := Bool(true)])
          else r
  }

  /** end: returns from a sub-flow when `in_sub_flow` is true, otherwise ends the dialog. */
  function End(fuel: nat, node: Node, ctx: Context, env: Env): (r: Run)
    decreases fuel, 2
    ensures Stamped(r)
    ensures Get(ctx, "in_sub_flow") != Bool(true) ==> !r.OutOfFuel?
    ensures r.Raised? && Get(ctx, "in_sub_flow") != Bool(true) ==> (!Get(ctx, "in_sub_flow").Bool? && !Get(ctx, "in_sub_flow").Null?)
                                                                    || !Castable(Setting(node, "message", "Диалог завершен."))
    ensures Get(ctx, "in_sub_flow") == Bool(false) || Get(ctx, "in_sub_flow").Null? ==> Get(r.ctx, "dialog_ended") == Bool(true)
    ensures Get(ctx, "in_sub_flow") != Bool(true) && r.Done? ==> r.reply.Reply? && r.reply.kind == "end" && r.reply.next.None?
  {
    var inSubFlow := Get(ctx, "in_sub_flow");
    if !inSubFlow.Bool? && !inSubFlow.Null? then Raised(ctx)
    else if inSubFlow == Bool(true) then ReturnFromSubFlow(fuel, ctx, env)
    else
      var c := ctx["scenario_completed" := Bool(true)]["dialog_ended" := Bool(true)];
      var message := Setting(node, "message", "Диалог завершен.");
      if !Castable(message) then Raised(c) else Respond("end", Text(message), None, c)
  }

  /** end_dialog: ends the dialog even inside a sub-flow, dropping the call stack. */
  function EndDialog(node: Node, ctx: Context): (r: Run)
    ensures Stamped(r) && !r.OutOfFuel?
    ensures r.Raised? <==> !Castable(Setting(node, "message", "Диалог завершен."))
    ensures Get(r.ctx, "dialog_ended") == Bool(true) && Get(r.ctx, "in_sub_flow") == Bool(false)
            && Get(r.ctx, "waiting_for_input") == Bool(false) && "call_stack" !in r.ctx
    ensures r.Done? ==> r.reply.Reply? && r.reply.kind == "end_dialog" && r.reply.next.None?
  {
    var c := (ctx["scenario_completed" := Bool(true)]["dialog_ended" := Bool(true)]["waiting_for_input" := Bool(false)]
              - {"call_stack"})["in_sub_flow" := Bool(false)];
    var message := Setting(node, "message", "Диалог завершен.");
    if !Castable(message) then Raised(c) else Respond("end_dialog", Text(message), None, c)
  }

  function Transfer(node: Node, ctx: Context): (r: Run)
    ensures Stamped(r) && !r.OutOfFuel?
    ensures r.Raised? <==> !Castable(Setting(node, "message", "Переводим вас на оператора..."))
    ensures Get(r.ctx, "transferred_to_operator") == Bool(true) && Get(r.ctx, "scenario_completed") == Bool(true)
    ensures r.Done? ==> r.reply.Reply? && r.reply.kind == "transfer" && r.reply.next.None?
  {
    var c := ctx["transferred_to_operator" := Bool(true)]["scenario_completed" := Bool(true)];
    var message := Setting(node, "message", "Переводим вас на оператора...");
    if !Castable(message) then Raised(c) else Respond("transfer", Text(message), None, c)
  }

  // ---------------------------------------------------------------------------
  // llm_call, notification, wait

  const Apology := "Извините, произошла ошибка при обращении к AI модели."

  /** The context after the LLM call: its text, or the fixed apology, under both keys. */
  function LlmStored(node: Node, outcome: LlmOutcome, ctx: Context): (r: Context)
    ensures outcome.LlmFailed? ==> Get(r, "llm_response_" + node.id) == Str(Apology) && Get(r, "llm_response") == Str(Apology)
    ensures outcome.LlmText? ==> Get(r, "llm_response_" + node.id) == Str(outcome.text) && Get(r, "llm_response") == Str(outcome.text)
  {
    var text := if outcome.LlmText? then outcome.text else Apology;
    ctx["llm_response_" + node.id := Str(text)]["llm_response" := Str(text)]
  }

  /** llm_call: stores the answer and runs the successor; without one the scenario completes. */
  function LlmCall(fuel: nat, node: Node, ctx: Context, sc: ScenarioData, env: Env): (r: Run)
    decreases fuel, 2
    ensures Stamped(r)
    ensures r.Raised? ==> !Castable(Setting(node, "prompt", "Ответьте на вопрос пользователя")) || FindNode(sc, FirstNext(node)).Some?
    ensures r.Done? && FindNode(sc, FirstNext(node)).None? && LlmOf(env, node.id).LlmFailed? ==> Get(r.ctx, "llm_response") == Str(Apology)
  {
    var prompt := Setting(node, "prompt", "Ответьте на вопрос пользователя");
    if !Castable(prompt) then Raised(ctx)
    else
      var next := FirstNext(node);
      var c := UpdateContext(LlmStored(node, LlmOf(env, node.id), ctx), next, env.clock);
      Cascade(fuel, next, "", c, sc, env, Respond("llm_call", Some(""), None, c["scenario_completed" := Bool(true)]))
  }

  function Notification(node: Node, ctx: Context, now: int): (r: Run)
    ensures Stamped(r) && !r.OutOfFuel?
    ensures r.Raised? <==> node.parameters.None? || !Castable(Get(node.parameters.value, "type"))
                           || !Castable(Get(node.parameters.value, "template")) || !Castable(Get(node.parameters.value, "recipient"))
    ensures r.Raised? ==> r.ctx == ctx
    ensures r.Done? ==> r.reply.Reply? && r.reply.kind == "notification" && r.reply.next == FirstNext(node)
                        && Get(r.ctx, "notification_sent") == Bool(true) && Get(r.ctx, "notification_type") == Get(node.parameters.value, "type")
  {
    if node.parameters.None? then Raised(ctx)
    else
      var ps := node.parameters.value;
      var kind := Get(ps, "type");
      if !Castable(kind) || !Castable(Get(ps, "template")) || !Castable(Get(ps, "recipient")) then Raised(ctx)
      else
        var next := FirstNext(node);
        var c := ctx["notification_sent" := Bool(true)]["notification_type" := kind];
        Respond("notification", Some("Notification sent"), next, UpdateContext(c, next, now))
  }

  function Wait(node: Node, ctx: Context, now: int): (r: Run)
    ensures Stamped(r) && !r.OutOfFuel?
    ensures r.Raised? <==> node.parameters.None? || !IntCastable(Get(node.parameters.value, "duration"))
    ensures r.Raised? ==> r.ctx == ctx
    ensures r.Done? ==> r.reply.Reply? && r.reply.kind == "wait" && r.reply.next == FirstNext(node)
                        && Kept(ctx, r.ctx, {"current_node", "scenario_completed", "last_execution_time", "node_type"})
  {
    if node.parameters.None? || !IntCastable(Get(node.parameters.value, "duration")) then Raised(ctx)
    else
      var next := FirstNext(node);
      Respond("wait", Some("Wait completed"), next, UpdateContext(ctx, next, now))
  }

  // ---------------------------------------------------------------------------
  // context-edit and calculate

  /** The operation list of a node: absent, undecodable text, or a list (empty when not a list). */
  datatype OpsRead = NoOps | Unparsed | Listed(items: seq<Value>)

  function ReadOps(v: Value, env: Env): OpsRead
  {
    match v
    case Null => NoOps
    case Arr(items) => Listed(items)
    case Str(s) =>
      if s !in env.decoded then Unparsed
      else
        var d := env.decoded[s];
        if d.Arr? then Listed(d.items) else if d.Null? then Listed([]) else Unparsed
    case _ => Listed([])
  }

  /** The counts message of `String.format("...%d...%d...")`. */
  function Counts(prefix: string, t: Tally): string
  {
    prefix + IntToString(t.succeeded) + " успешно, " + IntToString(t.failed) + " ошибок"
  }

  function ContextEdit(fuel: nat, node: Node, ctx: Context, sc: ScenarioData, env: Env): (r: Run)
    decreases fuel, 2
    ensures Stamped(r)
    ensures r.Raised? ==> node.parameters.Some? && ReadOps(Get(node.parameters.value, "operations"), env).Listed?
    ensures node.parameters.None? ==> r.Done? && r.reply.Reply? && r.reply.next.None? && Kept(ctx, r.ctx, {"node_type"})
  {
    if node.parameters.None? then Respond("context-edit", Some("Ошибка: нет параметров для редактирования"), None, ctx)
    else match ReadOps(Get(node.parameters.value, "operations"), env)
      case NoOps => Respond("context-edit", Some("Ошибка: нет операций для выполнения"), None, ctx)
      case Unparsed => Respond("context-edit", Some("Ошибка парсинга операций"), None, ctx)
      case Listed(items) =>
        if |items| == 0 then Respond("context-edit", Some("Нет операций для выполнения"), FirstNext(node), ctx)
        else
          var t := RunEdits(ctx, items);
          if t.aborted then Raised(t.ctx)
          else
            var message := if t.succeeded > 0 || t.failed > 0 then Counts("Контекст обновлен: ", t) else "Операции с контекстом выполнены";
            var next := FirstNext(node);
            var c := UpdateContext(t.ctx, next, env.clock);
            Cascade(fuel, next, "", c, sc, env, Respond("context-edit", Some(message), next, c))
  }

  function CalculateNodeStep(fuel: nat, node: Node, ctx: Context, sc: ScenarioData, env: Env): (r: Run)
    decreases fuel, 2
    ensures Stamped(r)
    ensures r.Raised? ==> node.parameters.Some? && ReadOps(Get(node.parameters.value, "operations"), env).Listed?
    ensures node.parameters.None? ==> r.Done? && r.reply.Reply? && r.reply.next.None? && Kept(ctx, r.ctx, {"node_type"})
  {
    if node.parameters.None? then Respond("calculate", Some("Ошибка: нет параметров для вычислений"), None, ctx)
    else match ReadOps(Get(node.parameters.value, "operations"), env)
      case NoOps => Respond("calculate", Some("Ошибка: нет операций для выполнения"), None, ctx)
      case Unparsed => Respond("calculate", Some("Ошибка парсинга операций"), None, ctx)
      case Listed(items) =>
        if |items| == 0 then Respond("calculate", Some("Нет операций для выполнения"), FirstNext(node), ctx)
        else
          var t := RunCalculations(ctx, items);
          if t.aborted then Raised(t.ctx)
          else
            var next := FirstNext(node);
            var c := UpdateContext(t.ctx, next, env.clock);
            Cascade(fuel, next, "", c, sc, env, Respond("calculate", Some(Counts("Вычисления выполнены: ", t)), next, c))
  }

  // ---------------------------------------------------------------------------
  // executeScenario

  /** The node id `executeScenario` starts from; `None` when `current_node` fails its cast. */
  function StartId(sc: ScenarioData, ctx: Context): Option<Option<string>>
  {
    var v := if "current_node" in ctx then ctx["current_node"] else OptText(sc.startNode);
    if !Castable(v) then None
    else if v.Null? then Some(sc.startNode)
    else Some(Some(v.s))
  }

  /** Runs the node `id` of `sc`, or answers with an error response naming it. */
  function ExecAt(fuel: nat, sc: ScenarioData, id: Option<string>, input: string, ctx: Context, env: Env): (r: Run)
    ensures Stamped(r)
    ensures FindNode(sc, id).None? ==> r.Done? && r.reply.ErrorReply? && r.ctx == ctx
  {
    match FindNode(sc, id)
    case None => Done(ErrorReply("Node not found: " + IdText(id)), ctx)
    case Some(n) => Exec(fuel, n, input, ctx, sc, env)
  }

  /** `executeScenario`: resumes at `current_node`, or at the start node when it is missing or `null`. */
  function ExecuteScenario(fuel: nat, sc: ScenarioData, input: string, ctx: Context, env: Env): (r: Run)
    ensures Stamped(r)
    ensures r.Raised? ==> StartId(sc, ctx).None? || FindNode(sc, StartId(sc, ctx).value).Some?
  {
    match StartId(sc, ctx)
    case None => Raised(ctx)
    case Some(id) => ExecAt(fuel, sc, id, input, ctx, env)
  }
}

=== FILE: engine_host.dfy ===
/**
 * The public entry points of `AdvancedScenarioEngine`: `processMessage` and
 * `continueExecution` resume a session at its `current_node` through the node
 * interpreter; `getInitialMessageFromEntryPoint` starts the entry-point scenario with
 * the older sequential walk, which skips every node up to the first one that talks.
 */
module EngineHost {

  import opened Wrappers
  import opened Json
  import opened Documents
  import opened Graph
  import opened Engine

  /** A text answer (possibly `null`) and the session context; or the stack overflow of a cyclic walk. */
  datatype Outcome = Says(text: Option<string>, ctx: Context) | Overflow(ctx: Context)

  const Greeting := "Привет! Добро пожаловать в банковский чат-бот."
  const Ended := "Диалог завершен."
  const WalkFailed := "Ошибка выполнения узлов."
  const RunFailed := "Ошибка выполнения сценария."

  // ---------------------------------------------------------------------------
  // executeNodesSequentially

  /** The node types the sequential walk stops at (compared exactly, without lower-casing). */
  predicate Talks(kind: string)
  {
    kind == "ask" || kind == "announce" || kind == "transfer" || kind == "end"
  }

  /** A text parameter the walk reads, or `None` when the parameters are missing or the cast fails. */
  function Said(node: Node, key: string): Option<Value>
  {
    if node.parameters.None? || !Castable(Get(node.parameters.value, key)) then None
    else Some(Get(node.parameters.value, key))
  }

  /** The value, or the default when it is `null`. */
  function OrDefault(v: Value, dflt: string): string
  {
    if v.Str? then v.s else dflt
  }

  /**
   * `executeNodesSequentially`: an ask, announce, transfer or end node answers with
   * its text; any other node moves `current_node` to its first successor and walks on.
   */
  function Sequential(fuel: nat, d: ScenarioData, id: Option<string>, ctx: Context): (r: Outcome)
    decreases fuel
    ensures r.Says? ==> r.text.Some?
    ensures Kept(ctx, r.ctx, {"current_node", "node_type"})
  {
    if d.nodes.None? then Says(Some(WalkFailed), ctx)
    // with no current node, the id comparison throws only once there is a node to compare
    else if id.None? then Says(Some(if |d.nodes.value| == 0 then "Узел не найден." else WalkFailed), ctx)
    else match FirstWithId(d.nodes.value, id.value)
      case None => Says(Some("Узел не найден."), ctx)
      case Some(n) =>
        var next := FirstNext(n);
        if n.kind == "ask" then
          match Said(n, "question")
          case None => Says(Some(WalkFailed), ctx)
          case Some(q) => Says(Some(OrDefault(q, "Вопрос пользователю")), ctx["current_node" := OptText(next)]["node_type" := Str("ask")])
        else if n.kind == "announce" then
          match Said(n, "message")
          case None => Says(Some(WalkFailed), ctx)
          case Some(m) =>
            if next.Some? then Says(Some(OrDefault(m, "Сообщение пользователю")), ctx["current_node" := Str(next.value)]["node_type" := Str("announce")])
            else Says(Some(OrDefault(m, Ended)), ctx["current_node" := Null]["node_type" := Str("exit")])
        else if n.kind == "transfer" then
          match Said(n, "message")
          case None => Says(Some(WalkFailed), ctx)
          case Some(m) => Says(Some(OrDefault(m, "Передаю вас оператору...")), ctx["current_node" := Null]["node_type" := Str("transfer")])
        else if n.kind == "end" then
          match Said(n, "message")
          case None => Says(Some(WalkFailed), ctx)
          case Some(m) => Says(Some(OrDefault(m, Ended)), ctx["current_node" := Null]["node_type" := Str("exit")])
        else if next.None? then
          var c := ctx["current_node" := Null];
          Says(Some(Ended), if n.kind == "nlu-request" then c["node_type" := Str("exit")] else c)
        else
          var c := ctx["current_node" := Str(next.value)];
          if fuel == 0 then Overflow(c) else Sequential(fuel - 1, d, next, c)
  }

  /** `getInitialMessageFromEntryPoint`: starts the entry-point scenario at its real start node. */
  function Initial(fuel: nat, entry: Option<ScenarioDoc>, ctx: Context): (r: Outcome)
    ensures r.Says? ==> r.text.Some?
    ensures Kept(ctx, r.ctx, {"scenario_id", "current_node", "node_type"})
    ensures entry.Some? && entry.value.data.Some? ==> Get(r.ctx, "scenario_id") == OptText(entry.value.id)
  {
    if entry.None? || entry.value.data.None? then Says(Some(Greeting), ctx)
    else
      var d := entry.value.data.value;
      var start := RealStart(d);
      Sequential(fuel, d, start, ctx["scenario_id" := OptText(entry.value.id)]["current_node" := OptText(start)])
  }

  // ---------------------------------------------------------------------------
  // processMessage and continueExecution

  /**
   * `continueScenarioExecution`: loads the session's scenario, records the input as
   * `user_message` and runs the current node; the answer is the response's message.
   */
  function ContinueScenario(fuel: nat, env: Env, input: string, ctx: Context, scenarioId: string, nodeId: string): Outcome
  {
    if scenarioId in env.unreachable || scenarioId !in env.store then Says(Some(RunFailed), ctx)
    else if env.store[scenarioId].data.None? then Says(Some("Ошибка: некорректные данные сценария"), ctx)
    else
      var sc := Converted(env.store[scenarioId].data.value);
      var c := ctx["user_message" := Str(input)];
      match FindNode(sc, Some(nodeId))
      case None => Says(Some("Узел не найден: " + nodeId), c)
      case Some(n) =>
        match Exec(fuel, n, input, c, sc, env)
        case Done(Reply(_, message, _), c') => Says(message, c')
        case Done(ErrorReply(e), c') => Says(Some(e), c')
        case Raised(c') => Says(Some(RunFailed), c')
        case OutOfFuel(c') => Overflow(c')
  }

  /** `processMessage`: a session without `current_node` or `scenario_id` is refused. */
  function ProcessMessage(fuel: nat, env: Env, input: string, ctx: Context): (r: Outcome)
    ensures !(Get(ctx, "current_node").Str? && Get(ctx, "scenario_id").Str?) ==> r.Says? && r.ctx == ctx && r.text.Some?
    ensures Get(ctx, "current_node").Str? && Get(ctx, "scenario_id").Str? && Get(ctx, "scenario_id").s in env.unreachable ==>
              r == Says(Some(RunFailed), ctx)
  {
    var node := Get(ctx, "current_node");
    var scenario := Get(ctx, "scenario_id");
    if !Castable(node) || !Castable(scenario) then Says(Some("Извините, произошла ошибка при обработке сообщения."), ctx)
    else if node.Null? || scenario.Null? then Says(Some("Ошибка: сессия не инициализирована"), ctx)
    else ContinueScenario(fuel, env, input, ctx, scenario.s, node.s)
  }

  /** `continueExecution`: a completed or position-less session has ended; otherwise the current node runs with empty input. */
  function ContinueExecution(fuel: nat, env: Env, ctx: Context): (r: Outcome)
    ensures Get(ctx, "scenario_completed") == Bool(true) ==> r == Says(Some(Ended), ctx)
    ensures r.ctx != ctx ==> Get(ctx, "scenario_completed") != Bool(true) && Get(ctx, "current_node").Str?
                             && Get(ctx, "current_node").s != "" && Get(ctx, "scenario_id").Str?
  {
    var done := Get(ctx, "scenario_completed");
    var node := Get(ctx, "current_node");
    var scenario := Get(ctx, "scenario_id");
    if !done.Bool? && !done.Null? then Says(Some("Извините, произошла ошибка при продолжении диалога."), ctx)
    else if done == Bool(true) then Says(Some(Ended), ctx)
    else if !Castable(node) || !Castable(scenario) then Says(Some("Извините, произошла ошибка при продолжении диалога."), ctx)
    else if node.Null? || node.s == "" || scenario.Null? then Says(Some(Ended), ctx)
    else ContinueScenario(fuel, env, "", ctx, scenario.s, node.s)
  }

  // ---------------------------------------------------------------------------
  // Properties

  /** A session with no position is refused before anything is loaded; otherwise its scenario is resumed. */
  lemma RefusesUninitialised(fuel: nat, env: Env, input: string, ctx: Context)
    requires Castable(Get(ctx, "current_node")) && Castable(Get(ctx, "scenario_id"))
    ensures Get(ctx, "current_node") == Null || Get(ctx, "scenario_id") == Null ==>
              ProcessMessage(fuel, env, input, ctx) == Says(Some("Ошибка: сессия не инициализирована"), ctx)
    ensures Get(ctx, "current_node").Str? && Get(ctx, "scenario_id").Str? ==>
              ProcessMessage(fuel, env, input, ctx)
              == ContinueScenario(fuel, env, input, ctx, Get(ctx, "scenario_id").s, Get(ctx, "current_node").s)
  {
  }

  /** A message runs the session's current node with that input, and answers with the response's message. */
  lemma ProcessRunsCurrentNode(fuel: nat, env: Env, input: string, ctx: Context, sid: string, id: string, n: Node,
                               kind: string, message: Option<string>, next: Option<string>, after: Context)
    requires Get(ctx, "current_node") == Str(id) && Get(ctx, "scenario_id") == Str(sid)
    requires sid !in env.unreachable && sid in env.store && env.store[sid].data.Some?
    requires FindNode(Converted(env.store[sid].data.value), Some(id)) == Some(n)
    requires Exec(fuel, n, input, ctx["user_message" := Str(input)], Converted(env.store[sid].data.value), env) == Done(Reply(kind, message, next), after)
    ensures ProcessMessage(fuel, env, input, ctx) == Says(message, after)
  {
    assert ProcessMessage(fuel, env, input, ctx) == ContinueScenario(fuel, env, input, ctx, sid, id);
  }

  /** A scenario whose fetch throws answers the generic run failure and leaves the context as it was. */
  lemma ProcessUnreachableFails(fuel: nat, env: Env, input: string, ctx: Context)
    requires Get(ctx, "current_node").Str? && Get(ctx, "scenario_id").Str?
    requires Get(ctx, "scenario_id").s in env.unreachable
    ensures ProcessMessage(fuel, env, input, ctx) == Says(Some(RunFailed), ctx)
  {
  }

  /** A completed session stays ended: continuing it changes nothing. */
  lemma CompletedStaysEnded(fuel: nat, env: Env, ctx: Context)
    requires Get(ctx, "scenario_completed") == Bool(true)
    ensures ContinueExecution(fuel, env, ctx) == Says(Some(Ended), ctx)
  {
  }

  /** Continuing an open session is a message with empty input. */
  lemma ContinueIsEmptyMessage(fuel: nat, env: Env, ctx: Context)
    requires Get(ctx, "scenario_completed") == Bool(false) || Get(ctx, "scenario_completed") == Null
    requires Get(ctx, "current_node").Str? && Get(ctx, "current_node").s != "" && Get(ctx, "scenario_id").Str?
    ensures ContinueExecution(fuel, env, ctx) == ProcessMessage(fuel, env, "", ctx)
  {
  }

  /** Without an entry-point scenario the fixed greeting is the answer. */
  lemma GreetsWithoutEntryPoint(fuel: nat, entry: Option<ScenarioDoc>, ctx: Context)
    requires entry.None? || entry.value.data.None?
    ensures Initial(fuel, entry, ctx) == Says(Some(Greeting), ctx)
  {
  }

  /** The walk's step over a node that does not talk: its first successor becomes current and is walked. */
  lemma SequentialSkips(fuel: nat, d: ScenarioData, id: string, ctx: Context, n: Node, next: string)
    requires d.nodes.Some? && FirstWithId(d.nodes.value, id) == Some(n)
    requires !Talks(n.kind) && FirstNext(n) == Some(next) && fuel > 0
    ensures Sequential(fuel, d, Some(id), ctx) == Sequential(fuel - 1, d, Some(next), ctx["current_node" := Str(next)])
  {
  }

  /** The ask node's question answers, and `current_node` moves past it. */
  lemma SequentialAsks(fuel: nat, d: ScenarioData, id: string, ctx: Context, n: Node, q: string)
    requires d.nodes.Some? && FirstWithId(d.nodes.value, id) == Some(n)
    requires n.kind == "ask" && Said(n, "question") == Some(Str(q))
    ensures var r := Sequential(fuel, d, Some(id), ctx);
            r == Says(Some(q), r.ctx) && Get(r.ctx, "current_node") == OptText(FirstNext(n)) && Get(r.ctx, "node_type") == Str("ask")
  {
  }

  /**
   * With no current node, the walk reports a missing node exactly when the scenario has no
   * nodes at all; otherwise the failed comparison makes it report a failed walk.
   */
  lemma SequentialWithoutNode(fuel: nat, d: ScenarioData, ctx: Context)
    requires d.nodes.Some?
    ensures var r := Sequential(fuel, d, None, ctx);
            r.Says? && r.ctx == ctx && r.text.Some? &&
            (r.text.value == "Узел не найден." <==> |d.nodes.value| == 0) &&
            (r.text.value == WalkFailed <==> |d.nodes.value| > 0)
  {
  }

  /** A node of `d` that does not talk and leads to `to`. */
  predicate PassesTo(d: ScenarioData, from: string, to: string)
    requires d.nodes.Some?
  {
    var n := FirstWithId(d.nodes.value, from);
    n.Some? && !Talks(n.value.kind) && FirstNext(n.value) == Some(to)
  }

  /**
   * A path of silent nodes ending at an ask node: given one unit of fuel per silent
   * node, the walk answers with the ask node's question.
   */
  lemma {:induction false} WalkReachesQuestion(fuel: nat, d: ScenarioData, path: seq<string>, ctx: Context, q: string)
    requires d.nodes.Some? && |path| > 0 && fuel >= |path| - 1
    requires forall k :: 0 <= k < |path| - 1 ==> PassesTo(d, path[k], path[k + 1])
    requires FirstWithId(d.nodes.value, path[|path| - 1]).Some?
    requires FirstWithId(d.nodes.value, path[|path| - 1]).value.kind == "ask"
    requires Said(FirstWithId(d.nodes.value, path[|path| - 1]).value, "question") == Some(Str(q))
    ensures Sequential(fuel, d, Some(path[0]), ctx).Says? && Sequential(fuel, d, Some(path[0]), ctx).text == Some(q)
    decreases |path|
  {
    var last := FirstWithId(d.nodes.value, path[|path| - 1]).value;
    if |path| == 1 {
      SequentialAsks(fuel, d, path[0], ctx, last, q);
    } else {
      assert PassesTo(d, path[0], path[1]);
      var n := FirstWithId(d.nodes.value, path[0]).value;
      SequentialSkips(fuel, d, path[0], ctx, n, path[1]);
      var rest := path[1..];
      forall k | 0 <= k < |rest| - 1
        ensures PassesTo(d, rest[k], rest[k + 1])
      {
        assert rest[k] == path[k + 1] && rest[k + 1] == path[k + 2];
      }
      WalkReachesQuestion(fuel - 1, d, rest, ctx["current_node" := Str(path[1])], q);
    }
  }
}

=== FILE: engine_proofs.dfy ===
/**
 * Properties of the node interpreter: which node types pause and which cascade,
 * how the call stack of sub-flows round-trips, where service answers are stored and
 * routed, and how `executeScenario` picks its first node.
 */
module EngineProofs {

  import opened Wrappers
  import opened Json
  import opened Documents
  import opened Templates
  import opened ContextOps
  import opened Calculate
  import opened Graph
  import opened Engine

  // ---------------------------------------------------------------------------
  // Pausing nodes

  /**
   * An ask node never runs another node: its outcome does not depend on the fuel,
   * the input, the scenario or the services, only on the clock that stamps
   * `last_execution_time`. It records that it waits for an answer.
   */
  lemma AskPauses(fuel: nat, fuel': nat, node: Node, input: string, input': string, ctx: Context,
                  sc: ScenarioData, sc': ScenarioData, env: Env, env': Env)
    requires TypeOf(node.kind) == AskNode && env'.clock == env.clock
    ensures Exec(fuel, node, input, ctx, sc, env) == Exec(fuel', node, input', ctx, sc', env')
    ensures node.parameters.Some? && Castable(Get(node.parameters.value, "question"))
            && Castable(ParamOr(node.parameters.value, "inputType", Str("text"))) ==>
              var r := Exec(fuel, node, input, ctx, sc, env);
              r.Done? && r.reply == Reply("ask", Text(Get(node.parameters.value, "question")), FirstNext(node))
              && Get(r.ctx, "waiting_for_input") == Bool(true) && Get(r.ctx, "waiting_for_answer_to_node") == Str(node.id)
  {
    assert Exec(fuel, node, input, ctx, sc, env) == Ask(node, ctx, env.clock);
    assert Exec(fuel', node, input', ctx, sc', env') == Ask(node, ctx, env.clock);
    AskWaits(node, ctx, env.clock);
  }

  /** The ask handler's reply and the flags it sets. */
  lemma AskWaits(node: Node, ctx: Context, now: int)
    ensures node.parameters.Some? && Castable(Get(node.parameters.value, "question"))
            && Castable(ParamOr(node.parameters.value, "inputType", Str("text"))) ==>
              var r := Ask(node, ctx, now);
              r.Done? && r.reply == Reply("ask", Text(Get(node.parameters.value, "question")), FirstNext(node))
              && Get(r.ctx, "waiting_for_input") == Bool(true) && Get(r.ctx, "waiting_for_answer_to_node") == Str(node.id)
              && Get(r.ctx, "last_execution_time") == Int(now)
  {
  }

  /** An announce node shows its message with the context substituted and does not run its successor. */
  lemma AnnouncePauses(fuel: nat, fuel': nat, node: Node, input: string, input': string, ctx: Context,
                       sc: ScenarioData, sc': ScenarioData, env: Env, env': Env)
    requires TypeOf(node.kind) == AnnounceNode && env'.clock == env.clock
    ensures Exec(fuel, node, input, ctx, sc, env) == Exec(fuel', node, input', ctx, sc', env')
    ensures node.parameters.Some? && Castable(Get(node.parameters.value, "message")) ==>
              var r := Exec(fuel, node, input, ctx, sc, env);
              r.Done? && r.reply == Reply("announce", SubstituteOpt(Text(Get(node.parameters.value, "message")), ctx), FirstNext(node))
  {
  }

  // ---------------------------------------------------------------------------
  // Cascading nodes

  /** A parse node hands the same input to its first successor at once, spending one unit of fuel. */
  lemma ParseRunsSuccessor(fuel: nat, node: Node, m: Node, input: string, ctx: Context, sc: ScenarioData, env: Env)
    requires TypeOf(node.kind) == ParseNode && node.parameters.Some?
    requires Castable(Get(node.parameters.value, "script"))
    requires fuel > 0 && FindNode(sc, FirstNext(node)) == Some(m)
    ensures Exec(fuel, node, input, ctx, sc, env)
            == Exec(fuel - 1, m, input, ParseContext(node, Get(node.parameters.value, "script"), input, ctx, env.clock), sc, env)
    ensures Get(ParseContext(node, Get(node.parameters.value, "script"), input, ctx, env.clock), "current_node") == Str(m.id)
  {
    var script := Get(node.parameters.value, "script");
    var next := FirstNext(node);
    var c := ParseContext(node, script, input, ctx, env.clock);
    var fallback := Respond("parse", Some("Input processed"), next, c);
    assert Exec(fuel, node, input, ctx, sc, env) == Parse(fuel, node, input, ctx, sc, env);
    assert Parse(fuel, node, input, ctx, sc, env) == Cascade(fuel, next, input, c, sc, env, fallback);
    assert Cascade(fuel, next, input, c, sc, env, fallback) == Exec(fuel - 1, m, input, c, sc, env);
  }

  /** A condition node runs the routed node, or its first successor, with empty input. */
  lemma ConditionRunsTarget(fuel: nat, node: Node, m: Node, input: string, ctx: Context, sc: ScenarioData, env: Env, t: Option<string>)
    requires TypeOf(node.kind) == ConditionNode && (node.conditions.Some? || node.parameters.Some?)
    requires ConditionRoute(node, sc.edges, ctx) == Target(t)
    requires fuel > 0 && FindNode(sc, if t.Some? then t else FirstNext(node)) == Some(m)
    ensures Exec(fuel, node, input, ctx, sc, env) == Exec(fuel - 1, m, "", UpdateContext(ctx, Some(m.id), env.clock), sc, env)
  {
    var next := Or(t, FirstNext(node));
    var c := UpdateContext(ctx, next, env.clock);
    var fallback := Respond("condition", Some("Ошибка: следующий узел не найден"), None, c);
    assert next == Some(m.id);
    assert Exec(fuel, node, input, ctx, sc, env) == Condition(fuel, node, ctx, sc, env);
    assert Condition(fuel, node, ctx, sc, env) == Cascade(fuel, next, "", c, sc, env, fallback);
    assert Cascade(fuel, next, "", c, sc, env, fallback) == Exec(fuel - 1, m, "", c, sc, env);
  }

  /** A condition node whose routing throws leaves the handler with the context untouched. */
  lemma ConditionFailureRaises(fuel: nat, node: Node, input: string, ctx: Context, sc: ScenarioData, env: Env)
    requires TypeOf(node.kind) == ConditionNode && (node.conditions.Some? || node.parameters.Some?)
    requires ConditionRoute(node, sc.edges, ctx) == Fails
    ensures Exec(fuel, node, input, ctx, sc, env) == Raised(ctx)
  {
  }

  /**
   * A condition node without routing whose only successor is itself loops: every
   * fuel bound is used up. In the source this recursion ends in a stack overflow.
   */
  lemma {:induction false} SelfLoopExhaustsFuel(fuel: nat, node: Node, input: string, ctx: Context, sc: ScenarioData, env: Env)
    requires TypeOf(node.kind) == ConditionNode && node.conditions.None?
    requires node.parameters.Some? && "conditions" !in node.parameters.value
    requires FirstNext(node) == Some(node.id) && FindNode(sc, Some(node.id)) == Some(node)
    ensures Exec(fuel, node, input, ctx, sc, env).OutOfFuel?
    decreases fuel
  {
    var next := Some(node.id);
    var c := UpdateContext(ctx, next, env.clock);
    var fallback := Respond("condition", Some("Ошибка: следующий узел не найден"), None, c);
    NoConditionsNoTarget(node, sc.edges, ctx);
    assert Exec(fuel, node, input, ctx, sc, env) == Condition(fuel, node, ctx, sc, env);
    assert Condition(fuel, node, ctx, sc, env) == Cascade(fuel, next, "", c, sc, env, fallback);
    if fuel == 0 {
      assert Cascade(fuel, next, "", c, sc, env, fallback) == OutOfFuel(c);
    } else {
      assert Cascade(fuel, next, "", c, sc, env, fallback) == Exec(fuel - 1, node, "", c, sc, env);
      SelfLoopExhaustsFuel(fuel - 1, node, "", c, sc, env);
    }
  }

  /** Without a condition map and without `conditions` in the parameters, routing names no target. */
  lemma NoConditionsNoTarget(node: Node, edges: seq<Edge>, ctx: Context)
    requires node.conditions.None? && node.parameters.Some? && "conditions" !in node.parameters.value
    ensures ConditionRoute(node, edges, ctx) == Target(None)
  {
  }

  // ---------------------------------------------------------------------------
  // Sub-flows and the call stack

  /**
   * Popping the frame a sub-flow node pushed restores the caller: its scenario id,
   * the sub-flow node's first successor as the node to resume at, the stack as it
   * was, and `in_sub_flow` cleared exactly when that stack is empty.
   */
  lemma {:induction false} PopUndoesPush(node: Node, ctx: Context, frames: seq<Value>, target: string, start: Option<string>)
    requires Castable(Get(ctx, "scenario_id"))
    ensures var p := PopFrame(PushFrame(node, ctx, frames, target, start));
            p.Some? && p.value.Popped? && p.value.scenario == Get(ctx, "scenario_id") && p.value.next == OptText(FirstNext(node))
            && Get(p.value.ctx, "scenario_id") == Get(ctx, "scenario_id")
            && Get(p.value.ctx, "current_node") == OptText(FirstNext(node))
            && Get(p.value.ctx, "call_stack") == Arr(frames)
            && (Get(p.value.ctx, "in_sub_flow") == Bool(false) <==> |frames| == 0)
  {
    var pushed := PushFrame(node, ctx, frames, target, start);
    var items := frames + [Frame(node, ctx)];
    assert Get(pushed, "call_stack") == Arr(items);
    assert items[..|items| - 1] == frames;
    assert items[|items| - 1] == Frame(node, ctx);
    var top := Frame(node, ctx).fields;
    assert Get(top, "scenario_id") == Get(ctx, "scenario_id");
    assert Get(top, "next_node") == OptText(FirstNext(node));
  }

  /** A sub-flow node whose target loads pushes a return frame and runs the target's start node. */
  lemma SubFlowEnters(fuel: nat, node: Node, m: Node, input: string, ctx: Context, sc: ScenarioData, env: Env,
                      target: string, d: ScenarioData, frames: seq<Value>)
    requires TypeOf(node.kind) == SubFlowNode && Param(node, "target_scenario") == Str(target) && target != ""
    requires Load(env, target) == Fetched(d) && StackOf(ctx) == Arr(frames)
    requires fuel > 0 && FindNode(Converted(d), RealStart(d)) == Some(m)
    requires !Exec(fuel - 1, m, "", PushFrame(node, ctx, frames, target, RealStart(d)), Converted(d), env).Raised?
    ensures Exec(fuel, node, input, ctx, sc, env) == Exec(fuel - 1, m, "", PushFrame(node, ctx, frames, target, RealStart(d)), Converted(d), env)
  {
    var start := RealStart(d);
    var c := PushFrame(node, ctx, frames, target, start);
    var fallback := Respond("sub-flow", Some("Ошибка загрузки подсценария"), None, c);
    assert Exec(fuel, node, input, ctx, sc, env) == SubFlow(fuel, node, ctx, env);
    assert Cascade(fuel, start, "", c, Converted(d), env, fallback) == Exec(fuel - 1, m, "", c, Converted(d), env);
    assert SubFlow(fuel, node, ctx, env) == Exec(fuel - 1, m, "", c, Converted(d), env);
  }

  /** A sub-flow node whose target does not load answers with an error and leaves the call stack alone. */
  lemma SubFlowLoadFails(fuel: nat, node: Node, input: string, ctx: Context, sc: ScenarioData, env: Env, target: string)
    requires TypeOf(node.kind) == SubFlowNode && Param(node, "target_scenario") == Str(target) && target != ""
    requires Load(env, target).NotLoaded?
    ensures var r := Exec(fuel, node, input, ctx, sc, env);
            r.Done? && r.reply == Reply("sub-flow", Some("Ошибка загрузки подсценария"), None)
            && Get(r.ctx, "call_stack") == Get(ctx, "call_stack") && Get(r.ctx, "in_sub_flow") == Get(ctx, "in_sub_flow")
  {
  }

  /** An end node inside a sub-flow resumes the caller's scenario at the popped frame's next node. */
  lemma EndReturns(fuel: nat, node: Node, m: Node, input: string, ctx: Context, sc: ScenarioData, env: Env,
                   c: Context, sid: Value, next: string, d: ScenarioData)
    requires TypeOf(node.kind) == EndNode && Get(ctx, "in_sub_flow") == Bool(true)
    requires PopFrame(ctx) == Some(Popped(c, sid, Str(next))) && next != ""
    requires Load(env, IdText(Text(sid))) == Fetched(d)
    requires fuel > 0 && FindNode(Converted(d), Some(next)) == Some(m)
    requires !Exec(fuel - 1, m, "", c, Converted(d), env).Raised?
    ensures Exec(fuel, node, input, ctx, sc, env) == Exec(fuel - 1, m, "", c, Converted(d), env)
  {
    var fallback := Respond("end", Some("Возврат из подсценария завершен."), None, c["scenario_completed" := Bool(true)]);
    assert Exec(fuel, node, input, ctx, sc, env) == End(fuel, node, ctx, env);
    assert End(fuel, node, ctx, env) == ReturnFromSubFlow(fuel, ctx, env);
    assert Cascade(fuel, Some(next), "", c, Converted(d), env, fallback) == Exec(fuel - 1, m, "", c, Converted(d), env);
    assert ReturnFromSubFlow(fuel, ctx, env) == Exec(fuel - 1, m, "", c, Converted(d), env);
  }

  /** An end node in a sub-flow with nothing on the stack ends the dialog. */
  lemma EndWithEmptyStack(fuel: nat, node: Node, input: string, ctx: Context, sc: ScenarioData, env: Env)
    requires TypeOf(node.kind) == EndNode && Get(ctx, "in_sub_flow") == Bool(true)
    requires Get(ctx, "call_stack") == Null || Get(ctx, "call_stack") == Arr([])
    ensures var r := Exec(fuel, node, input, ctx, sc, env);
            r.Done? && r.reply == Reply("end", Some("Диалог завершен."), None)
            && Get(r.ctx, "dialog_ended") == Bool(true) && Get(r.ctx, "scenario_completed") == Bool(true)
  {
    assert Exec(fuel, node, input, ctx, sc, env) == End(fuel, node, ctx, env);
    assert End(fuel, node, ctx, env) == ReturnFromSubFlow(fuel, ctx, env);
    assert PopFrame(ctx) == Some(NoFrame);
  }

  /** Outside a sub-flow an end node ends the dialog with its message, "Диалог завершен." by default. */
  lemma EndOutsideSubFlow(fuel: nat, node: Node, input: string, ctx: Context, sc: ScenarioData, env: Env)
    requires TypeOf(node.kind) == EndNode && (Get(ctx, "in_sub_flow") == Null || Get(ctx, "in_sub_flow") == Bool(false))
    requires node.parameters.None? || "message" !in node.parameters.value
    ensures var r := Exec(fuel, node, input, ctx, sc, env);
            r.Done? && r.reply == Reply("end", Some("Диалог завершен."), None)
            && Get(r.ctx, "dialog_ended") == Bool(true) && Get(r.ctx, "scenario_completed") == Bool(true)
  {
    var c := ctx["scenario_completed" := Bool(true)]["dialog_ended" := Bool(true)];
    assert Setting(node, "message", "Диалог завершен.") == Str("Диалог завершен.");
    assert Exec(fuel, node, input, ctx, sc, env) == End(fuel, node, ctx, env);
    assert End(fuel, node, ctx, env) == Respond("end", Some("Диалог завершен."), None, c);
  }

  /** end_dialog always drops the call stack and leaves sub-flow mode, whatever else happens. */
  lemma EndDialogClearsStack(fuel: nat, node: Node, input: string, ctx: Context, sc: ScenarioData, env: Env)
    requires TypeOf(node.kind) == EndDialogNode
    ensures var r := Exec(fuel, node, input, ctx, sc, env);
            (r.Done? || r.Raised?) && "call_stack" !in r.ctx && Get(r.ctx, "in_sub_flow") == Bool(false)
            && Get(r.ctx, "dialog_ended") == Bool(true) && Get(r.ctx, "waiting_for_input") == Bool(false)
  {
    assert Exec(fuel, node, input, ctx, sc, env) == EndDialog(node, ctx);
  }

  // ---------------------------------------------------------------------------
  // Services

  /**
   * An answered api-request stores the body under both keys and the status code,
   * and routes by status; with no such node in the scenario it reports completion.
   */
  lemma ApiAnswerRoutes(fuel: nat, node: Node, input: string, ctx: Context, sc: ScenarioData, env: Env, reply: HttpReply)
    requires TypeOf(node.kind) == ApiNode && node.parameters.Some? && ApiCastsHold(node.parameters.value)
    requires ParamOr(node.parameters.value, "timeout", Int(30000)).Int? && ParamOr(node.parameters.value, "timeout", Int(30000)).i > 0
    requires ApiOf(env, node.id) == Answered(reply) && FindNode(sc, ApiNext(node, reply.status)).None?
    ensures var r := Exec(fuel, node, input, ctx, sc, env);
            var body := if reply.json.Some? then Obj(reply.json.value) else Str(reply.raw);
            r.Done? && r.reply == Reply("api-request", Some("API call completed"), ApiNext(node, reply.status))
            && Get(r.ctx, "api_status_code") == Int(reply.status) && Get(r.ctx, "api_response") == body
  {
    var next := ApiNext(node, reply.status);
    var c := UpdateContext(ApiStored(node, reply, ctx), next, env.clock);
    var fallback := Respond("api-request", Some("API call completed"), next, c);
    assert Exec(fuel, node, input, ctx, sc, env) == ApiRequest(fuel, node, ctx, sc, env);
    assert Cascade(fuel, next, "", c, sc, env, fallback) == fallback;
    assert ApiRequest(fuel, node, ctx, sc, env) == fallback;
    ApiStoredReads(node, reply, ctx, next, env.clock);
  }

  /** The reply of an answered request as the handler leaves it in the context. */
  lemma ApiStoredReads(node: Node, reply: HttpReply, ctx: Context, next: Option<string>, now: int)
    ensures var r := Respond("api-request", Some("API call completed"), next, UpdateContext(ApiStored(node, reply, ctx), next, now));
            var body := if reply.json.Some? then Obj(reply.json.value) else Str(reply.raw);
            Get(r.ctx, "api_status_code") == Int(reply.status) && Get(r.ctx, "api_response") == body
  {
    var stored := ApiStored(node, reply, ctx);
    var body := if reply.json.Some? then Obj(reply.json.value) else Str(reply.raw);
    assert Get(stored, "api_status_code") == Int(reply.status);
    assert Get(stored, "api_response") == body by {
      assert "api_response" != "api_status_code";
      assert |"api_response_" + node.id| != |"api_response"| || "api_response_" + node.id != "api_response";
    }
  }

  /** A timed-out api-request records "timeout" and follows the `timeout` branch. */
  lemma ApiTimeoutRoutes(fuel: nat, node: Node, input: string, ctx: Context, sc: ScenarioData, env: Env)
    requires TypeOf(node.kind) == ApiNode && node.parameters.Some? && ApiCastsHold(node.parameters.value)
    requires ParamOr(node.parameters.value, "timeout", Int(30000)).Int? && ParamOr(node.parameters.value, "timeout", Int(30000)).i > 0
    requires ApiOf(env, node.id) == TimedOut
    ensures var r := Exec(fuel, node, input, ctx, sc, env);
            r.Done? && r.reply == Reply("api-request", Some("API request timeout"), TimeoutNext(node))
            && Get(r.ctx, "api_error") == Str("timeout")
  {
  }

  /**
   * A successful NLU analysis stores intent, entities and confidence from the
   * response, with `suggested_scenario` defaulting to "".
   */
  lemma NluStoresAnalysis(fuel: nat, node: Node, input: string, ctx: Context, sc: ScenarioData, env: Env,
                          status: int, body: map<string, Value>)
    requires TypeOf(node.kind) == NluNode
    requires Castable(Setting(node, "service", "nlu-service")) && Castable(Setting(node, "endpoint", "/api/v1/nlu/analyze"))
    requires NluOf(env, node.id) == NluAnswered(status, Some(body)) && 200 <= status < 300
    requires FindNode(sc, Or(CondTarget(node, "success"), FirstNext(node))).None?
    ensures var r := Exec(fuel, node, input, ctx, sc, env);
            r.Done? && r.reply.Reply? && r.reply.message == Some("NLU analysis completed")
            && Get(r.ctx, "intent") == Get(body, "intent") && Get(r.ctx, "confidence") == Get(body, "confidence")
            && Get(r.ctx, "suggested_scenario") == (if Get(body, "suggested_scenario").Null? then Str("") else Get(body, "suggested_scenario"))
  {
    var next := Or(CondTarget(node, "success"), FirstNext(node));
    var c := UpdateContext(NluStored(body, ctx), next, env.clock);
    var fallback := Respond("nlu-request", Some("NLU analysis completed"), next, c);
    assert Exec(fuel, node, input, ctx, sc, env) == NluRequest(fuel, node, input, ctx, sc, env);
    assert Cascade(fuel, next, input, c, sc, env, fallback) == fallback;
    assert NluRequest(fuel, node, input, ctx, sc, env) == fallback;
    NluStoredReads(body, ctx, next, env.clock);
  }

  /** The analysis fields as the handler leaves them in the context. */
  lemma NluStoredReads(body: map<string, Value>, ctx: Context, next: Option<string>, now: int)
    ensures var r := Respond("nlu-request", Some("NLU analysis completed"), next, UpdateContext(NluStored(body, ctx), next, now));
            Get(r.ctx, "intent") == Get(body, "intent") && Get(r.ctx, "confidence") == Get(body, "confidence")
            && Get(r.ctx, "suggested_scenario") == (if Get(body, "suggested_scenario").Null? then Str("") else Get(body, "suggested_scenario"))
  {
  }

  /** A failing LLM call is not an error: the apology is stored as the answer and the flow goes on. */
  lemma LlmFailureApologises(fuel: nat, node: Node, input: string, ctx: Context, sc: ScenarioData, env: Env)
    requires TypeOf(node.kind) == LlmNode && Castable(Setting(node, "prompt", "Ответьте на вопрос пользователя"))
    requires LlmOf(env, node.id) == LlmFailed && FindNode(sc, FirstNext(node)).None?
    ensures var r := Exec(fuel, node, input, ctx, sc, env);
            r.Done? && r.reply == Reply("llm_call", Some(""), None)
            && Get(r.ctx, "llm_response") == Str(Apology) && Get(r.ctx, "scenario_completed") == Bool(true)
  {
    var next := FirstNext(node);
    var c := UpdateContext(LlmStored(node, LlmFailed, ctx), next, env.clock);
    var fallback := Respond("llm_call", Some(""), None, c["scenario_completed" := Bool(true)]);
    assert Exec(fuel, node, input, ctx, sc, env) == LlmCall(fuel, node, ctx, sc, env);
    assert Cascade(fuel, next, "", c, sc, env, fallback) == fallback;
    assert LlmCall(fuel, node, ctx, sc, env) == fallback;
  }

  // ---------------------------------------------------------------------------
  // context-edit and calculate

  /**
   * A context-edit node with operations reports how many succeeded and failed, and
   * the two counts cover every operation (so the count-free message is never used).
   */
  lemma EditReportsCounts(fuel: nat, node: Node, input: string, ctx: Context, sc: ScenarioData, env: Env, items: seq<Value>)
    requires TypeOf(node.kind) == EditNode && node.parameters.Some?
    requires ReadOps(Get(node.parameters.value, "operations"), env) == Listed(items) && |items| > 0
    requires !RunEdits(ctx, items).aborted && FindNode(sc, FirstNext(node)).None?
    ensures var r := Exec(fuel, node, input, ctx, sc, env);
            var t := RunEdits(ctx, items);
            t.succeeded + t.failed == |items|
            && r == Respond("context-edit", Some(Counts("Контекст обновлен: ", t)), FirstNext(node), UpdateContext(t.ctx, FirstNext(node), env.clock))
  {
    var t := RunEdits(ctx, items);
    var next := FirstNext(node);
    var c := UpdateContext(t.ctx, next, env.clock);
    var fallback := Respond("context-edit", Some(Counts("Контекст обновлен: ", t)), next, c);
    assert t.succeeded + t.failed == |items|;
    assert Exec(fuel, node, input, ctx, sc, env) == ContextEdit(fuel, node, ctx, sc, env);
    assert Cascade(fuel, next, "", c, sc, env, fallback) == fallback;
    assert ContextEdit(fuel, node, ctx, sc, env) == fallback;
  }

  /** A calculate node's counts likewise cover every operation. */
  lemma CalculateReportsCounts(fuel: nat, node: Node, input: string, ctx: Context, sc: ScenarioData, env: Env, items: seq<Value>)
    requires TypeOf(node.kind) == CalculateNode && node.parameters.Some?
    requires ReadOps(Get(node.parameters.value, "operations"), env) == Listed(items) && |items| > 0
    requires !RunCalculations(ctx, items).aborted && FindNode(sc, FirstNext(node)).None?
    ensures var r := Exec(fuel, node, input, ctx, sc, env);
            var t := RunCalculations(ctx, items);
            t.succeeded + t.failed == |items|
            && r == Respond("calculate", Some(Counts("Вычисления выполнены: ", t)), FirstNext(node), UpdateContext(t.ctx, FirstNext(node), env.clock))
  {
    var t := RunCalculations(ctx, items);
    var next := FirstNext(node);
    var c := UpdateContext(t.ctx, next, env.clock);
    var fallback := Respond("calculate", Some(Counts("Вычисления выполнены: ", t)), next, c);
    assert t.succeeded + t.failed == |items|;
    assert Exec(fuel, node, input, ctx, sc, env) == CalculateNodeStep(fuel, node, ctx, sc, env);
    assert Cascade(fuel, next, "", c, sc, env, fallback) == fallback;
    assert CalculateNodeStep(fuel, node, ctx, sc, env) == fallback;
  }

  /** An operation the list cannot cast to a map aborts the node with the edits made before it. */
  lemma EditAborts(fuel: nat, node: Node, input: string, ctx: Context, sc: ScenarioData, env: Env, items: seq<Value>, k: nat)
    requires TypeOf(node.kind) == EditNode && node.parameters.Some?
    requires ReadOps(Get(node.parameters.value, "operations"), env) == Listed(items)
    requires k < |items| && Uncastable(items[k])
    ensures Exec(fuel, node, input, ctx, sc, env).Raised?
  {
  }

  // ---------------------------------------------------------------------------
  // Jumps, transfers and the other terminal nodes

  /** The context a jump to `target` starts from: only the scenario id, the position and the completion flag change. */
  function JumpContext(ctx: Context, target: string, start: Option<string>): (r: Context)
    ensures Get(r, "scenario_id") == Str(target) && Get(r, "current_node") == OptText(start)
    ensures Get(r, "scenario_completed") == Bool(false)
    ensures forall k :: k in ctx && k != "scenario_id" && k != "current_node" && k != "scenario_completed" ==> Get(r, k) == ctx[k]
  {
    ctx["scenario_id" := Str(target)]["current_node" := OptText(start)]["scenario_completed" := Bool(false)]
  }

  /**
   * A jump whose target loads runs the target's real start node with empty input; unlike
   * a sub-flow it pushes no frame, so `call_stack` and `in_sub_flow` stay as they were.
   */
  lemma JumpEnters(fuel: nat, node: Node, m: Node, input: string, ctx: Context, sc: ScenarioData, env: Env,
                   target: string, d: ScenarioData)
    requires TypeOf(node.kind) == JumpNode && Param(node, "target_scenario") == Str(target) && target != ""
    requires Load(env, target) == Fetched(d)
    requires fuel > 0 && FindNode(Converted(d), RealStart(d)) == Some(m)
    requires !Exec(fuel - 1, m, "", JumpContext(ctx, target, RealStart(d)), Converted(d), env).Raised?
    ensures Exec(fuel, node, input, ctx, sc, env) == Exec(fuel - 1, m, "", JumpContext(ctx, target, RealStart(d)), Converted(d), env)
    ensures Get(JumpContext(ctx, target, RealStart(d)), "call_stack") == Get(ctx, "call_stack")
    ensures Get(JumpContext(ctx, target, RealStart(d)), "in_sub_flow") == Get(ctx, "in_sub_flow")
  {
    var start := RealStart(d);
    var c := JumpContext(ctx, target, start);
    var fallback := Respond("scenario_jump", Some("Ошибка загрузки сценария"), None, c);
    assert Exec(fuel, node, input, ctx, sc, env) == ScenarioJump(fuel, node, ctx, env);
    assert Cascade(fuel, start, "", c, Converted(d), env, fallback) == Exec(fuel - 1, m, "", c, Converted(d), env);
    assert ScenarioJump(fuel, node, ctx, env) == Exec(fuel - 1, m, "", c, Converted(d), env);
  }

  /**
   * A jump whose target does not load answers "Ошибка загрузки сценария", and one whose
   * fetch throws answers "Ошибка перехода в сценарий"; either way nothing but `node_type` changes.
   */
  lemma JumpLoadFails(fuel: nat, node: Node, input: string, ctx: Context, sc: ScenarioData, env: Env, target: string)
    requires TypeOf(node.kind) == JumpNode && Param(node, "target_scenario") == Str(target) && target != ""
    requires !Load(env, target).Fetched?
    ensures var r := Exec(fuel, node, input, ctx, sc, env);
            r.Done? && r.ctx == ctx["node_type" := Str("scenario_jump")]
            && r.reply == Reply("scenario_jump", Some(if target in env.unreachable then "Ошибка перехода в сценарий" else "Ошибка загрузки сценария"), None)
  {
    assert Exec(fuel, node, input, ctx, sc, env) == ScenarioJump(fuel, node, ctx, env);
  }

  /** A sub-flow whose fetch throws answers "Ошибка выполнения подсценария" and pushes no frame. */
  lemma SubFlowFetchThrows(fuel: nat, node: Node, input: string, ctx: Context, sc: ScenarioData, env: Env, target: string)
    requires TypeOf(node.kind) == SubFlowNode && Param(node, "target_scenario") == Str(target) && target != ""
    requires target in env.unreachable
    ensures var r := Exec(fuel, node, input, ctx, sc, env);
            r.Done? && r.reply == Reply("sub-flow", Some("Ошибка выполнения подсценария"), None)
            && r.ctx == ctx["node_type" := Str("sub-flow")]
  {
    assert Exec(fuel, node, input, ctx, sc, env) == SubFlow(fuel, node, ctx, env);
  }

  /** Returning to a caller whose scenario cannot be fetched completes the scenario with the return notice. */
  lemma EndReturnFetchThrows(fuel: nat, node: Node, input: string, ctx: Context, sc: ScenarioData, env: Env,
                             c: Context, sid: Value, next: string)
    requires TypeOf(node.kind) == EndNode && Get(ctx, "in_sub_flow") == Bool(true)
    requires PopFrame(ctx) == Some(Popped(c, sid, Str(next))) && next != ""
    requires IdText(Text(sid)) in env.unreachable
    ensures var r := Exec(fuel, node, input, ctx, sc, env);
            r.Done? && r.reply == Reply("end", Some("Возврат из подсценария завершен."), None)
            && Get(r.ctx, "scenario_completed") == Bool(true) && Get(r.ctx, "call_stack") == Get(c, "call_stack")
  {
    assert Exec(fuel, node, input, ctx, sc, env) == End(fuel, node, ctx, env);
    assert End(fuel, node, ctx, env) == ReturnFromSubFlow(fuel, ctx, env);
  }

  /**
   * A transfer node hands the dialog to an operator and runs nothing after it: the
   * scenario is complete and marked transferred, and the reply names no successor.
   * It fails only when its `message` is not text.
   */
  lemma TransferEnds(fuel: nat, node: Node, input: string, ctx: Context, sc: ScenarioData, env: Env)
    requires TypeOf(node.kind) == TransferNode
    ensures var r := Exec(fuel, node, input, ctx, sc, env);
            Get(r.ctx, "transferred_to_operator") == Bool(true) && Get(r.ctx, "scenario_completed") == Bool(true)
            && (r.Done? <==> Castable(Setting(node, "message", "Переводим вас на оператора...")))
            && (r.Done? ==> r.reply == Reply("transfer", Text(Setting(node, "message", "Переводим вас на оператора...")), None))
            && (!r.Done? ==> r.Raised?)
  {
    assert Exec(fuel, node, input, ctx, sc, env) == Transfer(node, ctx);
  }

  /** The notification handler's reply and the keys it sets; every other key is kept. */
  lemma NotificationSends(node: Node, ctx: Context, now: int)
    requires node.parameters.Some? && Castable(Get(node.parameters.value, "type"))
    requires Castable(Get(node.parameters.value, "template")) && Castable(Get(node.parameters.value, "recipient"))
    ensures var r := Notification(node, ctx, now);
            r.Done? && r.reply == Reply("notification", Some("Notification sent"), FirstNext(node))
            && Get(r.ctx, "notification_sent") == Bool(true) && Get(r.ctx, "notification_type") == Get(node.parameters.value, "type")
            && Get(r.ctx, "last_execution_time") == Int(now)
            && (Get(r.ctx, "scenario_completed") == Bool(true) <==> FirstNext(node).None?)
  {
  }

  /**
   * A notification node never runs its successor: its outcome does not depend on the
   * fuel, the input, the scenario or the services other than the clock.
   */
  lemma NotificationPauses(fuel: nat, fuel': nat, node: Node, input: string, input': string, ctx: Context,
                           sc: ScenarioData, sc': ScenarioData, env: Env, env': Env)
    requires TypeOf(node.kind) == NotificationNode && env'.clock == env.clock
    ensures Exec(fuel, node, input, ctx, sc, env) == Exec(fuel', node, input', ctx, sc', env')
    ensures Exec(fuel, node, input, ctx, sc, env) == Notification(node, ctx, env.clock)
  {
    assert Exec(fuel, node, input, ctx, sc, env) == Notification(node, ctx, env.clock);
    assert Exec(fuel', node, input', ctx, sc', env') == Notification(node, ctx, env.clock);
  }

  /**
   * A wait node never runs its successor either. With an integer (or missing) `duration`
   * it replies "Wait completed" naming the successor and changes only the position keys.
   */
  lemma WaitPauses(fuel: nat, fuel': nat, node: Node, input: string, input': string, ctx: Context,
                   sc: ScenarioData, sc': ScenarioData, env: Env, env': Env)
    requires TypeOf(node.kind) == WaitNode && env'.clock == env.clock
    ensures Exec(fuel, node, input, ctx, sc, env) == Exec(fuel', node, input', ctx, sc', env')
    ensures node.parameters.Some? && IntCastable(Get(node.parameters.value, "duration")) ==>
              var r := Exec(fuel, node, input, ctx, sc, env);
              r.Done? && r.reply == Reply("wait", Some("Wait completed"), FirstNext(node))
              && forall k :: k in ctx && k !in {"current_node", "scenario_completed", "last_execution_time", "node_type"} ==> Get(r.ctx, k) == ctx[k]
  {
    assert Exec(fuel, node, input, ctx, sc, env) == Wait(node, ctx, env.clock);
    assert Exec(fuel', node, input', ctx, sc', env') == Wait(node, ctx, env.clock);
  }

  /** A switch whose lines are all text but with no successor to go to answers "Нет доступных переходов". */
  lemma SwitchWithoutSuccessors(fuel: nat, node: Node, input: string, ctx: Context, sc: ScenarioData, env: Env, lines: seq<Value>)
    requires TypeOf(node.kind) == SwitchNode && node.parameters.Some?
    requires "conditions" in node.parameters.value && node.parameters.value["conditions"] == Arr(lines) && |lines| > 0
    requires (forall k :: 0 <= k < |lines| ==> lines[k].Str?) && |node.nextNodes| == 0
    ensures Exec(fuel, node, input, ctx, sc, env) == Done(Reply("switch", Some("Нет доступных переходов"), None), ctx["node_type" := Str("switch")])
  {
    SwitchScanElse(node, lines, Verdicts(lines, ctx), 0);
    assert Exec(fuel, node, input, ctx, sc, env) == Switch(fuel, node, ctx, sc, env);
  }

  // ---------------------------------------------------------------------------
  // Dispatch and executeScenario

  /** A type no handler knows yields an error response and leaves the context unchanged. */
  lemma UnknownTypeIsError(fuel: nat, node: Node, input: string, ctx: Context, sc: ScenarioData, env: Env)
    requires TypeOf(node.kind) == UnknownNode
    ensures Exec(fuel, node, input, ctx, sc, env) == Done(ErrorReply("Unknown node type: " + node.kind), ctx)
  {
  }

  /** Without a usable `current_node` the scenario starts at its start node; otherwise it resumes there. */
  lemma ResumesAtCurrentNode(fuel: nat, sc: ScenarioData, input: string, ctx: Context, env: Env)
    ensures "current_node" !in ctx || ctx["current_node"] == Null ==>
              ExecuteScenario(fuel, sc, input, ctx, env) == ExecAt(fuel, sc, sc.startNode, input, ctx, env)
    ensures "current_node" in ctx && ctx["current_node"].Str? ==>
              ExecuteScenario(fuel, sc, input, ctx, env) == ExecAt(fuel, sc, Some(ctx["current_node"].s), input, ctx, env)
    ensures "current_node" in ctx && !Castable(ctx["current_node"]) ==> ExecuteScenario(fuel, sc, input, ctx, env) == Raised(ctx)
  {
  }

  /** A node id the scenario does not hold yields an error response naming it, with the context unchanged. */
  lemma MissingNodeIsError(fuel: nat, sc: ScenarioData, id: Option<string>, input: string, ctx: Context, env: Env)
    requires FindNode(sc, id).None?
    ensures ExecAt(fuel, sc, id, input, ctx, env) == Done(ErrorReply("Node not found: " + IdText(id)), ctx)
  {
  }
}

=== FILE: graph.dfy ===
/**
 * Navigation in a scenario graph: finding nodes and edges, the real start node, and
 * the branch a condition or switch node takes.
 */
module Graph {

  import opened Wrappers
  import opened Strings
  import opened Json
  import opened Documents
  import opened Conditions

  /** `findNodeById`: the first node carrying the id; none without a node list or an id. */
  function FindNode(s: ScenarioData, id: Option<string>): (r: Option<Node>)
    ensures r.Some? ==> s.nodes.Some? && id.Some? && r.value in s.nodes.value && r.value.id == id.value
    ensures r.None? && s.nodes.Some? && id.Some? ==> forall k :: 0 <= k < |s.nodes.value| ==> s.nodes.value[k].id != id.value
  {
    if s.nodes.None? || id.None? then None else FirstWithId(s.nodes.value, id.value)
  }

  function FirstWithId(nodes: seq<Node>, id: string): (r: Option<Node>)
    ensures r.Some? ==> r.value in nodes && r.value.id == id
    ensures r.None? <==> forall k :: 0 <= k < |nodes| ==> nodes[k].id != id
  {
    if |nodes| == 0 then None
    else if nodes[0].id == id then Some(nodes[0])
    else
      var r := FirstWithId(nodes[1..], id);
      assert forall k :: 1 <= k < |nodes| ==> nodes[k] == nodes[1..][k - 1];
      r
  }

  /** The first node with an id is the one found, whatever follows it. */
  lemma {:induction false} FirstWithIdPrefix(pre: seq<Node>, n: Node, post: seq<Node>)
    requires forall k :: 0 <= k < |pre| ==> pre[k].id != n.id
    ensures FirstWithId(pre + [n] + post, n.id) == Some(n)
    decreases |pre|
  {
    if |pre| == 0 {
      assert (pre + [n] + post)[0] == n;
    } else {
      assert (pre + [n] + post)[1..] == pre[1..] + [n] + post;
      FirstWithIdPrefix(pre[1..], n, post);
    }
  }

  /** An edge leaving `source` at the output port `handle`. */
  predicate Leaves(e: Edge, source: string, handle: string)
  {
    e.source == Some(source) && e.sourceHandle == Some(handle)
  }

  /**
   * `findTargetBySourceHandle`: the target of the first edge leaving `source` at
   * `handle` (itself possibly `null`), or `null` when no edge does.
   */
  function EdgeTarget(edges: seq<Edge>, source: string, handle: string): (r: Option<string>)
    ensures (forall k :: 0 <= k < |edges| ==> !Leaves(edges[k], source, handle)) ==> r.None?
    ensures r.Some? ==> exists k :: 0 <= k < |edges| && Leaves(edges[k], source, handle) && edges[k].target == r
  {
    if |edges| == 0 then None
    else if Leaves(edges[0], source, handle) then edges[0].target
    else
      var r := EdgeTarget(edges[1..], source, handle);
      assert forall k :: 1 <= k < |edges| ==> edges[k] == edges[1..][k - 1];
      r
  }

  /** The ids that some edge points at. */
  function Targets(edges: seq<Edge>): (r: set<string>)
    ensures forall t :: t in r <==> exists k :: 0 <= k < |edges| && edges[k].target == Some(t)
  {
    if |edges| == 0 then {}
    else
      var rest := Targets(edges[1..]);
      assert forall k :: 1 <= k < |edges| ==> edges[k] == edges[1..][k - 1];
      (if edges[0].target.Some? then {edges[0].target.value} else {}) + rest
  }

  function FirstUntargeted(nodes: seq<Node>, targets: set<string>): (r: Option<string>)
    ensures r.None? <==> forall k :: 0 <= k < |nodes| ==> nodes[k].id in targets
    ensures r.Some? ==> r.value !in targets
    ensures r.Some? ==> exists k :: 0 <= k < |nodes| && nodes[k].id == r.value && forall j :: 0 <= j < k ==> nodes[j].id in targets
  {
    if |nodes| == 0 then None
    else if nodes[0].id !in targets then Some(nodes[0].id)
    else
      var r := FirstUntargeted(nodes[1..], targets);
      assert forall k :: 1 <= k < |nodes| ==> nodes[k] == nodes[1..][k - 1];
      if r.Some? then
        var k :| 0 <= k < |nodes[1..]| && nodes[1..][k].id == r.value && forall j :: 0 <= j < k ==> nodes[1..][j].id in targets;
        assert nodes[k + 1].id == r.value;
        assert forall j :: 0 <= j < k + 1 ==> nodes[j].id in targets by {
          forall j | 0 <= j < k + 1 ensures nodes[j].id in targets {
            if j > 0 {
              assert nodes[j] == nodes[1..][j - 1];
            }
          }
        }
        r
      else r
  }

  /**
   * `findRealStartNode`: the first listed node that no edge points at; failing that
   * (or without a node list) the declared `start_node`.
   */
  function RealStart(d: ScenarioData): (r: Option<string>)
    ensures d.nodes.None? ==> r == d.startNode
  {
    if d.nodes.None? then d.startNode
    else
      var first := FirstUntargeted(d.nodes.value, Targets(d.edges));
      if first.Some? then first else d.startNode
  }

  /** The real start is a node no edge enters, preceded only by entered nodes; the declared start is used only when every node is entered. */
  lemma RealStartSpec(d: ScenarioData)
    requires d.nodes.Some?
    ensures RealStart(d) == d.startNode || (RealStart(d).Some? && RealStart(d).value !in Targets(d.edges))
    ensures (exists k :: 0 <= k < |d.nodes.value| && d.nodes.value[k].id !in Targets(d.edges)) ==>
              RealStart(d).Some? && RealStart(d).value !in Targets(d.edges)
              && exists k :: 0 <= k < |d.nodes.value| && d.nodes.value[k].id == RealStart(d).value
                             && forall j :: 0 <= j < k ==> d.nodes.value[j].id in Targets(d.edges)
  {
  }

  // ---------------------------------------------------------------------------
  // Condition and switch routing.

  /** A condition line that routing skips: blank after trimming, or a `//` or `#` comment. */
  predicate Skipped(line: string)
  {
    line == "" || StartsWith(line, "//") || StartsWith(line, "#")
  }

  /** The output port of the `i`-th condition line. */
  function Port(i: nat): string
  {
    "output-" + IntToString(i)
  }

  /** What routing produces: a successor (possibly none), or a Java exception from a bad line. */
  datatype Route = Target(next: Option<string>) | Fails

  /** The branch of condition line `i` exists: an edge at its port with a target, or a successor at index `i`. */
  predicate HasBranch(node: Node, edges: seq<Edge>, i: nat)
  {
    EdgeTarget(edges, node.id, Port(i)).Some? || i < |node.nextNodes|
  }

  function Branch(node: Node, edges: seq<Edge>, i: nat): string
    requires HasBranch(node, edges, i)
  {
    var e := EdgeTarget(edges, node.id, Port(i));
    if e.Some? then e.value else node.nextNodes[i]
  }

  /**
   * Whether a line holds: a string that is not skipped and whose trimmed text
   * evaluates to true. Evaluation has no effects, so the verdicts of all lines can be
   * taken up front although Java evaluates them one by one.
   */
  predicate Holds(line: Value, ctx: Context)
  {
    line.Str? && !Skipped(Trim(line.s)) && EvaluateText(Trim(line.s), ctx)
  }

  function Verdicts(lines: seq<Value>, ctx: Context): (r: seq<bool>)
    ensures |r| == |lines| && forall k :: 0 <= k < |lines| ==> r[k] == Holds(lines[k], ctx)
  {
    seq(|lines|, k requires 0 <= k < |lines| => Holds(lines[k], ctx))
  }

  /** Line `i` takes its branch: it holds and has a branch. */
  predicate Fires(node: Node, edges: seq<Edge>, holds: seq<bool>, i: nat)
    requires i < |holds|
  {
    holds[i] && HasBranch(node, edges, i)
  }

  /** The ELSE branch: the edge at the port after the last line, else the last successor. */
  function ElseTarget(node: Node, edges: seq<Edge>, count: nat): Option<string>
  {
    var e := EdgeTarget(edges, node.id, Port(count));
    if e.Some? then e
    else if |node.nextNodes| > 0 then Some(node.nextNodes[|node.nextNodes| - 1])
    else None
  }

  /**
   * The new-format condition loop from line `i` on: a line that is not a string
   * throws when it is reached (the cast or `trim` on `null`).
   */
  function ConditionScan(node: Node, edges: seq<Edge>, lines: seq<Value>, holds: seq<bool>, i: nat): (r: Route)
    requires i <= |lines| == |holds|
    decreases |lines| - i
  {
    if i == |lines| then Target(ElseTarget(node, edges, |lines|))
    else if !lines[i].Str? then Fails
    else if Fires(node, edges, holds, i) then Target(Some(Branch(node, edges, i)))
    else ConditionScan(node, edges, lines, holds, i + 1)
  }

  /** Condition routing when no line fires: the ELSE branch. */
  lemma {:induction false} ConditionScanElse(node: Node, edges: seq<Edge>, lines: seq<Value>, holds: seq<bool>, i: nat)
    requires i <= |lines| == |holds|
    requires forall k :: i <= k < |lines| ==> lines[k].Str? && !Fires(node, edges, holds, k)
    ensures ConditionScan(node, edges, lines, holds, i) == Target(ElseTarget(node, edges, |lines|))
    decreases |lines| - i
  {
    if i < |lines| {
      ConditionScanElse(node, edges, lines, holds, i + 1);
    }
  }

  /** Condition routing as a rule: the first firing line `f`, after string lines that do not fire, picks its branch. */
  lemma {:induction false} ConditionScanFirst(node: Node, edges: seq<Edge>, lines: seq<Value>, holds: seq<bool>, i: nat, f: nat)
    requires i <= f < |lines| == |holds| && lines[f].Str? && Fires(node, edges, holds, f)
    requires forall k :: i <= k < f ==> lines[k].Str? && !Fires(node, edges, holds, k)
    ensures ConditionScan(node, edges, lines, holds, i) == Target(Some(Branch(node, edges, f)))
    decreases f - i
  {
    if i < f {
      ConditionScanFirst(node, edges, lines, holds, i + 1, f);
    }
  }

  /** A line that is not a string throws unless an earlier line fires first. */
  lemma {:induction false} ConditionScanFails(node: Node, edges: seq<Edge>, lines: seq<Value>, holds: seq<bool>, i: nat, bad: nat)
    requires i <= bad < |lines| == |holds| && !lines[bad].Str?
    requires forall k :: i <= k < bad ==> lines[k].Str? && !Fires(node, edges, holds, k)
    ensures ConditionScan(node, edges, lines, holds, i) == Fails
    decreases bad - i
  {
    if i < bad {
      ConditionScanFails(node, edges, lines, holds, i + 1, bad);
    }
  }

  /** `text.split("\\r?\\n")`: break at each line feed, dropping one carriage return before it, then Java's trailing-empty removal. */
  function SplitLines(text: string): (r: seq<string>)
    ensures !Contains(text, "\n") ==> r == [text]
  {
    if !Contains(text, "\n") then [text]
    else
      var pieces := SplitAll(text, "\n");
      DropTrailingEmpty(seq(|pieces|, k requires 0 <= k < |pieces| =>
        if k < |pieces| - 1 && EndsWith(pieces[k], "\r") then pieces[k][..|pieces[k]| - 1] else pieces[k]))
  }

  function AsValues(lines: seq<string>): (r: seq<Value>)
    ensures |r| == |lines| && forall k :: 0 <= k < |r| ==> r[k] == Str(lines[k])
  {
    seq(|lines|, k requires 0 <= k < |lines| => Str(lines[k]))
  }

  /**
   * The `conditions` parameter of a new-format condition node as lines: a list as it
   * is, a text split into lines; any other value gives no lines (`None`).
   */
  function ConditionLines(v: Value): (r: Option<seq<Value>>)
    ensures v.Arr? ==> r == Some(v.items)
    ensures !v.Arr? && !v.Str? ==> r.None?
  {
    match v
    case Arr(items) => Some(items)
    case Str(s) => Some(AsValues(SplitLines(s)))
    case _ => None
  }

  /** `getConditionValue`: the context's `operation` when the condition mentions it; a non-string there throws. */
  function ConditionValue(condition: string, ctx: Context): (r: Route)
    ensures !Contains(condition, "context.operation") ==> r == Target(None)
  {
    if !Contains(condition, "context.operation") then Target(None)
    else match Get(ctx, "operation")
      case Str(s) => Target(Some(s))
      case Null => Target(None)
      case _ => Fails
  }

  /**
   * The old format (a condition map on the node): `true`/`false` by the condition's
   * value, then the entry named by `getConditionValue`, then `default`. A missing
   * parameter map, a non-string condition, or a `null` condition reaching
   * `getConditionValue` throws.
   */
  function OldFormatRoute(node: Node, ctx: Context): (r: Route)
    requires node.conditions.Some?
  {
    if node.parameters.None? then Fails
    else
      var c := Param(node, "condition");
      if !c.Str? && !c.Null? then Fails
      else
        var holds := Evaluate(if c.Str? then Some(c.s) else None, ctx);
        var first := CondTarget(node, if holds then "true" else "false");
        if first.Some? then Target(first)
        else if c.Null? then Fails
        else match ConditionValue(c.s, ctx)
          case Fails => Fails
          case Target(key) =>
            var second := if key.Some? then CondTarget(node, key.value) else None;
            if second.Some? then Target(second) else Target(CondTarget(node, "default"))
  }

  /** The old format takes `true`/`false` first, exactly as the condition evaluates. */
  lemma OldFormatTakesBranch(node: Node, ctx: Context, c: string)
    requires node.conditions.Some? && node.parameters.Some? && Param(node, "condition") == Str(c)
    ensures EvaluateText(c, ctx) && "true" in node.conditions.value ==>
              OldFormatRoute(node, ctx) == Target(Some(node.conditions.value["true"]))
    ensures !EvaluateText(c, ctx) && "false" in node.conditions.value ==>
              OldFormatRoute(node, ctx) == Target(Some(node.conditions.value["false"]))
  {
  }

  /**
   * The routing part of `executeCondition`, before the `getNextNode` fallback:
   * the old format when the node has a condition map, else the new format when the
   * parameters hold `conditions`, else no target.
   */
  function ConditionRoute(node: Node, edges: seq<Edge>, ctx: Context): (r: Route)
    requires node.conditions.Some? || node.parameters.Some?
  {
    if node.conditions.Some? then OldFormatRoute(node, ctx)
    else if "conditions" !in node.parameters.value then Target(None)
    else match ConditionLines(node.parameters.value["conditions"])
      case None => Target(None)
      case Some(lines) => if |lines| == 0 then Target(None) else ConditionScan(node, edges, lines, Verdicts(lines, ctx), 0)
  }

  /** A switch line fires when it holds and has a successor at its index. */
  predicate SwitchFires(node: Node, holds: seq<bool>, i: nat)
    requires i < |holds|
  {
    holds[i] && i < |node.nextNodes|
  }

  /** The switch loop from line `i`: the first firing line's successor, else the last successor as default. */
  function SwitchScan(node: Node, lines: seq<Value>, holds: seq<bool>, i: nat): (r: Route)
    requires i <= |lines| == |holds|
    ensures r.Target? && r.next.Some? ==> r.next.value in node.nextNodes
    ensures r.Target? && |node.nextNodes| == 0 ==> r.next.None?
    decreases |lines| - i
  {
    if i == |lines| then Target(if |node.nextNodes| > 0 then Some(node.nextNodes[|node.nextNodes| - 1]) else None)
    else if !lines[i].Str? then Fails
    else if SwitchFires(node, holds, i) then Target(Some(node.nextNodes[i]))
    else SwitchScan(node, lines, holds, i + 1)
  }

  /** Switch routing when no line fires: the last successor, if any. */
  lemma {:induction false} SwitchScanElse(node: Node, lines: seq<Value>, holds: seq<bool>, i: nat)
    requires i <= |lines| == |holds|
    requires forall k :: i <= k < |lines| ==> lines[k].Str? && !SwitchFires(node, holds, k)
    ensures SwitchScan(node, lines, holds, i) == Target(if |node.nextNodes| > 0 then Some(node.nextNodes[|node.nextNodes| - 1]) else None)
    decreases |lines| - i
  {
    if i < |lines| {
      SwitchScanElse(node, lines, holds, i + 1);
    }
  }

  /** Switch routing as a rule: the first firing line `f` picks the successor at its index. */
  lemma {:induction false} SwitchScanFirst(node: Node, lines: seq<Value>, holds: seq<bool>, i: nat, f: nat)
    requires i <= f < |lines| == |holds| && lines[f].Str? && SwitchFires(node, holds, f)
    requires forall k :: i <= k < f ==> lines[k].Str? && !SwitchFires(node, holds, k)
    ensures SwitchScan(node, lines, holds, i) == Target(Some(node.nextNodes[f]))
    decreases f - i
  {
    if i < f {
      SwitchScanFirst(node, lines, holds, i + 1, f);
    }
  }
}

=== FILE: json.dfy ===
/**
 * The values a dialog context holds once JSON has been decoded into Java objects:
 * `null`, booleans, integers, strings, lists and maps. A context is the top-level map.
 */
module Json {

  import opened Strings

  datatype Value =
    | Null
    | Bool(b: bool)
    | Int(i: int)
      /** A floating-point number, kept only as the text Java prints for it. */
    | Dbl(text: string)
    | Str(s: string)
    | Arr(items: seq<Value>)
    | Obj(fields: map<string, Value>)

  /** A dialog context: the mutable `Map<String, Object>` threaded through a session. */
  type Context = map<string, Value>

  /** The range of a Java `int`; Jackson decodes a number outside it as a `Long`. */
  const IntMin: int := -0x8000_0000
  const IntMax: int := 0x7FFF_FFFF

  /** A value an `(Integer)` cast accepts: `null` or a number Jackson decodes as an `Integer`. */
  predicate IntCastable(v: Value)
  {
    v.Null? || (v.Int? && IntMin <= v.i <= IntMax)
  }

  /** `map.get(key)`: the stored value, or Java `null` when the key is absent. */
  function Get(m: map<string, Value>, key: string): Value
  {
    if key in m then m[key] else Null
  }

  /**
   * `String.valueOf(value)`. Lists print as `[a, b]` and maps as `{k=v}`; a map of two
   * or more entries prints them in hash order, which the model does not fix, so its text
   * is left open as `{...}`.
   */
  function ValueText(v: Value): (r: string)
    ensures v.Arr? ==> |r| >= 2 && r[0] == '[' && r[|r| - 1] == ']'
    ensures v.Obj? ==> |r| >= 2 && r[0] == '{' && r[|r| - 1] == '}'
    ensures v.Str? ==> r == v.s
    decreases v
  {
    match v
    case Null => "null"
    case Bool(b) => if b then "true" else "false"
    case Int(i) => IntToString(i)
    case Dbl(t) => t
    case Str(s) => s
    case Arr(items) => "[" + ItemsText(items) + "]"
    case Obj(fields) =>
      if |fields| == 0 then "{}"
      else if |fields| == 1 then
        var k := OnlyKey(fields);
        "{" + k + "=" + ValueText(fields[k]) + "}"
      else "{...}"
  }

  /** A map of one entry prints as `{key=value}`, as `AbstractMap.toString` writes it. */
  lemma OneEntryText(k: string, v: Value)
    ensures ValueText(Obj(map[k := v])) == "{" + k + "=" + ValueText(v) + "}"
  {
    assert map[k := v].Keys == {k};
  }

  /** The one key of a map with a single entry. */
  function OnlyKey<V>(m: map<string, V>): (k: string)
    requires |m| == 1
    ensures k in m && m.Keys == {k}
  {
    var k :| k in m;
    assert m.Keys == {k} by {
      assert |m.Keys - {k}| == |m.Keys| - 1 == 0;
    }
    k
  }

  function ItemsText(items: seq<Value>): string
    decreases items
  {
    if |items| == 0 then ""
    else if |items| == 1 then ValueText(items[0])
    else ValueText(items[0]) + ", " + ItemsText(items[1..])
  }
}

=== FILE: legacy_engine.dfy ===
/**
 * `ScenarioEngine`, the earlier interpreter generation. Types are matched exactly
 * (no lower-casing), only nine node types exist, every handler but nlu-request
 * returns to the caller, condition texts it does not recognise hold, and context
 * edits address flat top-level keys only.
 */
module LegacyEngine {

  import opened Wrappers
  import opened Strings
  import opened Json
  import opened Documents
  import opened Templates
  import opened Calculate
  import opened Graph
  import opened Engine

  /**
   * A run of the legacy engine. `Untracked` is a calculate result that is not a
   * whole number, which Java stores as a double and the model does not follow.
   */
  datatype LegacyRun = Replied(reply: Reply, ctx: Context) | Threw(ctx: Context) | Exhausted(ctx: Context) | Untracked

  function Response(kind: string, message: Option<string>, next: Option<string>, ctx: Context): LegacyRun
  {
    Replied(Reply(kind, message, next), ctx)
  }

  // ---------------------------------------------------------------------------
  // Conditions and intents

  /** `(Boolean) context.getOrDefault(key, false)`: `None` when the cast or the unboxing fails. */
  function Flag(ctx: Context, key: string): Option<bool>
  {
    var v := if key in ctx then ctx[key] else Bool(false);
    if v.Bool? then Some(v.b) else None
  }

  /** `evaluateCondition`: three recognised flags; every other text, and `null`, holds. `None` when a flag read throws. */
  function Holds(condition: Option<string>, ctx: Context): Option<bool>
  {
    if condition.None? then Some(true)
    else if Contains(condition.value, "parse_result") then Flag(ctx, "parse_result")
    else if Contains(condition.value, "context.wantsBalance == true") then Flag(ctx, "wantsBalance")
    else if Contains(condition.value, "context.validCard == true") then Flag(ctx, "validCard")
    else Some(true)
  }

  /** The keyword intent of the built-in NLU step, checked in a fixed order. */
  function Intent(input: Option<string>): string
  {
    if input.None? then "unknown"
    else
      var t := ToLower(input.value);
      if Contains(t, "баланс") then "check_balance"
      else if Contains(t, "карт") then "card_info"
      else if Contains(t, "перевод") then "transfer"
      else "unknown"
  }

  /** An input that is present and not blank. */
  predicate Filled(input: Option<string>)
  {
    input.Some? && Trim(input.value) != ""
  }

  // ---------------------------------------------------------------------------
  // Handlers

  function LegacyAnnounce(node: Node, ctx: Context): LegacyRun
  {
    if node.parameters.None? then Threw(ctx)
    else
      var ps := node.parameters.value;
      var message := Get(ps, "message");
      var delay := ParamOr(ps, "delay", Int(0));
      if !Castable(message) || !(delay.Int? && IntMin <= delay.i <= IntMax) then Threw(ctx)
      else
        var text := if message.Str? then Some(Substitute(message.s, ctx)) else None;
        Response("announce", text, FirstNext(node), ctx)
  }

  /** The question of an ask node: "Введите ответ:" unless the parameters hold one. */
  function Question(node: Node): Value
  {
    if node.parameters.Some? && "question" in node.parameters.value then node.parameters.value["question"]
    else Str("Введите ответ:")
  }

  function LegacyAsk(node: Node, ctx: Context): LegacyRun
  {
    var question := Question(node);
    if !Castable(question) then Threw(ctx)
    else
      var next := FirstNext(node);
      var c := ctx["waiting_for_input" := Bool(true)]["input_type" := Str("text")]["required" := Bool(true)]["current_node" := OptText(next)];
      Response("ask", Text(question), next, c)
  }

  /** The variables a parse script reads from the input's text `s`. */
  function ReadText(script: string, s: string, c: Context): (r: Context)
    ensures Contains(script, "context.cardNumber") ==>
              Get(r, "cardNumber") == Str(s) && (Get(r, "validCard") == Bool(true) <==> |s| == 4 && AllDigits(s))
    ensures Contains(script, "context.wantsBalance") ==>
              (Get(r, "wantsBalance") == Bool(true) <==> Contains(ToLower(s), "да") || Contains(ToLower(s), "yes"))
    ensures Kept(c, r, {"userAnswer", "wantsBalance", "cardNumber", "validCard"})
  {
    var c2 := if Contains(script, "context.userAnswer") then c["userAnswer" := Str(ToLower(s))] else c;
    var c3 := if Contains(script, "context.wantsBalance") then
      c2["wantsBalance" := Bool(Contains(ToLower(s), "да") || Contains(ToLower(s), "yes"))]
    else c2;
    if Contains(script, "context.cardNumber") then c3["cardNumber" := Str(s)]["validCard" := Bool(|s| == 4 && AllDigits(s))] else c3
  }

  /** The variables a parse script names; `None` when the input is `null` and the script needs its text. */
  function Extract(script: string, input: Option<string>, ctx: Context): (r: Option<Context>)
    ensures r.None? <==> input.None? && (Contains(script, "context.userAnswer") || Contains(script, "context.wantsBalance")
                                         || Contains(script, "context.cardNumber"))
    ensures r.Some? && Contains(script, "context.userName") ==> Get(r.value, "userName") == OptText(input)
    ensures r.Some? && Contains(script, "context.cardNumber") ==>
              Get(r.value, "cardNumber") == OptText(input) && (Get(r.value, "validCard") == Bool(true) <==> |input.value| == 4 && AllDigits(input.value))
    ensures r.Some? ==> Kept(ctx, r.value, {"userName", "userAnswer", "wantsBalance", "cardNumber", "validCard"})
  {
    var c1 := if Contains(script, "context.userName") then ctx["userName" := OptText(input)] else ctx;
    var needsText := Contains(script, "context.userAnswer") || Contains(script, "context.wantsBalance") || Contains(script, "context.cardNumber");
    if needsText && input.None? then None
    else if input.None? then Some(c1)
    else Some(ReadText(script, input.value, c1))
  }

  /**
   * The partial context Java leaves behind when the script needs a `null` input's text:
   * `userName` is written first, and when the failing step is the card number (no
   * `userAnswer` or `wantsBalance` step failed before it), `cardNumber` is written as
   * `null` before the length check throws.
   */
  function ExtractBeforeFailure(script: string, input: Option<string>, ctx: Context): (r: Context)
    ensures Contains(script, "context.userName") ==> "userName" in r && r["userName"] == OptText(input)
    ensures "cardNumber" in r && r["cardNumber"] == Null <==>
              (Contains(script, "context.cardNumber") && !Contains(script, "context.userAnswer") && !Contains(script, "context.wantsBalance"))
              || ("cardNumber" in ctx && ctx["cardNumber"] == Null)
    ensures forall k :: k in r && k != "userName" && k != "cardNumber" ==> k in ctx && r[k] == ctx[k]
    ensures r.Keys <= ctx.Keys + {"userName", "cardNumber"}
  {
    var c1 := if Contains(script, "context.userName") then ctx["userName" := OptText(input)] else ctx;
    if Contains(script, "context.userAnswer") || Contains(script, "context.wantsBalance") then c1
    else if Contains(script, "context.cardNumber") then c1["cardNumber" := Null]
    else c1
  }

  function LegacyParse(node: Node, input: Option<string>, ctx: Context): (r: LegacyRun)
    ensures r.Replied? || r.Threw?
    ensures r.Replied? ==> r.reply.Reply? && r.reply.kind == "parse" && r.reply.message == Some("Parsed: " + IdText(input))
                           && Get(r.ctx, "parse_result") == Bool(Filled(input)) && Get(r.ctx, "user_input") == OptText(input)
    ensures r.Replied? && Filled(input) ==> r.reply.next == FirstNext(node)
  {
    if node.parameters.None? then Threw(ctx)
    else
      var script := Get(node.parameters.value, "script");
      if !Castable(script) then Threw(ctx)
      else
        var extracted := if script.Str? then Extract(script.s, input, ctx) else Some(ctx);
        if extracted.None? then Threw(ExtractBeforeFailure(script.s, input, ctx))
        else
          var ok := Filled(input);
          var c := extracted.value["parse_result" := Bool(ok)]["user_input" := OptText(input)];
          var next := if ok then FirstNext(node) else if node.conditions.Some? then CondTarget(node, "error") else None;
          Response("parse", Some("Parsed: " + IdText(input)), next, c)
  }

  function LegacyCondition(node: Node, ctx: Context): (r: LegacyRun)
    ensures (r.Replied? || r.Threw?) && r.ctx == ctx
    ensures r.Replied? ==> node.conditions.Some? && r.reply.Reply?
                           && (r.reply.next == CondTarget(node, "true") || r.reply.next == CondTarget(node, "false"))
  {
    if node.parameters.None? then Threw(ctx)
    else
      var condition := Get(node.parameters.value, "condition");
      if !Castable(condition) then Threw(ctx)
      else match Holds(Text(condition), ctx)
        case None => Threw(ctx)
        case Some(b) =>
          if node.conditions.None? then Threw(ctx)
          else Response("condition", Some("Condition: " + (if b then "true" else "false")), CondTarget(node, if b then "true" else "false"), ctx)
  }

  function LegacyWait(node: Node, ctx: Context): LegacyRun
  {
    if node.parameters.None? then Threw(ctx)
    else
      var duration := ParamOr(node.parameters.value, "duration", Int(1000));
      if !(duration.Int? && 0 <= duration.i <= IntMax) then Threw(ctx)
      else Response("wait", Some("Waited " + IntToString(duration.i) + "ms"), FirstNext(node), ctx)
  }

  /** A step of an operation loop: go on with a context, stop with the exception's context, or leave the model. */
  datatype Step = Next(ctx: Context) | Stop(ctx: Context) | Lost

  /** One flat context edit: `set` (text values substituted) and `delete` on the top-level key `path`. */
  function FlatEdit(ctx: Context, op: Value): (r: Step)
    ensures r != Lost
  {
    if !op.Obj? then Stop(ctx)
    else
      var action := Get(op.fields, "action");
      var path := Get(op.fields, "path");
      if !Castable(action) || !Castable(path) then Stop(ctx)
      else if action == Str("set") && path.Str? then
        var value := Get(op.fields, "value");
        Next(ctx[path.s := if value.Str? then Str(Substitute(value.s, ctx)) else value])
      else if action == Str("delete") && path.Str? then Next(ctx - {path.s})
      else Next(ctx)
  }

  /**
   * `executeSimpleCalculateOperation` on the flat key `target`: division by zero and
   * operations other than the five it knows keep the current number; a whole result
   * is stored as a 32-bit integer.
   */
  function FlatArith(op: Op, current: Number, operand: Number): Outcome
  {
    var keeps := op !in {Add, Subtract, Multiply, Divide, Assign} || (op == Divide && operand == Exact(0));
    if keeps then (if current.Exact? then Whole(current.n) else Fractional)
    else if op == Assign then (if operand.Exact? then Whole(operand.n) else Fractional)
    else if current.Inexact? || operand.Inexact? then Fractional
    else if op == Add then Whole(current.n + operand.n)
    else if op == Subtract then Whole(current.n - operand.n)
    else if op == Multiply then Whole(current.n * operand.n)
    else if current.n % operand.n == 0 then Whole(current.n / operand.n)
    else Fractional
  }

  /** How a whole result is stored: a 32-bit integer, or (as written) the double the Java conditional widens it to. */
  function Stored(n: int, asWritten: bool): Value
  {
    if asWritten then Dbl(DoubleText(Clamp32(n))) else Int(Clamp32(n))
  }

  function CalcWith(ctx: Context, op: Value, asWritten: bool): Step
  {
    if !op.Obj? then Stop(ctx)
    else
      var target := Get(op.fields, "target");
      var operation := Get(op.fields, "operation");
      if !Castable(target) || !Castable(operation) then Stop(ctx)
      else if target.Null? || operation.Null? then Next(ctx)
      else match FlatArith(OpOf(operation.s), ParseNumber(Get(ctx, target.s)), ParseNumber(Get(op.fields, "value")))
        case Whole(n) => Next(ctx[target.s := Stored(n, asWritten)])
        case _ => Lost
  }

  /** One legacy calculation, with the whole result stored as an integer. */
  function FlatCalc(ctx: Context, op: Value): (r: Step)
    ensures r.Stop? ==> r.ctx == ctx
    ensures r.Next? && !(op.Obj? && Get(op.fields, "target").Str?) ==> r.ctx == ctx
    ensures r.Next? && op.Obj? && Get(op.fields, "target").Str? ==>
              Kept(ctx, r.ctx, {Get(op.fields, "target").s})
  {
    CalcWith(ctx, op, false)
  }

  /** The store as written: `whole ? (int) r : r` is a double expression, so the whole result goes back as a double. */
  function FlatCalcAsWritten(ctx: Context, op: Value): Step
  {
    CalcWith(ctx, op, true)
  }

  /** Runs the edit or calculate step over the operations in order, stopping at the first exception or untracked result. */
  function Fold(ctx: Context, ops: seq<Value>, arith: bool): (r: Step)
    ensures !arith ==> r != Lost
    decreases |ops|
  {
    if |ops| == 0 then Next(ctx)
    else
      var s := if arith then FlatCalc(ctx, ops[0]) else FlatEdit(ctx, ops[0]);
      if s.Next? then Fold(s.ctx, ops[1..], arith) else s
  }

  /** context-edit and calculate: a list of operations is applied, anything else is ignored; neither cascades. */
  function LegacyOps(node: Node, ctx: Context, arith: bool): LegacyRun
  {
    var kind := if arith then "calculate" else "context-edit";
    if node.parameters.None? then Response(kind, Some("No parameters"), FirstNext(node), ctx)
    else
      var ops := Get(node.parameters.value, "operations");
      match (if ops.Arr? then Fold(ctx, ops.items, arith) else Next(ctx))
      case Next(c) => Response(kind, Some(if arith then "Calculations completed" else "Context updated"), FirstNext(node), c)
      case Stop(c) => Threw(c)
      case Lost => Untracked
  }

  /** The successor of the NLU step: `conditions.success`, else the first successor. */
  function NluNext(node: Node): Option<string>
  {
    Or(CondTarget(node, "success"), FirstNext(node))
  }

  /** `executeBlock`: exact type names; only nlu-request runs the next node itself. */
  function LegacyExec(fuel: nat, node: Node, input: Option<string>, ctx: Context, sc: ScenarioData): (r: LegacyRun)
    decreases fuel
    ensures r.Exhausted? ==> node.kind == "nlu-request"
    ensures r.Replied? && r.reply.Reply? ==>
              r.reply.kind in {"announce", "ask", "parse", "condition", "wait", "context-edit", "calculate", "nlu-request"}
    ensures r.Untracked? ==> node.kind == "calculate" || node.kind == "nlu-request"
  {
    match node.kind
    case "announce" => LegacyAnnounce(node, ctx)
    case "ask" => LegacyAsk(node, ctx)
    case "parse" => LegacyParse(node, input, ctx)
    case "condition" => LegacyCondition(node, ctx)
    case "wait" => LegacyWait(node, ctx)
    case "context-edit" => LegacyOps(node, ctx, false)
    case "calculate" => LegacyOps(node, ctx, true)
    case "nlu-request" =>
      var next := NluNext(node);
      var c := ctx["intent" := Str(Intent(input))]["entities" := Arr([])]["confidence" := Dbl("0.8")]["current_node" := OptText(next)];
      var found := if next.Some? && sc.nodes.Some? then FirstWithId(sc.nodes.value, next.value) else None;
      if found.None? then Response("nlu-request", Some("NLU analysis completed"), next, c)
      else if fuel == 0 then Exhausted(c)
      else LegacyExec(fuel - 1, found.value, input, c, sc)
    case _ => Replied(ErrorReply("Unknown block type: " + node.kind), ctx)
  }

  /** `executeScenario`: `current_node`, or the start node when absent; `Scenario.findNode` throws on a missing node list. */
  function LegacyExecute(fuel: nat, sc: ScenarioData, input: Option<string>, ctx: Context): (r: LegacyRun)
    ensures sc.nodes.None? ==> r == Threw(ctx)
    ensures r.Replied? && r.reply.Reply? ==>
              r.reply.kind in {"announce", "ask", "parse", "condition", "wait", "context-edit", "calculate", "nlu-request"}
  {
    var v := if "current_node" in ctx then ctx["current_node"] else OptText(sc.startNode);
    if !Castable(v) || sc.nodes.None? then Threw(ctx)
    else if v.Null? then
      if |sc.nodes.value| > 0 then Threw(ctx) else Replied(ErrorReply("Node not found: null"), ctx)
    else match FirstWithId(sc.nodes.value, v.s)
      case None => Replied(ErrorReply("Node not found: " + v.s), ctx)
      case Some(n) => LegacyExec(fuel, n, input, ctx, sc)
  }

  // ---------------------------------------------------------------------------
  // Properties

  /** Exact dispatch: a type outside the nine names, in any other spelling or case, is an error response. */
  lemma UnknownBlockIsError(fuel: nat, node: Node, input: Option<string>, ctx: Context, sc: ScenarioData)
    requires node.kind !in {"announce", "ask", "parse", "condition", "wait", "nlu-request", "context-edit", "calculate"}
    ensures LegacyExec(fuel, node, input, ctx, sc) == Replied(ErrorReply("Unknown block type: " + node.kind), ctx)
  {
  }

  /** An ask node asks its question, "Введите ответ:" by default, and moves `current_node` to its successor. */
  lemma AskDefaults(fuel: nat, node: Node, input: Option<string>, ctx: Context, sc: ScenarioData)
    requires node.kind == "ask" && (node.parameters.None? || "question" !in node.parameters.value)
    ensures var r := LegacyExec(fuel, node, input, ctx, sc);
            r.Replied? && r.reply == Reply("ask", Some("Введите ответ:"), FirstNext(node))
            && Get(r.ctx, "waiting_for_input") == Bool(true) && Get(r.ctx, "current_node") == OptText(FirstNext(node))
  {
  }

  /**
   * An announce node shows its message with the context substituted, names its first
   * successor without running it, and leaves the context as it was; a `null` message
   * gives a `null` reply text, and a missing parameter map throws.
   */
  lemma LegacyAnnounceShows(fuel: nat, node: Node, input: Option<string>, ctx: Context, sc: ScenarioData, d: int)
    requires node.kind == "announce"
    requires node.parameters.Some? ==> ParamOr(node.parameters.value, "delay", Int(0)) == Int(d) && IntMin <= d <= IntMax
    requires node.parameters.Some? ==> Castable(Get(node.parameters.value, "message"))
    ensures var r := LegacyExec(fuel, node, input, ctx, sc);
            r.ctx == ctx
            && (node.parameters.None? <==> r.Threw?)
            && (node.parameters.Some? ==>
                  var m := Get(node.parameters.value, "message");
                  r == Response("announce", if m.Str? then Some(Substitute(m.s, ctx)) else None, FirstNext(node), ctx))
  {
  }

  /**
   * A wait node reports how long it waited (1000 ms unless `duration` says otherwise)
   * and keeps the context; a negative duration makes `Thread.sleep` throw.
   */
  lemma LegacyWaitReports(fuel: nat, node: Node, input: Option<string>, ctx: Context, sc: ScenarioData)
    requires node.kind == "wait" && node.parameters.Some?
    ensures var r := LegacyExec(fuel, node, input, ctx, sc);
            var duration := ParamOr(node.parameters.value, "duration", Int(1000));
            r.ctx == ctx
            && ("duration" !in node.parameters.value ==> r == Response("wait", Some("Waited 1000ms"), FirstNext(node), ctx))
            && (duration.Int? && 0 <= duration.i <= IntMax ==>
                  r == Response("wait", Some("Waited " + IntToString(duration.i) + "ms"), FirstNext(node), ctx))
            && (duration.Int? && duration.i < 0 ==> r == Threw(ctx))
  {
    assert IntToString(1000) == "1000" by {
      assert NatToString(1) == "1";
      assert NatToString(10) == "10";
      assert NatToString(100) == "100";
    }
    assert "Waited " + IntToString(1000) + "ms" == "Waited 1000ms";
  }

  /**
   * A parse node records whether the input is present and not blank, and goes to
   * the first successor exactly then; otherwise to the `error` entry, possibly none.
   */
  lemma ParseResultIsFilled(fuel: nat, node: Node, input: Option<string>, ctx: Context, sc: ScenarioData)
    requires node.kind == "parse" && node.parameters.Some? && Get(node.parameters.value, "script") == Null
    ensures var r := LegacyExec(fuel, node, input, ctx, sc);
            r.Replied? && Get(r.ctx, "parse_result") == Bool(Filled(input))
            && r.reply.Reply? && r.reply.next == (if Filled(input) then FirstNext(node) else CondTarget(node, "error"))
  {
  }

  /** A condition text the engine does not recognise always takes the `true` entry. */
  lemma UnrecognisedConditionHolds(fuel: nat, node: Node, input: Option<string>, ctx: Context, sc: ScenarioData, c: string)
    requires node.kind == "condition" && node.parameters.Some? && Get(node.parameters.value, "condition") == Str(c)
    requires node.conditions.Some?
    requires !Contains(c, "parse_result") && !Contains(c, "context.wantsBalance == true") && !Contains(c, "context.validCard == true")
    ensures LegacyExec(fuel, node, input, ctx, sc) == Response("condition", Some("Condition: true"), CondTarget(node, "true"), ctx)
  {
    assert Holds(Text(Str(c)), ctx) == Some(true);
    assert "Condition: " + "true" == "Condition: true";
  }

  /** The NLU step records the intent and runs the `success` node (else the first successor) at once. */
  lemma NluRunsNext(fuel: nat, node: Node, m: Node, input: Option<string>, ctx: Context, sc: ScenarioData)
    requires node.kind == "nlu-request" && fuel > 0
    requires NluNext(node).Some? && sc.nodes.Some? && FirstWithId(sc.nodes.value, NluNext(node).value) == Some(m)
    ensures LegacyExec(fuel, node, input, ctx, sc)
            == LegacyExec(fuel - 1, m, input, ctx["intent" := Str(Intent(input))]["entities" := Arr([])]["confidence" := Dbl("0.8")]["current_node" := Str(m.id)], sc)
  {
  }

  /** Setting a path stores under that exact top-level key, dots included, unlike the advanced engine's nested paths. */
  lemma FlatSetStoresKey(ctx: Context, path: string, v: Value)
    requires !v.Str?
    ensures FlatEdit(ctx, Obj(map["action" := Str("set"), "path" := Str(path), "value" := v])) == Next(ctx[path := v])
  {
    var op := map["action" := Str("set"), "path" := Str(path), "value" := v];
    assert Get(op, "action") == Str("set") && Get(op, "path") == Str(path) && Get(op, "value") == v;
  }

  /** The edit loop keeps every context key that none of its paths names. */
  lemma {:induction false} FoldKeepsOtherKeys(ctx: Context, ops: seq<Value>, key: string)
    requires forall k :: 0 <= k < |ops| ==> ops[k].Obj? && Get(ops[k].fields, "path") != Str(key)
    ensures Fold(ctx, ops, false).Next? || Fold(ctx, ops, false).Stop?
    ensures Get(Fold(ctx, ops, false).ctx, key) == Get(ctx, key)
    decreases |ops|
  {
    if |ops| > 0 {
      var s := FlatEdit(ctx, ops[0]);
      assert Get(s.ctx, key) == Get(ctx, key);
      if s.Next? {
        FoldKeepsOtherKeys(s.ctx, ops[1..], key);
      }
    }
  }

  /** Division by a zero operand keeps the current whole number. */
  lemma DivideByZeroKeeps(op: Op, c: int)
    requires op == Divide
    ensures FlatArith(op, Exact(c), Exact(0)) == Whole(c)
  {
  }

  lemma CalcWhole(ctx: Context, fields: map<string, Value>, key: string, name: string, asWritten: bool, n: int)
    requires Get(fields, "target") == Str(key) && Get(fields, "operation") == Str(name)
    requires FlatArith(OpOf(name), ParseNumber(Get(ctx, key)), ParseNumber(Get(fields, "value"))) == Whole(n)
    ensures CalcWith(ctx, Obj(fields), asWritten) == Next(ctx[key := Stored(n, asWritten)])
  {
  }

  /** An addition on a whole counter stores the (saturated) sum, in the chosen form, under the flat key. */
  lemma FlatAddStores(ctx: Context, fields: map<string, Value>, key: string, name: string, c: int, d: int, asWritten: bool)
    requires OpOf(name) == Add && key in ctx && ctx[key] == Int(c)
    requires Get(fields, "target") == Str(key) && Get(fields, "operation") == Str(name) && Get(fields, "value") == Int(d)
    requires -ExactLimit <= c <= ExactLimit && -ExactLimit <= d <= ExactLimit
    ensures CalcWith(ctx, Obj(fields), asWritten) == Next(ctx[key := Stored(c + d, asWritten)])
  {
    assert ParseNumber(Get(ctx, key)) == Exact(c) && ParseNumber(Get(fields, "value")) == Exact(d);
    assert FlatArith(Add, Exact(c), Exact(d)) == Whole(c + d);
    CalcWhole(ctx, fields, key, name, asWritten, c + d);
  }

  /** The counter 2 plus 3 in the legacy engine: the double `5.0` as written, the integer 5 once corrected. */
  lemma LegacyCounterExample()
    ensures var op := Obj(map["target" := Str("count"), "operation" := Str("add"), "value" := Int(3)]);
            FlatCalcAsWritten(map["count" := Int(2)], op) == Next(map["count" := Dbl("5.0")])
            && FlatCalc(map["count" := Int(2)], op) == Next(map["count" := Int(5)])
  {
    var ctx := map["count" := Int(2)];
    var fields := map["target" := Str("count"), "operation" := Str("add"), "value" := Int(3)];
    assert Get(fields, "target") == Str("count") && Get(fields, "operation") == Str("add") && Get(fields, "value") == Int(3);
    LowerPlain("add");
    FlatAddStores(ctx, fields, "count", "add", 2, 3, false);
    FlatAddStores(ctx, fields, "count", "add", 2, 3, true);
    assert Clamp32(5) == 5;
    assert DoubleText(5) == "5.0" by {
      assert IntToString(5) == "5";
    }
    assert ctx["count" := Int(5)] == map["count" := Int(5)];
    assert ctx["count" := Dbl("5.0")] == map["count" := Dbl("5.0")];
  }

  /** A run resumes at the node named by `current_node`, and reports a name that no node carries. */
  lemma LegacyResumes(fuel: nat, sc: ScenarioData, input: Option<string>, ctx: Context, id: string)
    requires "current_node" in ctx && ctx["current_node"] == Str(id) && sc.nodes.Some?
    ensures FirstWithId(sc.nodes.value, id).Some? ==>
              LegacyExecute(fuel, sc, input, ctx) == LegacyExec(fuel, FirstWithId(sc.nodes.value, id).value, input, ctx, sc)
    ensures FirstWithId(sc.nodes.value, id).None? ==>
              LegacyExecute(fuel, sc, input, ctx) == Replied(ErrorReply("Node not found: " + id), ctx)
  {
  }
}

=== FILE: nlu.dfy ===
/**
 * `NluService`: a keyword and example matcher over a registry of intents, with
 * usage counters, and keyword entity extraction. The registry is a map from
 * intent id to its record; the order in which Java's hash map enumerates it is an
 * input (`order`), since the first match in that order wins.
 */
module Nlu {

  import opened Wrappers
  import opened Strings
  import opened Json

  /** A registered intent. Its id is the key it is stored under. */
  datatype Intent = Intent(name: string, description: string, examples: seq<string>, usage: int)

  type Registry = map<string, Intent>

  /** The greeting keywords tried before anything else. */
  const Greetings: seq<string> := ["привет", "hello", "добр", "здравств"]

  /**
   * The static keyword table in the order Java's `HashMap` iterates it: eleven keys in a
   * table of sixteen buckets, ordered by bucket (the spread hash `h ^ (h >>> 16)` of the
   * key's `String.hashCode`, masked to four bits) and, within a bucket, by insertion.
   */
  const Patterns: seq<(string, string)> := [
    ("операции", "get_statement"), ("balance", "check_balance"), ("баланс", "check_balance"),
    ("история", "get_statement"), ("проблема", "complaint"), ("заблок", "block_card"),
    ("закрыть", "close_account"), ("перевод", "transfer_money"), ("жалоба", "complaint"),
    ("закрытие", "close_account"), ("блок", "block_card")]

  const YesWords: seq<string> := ["да", "хорошо", "согласен", "окей", "ок", "yes", "конечно", "давайте"]
  const NoWords: seq<string> := ["нет", "не хочу", "против", "no", "отказываюсь", "не надо"]
  const UrgencyWords: seq<string> := ["срочно", "быстро", "немедленно", "сейчас"]
  const CardReasons: seq<string> := ["кража", "потеря", "подозрительные", "мошенники"]

  // ---------------------------------------------------------------------------
  // Text helpers

  /** The line terminators Java's `.` does not match. */
  predicate IsLineBreak(c: char)
  {
    c == '\n' || c == '\r' || c as int == 0x85 || c as int == 0x2028 || c as int == 0x2029
  }

  /** Java's `\s`: space, tab, newline, vertical tab, form feed, carriage return. */
  predicate IsSpace(c: char)
  {
    c == ' ' || c == '\t' || c == '\n' || c as int == 0x0B || c as int == 0x0C || c == '\r'
  }

  /** Length of the leading run of non-space characters. */
  function RunLength(s: string): (n: nat)
    ensures n <= |s|
    ensures forall k :: 0 <= k < n ==> !IsSpace(s[k])
    ensures n < |s| ==> IsSpace(s[n])
  {
    if |s| == 0 || IsSpace(s[0]) then 0 else 1 + RunLength(s[1..])
  }

  /**
   * The words of `split("\\s+")`. Java may also yield a leading empty word, which
   * every text contains, so it never changes whether all words are found.
   */
  function Words(s: string): (ws: seq<string>)
    ensures forall k :: 0 <= k < |ws| ==> |ws[k]| > 0
    decreases |s|
  {
    if |s| == 0 then []
    else if IsSpace(s[0]) then Words(s[1..])
    else
      var n := RunLength(s);
      [s[..n]] + Words(s[n..])
  }

  /** Every word of the example, lower-cased, occurs in the text. */
  predicate ExampleMatches(text: string, example: string)
  {
    forall w :: w in Words(ToLower(example)) ==> Contains(text, w)
  }

  /** `text.matches(".*(привет|hello|добр|здравств).*")`: a keyword, and no line break for `.*` to stop at. */
  predicate IsGreeting(text: string)
  {
    (forall k :: 0 <= k < |text| ==> !IsLineBreak(text[k])) && exists g :: g in Greetings && Contains(text, g)
  }

  // ---------------------------------------------------------------------------
  // Registry

  /** `incrementUsageCount`: one more use of a registered intent; an unregistered id changes nothing. */
  function Increment(reg: Registry, id: string): (r: Registry)
    ensures r.Keys == reg.Keys
    ensures id in reg ==> r[id] == reg[id].(usage := reg[id].usage + 1)
    ensures forall other :: other in reg && other != id ==> r[other] == reg[other]
  {
    if id in reg then reg[id := reg[id].(usage := reg[id].usage + 1)] else reg
  }

  /** The id `createIntent` derives: the lower-cased name with every character outside `[a-z0-9]` turned into `_`. */
  function IdOf(name: string): (id: string)
    ensures |id| == |name|
    ensures forall k :: 0 <= k < |id| ==> IdChar(id[k])
  {
    var lower := ToLower(name);
    seq(|lower|, k requires 0 <= k < |lower| => if IdChar(lower[k]) && lower[k] != '_' then lower[k] else '_')
  }

  predicate IdChar(c: char)
  {
    'a' <= c <= 'z' || '0' <= c <= '9' || c == '_'
  }

  /** `createIntent`: stores a fresh record with no uses under the derived id, replacing any intent with that id. `None` when a field is `null`. */
  function Create(reg: Registry, name: string, description: Option<string>, examples: Option<seq<string>>): (r: Option<(string, Registry)>)
    ensures r.Some? <==> description.Some? && examples.Some?
    ensures r.Some? ==> r.value.0 == IdOf(name) && r.value.1 == reg[IdOf(name) := Intent(name, description.value, examples.value, 0)]
  {
    if description.None? || examples.None? then None
    else Some((IdOf(name), reg[IdOf(name) := Intent(name, description.value, examples.value, 0)]))
  }

  datatype Updated = Updated(ok: bool, reg: Registry) | UpdateFailed

  /** `updateIntent`: false for an unknown id; otherwise the new fields, keeping the usage count. */
  function Update(reg: Registry, id: string, name: string, description: Option<string>, examples: Option<seq<string>>): (r: Updated)
    ensures id !in reg ==> r == Updated(false, reg)
    ensures id in reg && description.Some? && examples.Some? ==>
              r == Updated(true, reg[id := Intent(name, description.value, examples.value, reg[id].usage)])
    ensures id in reg && (description.None? || examples.None?) ==> r == UpdateFailed
  {
    if id !in reg then Updated(false, reg)
    else if description.None? || examples.None? then UpdateFailed
    else Updated(true, reg[id := Intent(name, description.value, examples.value, reg[id].usage)])
  }

  /** `deleteIntent`: whether the id was registered, and the registry without it. */
  function Delete(reg: Registry, id: string): (r: (bool, Registry))
    ensures r.0 <==> id in reg
    ensures r.1 == reg - {id}
  {
    (id in reg, reg - {id})
  }

  // ---------------------------------------------------------------------------
  // Detection

  /** The first registered id in `order` that occurs in the text. */
  function FirstIdIn(text: string, reg: Registry, order: seq<string>): (r: Option<string>)
    ensures r.Some? ==> r.value in order && r.value in reg && Contains(text, r.value)
    ensures r.Some? ==> exists i :: 0 <= i < |order| && order[i] == r.value &&
                          forall j :: 0 <= j < i ==> !(order[j] in reg && Contains(text, order[j]))
    ensures r.None? ==> forall id :: id in order && id in reg ==> !Contains(text, id)
    ensures r.None? && Enumerates(order, reg) ==> forall id :: id in reg ==> !Contains(text, id)
  {
    if |order| == 0 then None
    else if order[0] in reg && Contains(text, order[0]) then Some(order[0])
    else FirstIdIn(text, reg, order[1..])
  }

  /** Some example of the intent matches. */
  predicate AnyExample(text: string, intent: Intent)
  {
    exists e :: e in intent.examples && ExampleMatches(text, e)
  }

  /** The first registered id in `order` with a matching example. */
  function FirstExample(text: string, reg: Registry, order: seq<string>): (r: Option<string>)
    ensures r.Some? ==> r.value in order && r.value in reg && AnyExample(text, reg[r.value])
    ensures r.Some? ==> exists i :: 0 <= i < |order| && order[i] == r.value &&
                          forall j :: 0 <= j < i ==> !(order[j] in reg && AnyExample(text, reg[order[j]]))
    ensures r.None? ==> forall id :: id in order && id in reg ==> !AnyExample(text, reg[id])
    ensures r.None? && Enumerates(order, reg) ==> forall id :: id in reg ==> !AnyExample(text, reg[id])
  {
    if |order| == 0 then None
    else if order[0] in reg && AnyExample(text, reg[order[0]]) then Some(order[0])
    else FirstExample(text, reg, order[1..])
  }

  /** The intent of the first static keyword the text contains. */
  function FirstPattern(text: string, patterns: seq<(string, string)>): (r: Option<string>)
    ensures r.Some? ==> exists i :: 0 <= i < |patterns| && Contains(text, patterns[i].0) && patterns[i].1 == r.value &&
                          forall j :: 0 <= j < i ==> !Contains(text, patterns[j].0)
    ensures r.None? ==> forall p :: p in patterns ==> !Contains(text, p.0)
  {
    if |patterns| == 0 then None
    else if Contains(text, patterns[0].0) then Some(patterns[0].1)
    else FirstPattern(text, patterns[1..])
  }

  datatype Detection = Detection(intent: string, reg: Registry)

  /** `detectIntent` on normalised text: greeting, id, example, static keyword, else "unknown"; the winner's count goes up. */
  function Detect(text: string, reg: Registry, order: seq<string>): (r: Detection)
    ensures IsGreeting(text) ==> r.intent == "greeting"
    ensures r.intent in reg || r.intent == "greeting" || r.intent == "unknown" || exists i :: 0 <= i < |Patterns| && Patterns[i].1 == r.intent
    ensures r.reg == Increment(reg, r.intent) || r == Detection("unknown", reg)
    ensures r.reg.Keys == reg.Keys
  {
    if IsGreeting(text) then Detection("greeting", Increment(reg, "greeting"))
    else if FirstIdIn(text, reg, order).Some? then
      var id := FirstIdIn(text, reg, order).value;
      Detection(id, Increment(reg, id))
    else if FirstExample(text, reg, order).Some? then
      var id := FirstExample(text, reg, order).value;
      Detection(id, Increment(reg, id))
    else if FirstPattern(text, Patterns).Some? then
      var intent := FirstPattern(text, Patterns).value;
      Detection(intent, Increment(reg, intent))
    else Detection("unknown", reg)
  }

  /** `getSuggestedScenario`: the fixed intent table; any other intent goes to the main menu. */
  function Suggested(intent: string): string
  {
    match intent
    case "greeting" => "main-menu-001"
    case "check_balance" => "balance-check-001"
    case "transfer_money" => "money-transfer-001"
    case "get_statement" => "statement-001"
    case "close_account" => "account-close-001"
    case "complaint" => "complaint-001"
    case _ => "main-menu-001"
  }

  // ---------------------------------------------------------------------------
  // Entities

  datatype Entity = Entity(kind: string, value: string, start: nat, end: nat)

  /** The first word of the list that the text contains. */
  function FirstWord(text: string, words: seq<string>): (r: Option<string>)
    ensures r.Some? ==> r.value in words && Contains(text, r.value)
    ensures r.Some? ==> exists i :: 0 <= i < |words| && words[i] == r.value && forall j :: 0 <= j < i ==> !Contains(text, words[j])
    ensures r.None? ==> forall w :: w in words ==> !Contains(text, w)
  {
    if |words| == 0 then None
    else if Contains(text, words[0]) then Some(words[0])
    else FirstWord(text, words[1..])
  }

  /** An entity located at the first occurrence of `word`. */
  function Spot(kind: string, value: string, text: string, word: string): (e: Entity)
    requires Contains(text, word)
    ensures e.end == e.start + |word| && OccursAt(text, word, e.start)
    ensures forall j :: 0 <= j < e.start ==> !OccursAt(text, word, j)
  {
    var start := IndexOf(text, word).value;
    Entity(kind, value, start, start + |word|)
  }

  /** The text contains a yes-word or a no-word. */
  predicate Confirms(text: string)
  {
    (exists w :: w in YesWords && Contains(text, w)) || (exists w :: w in NoWords && Contains(text, w))
  }

  /** At most one confirmation: a yes-word is looked for before any no-word. */
  function ConfirmationEntity(text: string): (r: seq<Entity>)
    ensures |r| <= 1
    ensures forall e :: e in r ==> e.kind == "confirmation" && e.start <= e.end <= |text|
    ensures |r| == 1 <==> Confirms(text)
  {
    match FirstWord(text, YesWords)
    case Some(w) => [Spot("confirmation", "yes", text, w)]
    case None =>
      match FirstWord(text, NoWords)
      case Some(w) => [Spot("confirmation", "no", text, w)]
      case None => []
  }

  function OneEntity(text: string, words: seq<string>, kind: string, byWord: bool, value: string): (r: seq<Entity>)
    ensures |r| <= 1
    ensures forall e :: e in r ==> e.kind == kind && e.start <= e.end <= |text|
    ensures |r| == 1 <==> exists w :: w in words && Contains(text, w)
  {
    match FirstWord(text, words)
    case Some(w) => [Spot(kind, if byWord then w else value, text, w)]
    case None => []
  }

  /** `extractEntities` without the regular-expression number and amount rules. */
  function Entities(text: string): (r: seq<Entity>)
    ensures |r| <= 3
    ensures forall e :: e in r ==> e.kind in {"confirmation", "urgency", "card_reason"} && e.start <= e.end <= |text|
    ensures forall i, j :: 0 <= i < j < |r| ==> r[i].kind != r[j].kind
  {
    var confirmation := ConfirmationEntity(text);
    var urgency := OneEntity(text, UrgencyWords, "urgency", false, "high");
    var reason := OneEntity(text, CardReasons, "card_reason", true, "");
    JoinKinds(confirmation, urgency, reason, |text|);
    confirmation + urgency + reason
  }

  /** At most one entity, of the given kind, lying within a text of length `n`. */
  predicate AtMostOne(es: seq<Entity>, kind: string, n: nat)
  {
    |es| <= 1 && forall e :: e in es ==> e.kind == kind && e.start <= e.end <= n
  }

  /** Joining the three per-kind lists gives at most three entities, each of a distinct kind. */
  lemma JoinKinds(c: seq<Entity>, u: seq<Entity>, rs: seq<Entity>, n: nat)
    requires AtMostOne(c, "confirmation", n) && AtMostOne(u, "urgency", n) && AtMostOne(rs, "card_reason", n)
    ensures var r := c + u + rs;
            |r| <= 3
            && (forall e :: e in r ==> e.kind in {"confirmation", "urgency", "card_reason"} && e.start <= e.end <= n)
            && forall i, j :: 0 <= i < j < |r| ==> r[i].kind != r[j].kind
  {
    var r := c + u + rs;
    assert forall k :: 0 <= k < |r| ==> r[k] in c || r[k] in u || r[k] in rs;
    assert forall k :: 0 <= k < |r| ==>
             r[k].kind == (if k < |c| then "confirmation" else if k < |c| + |u| then "urgency" else "card_reason");
  }

  /** An entity of each kind is reported exactly when the text contains one of that kind's words. */
  lemma EntitiesReport(text: string)
    ensures (exists e :: e in Entities(text) && e.kind == "confirmation") <==> Confirms(text)
    ensures (exists e :: e in Entities(text) && e.kind == "urgency") <==> exists w :: w in UrgencyWords && Contains(text, w)
    ensures (exists e :: e in Entities(text) && e.kind == "card_reason") <==> exists w :: w in CardReasons && Contains(text, w)
  {
    ConfirmationReported(text);
    UrgencyReported(text);
    ReasonReported(text);
  }

  /** A confirmation is reported exactly when the text contains a yes-word or a no-word. */
  lemma ConfirmationReported(text: string)
    ensures (exists e :: e in Entities(text) && e.kind == "confirmation") <==> Confirms(text)
  {
    var confirmation := ConfirmationEntity(text);
    var urgency := OneEntity(text, UrgencyWords, "urgency", false, "high");
    var reason := OneEntity(text, CardReasons, "card_reason", true, "");
    assert Entities(text) == confirmation + urgency + reason;
    if Confirms(text) {
      assert confirmation[0] in Entities(text);
    } else {
      forall e | e in Entities(text) ensures e.kind != "confirmation" {
        assert e in urgency || e in reason;
      }
    }
  }

  /** An urgency is reported exactly when the text contains an urgency word. */
  lemma UrgencyReported(text: string)
    ensures (exists e :: e in Entities(text) && e.kind == "urgency") <==> exists w :: w in UrgencyWords && Contains(text, w)
  {
    var confirmation := ConfirmationEntity(text);
    var urgency := OneEntity(text, UrgencyWords, "urgency", false, "high");
    var reason := OneEntity(text, CardReasons, "card_reason", true, "");
    assert Entities(text) == confirmation + urgency + reason;
    if exists w :: w in UrgencyWords && Contains(text, w) {
      assert urgency[0] in Entities(text);
    } else {
      forall e | e in Entities(text) ensures e.kind != "urgency" {
        assert e in confirmation || e in reason;
      }
    }
  }

  /** A card reason is reported exactly when the text contains one of the reason words. */
  lemma ReasonReported(text: string)
    ensures (exists e :: e in Entities(text) && e.kind == "card_reason") <==> exists w :: w in CardReasons && Contains(text, w)
  {
    var confirmation := ConfirmationEntity(text);
    var urgency := OneEntity(text, UrgencyWords, "urgency", false, "high");
    var reason := OneEntity(text, CardReasons, "card_reason", true, "");
    assert Entities(text) == confirmation + urgency + reason;
    if exists w :: w in CardReasons && Contains(text, w) {
      assert reason[0] in Entities(text);
    } else {
      forall e | e in Entities(text) ensures e.kind != "card_reason" {
        assert e in confirmation || e in urgency;
      }
    }
  }

  // ---------------------------------------------------------------------------
  // Analysis

  datatype Analysis = Analysis(intent: string, suggested: string, entities: seq<Entity>, context: Context)

  /** `analyze`: intent, suggested scenario and entities of the normalised text, and the updated registry. */
  function Analyze(text: string, context: Option<Context>, reg: Registry, order: seq<string>): (r: (Analysis, Registry))
    ensures r.1.Keys == reg.Keys
    ensures forall id :: id in reg && id != r.0.intent ==> r.1[id] == reg[id]
    ensures r.0.context == (if context.Some? then context.value else map[])
    ensures forall e :: e in r.0.entities ==> e.end <= |Normalise(text)|
    ensures r.0.intent == Detect(Normalise(text), reg, order).intent && r.1 == Detect(Normalise(text), reg, order).reg
    ensures r.0.suggested == Suggested(r.0.intent)
    ensures r.0.entities == Entities(Normalise(text))
  {
    var t := Normalise(text);
    var d := Detect(t, reg, order);
    (Analysis(d.intent, Suggested(d.intent), Entities(t), if context.Some? then context.value else map[]), d.reg)
  }

  // ---------------------------------------------------------------------------
  // Properties

  lemma AnalyzeNormalised(text: string, context: Option<Context>, reg: Registry, order: seq<string>)
    ensures Analyze(Normalise(text), context, reg, order) == Analyze(text, context, reg, order)
  {
    NormaliseIdempotent(text);
  }

  /** A greeting keyword on a single line wins over every registered intent. */
  lemma GreetingFirst(text: string, reg: Registry, order: seq<string>, g: string)
    requires g in Greetings && Contains(text, g) && forall k :: 0 <= k < |text| ==> !IsLineBreak(text[k])
    ensures Detect(text, reg, order) == Detection("greeting", Increment(reg, "greeting"))
  {
  }

  /** Without a greeting, an intent id contained in the text beats every example and static keyword. */
  lemma IdBeforeExamples(text: string, reg: Registry, order: seq<string>, id: string)
    requires Enumerates(order, reg)
    requires !IsGreeting(text) && id in reg && Contains(text, id)
    ensures Detect(text, reg, order).intent in reg && Contains(text, Detect(text, reg, order).intent)
  {
  }

  /** An intent is "unknown" when no rule matches, and then the registry is unchanged. */
  lemma UnknownWhenNothingMatches(text: string, reg: Registry, order: seq<string>)
    requires Enumerates(order, reg)
    requires forall id :: id in reg ==> !Contains(text, id) && !AnyExample(text, reg[id])
    requires !IsGreeting(text) && forall p :: p in Patterns ==> !Contains(text, p.0)
    ensures Detect(text, reg, order) == Detection("unknown", reg)
  {
  }

  /**
   * Keyword order decides between intents: a text with "проблема" is a complaint even when
   * it also names a transfer, unless a key iterated earlier ("операции", "balance",
   * "баланс", "история") matches first.
   */
  lemma ProblemOutranksTransfer(text: string)
    requires Contains(text, "проблема") && Contains(text, "перевод")
    requires !Contains(text, "операции") && !Contains(text, "balance") && !Contains(text, "баланс") && !Contains(text, "история")
    ensures FirstPattern(text, Patterns) == Some("complaint")
  {
    assert Patterns[4] == ("проблема", "complaint");
  }

  /** Detection registers no intent and changes no intent other than the detected one. */
  lemma DetectionTouchesOnlyWinner(text: string, reg: Registry, order: seq<string>)
    ensures var d := Detect(text, reg, order);
            d.reg.Keys == reg.Keys && forall other :: other in reg && other != d.intent ==> d.reg[other] == reg[other]
  {
  }

  /** A detected registered intent other than "unknown" gains exactly one use. */
  lemma DetectedGainsOne(text: string, reg: Registry, order: seq<string>)
    requires Detect(text, reg, order).intent != "unknown" && Detect(text, reg, order).intent in reg
    ensures Detect(text, reg, order).reg == Increment(reg, Detect(text, reg, order).intent)
    ensures Detect(text, reg, order).reg[Detect(text, reg, order).intent].usage == reg[Detect(text, reg, order).intent].usage + 1
  {
  }

  /** Deriving an id twice changes nothing: a derived id is its own id. */
  lemma IdOfIdempotent(name: string)
    ensures IdOf(IdOf(name)) == IdOf(name)
  {
    var id := IdOf(name);
    assert forall k :: 0 <= k < |id| ==> LowerChar(id[k]) == id[k];
    assert ToLower(id) == id;
  }

  /** A created intent starts unused; creating then deleting it leaves no intent under its id. */
  lemma CreateThenDelete(reg: Registry, name: string, description: string, examples: seq<string>)
    ensures var c := Create(reg, name, Some(description), Some(examples));
            c.Some? && c.value.1[c.value.0].usage == 0
            && Delete(c.value.1, c.value.0) == (true, reg - {IdOf(name)})
  {
    var reg2 := reg[IdOf(name) := Intent(name, description, examples, 0)];
    assert reg2 - {IdOf(name)} == reg - {IdOf(name)};
  }

  /** An update keeps the usage count and the other intents. */
  lemma UpdateKeepsUsage(reg: Registry, id: string, name: string, description: string, examples: seq<string>)
    requires id in reg
    ensures var u := Update(reg, id, name, Some(description), Some(examples));
            u.Updated? && u.ok && u.reg[id].usage == reg[id].usage && u.reg.Keys == reg.Keys
            && forall other :: other in reg && other != id ==> u.reg[other] == reg[other]
  {
  }

  /** The suggested scenario for an intent outside the table is the main menu. */
  lemma SuggestedDefault(intent: string)
    requires intent !in {"greeting", "check_balance", "transfer_money", "get_statement", "close_account", "complaint"}
    ensures Suggested(intent) == "main-menu-001"
  {
  }

  /** A yes-word decides the confirmation even when a no-word is also present. */
  lemma YesBeforeNo(text: string, w: string)
    requires w in YesWords && Contains(text, w)
    ensures |ConfirmationEntity(text)| == 1 && ConfirmationEntity(text)[0].value == "yes"
  {
  }

  /**
   * Without yes-words, a no-word gives a `no` confirmation, placed at the first occurrence
   * of the first no-word, in list order, that the text contains.
   */
  lemma NoConfirmation(text: string, w: string)
    requires forall y :: y in YesWords ==> !Contains(text, y)
    requires w in NoWords && Contains(text, w)
    ensures |ConfirmationEntity(text)| == 1 && ConfirmationEntity(text)[0].value == "no"
    ensures var e := ConfirmationEntity(text)[0];
            exists i :: 0 <= i < |NoWords| && Contains(text, NoWords[i]) && (forall j :: 0 <= j < i ==> !Contains(text, NoWords[j]))
                        && e.end == e.start + |NoWords[i]| && OccursAt(text, NoWords[i], e.start)
                        && forall k :: 0 <= k < e.start ==> !OccursAt(text, NoWords[i], k)
  {
  }
}

=== FILE: paths.dfy ===
/**
 * Dotted paths into a dialog context (`api_response.users[0].name`): how the engine
 * cuts a path into segments and walks maps and lists along them.
 */
module Paths {

  import opened Wrappers
  import opened Strings
  import opened Json

  /** A segment matching `\[\d+\]`: a bracketed run of one or more decimal digits. */
  predicate IsIndexSegment(part: string)
  {
    |part| >= 3 && part[0] == '[' && part[|part| - 1] == ']' && AllDigits(part[1..|part| - 1])
  }

  /** The list position an index segment names. */
  function SegmentIndex(part: string): nat
    requires IsIndexSegment(part)
  {
    ParseNat(part[1..|part| - 1])
  }

  function Flush(cur: string): (r: seq<string>)
    ensures forall k :: 0 <= k < |r| ==> r[k] != ""
  {
    if cur != "" then [cur] else []
  }

  /**
   * The character loop of `parseJsonPath` from the current state on: `cur` is the
   * segment being built, `inBrackets` whether a `[` is open. A `[` starts a new
   * segment, a `]` closes one (brackets included), a `.` outside brackets ends one.
   */
  function Scan(p: string, cur: string, inBrackets: bool): (parts: seq<string>)
    ensures forall k :: 0 <= k < |parts| ==> parts[k] != ""
    decreases |p|
  {
    if |p| == 0 then Flush(cur)
    else if p[0] == '[' then Flush(cur) + Scan(p[1..], "[", true)
    else if p[0] == ']' then [cur + "]"] + Scan(p[1..], "", false)
    else if p[0] == '.' && !inBrackets then Flush(cur) + Scan(p[1..], "", inBrackets)
    else Scan(p[1..], cur + [p[0]], inBrackets)
  }

  /** `parseJsonPath`: the segments of a path; none of them is empty. */
  function ParsePath(path: string): (parts: seq<string>)
    ensures forall k :: 0 <= k < |parts| ==> parts[k] != ""
  {
    Scan(path, "", false)
  }

  /** The non-empty strings of `parts`, in order. */
  function NonEmpty(parts: seq<string>): (r: seq<string>)
    ensures forall k :: 0 <= k < |r| ==> r[k] != ""
  {
    if |parts| == 0 then [] else Flush(parts[0]) + NonEmpty(parts[1..])
  }

  lemma NonEmptyAppend(a: seq<string>, b: seq<string>)
    ensures NonEmpty(a + b) == NonEmpty(a) + NonEmpty(b)
  {
    if |a| == 0 {
      assert a + b == b;
    } else {
      assert (a + b)[1..] == a[1..] + b;
      NonEmptyAppend(a[1..], b);
    }
  }

  predicate NoBrackets(s: string)
  {
    '[' !in s && ']' !in s
  }

  /**
   * Without brackets a path splits exactly as a plain split on `.` with the empty
   * pieces dropped: `a..b.` has the segments `a` and `b`.
   */
  lemma {:induction false} ParseDottedPath(path: string)
    requires NoBrackets(path)
    ensures ParsePath(path) == NonEmpty(SplitAll(path, "."))
  {
    ScanDotted(path, "");
    assert "" + path == path;
  }

  lemma {:induction false} ScanDotted(p: string, cur: string)
    requires NoBrackets(p) && NoBrackets(cur) && '.' !in cur
    ensures Scan(p, cur, false) == NonEmpty(SplitAll(cur + p, "."))
    decreases |p|
  {
    var s := cur + p;
    if |p| == 0 {
      assert s == cur;
      NoDotNoSplit(cur);
    } else if p[0] == '.' {
      assert OccursAt(s, ".", |cur|) by {
        assert s[|cur|..|cur| + 1] == [p[0]];
      }
      forall j | 0 <= j < |cur| ensures !OccursAt(s, ".", j) {
        assert s[j..j + 1] == [cur[j]];
      }
      assert IndexOf(s, ".") == Some(|cur|);
      assert s[..|cur|] == cur;
      assert s[|cur| + 1..] == p[1..];
      assert SplitAll(s, ".") == [cur] + SplitAll(p[1..], ".");
      ScanDotted(p[1..], "");
      assert "" + p[1..] == p[1..];
      NonEmptyAppend([cur], SplitAll(p[1..], "."));
    } else {
      assert p[0] != '[' && p[0] != ']' by {
        assert p[0] in p;
      }
      ScanDotted(p[1..], cur + [p[0]]);
      assert cur + [p[0]] + p[1..] == s;
    }
  }

  lemma NoDotNoSplit(s: string)
    requires '.' !in s
    ensures SplitAll(s, ".") == [s]
  {
    forall j ensures !OccursAt(s, ".", j) {
      if 0 <= j && j + 1 <= |s| {
        assert s[j..j + 1] == [s[j]];
      }
    }
    assert IndexOf(s, ".").None?;
  }

  /** A bracket pair after a key opens a segment of its own: `users[0]` is `users`, `[0]`. */
  lemma IndexSegmentSplit(key: string, digits: string)
    requires key != "" && NoBrackets(key) && '.' !in key
    requires digits != "" && AllDigits(digits)
    ensures ParsePath(key + "[" + digits + "]") == [key, "[" + digits + "]"]
    ensures IsIndexSegment("[" + digits + "]") && SegmentIndex("[" + digits + "]") == ParseNat(digits)
  {
    var seg := "[" + digits + "]";
    assert key + "[" + digits + "]" == key + seg;
    ScanAfter(key, seg, "", false);
    assert "" + key == key;
    assert Scan(seg, key, false) == Flush(key) + Scan(seg[1..], "[", true);
    assert seg[1..] == digits + "]";
    assert NoBrackets(digits) by {
      forall k | 0 <= k < |digits| ensures digits[k] != '[' && digits[k] != ']' {
        assert IsDigit(digits[k]);
      }
    }
    assert '.' !in digits by {
      forall k | 0 <= k < |digits| ensures digits[k] != '.' {
        assert IsDigit(digits[k]);
      }
    }
    ScanAfter(digits, "]", "[", true);
    assert Scan("]", "[" + digits, true) == ["[" + digits + "]"] + Scan("", "", false);
    assert seg[1..|seg| - 1] == digits;
  }

  /** Scanning plain characters only extends the current segment. */
  lemma {:induction false} ScanPlain(p: string, cur: string, inBrackets: bool)
    requires NoBrackets(p) && '.' !in p
    ensures forall rest :: Scan(p + rest, cur, inBrackets) == Scan(rest, cur + p, inBrackets)
    decreases |p|
  {
    if |p| == 0 {
      forall rest ensures Scan(p + rest, cur, inBrackets) == Scan(rest, cur + p, inBrackets) {
        assert p + rest == rest && cur + p == cur;
      }
    } else {
      assert p[0] in p;
      ScanPlain(p[1..], cur + [p[0]], inBrackets);
      forall rest ensures Scan(p + rest, cur, inBrackets) == Scan(rest, cur + p, inBrackets) {
        assert (p + rest)[1..] == p[1..] + rest;
        assert cur + [p[0]] + p[1..] == cur + p;
      }
    }
  }

  lemma ScanAfter(p: string, rest: string, cur: string, inBrackets: bool)
    requires NoBrackets(p) && '.' !in p
    ensures Scan(p + rest, cur, inBrackets) == Scan(rest, cur + p, inBrackets)
  {
    ScanPlain(p, cur, inBrackets);
  }

  /** `path` without one leading `context.`. */
  function StripContextPrefix(path: string): (r: string)
    ensures StartsWith(path, "context.") ==> r == path[8..]
    ensures !StartsWith(path, "context.") ==> r == path
  {
    if StartsWith(path, "context.") then path[8..] else path
  }

  /**
   * The walk of `getValueByJsonPath`: an index segment selects from a list when in
   * range, any other segment reads a map key; everything else, including walking on
   * from `null`, yields `null`.
   */
  function Resolve(current: Value, parts: seq<string>): Value
    decreases |parts|
  {
    if |parts| == 0 then current
    else if current.Null? then Null
    else if IsIndexSegment(parts[0]) then
      if current.Arr? && SegmentIndex(parts[0]) < |current.items| then
        Resolve(current.items[SegmentIndex(parts[0])], parts[1..])
      else Null
    else if current.Obj? then Resolve(Get(current.fields, parts[0]), parts[1..])
    else Null
  }

  /** A plain key (no brackets, no dot) is a path of one key segment. */
  lemma PlainKeySegment(key: string)
    ensures key != "" && NoBrackets(key) && '.' !in key ==> ParsePath(key) == [key] && !IsIndexSegment(key)
  {
    if key != "" && NoBrackets(key) && '.' !in key {
      ParseDottedPath(key);
      NoDotNoSplit(key);
      assert NonEmpty([key]) == [key] by {
        assert [key][1..] == [];
      }
      assert key[0] in key;
    }
  }

  /** One key segment reads the map's entry. */
  lemma ResolveKey(ctx: Context, key: string)
    ensures !IsIndexSegment(key) ==> Resolve(Obj(ctx), [key]) == Get(ctx, key)
  {
    assert [key][1..] == [];
  }

  /**
   * `getValueByJsonPath`: the value at `path`, read from the top-level map, after
   * dropping a leading `context.`. An empty path reads `null`, a path without
   * segments the whole context, a plain key its top-level entry.
   */
  function Lookup(ctx: Context, path: string): (r: Value)
    ensures path == "" ==> r.Null?
    ensures path != "" && ParsePath(StripContextPrefix(path)) == [] ==> r == Obj(ctx)
    ensures path != "" && NoBrackets(path) && '.' !in path && !StartsWith(path, "context.") ==> r == Get(ctx, path)
  {
    if path == "" then Null
    else
      PlainKeySegment(path);
      ResolveKey(ctx, path);
      Resolve(Obj(ctx), ParsePath(StripContextPrefix(path)))
  }

  /** Walking a path in two pieces is walking it at once. */
  lemma {:induction false} ResolveAppend(root: Value, a: seq<string>, b: seq<string>)
    ensures Resolve(root, a + b) == Resolve(Resolve(root, a), b)
    decreases |a|
  {
    if |a| == 0 {
      assert a + b == b;
    } else {
      assert (a + b)[0] == a[0] && (a + b)[1..] == a[1..] + b;
      if root.Null? {
        ResolveNull(b);
      } else if IsIndexSegment(a[0]) {
        if root.Arr? && SegmentIndex(a[0]) < |root.items| {
          ResolveAppend(root.items[SegmentIndex(a[0])], a[1..], b);
        } else {
          ResolveNull(b);
        }
      } else if root.Obj? {
        ResolveAppend(Get(root.fields, a[0]), a[1..], b);
      } else {
        ResolveNull(b);
      }
    }
  }

  lemma ResolveNull(parts: seq<string>)
    ensures Resolve(Null, parts) == Null
  {
  }

  /**
   * A segment that finds nothing ends the walk with `null`: a key the map lacks, an
   * index past the end of the list, or a segment applied to a value of the wrong kind.
   */
  lemma ResolveMissing(root: Value, before: seq<string>, part: string, after: seq<string>)
    requires var at := Resolve(root, before);
      if IsIndexSegment(part) then !(at.Arr? && SegmentIndex(part) < |at.items|)
      else !(at.Obj? && part in at.fields)
    ensures Resolve(root, before + [part] + after) == Null
  {
    ResolveAppend(root, before, [part] + after);
    assert before + [part] + after == before + ([part] + after);
    assert ([part] + after)[1..] == after;
    ResolveNull(after);
  }

  /** A plain key reads the top-level entry, with or without the `context.` prefix. */
  lemma LookupTopLevel(ctx: Context, key: string)
    requires key != "" && NoBrackets(key) && '.' !in key && !StartsWith(key, "context.")
    ensures Lookup(ctx, key) == Get(ctx, key)
    ensures Lookup(ctx, "context." + key) == Get(ctx, key)
  {
    PlainKeySegment(key);
    var full := "context." + key;
    assert StartsWith(full, "context.") by {
      assert full[..8] == "context.";
    }
    assert full[8..] == key;
    ResolveKey(ctx, key);
  }
}

=== FILE: scenario_store.dfy ===
/**
 * `ScenarioManagementService`: the in-memory scenario catalogue, keyed by id,
 * with search, the entry-point lookup and the two seeded scenarios. Reading or
 * creating a scenario with data also initialises its main branch in the branch
 * service. Clocks and fresh ids are parameters; the catalogue's iteration order
 * (a `ConcurrentHashMap`'s) is an `order` parameter listing its keys.
 */
module ScenarioStore {

  import opened Wrappers
  import opened Strings
  import opened Json
  import Branches

  /**
   * The scenario service's record: metadata, every field nullable as in the Java class,
   * and the node graph as the untyped map `scenarioData`; instants are plain integers.
   * The orchestrator's decoded view of the same JSON is `Documents.ScenarioDoc`.
   */
  datatype ScenarioInfo = ScenarioInfo(
    id: Option<string>,
    name: Option<string>,
    description: Option<string>,
    version: Option<string>,
    language: Option<string>,
    category: Option<string>,
    tags: Option<seq<string>>,
    isActive: Option<bool>,
    isEntryPoint: Option<bool>,
    createdAt: int,
    updatedAt: int,
    createdBy: Option<string>,
    scenarioData: Option<map<string, Value>>)

  /** `new ScenarioInfo(id, name)` at time `now`: version "1.0", language "uk", active, not an entry point. */
  function NewInfo(id: string, name: string, now: int): (r: ScenarioInfo)
    ensures r.id == Some(id) && r.name == Some(name)
    ensures r.version == Some("1.0") && r.language == Some("uk")
    ensures r.isActive == Some(true) && r.isEntryPoint == Some(false)
    ensures r.scenarioData.None? && r.tags.None?
  {
    ScenarioInfo(Some(id), Some(name), None, Some("1.0"), Some("uk"), None, None, Some(true), Some(false), now, now, None, None)
  }

  datatype Store = Store(scenarios: map<string, ScenarioInfo>, branches: Branches.Service)

  /** Every stored scenario carries the id it is stored under. */
  predicate WellKeyed(st: Store)
  {
    forall k :: k in st.scenarios ==> st.scenarios[k].id == Some(k)
  }

  /** `scenarios.values()` in the iteration order `order`. */
  function All(st: Store, order: seq<string>): (r: seq<ScenarioInfo>)
    ensures |r| <= |order|
    ensures forall i :: 0 <= i < |r| ==> r[i] in st.scenarios.Values
    ensures forall k :: k in order && k in st.scenarios ==> st.scenarios[k] in r
    ensures Enumerates(order, st.scenarios) ==> forall v :: v in st.scenarios.Values ==> v in r
  {
    if |order| == 0 then []
    else if order[0] in st.scenarios then [st.scenarios[order[0]]] + All(st, order[1..])
    else All(st, order[1..])
  }

  /** `getScenario`: the stored scenario; reading one also initialises its main branch. */
  function GetScenario(st: Store, id: string): (r: (Option<ScenarioInfo>, Store))
    ensures r.0.Some? <==> id in st.scenarios
    ensures r.0.Some? ==> r.0.value == st.scenarios[id]
    ensures r.1.scenarios == st.scenarios
    ensures id !in st.scenarios ==> r.1 == st
  {
    if id in st.scenarios then
      (Some(st.scenarios[id]), st.(branches := Branches.InitMain(st.branches, id, st.scenarios[id].scenarioData)))
    else (None, st)
  }

  /** `createScenario`: keep the given id or take `freshId`, stamp both instants with `now`, store, and initialise main when there is data. */
  function CreateScenario(st: Store, info: ScenarioInfo, freshId: string, now: int): (r: (ScenarioInfo, Store))
    ensures r.0.id.Some? && r.0.id.value in r.1.scenarios && r.1.scenarios[r.0.id.value] == r.0
    ensures r.1.scenarios.Keys == st.scenarios.Keys + {r.0.id.value}
    ensures forall k :: k in st.scenarios && k != r.0.id.value ==> r.1.scenarios[k] == st.scenarios[k]
    ensures info.scenarioData.None? ==> r.1.branches == st.branches
  {
    var id := info.id.UnwrapOr(freshId);
    var stored := info.(id := Some(id), createdAt := now, updatedAt := now);
    var branches := if stored.scenarioData.Some? then Branches.InitMain(st.branches, id, stored.scenarioData) else st.branches;
    (stored, Store(st.scenarios[id := stored], branches))
  }

  /** `updateScenario`: replace an existing scenario, keeping its id and creation instant. */
  function UpdateScenario(st: Store, id: string, info: ScenarioInfo, now: int): (r: (Option<ScenarioInfo>, Store))
    ensures r.0.Some? <==> id in st.scenarios
    ensures r.0.None? ==> r.1 == st
    ensures r.1.scenarios.Keys == st.scenarios.Keys && r.1.branches == st.branches
    ensures forall k :: k in st.scenarios && k != id ==> r.1.scenarios[k] == st.scenarios[k]
  {
    if id !in st.scenarios then (None, st)
    else
      var stored := info.(id := Some(id), createdAt := st.scenarios[id].createdAt, updatedAt := now);
      (Some(stored), st.(scenarios := st.scenarios[id := stored]))
  }

  /** `deleteScenario`: remove, reporting whether anything was there. */
  function DeleteScenario(st: Store, id: string): (r: (bool, Store))
    ensures r.0 <==> id in st.scenarios
    ensures r.1.scenarios.Keys == st.scenarios.Keys - {id} && r.1.branches == st.branches
    ensures forall k :: k in r.1.scenarios ==> r.1.scenarios[k] == st.scenarios[k]
  {
    (id in st.scenarios, st.(scenarios := st.scenarios - {id}))
  }

  /**
   * The search filter for a lower-cased query: the lower-cased name, description
   * or any tag contains it. `None` for a scenario without a name (the filter throws).
   */
  function Matches(info: ScenarioInfo, lq: string): Option<bool>
  {
    if info.name.None? then None
    else Some(Contains(ToLower(info.name.value), lq)
              || (info.description.Some? && Contains(ToLower(info.description.value), lq))
              || (info.tags.Some? && exists k :: 0 <= k < |info.tags.value| && Contains(ToLower(info.tags.value[k]), lq)))
  }

  function Filter(infos: seq<ScenarioInfo>, lq: string): (r: Option<seq<ScenarioInfo>>)
    ensures r.None? ==> exists i :: 0 <= i < |infos| && infos[i].name.None?
    ensures r.Some? ==> |r.value| <= |infos| && forall j :: 0 <= j < |r.value| ==> r.value[j] in infos && Matches(r.value[j], lq) == Some(true)
  {
    if |infos| == 0 then Some([])
    else match (Matches(infos[0], lq), Filter(infos[1..], lq))
      case (Some(b), Some(rest)) => Some(if b then [infos[0]] + rest else rest)
      case _ => None
  }

  /** `searchScenarios`: everything for a missing or blank query, else the matches of the lower-cased (untrimmed) query. */
  function Search(st: Store, order: seq<string>, query: Option<string>): (r: Option<seq<ScenarioInfo>>)
    ensures r.Some? ==> forall j :: 0 <= j < |r.value| ==> r.value[j] in st.scenarios.Values
    ensures query.Some? && |Trim(query.value)| > 0 && r.Some? ==>
              forall j :: 0 <= j < |r.value| ==> Matches(r.value[j], ToLower(query.value)) == Some(true)
  {
    if query.None? || |Trim(query.value)| == 0 then Some(All(st, order))
    else Filter(All(st, order), ToLower(query.value))
  }

  /** `getEntryPointScenario`: the first scenario flagged both entry point and active. */
  function EntryPoint(st: Store, order: seq<string>): (r: Option<ScenarioInfo>)
    ensures r.Some? ==> r.value in st.scenarios.Values && IsEntry(r.value)
    ensures r.None? && Enumerates(order, st.scenarios) ==> forall k :: k in st.scenarios ==> !IsEntry(st.scenarios[k])
  {
    FirstEntry(All(st, order))
  }

  predicate IsEntry(info: ScenarioInfo)
  {
    info.isEntryPoint == Some(true) && info.isActive == Some(true)
  }

  function FirstEntry(infos: seq<ScenarioInfo>): (r: Option<ScenarioInfo>)
    ensures r.Some? ==> r.value in infos && IsEntry(r.value)
    ensures r.None? ==> forall i :: 0 <= i < |infos| ==> !IsEntry(infos[i])
  {
    if |infos| == 0 then None
    else if IsEntry(infos[0]) then Some(infos[0])
    else FirstEntry(infos[1..])
  }

  // ---------------------------------------------------------------------------
  // The seeded catalogue

  function Node(id: string, kind: string, parameter: string, text: string, next: seq<Value>): Value
  {
    Obj(map["id" := Str(id), "type" := Str(kind), "parameters" := Obj(map[parameter := Str(text)]), "next_nodes" := Arr(next)])
  }

  /** The greeting graph: welcome, ask the name, greet by the last answer. */
  const GreetingData: map<string, Value> := map[
    "start_node" := Str("welcome"),
    "nodes" := Arr([
      Node("welcome", "announce", "message", "Привет! Как дела?", [Str("ask_name")]),
      Node("ask_name", "ask", "question", "Как вас зовут?", [Str("greet_user")]),
      Node("greet_user", "announce", "message", GreetPrefix + "{last_answer}" + GreetSuffix, [])])]

  /** The text around the placeholder of the greeting's last message. */
  const GreetPrefix := "Приятно познакомиться, "
  const GreetSuffix := "! Чем могу помочь?"

  const HelpData: map<string, Value> := map[
    "start_node" := Str("help_menu"),
    "nodes" := Arr([Node("help_menu", "announce", "message", "Чем могу помочь?", [])])]

  function Greeting(now: int): ScenarioInfo
  {
    NewInfo("greeting-001", "Приветствие пользователя", now).(
      description := Some("Простой сценарий приветствия с запросом имени"),
      category := Some("greeting"),
      tags := Some(["приветствие", "знакомство"]),
      isEntryPoint := Some(true),
      scenarioData := Some(GreetingData))
  }

  function Help(now: int): ScenarioInfo
  {
    NewInfo("help-001", "Помощь пользователю", now).(
      description := Some("Сценарий предоставления помощи"),
      category := Some("support"),
      tags := Some(["помощь", "поддержка"]),
      scenarioData := Some(HelpData))
  }

  /**
   * The catalogue after construction: the two seeded scenarios and no branches.
   * The test branches the constructor then tries to create are never made,
   * because the workspace service is not yet injected and the failure is caught.
   */
  function Seeded(now: int): Store
  {
    Store(map["greeting-001" := Greeting(now), "help-001" := Help(now)], map[])
  }

  // ---------------------------------------------------------------------------
  // Properties

  /** Creating and updating keep every scenario under its own id. */
  lemma OperationsKeepKeys(st: Store, info: ScenarioInfo, freshId: string, id: string, now: int)
    requires WellKeyed(st)
    ensures WellKeyed(CreateScenario(st, info, freshId, now).1)
    ensures WellKeyed(UpdateScenario(st, id, info, now).1)
    ensures WellKeyed(DeleteScenario(st, id).1)
    ensures WellKeyed(GetScenario(st, id).1)
    ensures WellKeyed(Seeded(now))
  {
  }

  /** A created scenario keeps a supplied id, is stored under it and reads back stamped with `now`. */
  lemma CreateThenGet(st: Store, info: ScenarioInfo, freshId: string, now: int)
    ensures var (stored, st') := CreateScenario(st, info, freshId, now);
            stored.id == Some(if info.id.Some? then info.id.value else freshId)
            && GetScenario(st', stored.id.value).0 == Some(stored)
            && stored.createdAt == now && stored.updatedAt == now
            && stored.(id := info.id, createdAt := info.createdAt, updatedAt := info.updatedAt) == info
  {
  }

  /** Creating a scenario with data leaves it a main branch holding that data. */
  lemma CreateInitialisesMain(st: Store, info: ScenarioInfo, freshId: string, now: int)
    requires info.scenarioData.Some?
    requires var id := info.id.UnwrapOr(freshId); id !in st.branches
    ensures var (stored, st') := CreateScenario(st, info, freshId, now);
            Branches.BranchOf(st'.branches, stored.id.value, None).Some?
            && Branches.BranchOf(st'.branches, stored.id.value, None).value.data == info.scenarioData
  {
  }

  /** An update of an unknown id changes nothing; a known one keeps the creation instant. */
  lemma UpdateKeepsCreation(st: Store, id: string, info: ScenarioInfo, now: int)
    ensures id !in st.scenarios ==> UpdateScenario(st, id, info, now) == (None, st)
    ensures id in st.scenarios ==>
              var (r, st') := UpdateScenario(st, id, info, now);
              r.Some? && r.value.id == Some(id) && r.value.createdAt == st.scenarios[id].createdAt
              && r.value.updatedAt == now && st'.scenarios[id] == r.value && st'.scenarios.Keys == st.scenarios.Keys
  {
  }

  /** Delete reports presence and afterwards the id is gone; a second delete reports false. */
  lemma DeleteReportsPresence(st: Store, id: string)
    ensures DeleteScenario(st, id).0 <==> id in st.scenarios
    ensures id !in DeleteScenario(st, id).1.scenarios
    ensures !DeleteScenario(DeleteScenario(st, id).1, id).0
  {
  }

  /** A missing or blank query returns the whole catalogue. */
  lemma BlankQueryIsAll(st: Store, order: seq<string>, query: string)
    requires |Trim(query)| == 0
    ensures Search(st, order, Some(query)) == Some(All(st, order))
    ensures Search(st, order, None) == Some(All(st, order))
  {
  }

  /** The filter throws exactly when some scenario has no name, and otherwise keeps exactly the matches, in order. */
  lemma {:induction false} FilterExact(infos: seq<ScenarioInfo>, lq: string)
    ensures Filter(infos, lq).None? <==> exists i :: 0 <= i < |infos| && infos[i].name.None?
    ensures Filter(infos, lq).Some? ==>
              forall x :: x in Filter(infos, lq).value <==> x in infos && Matches(x, lq) == Some(true)
    decreases |infos|
  {
    if |infos| > 0 {
      FilterExact(infos[1..], lq);
      assert forall i :: 1 <= i < |infos| ==> infos[i] == infos[1..][i - 1];
      assert forall x :: x in infos <==> x == infos[0] || x in infos[1..];
    }
  }

  /** The entry point is flagged, and no scenario earlier in iteration order is. */
  lemma {:induction false} EntryPointIsFirst(infos: seq<ScenarioInfo>)
    ensures var r := FirstEntry(infos);
            r.Some? ==> exists i :: 0 <= i < |infos| && infos[i] == r.value && IsEntry(infos[i])
                                    && forall j :: 0 <= j < i ==> !IsEntry(infos[j])
    decreases |infos|
  {
    if |infos| > 0 && !IsEntry(infos[0]) {
      EntryPointIsFirst(infos[1..]);
      if FirstEntry(infos).Some? {
        var i :| 0 <= i < |infos[1..]| && infos[1..][i] == FirstEntry(infos).value && IsEntry(infos[1..][i])
                 && forall j :: 0 <= j < i ==> !IsEntry(infos[1..][j]);
        assert infos[i + 1] == infos[1..][i];
        assert forall j :: 1 <= j < i + 1 ==> infos[j] == infos[1..][j - 1];
      }
    } else if |infos| > 0 {
      assert infos[0] == FirstEntry(infos).value;
    }
  }

  /** In the seeded catalogue, whatever the iteration order, the greeting is the entry point. */
  lemma {:induction false} SeededEntryPoint(order: seq<string>, now: int)
    requires "greeting-001" in order
    ensures EntryPoint(Seeded(now), order) == Some(Greeting(now))
    decreases |order|
  {
    var st := Seeded(now);
    assert IsEntry(Greeting(now)) && !IsEntry(Help(now));
    if order[0] == "greeting-001" {
      assert All(st, order)[0] == Greeting(now);
    } else {
      assert "greeting-001" in order[1..];
      SeededEntryPoint(order[1..], now);
      if order[0] in st.scenarios {
        assert All(st, order) == [Help(now)] + All(st, order[1..]);
      }
    }
  }
}

=== FILE: strings.dfy ===
/**
 * The few `java.lang.String` operations the scenario services lean on, written out
 * with Java's own edge cases: `split` drops trailing empty pieces, `trim` removes
 * every character up to U+0020, `replace` rewrites every non-overlapping occurrence
 * from left to right.
 */
module Strings {

  import opened Wrappers

  /** `t` occurs in `s` starting at index `j`. */
  predicate OccursAt(s: string, t: string, j: int)
  {
    0 <= j && j + |t| <= |s| && s[j..j + |t|] == t
  }

  predicate StartsWith(s: string, prefix: string)
  {
    |prefix| <= |s| && s[..|prefix|] == prefix
  }

  predicate EndsWith(s: string, suffix: string)
  {
    |suffix| <= |s| && s[|s| - |suffix|..] == suffix
  }

  /** First index at or after `from` where `t` occurs in `s` (`String.indexOf(t, from)`). */
  function IndexOfFrom(s: string, t: string, from: nat): (r: Option<nat>)
    ensures r.Some? ==> from <= r.value && OccursAt(s, t, r.value)
    ensures r.Some? ==> forall j :: from <= j < r.value ==> !OccursAt(s, t, j)
    ensures r.None? ==> forall j :: from <= j ==> !OccursAt(s, t, j)
    decreases |s| - from
  {
    if from + |t| > |s| then None
    else if s[from..from + |t|] == t then Some(from)
    else IndexOfFrom(s, t, from + 1)
  }

  function IndexOf(s: string, t: string): (r: Option<nat>)
    ensures r.Some? ==> OccursAt(s, t, r.value) && forall j :: 0 <= j < r.value ==> !OccursAt(s, t, j)
    ensures r.None? <==> forall j :: !OccursAt(s, t, j)
  {
    IndexOfFrom(s, t, 0)
  }

  /** `String.contains`. */
  predicate Contains(s: string, t: string)
  {
    IndexOf(s, t).Some?
  }

  /** A text containing `pre + mid + post` contains `mid`. */
  lemma ContainsInner(s: string, pre: string, mid: string, post: string)
    ensures Contains(s, pre + mid + post) ==> Contains(s, mid)
  {
    var t := pre + mid + post;
    if Contains(s, t) {
      var j := IndexOf(s, t).value;
      assert s[j + |pre|..j + |pre| + |mid|] == t[|pre|..|pre| + |mid|] == mid;
      assert OccursAt(s, mid, j + |pre|);
    }
  }

  /** `String.replace(target, replacement)`: every non-overlapping occurrence, left to right. */
  function ReplaceAll(s: string, target: string, replacement: string): (r: string)
    requires |target| > 0
    decreases |s|
  {
    if |s| < |target| then s
    else if s[..|target|] == target then replacement + ReplaceAll(s[|target|..], target, replacement)
    else [s[0]] + ReplaceAll(s[1..], target, replacement)
  }

  /** Text in which `target` does not occur is left unchanged by `ReplaceAll`. */
  lemma {:induction false} ReplaceAllAbsent(s: string, target: string, replacement: string)
    requires |target| > 0
    requires !Contains(s, target)
    ensures ReplaceAll(s, target, replacement) == s
    decreases |s|
  {
    if |s| < |target| {
    } else {
      assert !OccursAt(s, target, 0);
      assert !Contains(s[1..], target) by {
        forall j | OccursAt(s[1..], target, j) ensures false {
          assert s[1..][j..j + |target|] == s[j + 1..j + 1 + |target|];
          assert OccursAt(s, target, j + 1);
        }
      }
      ReplaceAllAbsent(s[1..], target, replacement);
    }
  }

  /** A single occurrence surrounded by text without the target's first character is replaced in place. */
  lemma {:induction false} ReplaceAllOnce(pre: string, target: string, replacement: string, post: string)
    requires |target| > 0
    requires target[0] !in pre && !Contains(post, target)
    ensures ReplaceAll(pre + target + post, target, replacement) == pre + replacement + post
    decreases |pre|
  {
    var s := pre + target + post;
    if |pre| == 0 {
      assert s == target + post;
      assert s[..|target|] == target;
      assert s[|target|..] == post;
      ReplaceAllAbsent(post, target, replacement);
    } else {
      assert s[0] == pre[0] && s[0] != target[0];
      assert s[..|target|] != target by {
        assert s[..|target|][0] == s[0];
      }
      assert ReplaceAll(s, target, replacement) == [s[0]] + ReplaceAll(s[1..], target, replacement);
      assert s[1..] == pre[1..] + target + post;
      ReplaceAllOnce(pre[1..], target, replacement, post);
      assert pre == [pre[0]] + pre[1..];
    }
  }

  /**
   * Every piece of `s` between occurrences of `sep`, empty pieces included: the
   * pieces `String.split` works from before it drops trailing empty ones.
   */
  function SplitAll(s: string, sep: string): (parts: seq<string>)
    requires |sep| > 0
    ensures |parts| >= 1
    ensures forall k :: 0 <= k < |parts| ==> |parts[k]| <= |s|
    decreases |s|
  {
    match IndexOf(s, sep)
    case None => [s]
    case Some(i) => [s[..i]] + SplitAll(s[i + |sep|..], sep)
  }

  /** `String.join(sep, parts)`. */
  function Join(parts: seq<string>, sep: string): string
  {
    if |parts| == 0 then ""
    else if |parts| == 1 then parts[0]
    else parts[0] + sep + Join(parts[1..], sep)
  }

  /** Splitting and joining again on the same separator gives back the text. */
  lemma {:induction false} JoinSplitAll(s: string, sep: string)
    requires |sep| > 0
    ensures Join(SplitAll(s, sep), sep) == s
    decreases |s|
  {
    var found := IndexOf(s, sep);
    if found.Some? {
      var i := found.value;
      assert OccursAt(s, sep, i);
      var rest := s[i + |sep|..];
      Reassemble(s, i, |sep|);
      var tail := SplitAll(rest, sep);
      assert SplitAll(s, sep) == [s[..i]] + tail;
      JoinSplitAll(rest, sep);
      JoinCons(s[..i], tail, sep);
    }
  }

  /** A text is its prefix, a middle stretch and its suffix. */
  lemma Reassemble(s: string, i: nat, n: nat)
    requires i + n <= |s|
    ensures s == s[..i] + s[i..i + n] + s[i + n..]
  {
  }

  lemma JoinCons(head: string, tail: seq<string>, sep: string)
    requires |tail| > 0
    ensures Join([head] + tail, sep) == head + sep + Join(tail, sep)
  {
    assert ([head] + tail)[1..] == tail;
  }

  /** No piece produced by `SplitAll` contains the separator. */
  lemma {:induction false} SplitAllPiecesFree(s: string, sep: string)
    requires |sep| > 0
    ensures forall k :: 0 <= k < |SplitAll(s, sep)| ==> !Contains(SplitAll(s, sep)[k], sep)
    decreases |s|
  {
    match IndexOf(s, sep)
    case None =>
    case Some(i) =>
      var rest := s[i + |sep|..];
      SplitAllPiecesFree(rest, sep);
      assert !Contains(s[..i], sep) by {
        forall j | OccursAt(s[..i], sep, j) ensures false {
          assert s[..i][j..j + |sep|] == s[j..j + |sep|];
          assert OccursAt(s, sep, j);
        }
      }
  }

  /** When the separator occurs, every piece is strictly shorter than the text. */
  lemma {:induction false} SplitAllPiecesShorter(s: string, sep: string)
    requires |sep| > 0 && Contains(s, sep)
    ensures forall k :: 0 <= k < |SplitAll(s, sep)| ==> |SplitAll(s, sep)[k]| <= |s| - |sep|
  {
  }

  /** `parts` with its trailing empty strings removed. */
  function DropTrailingEmpty(parts: seq<string>): (r: seq<string>)
    ensures |r| <= |parts| && r == parts[..|r|]
    ensures |r| > 0 ==> r[|r| - 1] != ""
    ensures forall k :: |r| <= k < |parts| ==> parts[k] == ""
  {
    if |parts| > 0 && parts[|parts| - 1] == "" then DropTrailingEmpty(parts[..|parts| - 1]) else parts
  }

  /**
   * `String.split` on a literal separator with limit 0: the whole text when the
   * separator does not occur, otherwise the pieces without the trailing empty ones.
   */
  function Split(s: string, sep: string): (parts: seq<string>)
    requires |sep| > 0
  {
    if !Contains(s, sep) then [s] else DropTrailingEmpty(SplitAll(s, sep))
  }

  /** Every piece of a split is a piece of the full split, so `Split` keeps the pieces free of the separator. */
  lemma SplitPieces(s: string, sep: string)
    requires |sep| > 0
    ensures forall k :: 0 <= k < |Split(s, sep)| ==> !Contains(Split(s, sep)[k], sep)
    ensures Contains(s, sep) ==> forall k :: 0 <= k < |Split(s, sep)| ==> |Split(s, sep)[k]| < |s|
  {
    SplitAllPiecesFree(s, sep);
    if Contains(s, sep) {
      SplitAllPiecesShorter(s, sep);
    }
  }

  /** `l + sep + r` splits into exactly `l` and `r` when neither contains the separator's characters. */
  lemma SplitTwo(l: string, sep: string, r: string)
    requires |sep| > 0 && r != ""
    requires forall k :: 0 <= k < |sep| ==> sep[k] !in l && sep[k] !in r
    ensures Split(l + sep + r, sep) == [l, r]
  {
    var s := l + sep + r;
    FirstOccurrenceAfter(l, sep, r);
    assert s[|l| + |sep|..] == r;
    NoOccurrence(r, sep);
    assert SplitAll(r, sep) == [r];
    assert s[..|l|] == l;
    assert SplitAll(s, sep) == [l] + SplitAll(r, sep);
  }

  /** The separator first occurs right after a prefix that lacks its first character. */
  lemma FirstOccurrenceAfter(l: string, sep: string, r: string)
    requires |sep| > 0 && sep[0] !in l
    ensures IndexOf(l + sep + r, sep) == Some(|l|)
  {
    var s := l + sep + r;
    assert OccursAt(s, sep, |l|) by {
      assert s[|l|..|l| + |sep|] == sep;
    }
    forall j | 0 <= j < |l| ensures !OccursAt(s, sep, j) {
      assert s[j] == l[j] && l[j] != sep[0];
      if j + |sep| <= |s| {
        assert s[j..j + |sep|][0] == s[j];
      }
    }
  }

  /** Text without the separator's first character does not contain the separator. */
  lemma NoOccurrence(r: string, sep: string)
    requires |sep| > 0 && sep[0] !in r
    ensures IndexOf(r, sep).None?
  {
    forall j | 0 <= j && j + |sep| <= |r| ensures !OccursAt(r, sep, j) {
      assert r[j..j + |sep|][0] == r[j] && r[j] != sep[0];
    }
  }

  /** Java's `Character` test behind `trim`: every char up to U+0020. */
  predicate IsTrimmable(c: char)
  {
    c <= ' '
  }

  function TrimStart(s: string): (r: string)
    ensures |r| <= |s| && r == s[|s| - |r|..]
    ensures |r| > 0 ==> !IsTrimmable(r[0])
    ensures forall k :: 0 <= k < |s| - |r| ==> IsTrimmable(s[k])
  {
    if |s| > 0 && IsTrimmable(s[0]) then
      var r := TrimStart(s[1..]);
      assert s[1..][|s| - 1 - |r|..] == s[|s| - |r|..];
      assert forall k :: 1 <= k < |s| - |r| ==> s[1..][k - 1] == s[k];
      r
    else s
  }

  function TrimEnd(s: string): (r: string)
    ensures |r| <= |s| && r == s[..|r|]
    ensures |r| > 0 ==> !IsTrimmable(r[|r| - 1])
    ensures forall k :: |r| <= k < |s| ==> IsTrimmable(s[k])
  {
    if |s| > 0 && IsTrimmable(s[|s| - 1]) then
      var r := TrimEnd(s[..|s| - 1]);
      assert s[..|s| - 1][..|r|] == s[..|r|];
      assert forall k :: |r| <= k < |s| - 1 ==> s[..|s| - 1][k] == s[k];
      r
    else s
  }

  /** `String.trim`: drop the leading and trailing characters up to U+0020. */
  function Trim(s: string): (r: string)
    ensures |r| <= |s|
  {
    TrimEnd(TrimStart(s))
  }

  /** A trimmed text has nothing left to trim, and it is the middle part of the original. */
  lemma TrimSpec(s: string)
    ensures Trim(s) == "" || (!IsTrimmable(Trim(s)[0]) && !IsTrimmable(Trim(s)[|Trim(s)| - 1]))
    ensures var i := |s| - |TrimStart(s)|; s[i..i + |Trim(s)|] == Trim(s)
  {
  }

  /** Trimming yields the empty text exactly when every character is trimmable. */
  lemma TrimEmpty(s: string)
    ensures (forall k :: 0 <= k < |s| ==> IsTrimmable(s[k])) <==> Trim(s) == ""
  {
    var a := TrimStart(s);
    var i := |s| - |a|;
    assert |a| > 0 ==> a[0] == s[i] && !IsTrimmable(a[0]);
  }

  /** Text already free of edge whitespace is its own trim. */
  lemma TrimIdentity(s: string)
    requires s == "" || (!IsTrimmable(s[0]) && !IsTrimmable(s[|s| - 1]))
    ensures Trim(s) == s
  {
  }

  /**
   * `Character.toLowerCase` for the alphabets the scenarios use: Latin A-Z, the Latin-1
   * capitals U+00C0-U+00DE except U+00D7, and the Cyrillic block U+0400-U+042F; every
   * other character is returned unchanged.
   */
  function LowerChar(c: char): char
  {
    if 'A' <= c <= 'Z' then (c as int + 32) as char
    else if 'À' <= c <= 'Ö' || 'Ø' <= c <= 'Þ' then (c as int + 32) as char
    else if 'А' <= c <= 'Я' then (c as int + 32) as char
    else if 'Ѐ' <= c <= 'Џ' then (c as int + 80) as char
    else c
  }

  /** `String.toLowerCase` on the alphabets `LowerChar` covers. */
  function ToLower(s: string): (r: string)
    ensures |r| == |s|
    ensures forall k :: 0 <= k < |s| ==> r[k] == LowerChar(s[k])
  {
    if |s| == 0 then "" else [LowerChar(s[0])] + ToLower(s[1..])
  }

  /** Lower-casing is idempotent. */
  lemma ToLowerIdempotent(s: string)
    ensures ToLower(ToLower(s)) == ToLower(s)
  {
    assert forall k :: 0 <= k < |s| ==> LowerChar(LowerChar(s[k])) == LowerChar(s[k]);
  }

  /** Lower-case, then trim: how the services normalise a user's message. */
  function Normalise(text: string): string
  {
    Trim(ToLower(text))
  }

  /** Lower-casing commutes with taking a slice. */
  lemma LowerSlice(s: string, i: nat, j: nat)
    requires i <= j <= |s|
    ensures ToLower(s[i..j]) == ToLower(s)[i..j]
  {
  }

  /** Normalising is idempotent, so normalising a message twice changes nothing. */
  lemma NormaliseIdempotent(text: string)
    ensures Normalise(Normalise(text)) == Normalise(text)
  {
    var l := ToLower(text);
    ToLowerIdempotent(text);
    LowerOfTrim(l);
    TrimIdempotent(l);
  }

  /** Trimming twice is trimming once. */
  lemma TrimIdempotent(s: string)
    ensures Trim(Trim(s)) == Trim(s)
  {
    TrimSpec(s);
    TrimIdentity(Trim(s));
  }

  /** Trimming lower-case text leaves it lower-case. */
  lemma LowerOfTrim(l: string)
    requires ToLower(l) == l
    ensures ToLower(Trim(l)) == Trim(l)
  {
    TrimSpec(l);
    var i := |l| - |TrimStart(l)|;
    LowerSlice(l, i, i + |Trim(l)|);
  }

  /** The ASCII decimal digits that Java's `\d` matches. */
  predicate IsDigit(c: char)
  {
    '0' <= c <= '9'
  }

  predicate AllDigits(s: string)
  {
    forall k :: 0 <= k < |s| ==> IsDigit(s[k])
  }

  function DigitChar(d: nat): (c: char)
    requires d < 10
    ensures IsDigit(c)
  {
    ('0' as int + d) as char
  }

  function DigitValue(c: char): (d: nat)
    requires IsDigit(c)
    ensures d < 10 && DigitChar(d) == c
  {
    c as int - '0' as int
  }

  /** The value of a string of decimal digits (`Integer.parseInt` without the overflow check). */
  function ParseNat(s: string): nat
    requires AllDigits(s)
  {
    if |s| == 0 then 0 else 10 * ParseNat(s[..|s| - 1]) + DigitValue(s[|s| - 1])
  }

  /** Decimal text of a natural number, most significant digit first, no leading zeros. */
  function NatToString(n: nat): (r: string)
    ensures |r| > 0 && AllDigits(r)
    ensures r[0] != '0' || n == 0
    decreases n
  {
    if n < 10 then [DigitChar(n)] else NatToString(n / 10) + [DigitChar(n % 10)]
  }

  /** `String.valueOf(int)`. */
  function IntToString(i: int): string
  {
    if i < 0 then "-" + NatToString(-i) else NatToString(i)
  }

  /** Reading back the decimal text gives the number: printing is injective and parseable. */
  lemma {:induction false} ParseNatToString(n: nat)
    ensures ParseNat(NatToString(n)) == n
    decreases n
  {
    if n >= 10 {
      ParseNatToString(n / 10);
      var s := NatToString(n);
      assert s[..|s| - 1] == NatToString(n / 10);
    }
  }

  /** Two different numbers never print alike. */
  lemma IntToStringInjective(a: int, b: int)
    requires IntToString(a) == IntToString(b)
    ensures a == b
  {
    assert (a < 0) == (b < 0) by {
      assert IntToString(a)[0] == IntToString(b)[0];
    }
    if a < 0 {
      assert NatToString(-a) == IntToString(a)[1..];
      ParseNatToString(-a);
      ParseNatToString(-b);
    } else {
      ParseNatToString(a);
      ParseNatToString(b);
    }
  }
}

=== FILE: templates.dfy ===
/**
 * `{path}` placeholders in message texts: `substituteVariables` finds every match of
 * `\{([^}]+)\}` in the original text and, for each one whose path resolves to a
 * non-null value, replaces every occurrence of that placeholder by the value's text.
 */
module Templates {

  import opened Wrappers
  import opened Strings
  import opened Json
  import opened Paths

  /**
   * The inner paths of the placeholders in `text`, left to right. At a `{` the
   * pattern needs at least one non-`}` character and then the first `}`; where it
   * fails, the search goes on from the next character.
   */
  function Placeholders(text: string): (paths: seq<string>)
    ensures forall k :: 0 <= k < |paths| ==> paths[k] != "" && '}' !in paths[k]
    decreases |text|
  {
    if |text| == 0 then []
    else if text[0] != '{' then Placeholders(text[1..])
    else
      match IndexOf(text[1..], "}")
      case Some(k) =>
        if k >= 1 then
          var inner := text[1..1 + k];
          assert '}' !in inner by {
            forall j | 0 <= j < |inner| ensures inner[j] != '}' {
              assert !OccursAt(text[1..], "}", j);
              assert text[1..][j..j + 1] == [inner[j]];
            }
          }
          [inner] + Placeholders(text[k + 2..])
        else Placeholders(text[1..])
      case None => Placeholders(text[1..])
  }

  /** The placeholder text for a path: `{` + path + `}`. */
  function Braced(path: string): string
  {
    "{" + path + "}"
  }

  /** Replaces, in turn, each placeholder of `paths` whose value is non-null. */
  function ReplaceEach(result: string, paths: seq<string>, ctx: Context): string
    decreases |paths|
  {
    if |paths| == 0 then result
    else
      var v := Lookup(ctx, paths[0]);
      var next := if v.Null? then result else ReplaceAll(result, Braced(paths[0]), ValueText(v));
      ReplaceEach(next, paths[1..], ctx)
  }

  /** `substituteVariables`: a text none of whose placeholders resolves comes back unchanged. */
  function Substitute(text: string, ctx: Context): (r: string)
    ensures (forall p :: p in Placeholders(text) ==> Lookup(ctx, p).Null?) ==> r == text
    ensures '{' !in text ==> r == text
  {
    var ps := Placeholders(text);
    if forall k :: 0 <= k < |ps| ==> Lookup(ctx, ps[k]).Null? then
      UnresolvedKept(text, ps, ctx);
      ReplaceEach(text, ps, ctx)
    else
      assert '{' in text by {
        if '{' !in text {
          NoBraceNoPlaceholder(text);
        }
      }
      ReplaceEach(text, ps, ctx)
  }

  /** `substituteVariables` on a text that may be Java `null`; `null` stays `null`. */
  function SubstituteOpt(text: Option<string>, ctx: Context): (r: Option<string>)
    ensures r.None? <==> text.None?
  {
    match text
    case None => None
    case Some(t) => Some(Substitute(t, ctx))
  }

  /** A text without `{` has no placeholders and comes back unchanged. */
  lemma {:induction false} NoBraceNoPlaceholder(text: string)
    requires '{' !in text
    ensures Placeholders(text) == []
    decreases |text|
  {
    if |text| > 0 {
      assert text[0] != '{' by {
        assert text[0] in text;
      }
      assert '{' !in text[1..] by {
        forall j | 0 <= j < |text[1..]| ensures text[1..][j] != '{' {
          assert text[1..][j] == text[j + 1];
        }
      }
      NoBraceNoPlaceholder(text[1..]);
    }
  }

  /** Unresolved placeholders stay verbatim: when no path resolves, the text is unchanged. */
  lemma {:induction false} UnresolvedKept(result: string, paths: seq<string>, ctx: Context)
    requires forall k :: 0 <= k < |paths| ==> Lookup(ctx, paths[k]).Null?
    ensures ReplaceEach(result, paths, ctx) == result
    decreases |paths|
  {
    if |paths| > 0 {
      UnresolvedKept(result, paths[1..], ctx);
    }
  }

  /** A single placeholder between brace-free text is the text's only placeholder. */
  lemma PlaceholdersSingle(pre: string, path: string, post: string)
    requires '{' !in pre && '{' !in post && '}' !in path && path != ""
    ensures Placeholders(pre + Braced(path) + post) == [path]
  {
    var t := Braced(path) + post;
    PlaceholdersAfterPlain(pre, t);
    assert pre + Braced(path) + post == pre + t;
    PlaceholdersOfBraced(path, post);
  }

  /** A text that opens with a placeholder and continues brace-free has just that placeholder. */
  lemma PlaceholdersOfBraced(path: string, post: string)
    requires '{' !in post && '}' !in path && path != ""
    ensures Placeholders(Braced(path) + post) == [path]
  {
    var t := Braced(path) + post;
    assert t[1..] == path + "}" + post;
    ClosingBrace(path, post);
    assert t[1..1 + |path|] == path;
    assert t[|path| + 2..] == post;
    NoBraceNoPlaceholder(post);
  }

  /** The first `}` after a brace-free path is the one that closes it. */
  lemma ClosingBrace(path: string, post: string)
    requires '}' !in path
    ensures IndexOf(path + "}" + post, "}") == Some(|path|)
  {
    var u := path + "}" + post;
    forall j | 0 <= j < |path| ensures !OccursAt(u, "}", j) {
      assert u[j..j + 1] == [path[j]];
    }
    assert OccursAt(u, "}", |path|) by {
      assert u[|path|..|path| + 1] == "}";
    }
  }

  /**
   * A single placeholder between brace-free text is replaced by its value's text when
   * its path resolves, and kept verbatim when it does not.
   */
  lemma SubstituteSingle(pre: string, path: string, post: string, ctx: Context)
    requires '{' !in pre && '{' !in post && '}' !in path && path != ""
    ensures Substitute(pre + Braced(path) + post, ctx)
            == if Lookup(ctx, path).Null? then pre + Braced(path) + post
               else pre + ValueText(Lookup(ctx, path)) + post
  {
    var text := pre + Braced(path) + post;
    PlaceholdersSingle(pre, path, post);
    var v := Lookup(ctx, path);
    assert [path][1..] == [];
    assert Substitute(text, ctx) == ReplaceEach(text, [path], ctx);
    if v.Null? {
      assert ReplaceEach(text, [path], ctx) == ReplaceEach(text, [], ctx);
    } else {
      var b := Braced(path);
      forall j ensures !OccursAt(post, b, j) {
        if 0 <= j && j + |b| <= |post| {
          assert post[j..j + |b|][0] == post[j] && post[j] in post;
        }
      }
      assert !Contains(post, b);
      assert b[0] == '{';
      ReplaceAllOnce(pre, b, ValueText(v), post);
      assert ReplaceEach(text, [path], ctx) == ReplaceEach(ReplaceAll(text, b, ValueText(v)), [], ctx);
      assert ReplaceAll(text, b, ValueText(v)) == pre + ValueText(v) + post;
    }
  }

  /** Plain text before a placeholder contributes no placeholders. */
  lemma {:induction false} PlaceholdersAfterPlain(pre: string, rest: string)
    requires '{' !in pre
    ensures Placeholders(pre + rest) == Placeholders(rest)
    decreases |pre|
  {
    if |pre| == 0 {
      assert pre + rest == rest;
    } else {
      assert pre[0] in pre;
      assert (pre + rest)[1..] == pre[1..] + rest;
      assert '{' !in pre[1..] by {
        forall j | 0 <= j < |pre[1..]| ensures pre[1..][j] != '{' {
          assert pre[1..][j] == pre[j + 1];
        }
      }
      PlaceholdersAfterPlain(pre[1..], rest);
    }
  }
}

=== FILE: transitions.dfy ===
/**
 * `ScenarioTransitionService`: which scenario follows the current one, given the
 * detected intent, the NLU entities (by their printed text) and the dialog
 * context. Rules are tried in a fixed order: the scenario's own table, its
 * `default`, entities, context, and finally a fallback chosen by the intent.
 */
module Transitions {

  import opened Wrappers
  import opened Strings
  import opened Json

  /** The per-scenario routing tables: intent to target scenario. */
  const Table: map<string, map<string, string>> := map[
    "main-menu-nlu-001" := map[
      "check_balance" := "balance-check-001",
      "block_card" := "card-blocking-001",
      "close_account" := "account-closure-001",
      "transfer_money" := "money-transfer-001",
      "get_statement" := "statement-request-001",
      "complaint" := "complaint-handling-001",
      "unknown" := "operator-transfer-001"],
    "balance-check-001" := map[
      "block_card" := "card-blocking-001",
      "close_account" := "account-closure-001",
      "transfer_money" := "money-transfer-001",
      "default" := "main-menu-nlu-001"],
    "card-blocking-001" := map[
      "check_balance" := "balance-check-001",
      "close_account" := "account-closure-001",
      "default" := "main-menu-nlu-001"],
    "account-closure-001" := map[
      "check_balance" := "balance-check-001",
      "block_card" := "card-blocking-001",
      "default" := "main-menu-nlu-001"]
  ]

  const MainMenu := "main-menu-nlu-001"
  const Urgent := "urgent-handling-001"
  const Operator := "operator-transfer-001"
  const Clarification := "clarification-001"
  const SessionTimeout := "session-timeout-001"

  /** Thirty minutes in milliseconds: the session age after which the dialog times out. */
  const SessionLimit := 30 * 60 * 1000

  /** The outcome of a lookup: a scenario id, or a cast failure on a context entry. */
  datatype Choice = Chosen(id: string) | CastFailed

  /** `map.get(key)` on a string map with a possibly-`null` key. */
  function Entry(t: map<string, string>, key: Option<string>): Option<string>
  {
    if key.Some? && key.value in t then Some(t[key.value]) else None
  }

  /** `(String) context.get(key)`: `None` for a present non-string value (the cast throws). */
  function TextEntry(ctx: Context, key: string): Option<Option<string>>
  {
    var v := Get(ctx, key);
    if v.Null? then Some(None) else if v.Str? then Some(Some(v.s)) else None
  }

  /** The value of the first confirmation entity that states one, scanning in order. */
  function Confirmation(entities: seq<string>): Option<string>
  {
    if |entities| == 0 then None
    else if Contains(entities[0], "confirmation") && Contains(entities[0], "\"value\":\"yes\"") then Some("yes")
    else if Contains(entities[0], "confirmation") && Contains(entities[0], "\"value\":\"no\"") then Some("no")
    else Confirmation(entities[1..])
  }

  /**
   * `findScenarioByEntities`: an urgency entity wins; then a confirmation `yes`
   * resumes `pending_scenario` and `no` returns to the main menu. `Some(None)`
   * means no rule fired; `None` that reading the context threw.
   */
  function ByEntities(entities: Option<seq<string>>, context: Option<Context>): Option<Option<string>>
  {
    if entities.None? || |entities.value| == 0 then Some(None)
    else
      var es := entities.value;
      if HasKind(es, "urgency") then Some(Some(Urgent))
      else if HasKind(es, "confirmation") then ConfirmationRoute(Confirmation(es), context)
      else Some(None)
  }

  /** Some entity of `es` mentions `kind`. */
  predicate HasKind(es: seq<string>, kind: string)
  {
    exists k :: 0 <= k < |es| && Contains(es[k], kind)
  }

  /** Where a confirmation answer leads: `yes` to the pending scenario, any other value to the main menu. */
  function ConfirmationRoute(answer: Option<string>, context: Option<Context>): Option<Option<string>>
  {
    match answer
    case Some("yes") => if context.None? then None else TextEntry(context.value, "pending_scenario")
    case Some(_) => Some(Some(MainMenu))
    case None => Some(None)
  }

  /**
   * `findScenarioByContext`: a pending scenario, then more than two errors, then a
   * session older than thirty minutes at time `now`.
   */
  function ByContext(context: Option<Context>, now: int): Option<Option<string>>
  {
    if context.None? then Some(None)
    else
      var ctx := context.value;
      match TextEntry(ctx, "pending_scenario")
      case None => None
      case Some(Some(p)) => Some(Some(p))
      case Some(None) =>
        var errors := Get(ctx, "error_count");
        var start := Get(ctx, "session_start");
        if !IntCastable(errors) then None
        else if errors.Int? && errors.i > 2 then Some(Some(Operator))
        else if !(start.Null? || start.Int?) then None
        else if start.Int? && now - start.i > SessionLimit then Some(Some(SessionTimeout))
        else Some(None)
  }

  /** The last resort: clarification for a missing or unknown intent, the main menu otherwise. */
  function Fallback(intent: Option<string>): string
  {
    if intent.None? || intent.value == "unknown" then Clarification else MainMenu
  }

  /** `findNextScenario`. */
  function FindNext(current: Option<string>, intent: Option<string>, entities: Option<seq<string>>, context: Option<Context>, now: int): (r: Choice)
    ensures TableOf(current).Some? && (Entry(TableOf(current).value, intent).Some? || "default" in TableOf(current).value) ==>
              r.Chosen? && CanTransition(current, r.id, intent)
    ensures r.CastFailed? ==> (entities.Some? && |entities.value| > 0) || context.Some?
    ensures r.Chosen? ==> (TableOf(current).Some? && r.id in TableOf(current).value.Values)
                          || r.id in {Urgent, MainMenu, Operator, SessionTimeout, Clarification}
                          || (context.Some? && Get(context.value, "pending_scenario") == Str(r.id))
  {
    var table := TableOf(current);
    if table.Some? && Entry(table.value, intent).Some? then Chosen(Entry(table.value, intent).value)
    else if table.Some? && "default" in table.value then Chosen(table.value["default"])
    else match ByEntities(entities, context)
      case None => CastFailed
      case Some(Some(s)) => Chosen(s)
      case Some(None) =>
        match ByContext(context, now)
        case None => CastFailed
        case Some(Some(s)) => Chosen(s)
        case Some(None) => Chosen(Fallback(intent))
  }

  /** The table of a scenario, if it has one. */
  function TableOf(scenario: Option<string>): Option<map<string, string>>
  {
    if scenario.Some? && scenario.value in Table then Some(Table[scenario.value]) else None
  }

  /** `canTransition`: the target is the intent's entry or the default of the source's table. */
  function CanTransition(from: Option<string>, to: string, intent: Option<string>): (r: bool)
    ensures r ==> from.Some? && from.value in Table && to in Table[from.value].Values
    ensures from.Some? && from.value in Table && "default" in Table[from.value] && Table[from.value]["default"] == to ==> r
    ensures from.Some? && intent.Some? && from.value in Table && intent.value in Table[from.value] && Table[from.value][intent.value] == to ==> r
  {
    var table := TableOf(from);
    table.Some? && (Entry(table.value, intent) == Some(to) || Entry(table.value, Some("default")) == Some(to))
  }

  /** `getAvailableTransitions`: the scenario's table, or an empty one. */
  function Available(scenario: Option<string>): (r: map<string, string>)
    ensures scenario.Some? && scenario.value in Table ==> r == Table[scenario.value]
    ensures (scenario.None? || scenario.value !in Table) ==> r == map[]
  {
    if scenario.Some? && scenario.value in Table then Table[scenario.value] else map[]
  }

  // ---------------------------------------------------------------------------
  // Properties

  /** A table entry for the intent decides, whatever the entities and the context say. */
  lemma DirectWins(current: string, intent: string, entities: Option<seq<string>>, context: Option<Context>, now: int)
    requires current in Table && intent in Table[current]
    ensures FindNext(Some(current), Some(intent), entities, context, now) == Chosen(Table[current][intent])
  {
  }

  /** Without an entry for the intent, the table's default beats every later rule. */
  lemma DefaultBeatsLaterRules(current: string, intent: Option<string>, entities: Option<seq<string>>, context: Option<Context>, now: int)
    requires current in Table && Entry(Table[current], intent).None? && "default" in Table[current]
    ensures FindNext(Some(current), intent, entities, context, now) == Chosen(Table[current]["default"])
  {
  }

  /** Every table but the main menu's has a default, and it always leads back to the main menu. */
  lemma DefaultsLeadHome(current: string)
    requires current in Table && current != MainMenu
    ensures Entry(Table[current], Some("default")) == Some(MainMenu)
  {
  }

  /** For a scenario without a table, an urgency entity routes to urgent handling before any other rule. */
  lemma UrgencyFirst(current: Option<string>, intent: Option<string>, es: seq<string>, context: Option<Context>, now: int, k: nat)
    requires TableOf(current).None? && k < |es| && Contains(es[k], "urgency")
    ensures FindNext(current, intent, Some(es), context, now) == Chosen(Urgent)
  {
  }

  /** Among entities without urgency, a confirmation decides by its value. */
  lemma ConfirmationDecides(es: seq<string>, context: Option<Context>, k: nat)
    requires k < |es| && Contains(es[k], "confirmation")
    requires forall j :: 0 <= j < |es| ==> !Contains(es[j], "urgency")
    ensures Confirmation(es) == Some("yes") && context.Some? ==> ByEntities(Some(es), context) == TextEntry(context.value, "pending_scenario")
    ensures Confirmation(es) == Some("no") ==> ByEntities(Some(es), context) == Some(Some(MainMenu))
  {
    assert !HasKind(es, "urgency");
    assert HasKind(es, "confirmation");
  }

  /** A confirmation `yes` resumes the pending scenario. */
  lemma ConfirmationYes(current: Option<string>, intent: Option<string>, es: seq<string>, ctx: Context, now: int, k: nat)
    requires TableOf(current).None? && k < |es| && Contains(es[k], "confirmation")
    requires forall j :: 0 <= j < |es| ==> !Contains(es[j], "urgency")
    requires Confirmation(es) == Some("yes") && Get(ctx, "pending_scenario").Str?
    ensures FindNext(current, intent, Some(es), Some(ctx), now) == Chosen(Get(ctx, "pending_scenario").s)
  {
    ConfirmationDecides(es, Some(ctx), k);
  }

  /** A confirmation `no` returns to the main menu. */
  lemma ConfirmationNo(current: Option<string>, intent: Option<string>, es: seq<string>, context: Option<Context>, now: int, k: nat)
    requires TableOf(current).None? && k < |es| && Contains(es[k], "confirmation")
    requires forall j :: 0 <= j < |es| ==> !Contains(es[j], "urgency")
    requires Confirmation(es) == Some("no")
    ensures FindNext(current, intent, Some(es), context, now) == Chosen(MainMenu)
  {
    ConfirmationDecides(es, context, k);
  }

  /** With no entities, a pending scenario wins; else more than two errors, counted in a Java `int`, go to an operator. */
  lemma ContextRoutes(current: Option<string>, intent: Option<string>, ctx: Context, now: int)
    requires TableOf(current).None?
    ensures Get(ctx, "pending_scenario").Str? ==> FindNext(current, intent, None, Some(ctx), now) == Chosen(Get(ctx, "pending_scenario").s)
    ensures Get(ctx, "pending_scenario").Null? && Get(ctx, "error_count").Int? && 2 < Get(ctx, "error_count").i <= IntMax ==>
              FindNext(current, intent, None, Some(ctx), now) == Chosen(Operator)
    ensures Get(ctx, "pending_scenario").Null? && Get(ctx, "error_count").Int? && Get(ctx, "error_count").i > IntMax ==>
              FindNext(current, intent, None, Some(ctx), now) == CastFailed
  {
  }

  /** When no rule fires, a missing or unknown intent asks for clarification and any other goes to the main menu. */
  lemma FallbackByIntent(current: Option<string>, intent: Option<string>, now: int)
    requires TableOf(current).None?
    ensures FindNext(current, intent, None, None, now)
            == Chosen(if intent.None? || intent.value == "unknown" then Clarification else MainMenu)
  {
  }

  /** Routing never fails on an empty context, and without a table the fallback is never the operator's queue. */
  lemma {:induction false} EmptyContextRoutes(current: Option<string>, intent: Option<string>, es: seq<string>, now: int)
    requires TableOf(current).None?
    ensures FindNext(current, intent, Some(es), Some(map[]), now).Chosen?
  {
    assert Get(map[], "pending_scenario") == Null;
    assert Get(map[], "error_count") == Null;
    assert Get(map[], "session_start") == Null;
  }

  /**
   * `canTransition` agrees with the table rules of `findNextScenario`: from a
   * scenario whose table decides, the chosen scenario is an allowed transition.
   */
  lemma ChosenIsAllowed(current: string, intent: Option<string>, entities: Option<seq<string>>, context: Option<Context>, now: int)
    requires current in Table && (Entry(Table[current], intent).Some? || "default" in Table[current])
    ensures FindNext(Some(current), intent, entities, context, now).Chosen?
    ensures CanTransition(Some(current), FindNext(Some(current), intent, entities, context, now).id, intent)
  {
  }

  /** An allowed transition always targets a scenario listed in the source's table. */
  lemma AllowedIsListed(from: Option<string>, to: string, intent: Option<string>)
    requires CanTransition(from, to, intent)
    ensures from.Some? && from.value in Table && to in Table[from.value].Values
  {
  }

  /** A scenario without a table allows no transition at all. */
  lemma NoTableNoTransition(from: Option<string>, to: string, intent: Option<string>)
    requires TableOf(from).None?
    ensures !CanTransition(from, to, intent)
  {
  }
}

=== FILE: workspace.dfy ===
/**
 * `WorkspaceBranchService`: branches over the whole scenario catalogue at once.
 * A workspace branch maps scenario ids to the full scenario record. Main is built
 * lazily from the catalogue the first time any branch is read. The catalogue's
 * content at that moment (`getAllScenarios`) is a parameter.
 */
module Workspace {

  import opened Wrappers
  import opened Json
  import opened Branches
  import ScenarioStore

  /** Scenario records by id; an entry may be Java `null` when an update stored one. */
  type Scenarios = map<string, Option<map<string, Value>>>

  datatype WorkspaceBranch = WorkspaceBranch(
    name: string,
    scenarios: Scenarios,
    baseCommit: string,
    author: Option<string>,
    isDeleted: bool)

  datatype Workspace = Workspace(branches: map<string, WorkspaceBranch>, history: seq<HistoryEntry>)

  // ---------------------------------------------------------------------------
  // WorkspaceWithBranches

  function GetBranch(w: Workspace, name: Option<string>): (r: Option<WorkspaceBranch>)
    ensures r.Some? <==> name.UnwrapOr("main") in w.branches
    ensures r.Some? ==> r.value == w.branches[name.UnwrapOr("main")]
  {
    var key := name.UnwrapOr("main");
    if key in w.branches then Some(w.branches[key]) else None
  }

  function Log(w: Workspace, action: string, branch: string, author: Option<string>, message: string): (r: Workspace)
    ensures r.branches == w.branches
    ensures r.history == w.history + [HistoryEntry(action, branch, author, message)]
  {
    w.(history := w.history + [HistoryEntry(action, branch, author, message)])
  }

  function AddBranch(w: Workspace, name: string, b: WorkspaceBranch): (r: Workspace)
    ensures r.branches == w.branches[name := b]
    ensures r.history == w.history + [HistoryEntry("CREATE_BRANCH", name, b.author, "Created branch: " + name)]
  {
    Log(w.(branches := w.branches[name := b]), "CREATE_BRANCH", name, b.author, "Created branch: " + name)
  }

  /**
   * The store `updateScenarioInBranch` does, logged as UPDATE_BRANCH. Java keeps it apart from
   * `createBranch`'s store because the two log different actions.
   */
  function UpdateBranchIn(w: Workspace, name: string, b: WorkspaceBranch): (r: Workspace)
    ensures r.branches == w.branches[name := b]
    ensures r.history == w.history + [HistoryEntry("UPDATE_BRANCH", name, b.author, "Updated branch: " + name)]
  {
    Log(w.(branches := w.branches[name := b]), "UPDATE_BRANCH", name, b.author, "Updated branch: " + name)
  }

  // ---------------------------------------------------------------------------
  // Copies and the catalogue view

  /** `deepCopyScenarios`: the same ids; a `null` record becomes an empty map. */
  function Copy(s: Scenarios): (r: Scenarios)
    ensures r.Keys == s.Keys
    ensures forall id :: id in s ==> r[id] == Some(s[id].UnwrapOr(map[]))
  {
    map id | id in s :: Some(s[id].UnwrapOr(map[]))
  }

  function OptText(s: Option<string>): Value
  {
    if s.Some? then Str(s.value) else Null
  }

  /** The record main keeps for a catalogue scenario; missing data becomes an empty map. */
  function Record(info: ScenarioStore.ScenarioInfo): (r: map<string, Value>)
    ensures r.Keys == {"id", "name", "description", "version", "language", "is_entry_point", "scenario_data"}
    ensures r["scenario_data"] == Obj(info.scenarioData.UnwrapOr(map[]))
  {
    map[
      "id" := OptText(info.id),
      "name" := OptText(info.name),
      "description" := OptText(info.description),
      "version" := OptText(info.version),
      "language" := OptText(info.language),
      "is_entry_point" := (if info.isEntryPoint.Some? then Bool(info.isEntryPoint.value) else Null),
      "scenario_data" := Obj(info.scenarioData.UnwrapOr(map[]))]
  }

  /** The records of the catalogue, keyed by id (scenarios without an id are not keyed). */
  function Records(all: seq<ScenarioStore.ScenarioInfo>): (r: Scenarios)
    ensures forall id :: id in r ==> exists i :: 0 <= i < |all| && all[i].id == Some(id)
  {
    if |all| == 0 then map[]
    else
      var rest := Records(all[..|all| - 1]);
      var last := all[|all| - 1];
      if last.id.Some? then rest[last.id.value := Some(Record(last))] else rest
  }

  /** `initializeMainBranch`: nothing when main exists, else main holds every catalogue scenario. */
  function InitMain(w: Workspace, all: seq<ScenarioStore.ScenarioInfo>): (r: Workspace)
    ensures "main" in r.branches
    ensures "main" in w.branches ==> r == w
    ensures "main" !in w.branches ==> r.branches["main"].scenarios == Records(all) && r.branches.Keys == w.branches.Keys + {"main"}
  {
    if "main" in w.branches then w
    else AddBranch(w, "main", WorkspaceBranch("main", Records(all), "initial", Some("system"), false))
  }

  /** The lazy initialisation `getBranches` and `getBranch` perform on an empty workspace. */
  function Ready(w: Workspace, all: seq<ScenarioStore.ScenarioInfo>): (r: Workspace)
    ensures |w.branches| > 0 ==> r == w
    ensures |w.branches| == 0 ==> "main" in r.branches && |r.history| == |w.history| + 1
  {
    if |w.branches| == 0 then InitMain(w, all) else w
  }

  // ---------------------------------------------------------------------------
  // WorkspaceBranchService

  /** `createBranch`: copy the source's scenarios; a missing main source is built from the catalogue first. */
  function CreateBranch(w: Workspace, all: seq<ScenarioStore.ScenarioInfo>, name: string, source: Option<string>, author: Option<string>, stamp: string)
    : (r: Attempt<WorkspaceBranch, Workspace>)
    ensures r.Ok? <==> source == Some("main") || GetBranch(w, source).Some?
    ensures r.Ok? ==> GetBranch(r.state, Some(name)) == Some(r.value)
    ensures r.Ok? ==> r.value.name == name && r.value.author == author && !r.value.isDeleted
    ensures r.Ok? && GetBranch(w, source).Some? ==> r.value.scenarios == Copy(GetBranch(w, source).value.scenarios)
    ensures r.Ok? && GetBranch(w, source).None? ==> r.value.scenarios == Copy(Records(all))
    ensures r.Failed? ==> r.state == w
  {
    var w1 := if source == Some("main") && GetBranch(w, source).None? then InitMain(w, all) else w;
    match GetBranch(w1, source)
    case None => Failed("Source branch not found: " + Shown(source), w1)
    case Some(src) =>
      var b := WorkspaceBranch(name, Copy(src.scenarios), Shown(source) + "@" + stamp, author, false);
      Ok(b, AddBranch(w1, name, b))
  }

  /** `getBranches`. */
  function BranchNames(w: Workspace, all: seq<ScenarioStore.ScenarioInfo>): (r: (set<string>, Workspace))
    ensures r.0 == r.1.branches.Keys
    ensures |w.branches| > 0 ==> r.0 == w.branches.Keys && r.1 == w
    ensures |w.branches| == 0 ==> r.0 == {"main"}
  {
    var w1 := Ready(w, all);
    (w1.branches.Keys, w1)
  }

  /** `getBranch`. */
  function BranchOf(w: Workspace, all: seq<ScenarioStore.ScenarioInfo>, name: Option<string>): (r: (Option<WorkspaceBranch>, Workspace))
    ensures |w.branches| > 0 ==> r == (GetBranch(w, name), w)
    ensures |w.branches| == 0 ==> (r.0.Some? <==> name.UnwrapOr("main") == "main")
    ensures |w.branches| == 0 && r.0.Some? ==> r.0.value.scenarios == Records(all)
  {
    var w1 := Ready(w, all);
    (GetBranch(w1, name), w1)
  }

  /** `getScenarioFromBranch`: `null` for an unknown branch, an unknown scenario or a stored `null`. */
  function ScenarioIn(w: Workspace, all: seq<ScenarioStore.ScenarioInfo>, sid: string, name: Option<string>): (r: (Option<map<string, Value>>, Workspace))
    ensures r.1 == BranchOf(w, all, name).1
    ensures var b := BranchOf(w, all, name).0;
            r.0 == if b.Some? && sid in b.value.scenarios then b.value.scenarios[sid] else None
  {
    var (b, w1) := BranchOf(w, all, name);
    if b.Some? && sid in b.value.scenarios then (b.value.scenarios[sid], w1) else (None, w1)
  }

  /** `updateScenarioInBranch`: replace one scenario record of an existing branch and set its author. */
  function UpdateScenario(w: Workspace, all: seq<ScenarioStore.ScenarioInfo>, sid: string, name: string, data: Option<map<string, Value>>, author: Option<string>)
    : (r: Attempt<(), Workspace>)
    ensures r.Ok? <==> BranchOf(w, all, Some(name)).0.Some?
    ensures r.Failed? ==> r.state == Ready(w, all)
    ensures r.Ok? ==> ScenarioIn(r.state, all, sid, Some(name)).0 == data
    ensures r.Ok? ==> forall other :: other != sid ==> ScenarioIn(r.state, all, other, Some(name)).0 == ScenarioIn(w, all, other, Some(name)).0
    ensures r.Ok? ==> r.state.branches.Keys == Ready(w, all).branches.Keys
  {
    var (b, w1) := BranchOf(w, all, Some(name));
    if b.None? then Failed("Branch not found: " + name, w1)
    else Ok((), UpdateBranchIn(w1, name, b.value.(scenarios := b.value.scenarios[sid := data], author := author)))
  }

  /** `mergeBranch`: the target's scenarios become a copy of the source's; nothing is initialised lazily here. */
  function MergeBranch(w: Workspace, source: Option<string>, target: Option<string>, author: Option<string>): (r: Attempt<MergeResult, Workspace>)
    ensures r.Ok? <==> GetBranch(w, source).Some? && GetBranch(w, target).Some?
    ensures r.Failed? ==> r.state == w
    ensures r.Ok? ==> r.value.success && GetBranch(r.state, target).Some?
    ensures r.Ok? ==> GetBranch(r.state, target).value.scenarios == Copy(GetBranch(w, source).value.scenarios)
    ensures r.Ok? ==> r.state.branches.Keys == w.branches.Keys
    ensures r.Ok? ==> forall n :: n in w.branches && n != target.UnwrapOr("main") ==> r.state.branches[n] == w.branches[n]
  {
    match (GetBranch(w, source), GetBranch(w, target))
    case (Some(s), Some(t)) =>
      var merged := w.(branches := w.branches[target.UnwrapOr("main") := t.(scenarios := Copy(s.scenarios), author := author)]);
      Ok(MergeResult(true, "Merged successfully", None),
         Log(merged, "MERGE_BRANCH", Shown(source) + " -> " + Shown(target), author, "Merged " + Shown(source) + " into " + Shown(target)))
    case _ => Failed("Branch not found", w)
  }

  /** `deleteBranch`: "main" is refused; an existing branch is flagged, never removed. */
  function DeleteBranch(w: Workspace, name: Option<string>): (r: Attempt<(), Workspace>)
    ensures r.Failed? <==> name == Some("main")
    ensures r.Failed? ==> r.state == w
    ensures r.state.branches.Keys == w.branches.Keys
    ensures r.Ok? && name.Some? && name.value in w.branches ==> r.state.branches[name.value] == w.branches[name.value].(isDeleted := true)
    ensures forall n :: n in w.branches && Some(n) != name ==> r.state.branches[n] == w.branches[n]
  {
    if name == Some("main") then Failed("Cannot delete main branch", w)
    else if name.None? || name.value !in w.branches then Ok((), w)
    else
      var flagged := w.(branches := w.branches[name.value := w.branches[name.value].(isDeleted := true)]);
      Ok((), Log(flagged, "DELETE_BRANCH", name.value, Some("system"), "Deleted branch: " + name.value))
  }

  // ---------------------------------------------------------------------------
  // Properties

  /** Copying twice is copying once, and a copy has no `null` records. */
  lemma CopyIdempotent(s: Scenarios)
    ensures Copy(Copy(s)) == Copy(s)
    ensures forall id :: id in Copy(s) ==> Copy(s)[id].Some?
  {
  }

  /** Main, once built, holds exactly one record per distinct catalogue id, each the scenario's view. */
  lemma {:induction false} RecordsComplete(all: seq<ScenarioStore.ScenarioInfo>, i: nat)
    requires i < |all| && all[i].id.Some?
    requires forall j :: 0 <= j < |all| && j != i ==> all[j].id != all[i].id
    ensures all[i].id.value in Records(all) && Records(all)[all[i].id.value] == Some(Record(all[i]))
    decreases |all|
  {
    if i < |all| - 1 {
      var front := all[..|all| - 1];
      assert front[i] == all[i];
      forall j | 0 <= j < |front| && j != i
        ensures front[j].id != front[i].id
      {
        assert front[j] == all[j];
      }
      RecordsComplete(front, i);
    }
  }

  /** Reading the branches of an empty workspace builds main from the catalogue; otherwise reading changes nothing. */
  lemma LazyMain(w: Workspace, all: seq<ScenarioStore.ScenarioInfo>)
    ensures |w.branches| == 0 ==>
              BranchNames(w, all).0 == {"main"} && BranchNames(w, all).1.branches["main"].scenarios == Records(all)
    ensures |w.branches| > 0 ==> BranchNames(w, all) == (w.branches.Keys, w)
  {
  }

  /** Creating from "main" never fails; the new branch holds a copy of main's scenarios. */
  lemma CreateFromMain(w: Workspace, all: seq<ScenarioStore.ScenarioInfo>, name: string, author: Option<string>, stamp: string)
    ensures var r := CreateBranch(w, all, name, Some("main"), author, stamp);
            r.Ok? && r.state.branches[name] == r.value
            && r.value.scenarios == Copy(if "main" in w.branches then w.branches["main"].scenarios else Records(all))
            && r.value.baseCommit == "main@" + stamp
  {
  }

  /** Without main, a `null` source is not initialised and throws. */
  lemma NullSourceNeedsMain(w: Workspace, all: seq<ScenarioStore.ScenarioInfo>, name: string, author: Option<string>, stamp: string)
    requires "main" !in w.branches
    ensures CreateBranch(w, all, name, None, author, stamp) == Failed("Source branch not found: null", w)
  {
  }

  /** An update replaces only the one record, in the one branch. */
  lemma UpdateTouchesOneRecord(w: Workspace, all: seq<ScenarioStore.ScenarioInfo>, sid: string, name: string, data: Option<map<string, Value>>, author: Option<string>)
    requires name in w.branches
    ensures var r := UpdateScenario(w, all, sid, name, data, author);
            r.Ok? && r.state.branches.Keys == w.branches.Keys
            && r.state.branches[name].scenarios == w.branches[name].scenarios[sid := data]
            && ScenarioIn(r.state, all, sid, Some(name)).0 == data
            && (forall other :: other in w.branches && other != name ==> r.state.branches[other] == w.branches[other])
  {
  }

  /** An update of an unknown branch throws; the only change left behind is main's lazy creation. */
  lemma UpdateUnknownBranch(w: Workspace, all: seq<ScenarioStore.ScenarioInfo>, sid: string, name: string, data: Option<map<string, Value>>, author: Option<string>)
    requires name !in w.branches && (name != "main" || |w.branches| > 0)
    ensures UpdateScenario(w, all, sid, name, data, author) == Failed("Branch not found: " + name, Ready(w, all))
  {
  }

  /** A merge makes the target a copy of the source and leaves the source and the branch set alone. */
  lemma MergeCopiesSource(w: Workspace, source: string, target: string, author: Option<string>)
    requires source in w.branches && target in w.branches
    ensures var r := MergeBranch(w, Some(source), Some(target), author);
            r.Ok? && r.value.success && r.value.conflicts.None?
            && r.state.branches[target].scenarios == Copy(w.branches[source].scenarios)
            && (source != target ==> r.state.branches[source] == w.branches[source])
            && r.state.branches.Keys == w.branches.Keys
            && r.state.history == w.history + [HistoryEntry("MERGE_BRANCH", source + " -> " + target, author, "Merged " + source + " into " + target)]
  {
  }

  /** Deletion refuses main, ignores unknown names and otherwise only flags the branch. */
  lemma DeleteIsSoft(w: Workspace, name: string)
    ensures DeleteBranch(w, Some("main")) == Failed("Cannot delete main branch", w)
    ensures DeleteBranch(w, None) == Ok((), w)
    ensures name != "main" && name in w.branches ==>
              var r := DeleteBranch(w, Some(name));
              r.Ok? && r.state.branches.Keys == w.branches.Keys
              && r.state.branches[name] == w.branches[name].(isDeleted := true)
  {
  }
}

=== FILE: wrappers.dfy ===
/** An optional value: Java's nullable reference, made explicit. */
module Wrappers {

  datatype Option<+T> = None | Some(value: T)
  {
    /** The wrapped value, or `default` when there is none (Java's `x != null ? x : default`). */
    function UnwrapOr(default: T): T
    {
      match this
      case Some(v) => v
      case None => default
    }
  }

  /**
   * `order` visits every key of `m`: the iteration order of a Java map, which the model
   * takes as an input, lists all of the map's keys.
   */
  ghost predicate Enumerates<K, V>(order: seq<K>, m: map<K, V>)
  {
    forall k :: k in m ==> k in order
  }
}
